=== FILE: README.md ===
# The hashed phrase table of Moses, modelled in Dafny

Moses is a statistical machine translation system. Its hashed in-memory
phrase table (`PhraseDictionaryMemoryHashed`) reads a text phrase table
whose lines have the form `source ||| target ||| scores ||| ...`. It does
the following:

- It groups consecutive lines with the same source phrase.
- It packs each group's target phrases (word ids and scores) into a
  stream.
- It counts the word ids and the scores.
- It builds one Huffman tree for the word ids and one for the scores.
- It builds a minimal perfect hash index (`HashIndex`) over the source
  phrases of the groups.
- It stores, at each key's slot, the group's records Huffman-compressed.

A lookup (`CreateTargetPhraseCollection`) finds the slot of a source
phrase and decodes the records stored there. `SaveBinary` and `LoadBinary`
write and read the index, the vocabulary, the two trees and the compressed
groups.

The project models that core:

- the flat-array Huffman coder of `Hufftree.h`;
- the pointer-tree Huffman coder of `Huffman.h`;
- the collection coder `PhraseCoder.h`;
- the fingerprinted hash index `HashIndex.h`;
- the n-byte integer `uint8n.h`;
- the dictionary itself, `PhraseDictionaryMemoryHashed.cpp`.

| file | module | what it holds |
|---|---|---|
| results.dfy | Results | `Result`/`Option`; items of a binary stream (`Cell`) |
| bits.dfy | Bits | bytes and the least-significant-first bit order of the coders; the bit writer of `encode` |
| code_trees.dfy | CodeTrees | `NodeOrder`, the priority queue, the tree both coders build and its properties |
| decoding.dfy | Decoding | the decoders `decode` and `decodeWithLength` as functions; round trips |
| coders.dfy | Coders | the encode and decode loops as methods proved against those functions |
| flat_trees.dfy | FlatTrees | the breadth-first layout `m_nodes`/`m_data` and `fill` |
| hufftree.dfy | Hufftree | the class of `Hufftree.h` |
| huffman.dfy | Huffman | the class of `Huffman.h` |
| hash_index.dfy | HashIndex | the class of `HashIndex.h` |
| uint8n.dfy | Uint8n | the class template of `uint8n.h` |
| symbols.dfy | Symbols | the target vocabulary (`m_targetSymbols`, `m_targetSymbolsMap`) |
| phrase_coder.dfy | PhraseCoder | the class of `PhraseCoder.h`, its encoder and decoder state machines |
| phrase_groups.dfy | PhraseGroups | how `LoadText` cuts the lines into groups and packs them |
| phrase_records.dfy | PhraseRecords | packed and compressed records, alignments, the slot remap |
| phrase_table.dfy | PhraseTables | the class `PhraseDictionaryMemoryHashed` |

Files, the perfect hash (cmph) and the fingerprint hash function are not
modelled as code:

- A file is a sequence of `Cell`s. Each item `fwrite` or `fread` moves is
  one cell.
- The perfect hash is a function parameter `mph: string -> nat`.
- The fingerprint function is a parameter `fprint`.
- Scores are integers that stand for the transformed, floored floats.

## Model

| member | source | states |
|---|---|---|
| Bits.PushCode | moses/src/Hufftree.h:273-289 | writing a code bit by bit, with the mask doubling and a byte pushed when it wraps, leaves a writer holding exactly the bits written so far followed by the code |
| Bits.PushBit | moses/src/Hufftree.h:277-288 | one bit written: the writer holds the old bits plus that bit, across the byte boundary too |
| Bits.FlushPacks | moses/src/Hufftree.h:291-292 | pushing the partial last byte gives `Pack(bits)`: bytes of 8 bits, least significant first, the last one zero-padded |
| Bits.UnpackPack | moses/src/Hufftree.h:360-368 | reading the bytes back bit by bit with the decoder's mask gives the bits written, followed by the zero padding |
| CodeTrees.LessTotal | moses/src/Hufftree.h:123-146 | `NodeOrder` orders any two different trees one way or the other; with LessIrreflexive, LessAsymmetric and LessTransitive it is a strict total order |
| CodeTrees.LessTransitive | moses/src/Hufftree.h:123-146 | `NodeOrder` is transitive |
| CodeTrees.InsertSorted | moses/src/Hufftree.h:162-166 | a push keeps the priority queue ordered, highest priority first |
| CodeTrees.InsertContents | moses/src/Hufftree.h:162-166 | a push adds exactly the pushed tree to the queue's contents |
| CodeTrees.TopIsMax | moses/src/Hufftree.h:170-171 | `top()` of the ordered queue has no element above it |
| CodeTrees.SortedUnique | moses/src/Hufftree.h:152 | an ordered queue is determined by its contents, so the model's sequence is the priority queue |
| CodeTrees.PushLeaves | moses/src/Hufftree.h:162-166 | the first loop pushes one leaf `Node(second, first)` per pair onto the queue |
| CodeTrees.MergeQueue | moses/src/Hufftree.h:168-180 | the merge loop pops the top two trees and pushes their parent until one tree is left, which it returns |
| CodeTrees.BuildTree | moses/src/Hufftree.h:150-180 | the two loops together build `Build(pairs)` |
| CodeTrees.BuildLeaves | moses/src/Hufftree.h:148-180 | the built tree has exactly the input (symbol, frequency) pairs at its leaves, as a multiset |
| CodeTrees.BuildWeighted | moses/src/Hufftree.h:106-110 | every internal node's frequency is the sum of its children's |
| CodeTrees.BuildShape | moses/src/Hufftree.h:154-180 | two or more pairs give an internal root; one pair gives a single leaf |
| CodeTrees.BuildOrderIndependent | moses/src/Hufftree.h:148-180 | two pair lists with the same multiset build the same tree, so the unordered_map's iteration order does not matter |
| CodeTrees.BuildValues | moses/src/Hufftree.h:148-180 | the leaf values of the built tree are the symbols of the pairs |
| CodeTrees.ListingBuilds | moses/src/Hufftree.h:148-180 | building from the pairs of a counter, listed once each in any order, gives the one tree `CountTree(count)` |
| CodeTrees.CountTreeLeaves | moses/src/Hufftree.h:148-180 | the leaves of `CountTree(count)` are exactly the counter's (symbol, count) entries, each once; internal nodes weigh the sum of their children; its symbols are the counted ones |
| CodeTrees.ListingsAlike | moses/src/Hufftree.h:148-180 | two listings of the same counter hold the same pairs, differing at most in order |
| FlatTrees.Flatten | moses/src/Hufftree.h:182-206 | the breadth-first layout is well formed, represents the tree, and has `Size - 1` node entries and one data entry per leaf |
| FlatTrees.RootCodesArePaths | moses/src/Hufftree.h:237-248 | `fill(0, [])` on the layout of a tree stores that tree's root-to-leaf paths |
| FlatTrees.RootCodesSound | moses/src/Hufftree.h:237-248 | every code `fill` stores leads the decoder from node 0 to its own symbol |
| Decoding.PrefixFree | moses/src/Hufftree.h:360-368 | no code word the decoder follows is a proper prefix of another, and a code word determines its symbol |
| Decoding.DecodeRoundTrip | moses/src/Hufftree.h:350-373 | `decode` asked for as many symbols as `vs` holds, on the encoding of `vs`, gives `vs` back and takes exactly the encoded bytes, whatever follows them |
| Decoding.DecodeWithLengthRoundTrip | moses/src/Hufftree.h:375-414 | `decodeWithLength` on the encoding of a non-empty `vs`, preceded by the code of its length, gives `vs` back and takes exactly those bytes |
| Decoding.DecodeWithLengthNeverEmpty | moses/src/Hufftree.h:377-413 | as written, a completed `decodeWithLength` always returns at least one symbol |
| Decoding.EmptyNotDecoded | moses/src/Hufftree.h:407-409 | so the encoding of an empty sequence, the code of 0 alone, is not decoded back to the empty sequence |
| Decoding.DecodeWithLengthFixedRoundTrip | moses/src/Hufftree.h:297-348 | the corrected decoder gives back every sequence `encodeWithLength` writes, the empty one included |
| Decoding.FixedAgrees | moses/src/Hufftree.h:375-414 | on a length of at least 1 the corrected decoder does exactly what the code does |
| Coders.Encode | moses/src/Hufftree.h:262-295 | `encode(begin, end)` returns `Pack` of the codes of the values, one after the other, `(bits + 7) / 8` bytes |
| Coders.EncodeWithLength | moses/src/Hufftree.h:297-348 | `encodeWithLength` returns `Pack` of the code of the count followed by the codes of the values |
| Coders.Decode | moses/src/Hufftree.h:350-373 | the byte and bit loops of `decode` compute `DecodeSpec`: the symbols, the bytes consumed, or `Err` when a walk leaves the arrays |
| Coders.DecodeWithLength | moses/src/Hufftree.h:375-414 | the seek loop and the count loop of `decodeWithLength` compute `DecodeWithLengthSpec` |
| Hufftree.Hufftree.constructor | moses/src/Hufftree.h:148-214 | one pair gives `[-1]`, `[v]` and the code `[false]`; two or more give the breadth-first layout of `Build(pairs)` with `2(n-1)` nodes and `n` data, and for encoding the tree's paths as codes, one per input symbol |
| Hufftree.Hufftree.Layout | moses/src/Hufftree.h:162-206 | the priority queue then the breadth-first layout give a well-formed layout of `Build(pairs)` |
| Hufftree.Hufftree.LayoutCodes | moses/src/Hufftree.h:210-213 | the codes `fill(0, [])` stores are the paths of the built tree, cover exactly the input symbols, and each leads to its symbol |
| Hufftree.Hufftree.Load | moses/src/Hufftree.h:216-235 | the FILE constructor reads back the two vectors and, for encoding, fills the codes from them |
| Hufftree.Hufftree.Save | moses/src/Hufftree.h:251-260 | `Save` writes both vectors with their lengths, and reading that back gives the same vectors |
| Hufftree.Hufftree.Fill | moses/src/Hufftree.h:237-248 | `fill(index, prefix)` adds the paths below `index`, each prefixed, to `m_encoding` |
| Hufftree.Hufftree.EncodeValue | moses/src/Hufftree.h:51-53 | `encode(value)` is the value's code, empty for an unknown value; on a coder built for encoding a known value's code decodes back to it |
| Hufftree.Hufftree.Encode | moses/src/Hufftree.h:262-295 | the bytes of the codes of the values |
| Hufftree.Hufftree.EncodeWithLength | moses/src/Hufftree.h:297-348 | the bytes of the count's code and the values' codes |
| Hufftree.Hufftree.Decode | moses/src/Hufftree.h:350-373 | `decode` on the arrays is `DecodeSpec` on the layout's step function |
| Hufftree.Hufftree.DecodeWithLength | moses/src/Hufftree.h:375-414 | `decodeWithLength` on the arrays is `DecodeWithLengthSpec` on the layout's step function |
| Hufftree.RoundTrip | moses/src/Hufftree.h:262-373 | on a well-formed layout, decoding what `encode` wrote gives the values back and takes exactly the encoded bytes |
| Hufftree.RoundTripWithLength | moses/src/Hufftree.h:297-414 | the same for `encodeWithLength` and `decodeWithLength` when the count is a symbol of the tree |
| Hufftree.ReadSavedTree | moses/src/Hufftree.h:216-260 | reading what `Save` wrote gives the same vectors and stops right after them |
| Huffman.RootPathsSound | moses/src/Huffman.h:127-140 | every code `Node::fill` stores leads the pointer-tree decoder from the root to its own symbol |
| Huffman.SingleLeaf | moses/src/Huffman.h:127-140 | a tree of one leaf gives its symbol the empty code, so any sequence of it encodes to no bits, and decoding any byte fails at the first bit |
| Huffman.Hufftree.constructor | moses/src/Huffman.h:144-172 | builds `Build(pairs)`, fills the codes with its paths, and adds the number of pairs to the static leaf counter |
| Huffman.Hufftree.Load | moses/src/Huffman.h:174-211 | reads the count and the (frequency, data) pairs, rebuilds the tree from them and fills the codes |
| Huffman.Hufftree.Save | moses/src/Huffman.h:213-221 | as written: writes the static counter `Node::nodes`, not this tree's leaf count, then this tree's leaves |
| Huffman.Hufftree.SaveLeaves | moses/src/Huffman.h:116-125 | the corrected save: writes this tree's leaf count and leaves, which `Load` reads back |
| Huffman.Hufftree.Fill | moses/src/Huffman.h:127-140 | `fill` adds every leaf's path below the node, with the prefix, to `encoding` |
| Huffman.Hufftree.EncodeValue | moses/src/Huffman.h:49-51 | the value's code, empty when unknown |
| Huffman.Hufftree.Encode | moses/src/Huffman.h:254-285 | the bytes of the codes of the values |
| Huffman.Hufftree.EncodeWithLength | moses/src/Huffman.h:287-336 | the bytes of the count's code and the values' codes |
| Huffman.Hufftree.Decode | moses/src/Huffman.h:338-361 | `decode` on the pointer tree is `DecodeSpec` on the tree's step function |
| Huffman.Hufftree.DecodeWithLength | moses/src/Huffman.h:363-402 | `decodeWithLength` on the pointer tree is `DecodeWithLengthSpec` |
| Huffman.RoundTrip | moses/src/Huffman.h:254-361 | decoding what `encode` wrote, with a tree built from two or more pairs, gives the values back and takes exactly the encoded bytes |
| Huffman.RoundTripWithLength | moses/src/Huffman.h:287-402 | the same for `encodeWithLength` and `decodeWithLength` |
| Huffman.ReadSavedLeaves | moses/src/Huffman.h:174-194 | reading a count followed by that many leaves gives the leaves back and stops after them |
| Huffman.RebuildSame | moses/src/Huffman.h:196-210 | rebuilding from the saved leaves gives the tree that was saved |
| Huffman.SaveCountMismatch | moses/src/Huffman.h:215 | once the static counter exceeds the tree's own leaf count, as it does after a second tree is built, reading the saved tree back fails or runs past its end into what follows |
| Huffman.SaveCountUnreadable | moses/src/Huffman.h:180-194 | with nothing after it, a tree saved with too large a count does not read back at all |
| Huffman.SecondTreeSaved | moses/src/Huffman.h:213-221 | building two trees and saving the second gives a stream that `Load` cannot read |
| HashIndex.HashIndex.constructor | moses/src/HashIndex.h:60-61 | an index with no keys and no fingerprints |
| HashIndex.HashIndex.GetSize | moses/src/HashIndex.h:137-139 | the number of fingerprints |
| HashIndex.HashIndex.GetHash | moses/src/HashIndex.h:68-74 | the perfect hash's slot when the key's fingerprint is stored there, otherwise `GetSize()`, both directions |
| HashIndex.HashIndex.GetHashByIndex | moses/src/HashIndex.h:88-92 | `GetHash` of the `index`-th key, or `GetSize()` past the keys |
| HashIndex.HashIndex.AddKey | moses/src/HashIndex.h:94-100 | appends the key and changes nothing else |
| HashIndex.HashIndex.ClearKeys | moses/src/HashIndex.h:102-103 | changes nothing (its body is empty) |
| HashIndex.HashIndex.Create | moses/src/HashIndex.h:105-108 | stores each key's fingerprint at its slot; when the hash keeps the keys apart, every key is found at its own slot |
| HashIndex.HashIndex.CalcFprints | moses/src/HashIndex.h:47-57 | for each key in turn the loop grows `m_fprints` with zeros to one past the key's slot when it is shorter and stores the key's fingerprint there; a later key with the same slot overwrites an earlier one |
| HashIndex.HashIndex.Save | moses/src/HashIndex.h:115-121 | writes the count and the fingerprints; reading that back gives the same fingerprints |
| HashIndex.HashIndex.Load | moses/src/HashIndex.h:128-135 | reads the fingerprints `Save` wrote and takes the perfect hash as loaded |
| HashIndex.ReadSavedPrints | moses/src/HashIndex.h:115-135 | `Load` after `Save` gives back the same fingerprints |
| Uint8n.ToBytes | moses/src/uint8n.h:14-19 | the low `n` bytes of `a` in two's complement, most significant first, as the constructor's shifts store them |
| Uint8n.FromToBytes | moses/src/uint8n.h:14-47 | reading back the bytes of `a` gives `a` modulo `256^n` |
| Uint8n.ToFromBytes | moses/src/uint8n.h:14-47 | the bytes of the value of `n` bytes are those bytes |
| Uint8n.FromBytesRange | moses/src/uint8n.h:40-47 | the value of `n` bytes lies in `[0, 256^n)` |
| Uint8n.Uint8n.constructor | moses/src/uint8n.h:14-19 | `uint8n(long a)` stores the bytes of `a` |
| Uint8n.Uint8n.Assign | moses/src/uint8n.h:25-31 | `operator=(long a)` stores the bytes of `a` and returns the object |
| Uint8n.Uint8n.ToLong | moses/src/uint8n.h:40-47 | `operator long` is the value of the stored bytes |
| Uint8n.Uint8n.Equals | moses/src/uint8n.h:33-38 | the corrected comparison: true exactly when all bytes are equal |
| Uint8n.EqualsMissesFirstByte | moses/src/uint8n.h:33-38 | as written, whenever bytes 1 to n-1 agree the loop reads `bytes[n]`, past the end, whatever byte 0 holds |
| Uint8n.EqualsAsWrittenCounterexample | moses/src/uint8n.h:33-38 | as written, comparing `[1]` with `[0]` reads past the bytes instead of answering false |
| Uint8n.Uint8n.AssignFromAsWritten | moses/src/uint8n.h:21-23 | as written, `operator=(uint8n&)` returns the other object and leaves this one's bytes unchanged |
| Uint8n.Uint8n.AssignFrom | moses/src/uint8n.h:21-23 | the corrected copy assignment copies the other object's bytes |
| Uint8n.AssignmentIgnored | moses/src/uint8n.h:21-23 | as written, `x = y` with bytes `[1]` and `[0]` leaves `x` at `[1]` |
| Uint8n.AssignmentCopies | moses/src/uint8n.h:21-23 | the corrected assignment leaves both at `[0]` |
| Uint8n.Uint8n.Write | moses/src/uint8n.h:55-59 | `operator>>` writes the `n` stored bytes |
| Uint8n.Uint8n.Read | moses/src/uint8n.h:49-53 | `operator<<` reads `n` bytes, or all that is left, and leaves the rest of the input |
| Uint8n.WriteThenRead | moses/src/uint8n.h:49-59 | reading what was written gives the same bytes and leaves what followed |
| Uint8n.LongRoundTrip | moses/src/uint8n.h:14-47 | constructing from `a` and converting back gives `a` modulo `256^n`, so `a` itself when it fits |
| Symbols.SymbolTable.constructor | moses/src/PhraseCoder.h:37-38 | an empty vocabulary |
| Symbols.SymbolTable.AddOrGet | moses/src/PhraseDictionaryMemoryHashed.cpp:322-333 | a known symbol gives its id and changes nothing; an unknown one is appended and gets the next id |
| Symbols.SymbolTable.Lookup | moses/src/PhraseCoder.h:187 | `m_targetSymbolsMap[s]`: the stored id, or 0 stored and returned for a new key |
| Symbols.SymbolTable.Get | moses/src/PhraseDictionaryMemoryHashed.cpp:335-339 | `GetTargetSymbol(idx)`: the symbol at `idx`, or `"##ERROR##"` past the end |
| Symbols.SymbolTable.Save | moses/src/PhraseCoder.h:137-141 | writes the symbol vector; reading it back gives the same symbols and stops after them |
| Symbols.SymbolTable.Load | moses/src/PhraseDictionaryMemoryHashed.cpp:287 | replaces the symbol vector with the one read and leaves the id map alone |
| Symbols.ReadSavedSymbols | moses/src/PhraseCoder.h:131-141 | `load` after `save` gives back the same symbols |
| PhraseCoder.CountedCounts | moses/src/PhraseCoder.h:80-93 | counting with `count[x]++` adds to each entry the number of times it occurs |
| PhraseCoder.PhraseCoder.constructor | moses/src/PhraseCoder.h:111-122 | no symbols, empty counters, no trees, the given number of score components |
| PhraseCoder.PhraseCoder.PackTargetPhrase | moses/src/PhraseCoder.h:71-84 | writes the word ids then the stop symbol's id, counts each of them, and every written id spells back its word |
| PhraseCoder.PhraseCoder.PackWords | moses/src/PhraseCoder.h:77-81 | the loop writes and counts the id of each word, adding new words to the vocabulary |
| PhraseCoder.PhraseCoder.PackScores | moses/src/PhraseCoder.h:86-94 | writes the scores and counts each of them |
| PhraseCoder.PhraseCoder.PackCollection | moses/src/PhraseCoder.h:167-178 | writes each row's phrase and scores in order; the counters hold every symbol and score written |
| PhraseCoder.PhraseCoder.CalcHuffmanCodes | moses/src/PhraseCoder.h:143-165 | builds for encoding the Huffman tree of the symbol counter and that of the score counter (`EncodesCount`: the layout and codes of `CountTree` of each counter), each with a code for exactly the counted values |
| PhraseCoder.EncodingTree | moses/src/PhraseCoder.h:145 | `new Hufftree(count.begin(), count.end())` on a counter is the coder of `CountTree(count)`, whatever order the map lists its entries in |
| PhraseCoder.Listing | moses/src/PhraseCoder.h:145 | the map's iteration hands out every counted symbol once, with its count |
| PhraseCoder.PhraseCoder.Save | moses/src/PhraseCoder.h:137-141 | writes the symbol vector and both trees; reading that back gives all three |
| PhraseCoder.PhraseCoder.Load | moses/src/PhraseCoder.h:131-135 | reads the symbol vector and two trees built for decoding |
| PhraseCoder.ReadSavedCoder | moses/src/PhraseCoder.h:131-141 | `load` after `save` gives back the symbols and both trees |
| PhraseCoder.PhraseCoder.EncodePackedCollection | moses/src/PhraseCoder.h:180-267 | the state machine writes `Pack` of the codes of the packed stream: symbols, then after the stop symbol `numScore` scores, until a read fails |
| PhraseCoder.EncodePacked | moses/src/PhraseCoder.h:201-260 | on a packed collection of regular phrases the machine writes each phrase's symbol codes, stop code and score codes in turn |
| PhraseCoder.PhraseCoder.DecodeCollection | moses/src/PhraseCoder.h:269-350 | the bit loop of `decodeCollection` computes `DecodeCollectionSpec` |
| PhraseCoder.DecodeCollectionByte | moses/src/PhraseCoder.h:285-346 | the inner loop over one byte's bits either returns what `decodeCollection` returns or leaves the decoder where the bits so far lead |
| PhraseCoder.CollectionRoundTrip | moses/src/PhraseCoder.h:180-350 | decoding the encoded bits of regular, coded phrases whose last byte holds one phrase end gives back exactly those phrases |
| PhraseCoder.LastBytePhraseDropped | moses/src/PhraseCoder.h:338-340 | two wordless phrases with score 5 pack into the byte 0, which decodes to one phrase: the early return in the last byte drops the second |
| PhraseGroups.Trim | moses/src/PhraseDictionaryMemoryHashed.cpp:139 | the trimmed key starts and ends with a character `Trim` keeps, and is no longer than its input |
| PhraseGroups.Kept | moses/src/PhraseDictionaryMemoryHashed.cpp:132-136 | the lines packed are those whose source is not blank, in order |
| PhraseGroups.RunsPartition | moses/src/PhraseDictionaryMemoryHashed.cpp:138-149 | the groups are a partition of the lines into maximal runs: concatenated they give the lines, each has one source, neighbours differ |
| PhraseGroups.SchemaMeaning | moses/src/PhraseDictionaryMemoryHashed.cpp:113-126 | the field-count checks pass exactly on uniform lines; they fail with a field-count error when the first line has fewer than 3 fields, else they name the first line that breaks the count |
| PhraseGroups.KeysAfter | moses/src/PhraseDictionaryMemoryHashed.cpp:156-158 | the key added after the loop completes the keys of the groups |
| PhraseRecords.UnpackPackedPhrase | moses/src/PhraseDictionaryMemoryHashed.cpp:379-386 | reading a packed phrase of fewer than 256 words gives back its word ids and takes the count byte and the ids |
| PhraseRecords.RecordsOfRun | moses/src/PhraseDictionaryMemoryHashed.cpp:236-262 | reading back a packed group whose lines fit the format gives each line's ids and scores, in order |
| PhraseRecords.DecompressCompressed | moses/src/PhraseDictionaryMemoryHashed.cpp:435-457 | decompressing the compressed records gives them back, in order, when every record can be carried |
| PhraseRecords.AlignmentRoundTrip | moses/src/PhraseDictionaryMemoryHashed.cpp:367-377 | unpacking the packed positions of at most 127 alignment points, each below 256, gives back the set of points |
| PhraseRecords.AlignmentDecodes | moses/src/PhraseDictionaryMemoryHashed.cpp:459-472 | decoding with length, with the tree that encoded them, the positions of alignment points gives back the set of points |
| PhraseRecords.RemappedAt | moses/src/PhraseDictionaryMemoryHashed.cpp:223-232 | the remap holds at a key's slot the index of the last key with that slot |
| PhraseRecords.Pigeonhole | moses/src/PhraseDictionaryMemoryHashed.cpp:220-232 | distinct slots below `size` are at most `size` in number |
| PhraseTables.PhraseDictionary.constructor | moses/src/PhraseDictionaryMemoryHashed.cpp:70-91 | an empty vocabulary, index, counters and phrase store, and no trees |
| PhraseTables.PhraseDictionary.PackTargetPhrase | moses/src/PhraseDictionaryMemoryHashed.cpp:341-352 | writes the word count cast to a byte, then the word ids; counts the ids and the count byte; every id spells back its word |
| PhraseTables.PhraseDictionary.PackScores | moses/src/PhraseDictionaryMemoryHashed.cpp:354-365 | writes the scores and counts each of them |
| PhraseTables.PhraseDictionary.PackAlignment | moses/src/PhraseDictionaryMemoryHashed.cpp:367-377 | writes the position count then each position, all cast to a byte, and counts them |
| PhraseTables.PhraseDictionary.PackLine | moses/src/PhraseDictionaryMemoryHashed.cpp:148-149 | one line's phrase then its scores, both counted |
| PhraseTables.PhraseDictionary.AddLine | moses/src/PhraseDictionaryMemoryHashed.cpp:138-151 | one kept line keeps the reading state: a new source closes the open group under its trimmed key, otherwise the line joins it |
| PhraseTables.PhraseDictionary.ReadLines | moses/src/PhraseDictionaryMemoryHashed.cpp:106-158 | the reading loop reports the field-count failure `Schema` gives; on success the keys and packed groups are those of the runs of the kept lines and the counters have counted them |
| PhraseTables.PhraseDictionary.CompressGroup | moses/src/PhraseDictionaryMemoryHashed.cpp:240-270 | compresses each record of a packed group: `encodeWithLength` of its ids, then `encode` of its scores |
| PhraseTables.PhraseDictionary.Remap | moses/src/PhraseDictionaryMemoryHashed.cpp:223-232 | a vector of `GetSize()` zeros with `map[GetHashByIndex(i)] = i` for every key index found |
| PhraseTables.PhraseDictionary.CompressGroups | moses/src/PhraseDictionaryMemoryHashed.cpp:236-272 | for each slot in turn, compresses the group the remap puts there and appends it to `m_targetPhrases` |
| PhraseTables.PhraseDictionary.BuildTrees | moses/src/PhraseDictionaryMemoryHashed.cpp:162-207 | `TreesBuilt` and `TreesOfCounts`: the symbol tree and the score tree are the encoding coders of `CountTree(symbolCount)` and `CountTree(scoreCount)`, with codes for exactly the counted symbols and scores |
| PhraseTables.PhraseDictionary.CreateIndex | moses/src/PhraseDictionaryMemoryHashed.cpp:220-232 | `m_hash.Create()` then the slot remap; every remap entry names a key |
| PhraseTables.PhraseDictionary.LoadText | moses/src/PhraseDictionaryMemoryHashed.cpp:93-277 | reports a field-count failure; otherwise packs, counts, builds the Huffman trees of the two counters and the index and stores the groups; when the keys differ and the hash keeps them apart, looking up any group's key gives back that group's lines |
| PhraseTables.PhraseDictionary.FoundAll | moses/src/PhraseDictionaryMemoryHashed.cpp:474-506 | after a load, the lookup of every group's key finds its slot and decodes exactly that group's words and scores, in the order read |
| PhraseTables.PhraseDictionary.CreateTargetPhraseCollection | moses/src/PhraseDictionaryMemoryHashed.cpp:474-506 | NULL when the index answers `GetSize()`; otherwise the records decoded one by one from the slot's bytes, until one fails, with their ids spelled |
| PhraseTables.PhraseDictionary.UnpackAlignment | moses/src/PhraseDictionaryMemoryHashed.cpp:412-433 | reads the position count and the positions and pairs them up; `good` says the read succeeded |
| PhraseTables.PairUp | moses/src/PhraseDictionaryMemoryHashed.cpp:426-431 | the loop pairs the positions two by two into alignment points |
| PhraseTables.PhraseDictionary.DecompressAlignment | moses/src/PhraseDictionaryMemoryHashed.cpp:459-472 | as written: decodes the positions with length using `m_treeScores`, then pairs them |
| PhraseTables.PhraseDictionary.DecompressAlignmentFixed | moses/src/PhraseDictionaryMemoryHashed.cpp:459-472 | the same with `m_treeAlignments`, the tree the commented-out encoder (cpp:269) would encode the positions with |
| PhraseTables.AlignmentWithScoreTree | moses/src/PhraseDictionaryMemoryHashed.cpp:462 | the byte 6 decodes to the point (0, 0) under one tree and to no point under another, so the tree used decides the result |
| PhraseTables.PhraseDictionary.SaveBinary | moses/src/PhraseDictionaryMemoryHashed.cpp:301-320 | writes the index, the symbol vector, both trees and the compressed groups, and reading that back gives every part |
| PhraseTables.PhraseDictionary.LoadBinary | moses/src/PhraseDictionaryMemoryHashed.cpp:279-299 | reads the parts in the same order; trees come back for decoding, and the dictionary holds exactly what was read |
| PhraseTables.ReadSavedTable | moses/src/PhraseDictionaryMemoryHashed.cpp:279-320 | `LoadBinary` after `SaveBinary` gives back every saved part |

## Left out

- PhraseTables.PhraseDictionary.LoadText: the guarantee that every group is found again holds only under `Loadable`. `Loadable` asks for:
  - at least one score component;
  - fewer than 256 words per line;
  - at least one word per line;
  - exactly `numScore` scores per line;
  - distinct group keys;
  - a perfect hash that keeps the keys apart.

  The source casts the word count to `unsigned char` (PhraseDictionaryMemoryHashed.cpp:343). `PackTargetPhrase` models that cast, but a line of 256 or more words does not read back. A line without words packs a count of 0, and `decodeWithLength` cannot read a count of 0 back (see Findings). Repeated sources that are not adjacent give two groups with one key. Whether cmph keeps the keys apart is not modelled.
- PhraseRecords.DecompressCompressed: requires each record to have at least one word and exactly `n` scores (`Encodable`), for the reasons just given.
- PhraseCoder.CollectionRoundTrip: requires at least one score component and at most one phrase end in the last byte (`Carries`, `LastByteHoldsOneEnd`). With no scores the encoder writes no score codes (PhraseCoder.h:208-210). The decoder still switches to the score tree after the stop symbol, and because it compares the score count only after pushing a score (PhraseCoder.h:320-321), it never completes a phrase. The second condition is the next line.
- PhraseCoder.LastBytePhraseDropped: `decodeCollection` returns as soon as it completes a phrase inside the last byte (PhraseCoder.h:338-340). A later phrase ending in the same byte is therefore dropped. The format carries no phrase count, so padding cannot be told apart from a further phrase. This is recorded as a property of the format rather than corrected.
- PhraseTables.PhraseDictionary.CreateTargetPhraseCollection: requires `hash(source) < |fprints|`. cmph's guarantee that its search stays below the number of keys is assumed, not modelled.
- HashIndex.HashIndex.GetHash: the same `hash(key) < |fprints|` assumption about cmph.
- PhraseTables.PhraseDictionary.LoadBinary: returns false and changes nothing on a stream that does not hold every part. The source always returns true (cpp:279-298), and on such a file its reads are undefined.
- PhraseTables.PhraseDictionary.Collection: a slot past the end of `m_targetPhrases` is an `Err` value. In the source it is an out-of-range vector access.
- PhraseTables.PhraseDictionary.LoadText: an empty symbol or score counter stops the load with `NoCounts`. In the source it builds a tree from an empty priority queue, which is undefined.
- PhraseCoder.PhraseCoder.CalcHuffmanCodes: requires both counters to be non-empty. On an empty counter the source builds a tree from an empty priority queue and dereferences a null tree.
- Hufftree.Hufftree.Load: for encoding it requires a well-formed layout. The source runs `fill` on whatever it read.
- Hufftree.Hufftree.constructor: requires at least one pair. On none the source dereferences a null tree.
- Huffman.Hufftree.constructor: the same for `Huffman.h`.
- Huffman.Hufftree.Load: requires that the read gives at least one pair. With a count of 0 the source dereferences a null tree in `fill`.
- Hufftree.Hufftree.EncodeValue, Hufftree.Hufftree.Encode, Hufftree.Hufftree.EncodeWithLength, Huffman.Hufftree.EncodeValue, Huffman.Hufftree.Encode, Huffman.Hufftree.EncodeWithLength: each looks codes up with the map's `operator[]` (Hufftree.h:52, 274, 310, 326; Huffman.h:50, 264, 298, 314), which inserts an empty code for an unknown value. The model uses the empty code but does not grow `encoding`.
- Uint8n.Uint8n.ToLong: requires `n <= 7`, so the value fits a signed 64-bit `long` without wrapping.
- Uint8n: the default constructor `uint8n()` leaves the bytes uninitialised and is not modelled.
- Scores are modelled as integers. The source counts them in an `unordered_map<float, size_t>` after `FloorScore(TransformScore(...))`, where NaN and -0.0 break key equality. Parsing, `TransformScore` and `FloorScore` are not modelled.
- The binary formats written with `fwrite`/`fread` of fixed-width integers are streams of items (`Cell`). Byte widths, endianness and short reads are not modelled.
- `Tokenize`, `TokenizeMultiCharSeparator` and `Trim` (moses/src/Util.h is not part of this model) are taken as already applied to each line. `Trim` is modelled on its own from its documented behaviour.
- The statistics printed to `std::cerr`, the `UserMessage` and the `abort()` on a syntax error: the model returns the failure instead.
- `Word`, `TargetPhrase`, `SetScore`, `SetSourcePhrase`, `NthElement`, the table limit and `CacheTargetPhraseCollection` are not part of this model. A lookup returns the words and scores it decoded.
- `StringVector` and `MmapAllocator` are sequences. Their own file format is not modelled.
- `FileExists`, `fopen` and the `.mph` file name handling are not modelled.
- The perfect hash (cmph) and the fingerprint hash (`MurmurHash3_x86_32`) are function parameters. How cmph builds its function (`CalcHashFunction`) and its dump format are not modelled.
- Alignments are packed and decoded by `PackAlignment`, `UnpackAlignment` and `DecompressAlignment`. The live `LoadText` does not write or compress them (its calls are commented out), so neither does the model's `LoadText`.
- The lookup and `LoadText` use the decoders as written. A line without words is excluded from the round trip rather than decoded with the corrected `decodeWithLength`.

## Findings

| source | as written | input that shows it | evidently intended | confidence | as-written member | corrected member |
|---|---|---|---|---|---|---|
| moses/src/Hufftree.h:407-409 | `decodeWithLength` stops once `count >= length`, but tests this only after emitting a symbol, so a length of 0 still reads one symbol | `encodeWithLength` of the empty sequence (the code of 0 alone, e.g. a target phrase without words, cpp:267 and 438) | a count of 0 decodes to the empty sequence | not executed | Decoding.DecodeWithLengthNeverEmpty, Decoding.EmptyNotDecoded | Decoding.DecodeWithLengthFixedRoundTrip |
| moses/src/uint8n.h:33-38 | `operator==` compares `bytes[1]` to `bytes[n]`: it never looks at byte 0 and reads one past the end of both arrays | `uint8n<1>` holding 1 compared with one holding 0 | equal exactly when all `n` bytes are equal | not executed | Uint8n.EqualsMissesFirstByte, Uint8n.EqualsAsWrittenCounterexample | Uint8n.Uint8n.Equals |
| moses/src/uint8n.h:21-23 | `operator=(uint8n& a)` returns `a` and copies nothing | `x = y` with `x` holding 1 and `y` holding 0 leaves `x` at 1 | copy the bytes of `a` | not executed | Uint8n.AssignmentIgnored | Uint8n.AssignmentCopies |
| moses/src/Huffman.h:213-221 | `Save` writes the static `Node::nodes`, the number of leaves built by every tree so far, as this tree's count | build two trees, then save the second: the count exceeds the leaves written and `Load` cannot read the stream | write this tree's own leaf count | not executed | Huffman.SecondTreeSaved | Huffman.Hufftree.SaveLeaves |
| moses/src/PhraseDictionaryMemoryHashed.cpp:462 | `DecompressAlignment` decodes the positions with `m_treeScores` | the byte 6 decodes to the point (0, 0) with the leaves 2 and 0, and to no point with the leaves 1 and 7 | decode with `m_treeAlignments`, the tree the commented-out encoder (cpp:269) uses; the defect is latent, since the only call (cpp:491), the tree's construction and loading (cpp:218, 293, and its null initialisation in PhraseDictionaryMemoryHashed.h:108) and that encoder are all commented out | not executed | PhraseTables.AlignmentWithScoreTree | PhraseRecords.AlignmentDecodes |

=== FILE: bits.dfy ===
/** Bit packing shared by every encoder and decoder of the phrase table
    (Hufftree::encode, Hufftree::decode, PhraseCoder::encodePackedCollection,
    PhraseCoder::decodeCollection and the pointer-tree coder): code bits are
    written least-significant bit first into bytes, a byte is emitted after
    every eighth bit, and a final partial byte is padded with zero bits on its
    high end. */
module Bits {

  /** An octet of a packed string. */
  type byte = x: int | 0 <= x < 256

  /** 2^k: the value of `mask` after k shifts of `mask = mask << 1` from 1. */
  function Pow2(k: nat): (r: nat)
    ensures r >= 1
  {
    if k == 0 then 1 else 2 * Pow2(k - 1)
  }

  lemma {:induction false} Pow2Monotone(j: nat, k: nat)
    requires j <= k
    ensures Pow2(j) <= Pow2(k)
  {
    if j < k {
      Pow2Monotone(j, k - 1);
    }
  }

  /** Bit i of b, bit 0 being the least significant: the test `byte & mask`
      with `mask == 1 << i`. */
  function BitOf(b: nat, i: nat): bool
  {
    if i == 0 then b % 2 == 1 else BitOf(b / 2, i - 1)
  }

  /** The number whose bits, least significant first, are `bits`. */
  function ByteOf(bits: seq<bool>): (r: nat)
    ensures r < Pow2(|bits|)
  {
    if bits == [] then 0 else (if bits[0] then 1 else 0) + 2 * ByteOf(bits[1..])
  }

  lemma ByteOfFits(bits: seq<bool>)
    requires |bits| <= 8
    ensures ByteOf(bits) < 256
  {
    Pow2Monotone(|bits|, 8);
  }

  /** The eight bits of a byte in the order the decoders visit them. */
  function BitsOf(b: byte): (r: seq<bool>)
    ensures |r| == 8
    ensures forall i :: 0 <= i < 8 ==> r[i] == BitOf(b, i)
  {
    seq(8, i requires 0 <= i < 8 => BitOf(b, i))
  }

  function Zeros(n: nat): (r: seq<bool>)
    ensures |r| == n && forall i :: 0 <= i < n ==> !r[i]
  {
    seq(n, _ => false)
  }

  /** The number of zero bits that complete the last byte of `n` bits. */
  function Padding(n: nat): (r: nat)
    ensures r < 8 && (n + r) % 8 == 0
  {
    (8 - n % 8) % 8
  }

  /** The bytes holding `bits`, eight per byte, the last one zero-padded. */
  function Pack(bits: seq<bool>): (r: seq<byte>)
    ensures |r| == (|bits| + 7) / 8
    decreases |bits|
  {
    if |bits| == 0 then []
    else if |bits| <= 8 then
      ByteOfFits(bits);
      [ByteOf(bits)]
    else
      ByteOfFits(bits[..8]);
      [ByteOf(bits[..8])] + Pack(bits[8..])
  }

  /** The bits of `bytes`, eight per byte, least significant first. */
  function Unpack(bytes: seq<byte>): (r: seq<bool>)
    ensures |r| == 8 * |bytes|
  {
    if bytes == [] then [] else BitsOf(bytes[0]) + Unpack(bytes[1..])
  }

  lemma {:induction false} BitOfZero(i: nat)
    ensures !BitOf(0, i)
  {
    if i > 0 {
      BitOfZero(i - 1);
    }
  }

  lemma {:induction false} ByteOfZeros(n: nat)
    ensures ByteOf(Zeros(n)) == 0
  {
    if n > 0 {
      assert Zeros(n)[1..] == Zeros(n - 1);
      ByteOfZeros(n - 1);
    }
  }

  lemma BitsOfZero()
    ensures BitsOf(0) == Zeros(8)
  {
    forall i | 0 <= i < 8
      ensures !BitsOf(0)[i]
    {
      BitOfZero(i);
    }
  }

  /** Reading back the bits of a byte built from at most eight bits gives
      those bits followed by zero padding. */
  lemma {:induction false} BitsOfByteOf(bits: seq<bool>)
    requires |bits| <= 8
    ensures ByteOf(bits) < 256
    ensures BitsOf(ByteOf(bits)) == bits + Zeros(8 - |bits|)
  {
    ByteOfFits(bits);
    forall i | 0 <= i < 8
      ensures BitOf(ByteOf(bits), i) == (bits + Zeros(8 - |bits|))[i]
    {
      BitOfByteOf(bits, i);
    }
  }

  lemma {:induction false} BitOfByteOf(bits: seq<bool>, i: nat)
    ensures BitOf(ByteOf(bits), i) == (i < |bits| && bits[i])
  {
    if bits == [] {
      BitOfZero(i);
    } else if i > 0 {
      var r := ByteOf(bits[1..]);
      assert ByteOf(bits) / 2 == r;
      BitOfByteOf(bits[1..], i - 1);
    }
  }

  lemma {:induction false} UnpackAppend(a: seq<byte>, b: seq<byte>)
    ensures Unpack(a + b) == Unpack(a) + Unpack(b)
  {
    if a != [] {
      assert (a + b)[1..] == a[1..] + b;
      assert (a + b)[0] == a[0];
      UnpackAppend(a[1..], b);
    } else {
      assert a + b == b;
    }
  }

  /** Bit i of byte k of a string is bit 8k+i of its unpacking. */
  lemma {:induction false} UnpackIndex(bytes: seq<byte>, k: nat, i: nat)
    requires k < |bytes| && i < 8
    ensures Unpack(bytes)[8 * k + i] == BitOf(bytes[k], i)
  {
    if k > 0 {
      UnpackIndex(bytes[1..], k - 1, i);
    }
  }

  lemma SliceOfSlice<T>(s: seq<T>, a: nat, b: nat)
    requires a <= b <= |s|
    ensures s[a..][..b - a] == s[a..b]
  {
  }

  /** The decoders read bit i of byte k as the next bit after the first
      8k+i bits of the stream (counted from any earlier position u). */
  lemma UnpackStep(bytes: seq<byte>, u: nat, k: nat, i: nat)
    requires k < |bytes| && i < 8 && u <= 8 * k + i
    ensures Unpack(bytes)[u..8 * k + i + 1] == Unpack(bytes)[u..8 * k + i] + [BitOf(bytes[k], i)]
  {
    UnpackIndex(bytes, k, i);
  }

  /** Unpacking a packed bit string gives it back, followed by the padding. */
  lemma {:induction false} UnpackPack(bits: seq<bool>)
    ensures Unpack(Pack(bits)) == bits + Zeros(Padding(|bits|))
    decreases |bits|
  {
    var p := Pack(bits);
    if |bits| == 0 {
      assert p == [] && Padding(0) == 0;
      assert bits + Zeros(0) == [];
    } else if |bits| <= 8 {
      BitsOfByteOf(bits);
      PaddingShort(|bits|);
      assert p == [ByteOf(bits)] && p[1..] == [];
      assert Unpack(p) == BitsOf(p[0]) + [];
    } else {
      var head, tail := bits[..8], bits[8..];
      BitsOfByteOf(head);
      UnpackPack(tail);
      PaddingSkip(|bits|);
      assert p == [ByteOf(head)] + Pack(tail);
      assert p[1..] == Pack(tail);
      assert Unpack(p) == BitsOf(p[0]) + Unpack(p[1..]);
      assert Unpack(p) == head + (tail + Zeros(Padding(|tail|)));
      assert bits == head + tail;
    }
  }

  lemma PaddingShort(n: nat)
    requires 1 <= n <= 8
    ensures Padding(n) == 8 - n
  {
  }

  lemma PaddingSkip(n: nat)
    requires n >= 8
    ensures Padding(n) == Padding(n - 8)
  {
  }

  lemma PackFirstByte(bits: seq<bool>)
    requires |bits| >= 8
    ensures ByteOf(bits[..8]) < 256
    ensures Pack(bits) == [ByteOf(bits[..8])] + Pack(bits[8..])
  {
    ByteOfFits(bits[..8]);
    if |bits| == 8 {
      assert bits[..8] == bits;
    }
  }

  lemma {:induction false} PackAppend(x: seq<bool>, y: seq<bool>)
    requires |x| % 8 == 0
    ensures Pack(x + y) == Pack(x) + Pack(y)
    decreases |x|
  {
    if |x| == 0 {
      assert x + y == y;
    } else {
      assert |x| >= 8 && |x[8..]| % 8 == 0;
      assert (x + y)[..8] == x[..8];
      assert (x + y)[8..] == x[8..] + y;
      PackFirstByte(x + y);
      PackFirstByte(x);
      PackAppend(x[8..], y);
      assert Pack(x + y) == [ByteOf(x[..8])] + (Pack(x[8..]) + Pack(y));
    }
  }

  lemma {:induction false} ByteOfSnoc(bits: seq<bool>, c: bool)
    ensures ByteOf(bits + [c]) == ByteOf(bits) + (if c then Pow2(|bits|) else 0)
  {
    if bits != [] {
      assert (bits + [c])[1..] == bits[1..] + [c];
      ByteOfSnoc(bits[1..], c);
    }
  }

  /** The encoders' local state: the `result` string so far, the partial
      `byte`, its `mask`, and the bit counter `pos`. */
  datatype Writer = Writer(result: seq<byte>, partial: nat, mask: nat, pos: nat)

  /** The encoder's initial state: `byte = 0`, `mask = 1`, `pos = 0`. */
  const Start: Writer := Writer([], 0, 1, 0)

  /** `w` holds exactly the bit string `bits`: its complete bytes are in
      `result`, the remaining bits in `partial`, and `mask` selects the next
      free bit of `partial`. */
  ghost predicate Holds(w: Writer, bits: seq<bool>)
  {
    var full := |bits| - |bits| % 8;
    && w.pos == |bits|
    && w.result == Pack(bits[..full])
    && w.partial == ByteOf(bits[full..])
    && w.mask == Pow2(|bits| % 8)
  }

  lemma StartHolds()
    ensures Holds(Start, [])
  {
  }

  /** Adding bit `c` at position `mask` of the partial byte. */
  lemma {:induction false} PushBitPartial(w: Writer, bits: seq<bool>, c: bool)
    requires Holds(w, bits)
    ensures w.partial + (if c then w.mask else 0) == ByteOf(bits[|bits| - |bits| % 8..] + [c])
  {
    var full := |bits| - |bits| % 8;
    var tail := bits[full..];
    assert |tail| == |bits| % 8 && w.partial == ByteOf(tail) && w.mask == Pow2(|tail|);
    ByteOfSnoc(tail, c);
  }

  /** After a bit that does not complete a byte, the writer keeps accumulating. */
  lemma {:induction false} PushBitInside(w: Writer, bits: seq<bool>, c: bool)
    requires Holds(w, bits)
    requires (w.pos + 1) % 8 != 0
    ensures Holds(Writer(w.result, w.partial + (if c then w.mask else 0), 2 * w.mask, w.pos + 1), bits + [c])
  {
    var full := |bits| - |bits| % 8;
    var b' := bits + [c];
    PushBitPartial(w, bits, c);
    ModInside(|bits|);
    assert b'[..full] == bits[..full];
    assert b'[full..] == bits[full..] + [c];
  }

  /** Dropping the bits of a partial byte leaves whole bytes. */
  lemma WholeBytes(n: nat)
    ensures 0 <= n % 8 < 8 && (n - n % 8) % 8 == 0
  {
    var q := n / 8;
    assert n - n % 8 == 8 * q;
  }

  lemma ModInside(n: nat)
    requires (n + 1) % 8 != 0
    ensures (n + 1) % 8 == n % 8 + 1 && (n + 1) - (n + 1) % 8 == n - n % 8
  {
  }

  lemma ModBoundary(n: nat)
    requires (n + 1) % 8 == 0
    ensures n % 8 == 7
  {
  }

  /** After the eighth bit of a byte, that byte joins the result. */
  lemma {:induction false} PushBitBoundary(w: Writer, bits: seq<bool>, c: bool)
    requires Holds(w, bits)
    requires (w.pos + 1) % 8 == 0
    ensures w.partial + (if c then w.mask else 0) < 256
    ensures Holds(Writer(w.result + [w.partial + (if c then w.mask else 0)], 0, 1, w.pos + 1), bits + [c])
  {
    var full := |bits| - |bits| % 8;
    var b' := bits + [c];
    var last := bits[full..] + [c];
    PushBitPartial(w, bits, c);
    ModBoundary(|bits|);
    assert |last| == 8 && |b'| % 8 == 0;
    ByteOfFits(last);
    assert Pack(last) == [ByteOf(last)];
    assert b' == bits[..full] + last;
    PackAppend(bits[..full], last);
    assert Pack(b') == w.result + [ByteOf(last)];
    HoldsWhole(Writer(w.result + [ByteOf(last)], 0, 1, w.pos + 1), b');
  }

  /** A writer with no partial bits holds the bits it has packed. */
  lemma HoldsWhole(w: Writer, bits: seq<bool>)
    requires |bits| % 8 == 0 && w.pos == |bits| && w.result == Pack(bits)
    requires w.partial == 0 && w.mask == 1
    ensures Holds(w, bits)
  {
    assert bits[..|bits|] == bits;
    assert bits[|bits|..] == [];
  }

  /** One turn of the encoders' inner loop: set the bit under `mask` when
      `c` holds, shift the mask, and emit the byte once eight bits are in. */
  method PushBit(w: Writer, c: bool, ghost bits: seq<bool>) returns (w': Writer)
    requires Holds(w, bits)
    ensures Holds(w', bits + [c])
  {
    var partial, mask := w.partial, w.mask;
    if c {
      partial := partial + mask;   // byte |= mask: that bit is still clear
    }
    assert partial == w.partial + (if c then w.mask else 0);
    mask := 2 * mask;              // mask = mask << 1
    var pos := w.pos + 1;
    if pos % 8 == 0 {
      PushBitBoundary(w, bits, c);
      w' := Writer(w.result + [partial], 0, 1, pos);
    } else {
      PushBitInside(w, bits, c);
      w' := Writer(w.result, partial, mask, pos);
    }
  }

  /** The inner loop of every encoder: append the bits of `code` to the
      writer, emitting a byte after every eighth bit. */
  method PushCode(w: Writer, code: seq<bool>, ghost bits: seq<bool>) returns (w': Writer)
    requires Holds(w, bits)
    ensures Holds(w', bits + code)
  {
    w' := w;
    ghost var sofar := bits;
    for j := 0 to |code|
      invariant sofar == bits + code[..j]
      invariant Holds(w', sofar)
    {
      w' := PushBit(w', code[j], sofar);
      PrefixStep(bits, code, j);
      sofar := sofar + [code[j]];
    }
    assert code[..|code|] == code;
  }

  /** Concatenation regroups. */
  lemma Assoc<T>(a: seq<T>, b: seq<T>, c: seq<T>)
    ensures a + (b + c) == a + b + c
  {
  }

  lemma PrefixStep<T>(bits: seq<T>, code: seq<T>, j: nat)
    requires j < |code|
    ensures bits + code[..j + 1] == (bits + code[..j]) + [code[j]]
  {
    assert code[..j + 1] == code[..j] + [code[j]];
  }

  /** The encoders' epilogue: push the partial byte when bits remain. */
  function Flush(w: Writer): (r: seq<byte>)
    requires w.partial < 256
  {
    if w.pos % 8 != 0 then w.result + [w.partial] else w.result
  }

  /** The bytes an encoder returns are exactly the packing of the bits it was
      given; in particular their number is ceil(bits / 8). */
  lemma {:induction false} FlushPacks(w: Writer, bits: seq<bool>)
    requires Holds(w, bits)
    ensures w.partial < 256
    ensures Flush(w) == Pack(bits)
  {
    var full := |bits| - |bits| % 8;
    var head, tail := bits[..full], bits[full..];
    WholeBytes(|bits|);
    assert w.result == Pack(head) && w.partial == ByteOf(tail);
    ByteOfFits(tail);
    assert bits == head + tail;
    PackAppend(head, tail);
    if |tail| == 0 {
      assert tail == [] && Pack(tail) == [];
    } else {
      assert Pack(tail) == [ByteOf(tail)];
    }
  }
}

=== FILE: code_trees.dfy ===
/** The Huffman tree both coders build (moses/src/Hufftree.h and
    moses/src/Huffman.h): leaves carry a symbol and its frequency, an
    internal node the sum of its children's frequencies.  The coders keep
    the trees in a `std::priority_queue` ordered by `NodeOrder`; this module
    models that queue as a sequence kept sorted by the same order, proves the
    order is a strict total order (so the queue's top is determined by its
    contents), and proves what the merge loop builds. */
module CodeTrees {

  /** A tree node: `Node(f, d)` makes a leaf, `Node(left, right)` an internal
      node whose frequency is the sum of its children's. */
  datatype Tree = Leaf(freq: nat, value: int) | Node(freq: nat, left: Tree, right: Tree)

  function Size(t: Tree): (r: nat)
    ensures r >= 1
  {
    match t
    case Leaf(_, _) => 1
    case Node(_, l, r) => 1 + Size(l) + Size(r)
  }

  /** `NodeOrder()(a, b)`: `a` has lower priority than `b`, so `b` leaves
      the queue first.  Lower frequency leaves first; at equal frequency an
      internal node leaves before a leaf; two leaves go by symbol, the larger
      first; two internal nodes go by their left subtrees, then by their
      right subtrees. */
  predicate Less(a: Tree, b: Tree)
    decreases Size(a) + Size(b)
  {
    if b.freq < a.freq then true
    else if a.freq < b.freq then false
    else if a.Leaf? && b.Node? then true
    else if a.Node? && b.Leaf? then false
    else if a.Node? then
      if Less(a.left, b.left) then true
      else if Less(b.left, a.left) then false
      else Less(a.right, b.right)
    else a.value < b.value
  }

  lemma {:induction false} LessIrreflexive(a: Tree)
    ensures !Less(a, a)
    decreases Size(a)
  {
    if a.Node? {
      LessIrreflexive(a.left);
      LessIrreflexive(a.right);
    }
  }

  lemma {:induction false} LessAsymmetric(a: Tree, b: Tree)
    requires Less(a, b)
    ensures !Less(b, a)
    decreases Size(a) + Size(b)
  {
    if a.freq == b.freq && a.Node? && b.Node? {
      if Less(a.left, b.left) {
        LessAsymmetric(a.left, b.left);
      } else {
        LessAsymmetric(a.right, b.right);
      }
    }
  }

  /** Two different trees are always ordered one way or the other: a tie in
      `NodeOrder` means the trees are equal. */
  lemma {:induction false} LessTotal(a: Tree, b: Tree)
    requires a != b
    ensures Less(a, b) || Less(b, a)
    decreases Size(a) + Size(b)
  {
    if a.freq == b.freq && a.Node? && b.Node? {
      if !Less(a.left, b.left) && !Less(b.left, a.left) {
        if a.left != b.left {
          LessTotal(a.left, b.left);
        }
        if a.right != b.right {
          LessTotal(a.right, b.right);
        }
      }
    }
  }

  /** Neither tree precedes the other exactly when they are equal. */
  lemma TieIsEqual(a: Tree, b: Tree)
    requires !Less(a, b) && !Less(b, a)
    ensures a == b
  {
    if a != b {
      LessTotal(a, b);
    }
  }

  lemma {:induction false} LessTransitive(a: Tree, b: Tree, c: Tree)
    requires Less(a, b) && Less(b, c)
    ensures Less(a, c)
    decreases Size(a) + Size(b) + Size(c)
  {
    if a.freq == c.freq && a.Node? && c.Node? {
      // then b has the same frequency and is internal as well
      if Less(a.left, b.left) {
        if Less(b.left, c.left) {
          LessTransitive(a.left, b.left, c.left);
        } else {
          TieIsEqual(b.left, c.left);
        }
      } else {
        TieIsEqual(a.left, b.left);
        if !Less(b.left, c.left) {
          TieIsEqual(b.left, c.left);
          LessIrreflexive(a.left);
          LessTransitive(a.right, b.right, c.right);
        }
      }
    }
  }

  /** The queue's contents, highest priority first: no element precedes an
      earlier one. */
  ghost predicate Sorted(q: seq<Tree>)
  {
    forall i, j | 0 <= i < j < |q| :: !Less(q[i], q[j])
  }

  /** `pqueue.push(t)`: `t` goes before the first element it outranks. */
  function Insert(q: seq<Tree>, t: Tree): (r: seq<Tree>)
    ensures |r| == |q| + 1
  {
    if q == [] then [t]
    else if Less(q[0], t) then [t] + q
    else [q[0]] + Insert(q[1..], t)
  }

  /** A push adds exactly the pushed tree to the queue's contents. */
  lemma {:induction false} InsertContents(q: seq<Tree>, t: Tree)
    ensures multiset(Insert(q, t)) == multiset(q) + multiset{t}
  {
    if q != [] {
      assert q == [q[0]] + q[1..];
      if !Less(q[0], t) {
        InsertContents(q[1..], t);
      }
    }
  }

  lemma {:induction false} InsertSorted(q: seq<Tree>, t: Tree)
    requires Sorted(q)
    ensures Sorted(Insert(q, t))
  {
    var r := Insert(q, t);
    if q == [] {
    } else if Less(q[0], t) {
      forall j | 1 <= j < |r|
        ensures !Less(t, r[j])
      {
        if j == 1 {
          LessAsymmetric(q[0], t);
        } else if Less(t, r[j]) {
          LessTransitive(q[0], t, r[j]);
        }
      }
    } else {
      InsertSorted(q[1..], t);
      InsertContents(q[1..], t);
      forall j | 1 <= j < |r|
        ensures !Less(q[0], r[j])
      {
        assert r[j] in multiset(Insert(q[1..], t));
        assert r[j] in multiset(q[1..]) || r[j] == t;
        if r[j] != t {
          var k :| 0 <= k < |q[1..]| && q[1..][k] == r[j];
          assert q[k + 1] == r[j];
        }
      }
    }
  }

  /** `pqueue.top()`: the front of a sorted queue has no element above it. */
  lemma TopIsMax(q: seq<Tree>)
    requires Sorted(q) && q != []
    ensures forall x | x in q :: !Less(q[0], x)
  {
    forall x | x in q
      ensures !Less(q[0], x)
    {
      var k :| 0 <= k < |q| && q[k] == x;
      if k == 0 {
        LessIrreflexive(x);
      }
    }
  }

  /** Any element no other element outranks is the front of the sorted
      queue: whichever heap layout the standard library picks, `top()`
      returns this same tree, and `pop()` leaves the same contents. */
  lemma TopIsUnique(q: seq<Tree>, m: Tree)
    requires Sorted(q) && m in q
    requires forall x | x in q :: !Less(m, x)
    ensures m == q[0]
  {
    TopIsMax(q);
    TieIsEqual(m, q[0]);
  }

  /** A sorted queue is determined by its contents. */
  lemma {:induction false} SortedUnique(a: seq<Tree>, b: seq<Tree>)
    requires Sorted(a) && Sorted(b)
    requires multiset(a) == multiset(b)
    ensures a == b
  {
    if a != [] {
      assert |multiset(a)| == |a| && |multiset(b)| == |b|;
      SameFront(a, b);
      DropFront(a);
      DropFront(b);
      SortedUnique(a[1..], b[1..]);
      assert a == [a[0]] + a[1..];
      assert b == [b[0]] + b[1..];
    }
  }

  lemma SameFront(a: seq<Tree>, b: seq<Tree>)
    requires Sorted(a) && Sorted(b) && a != [] && b != []
    requires multiset(a) == multiset(b)
    ensures a[0] == b[0]
  {
    assert a[0] in multiset(b);
    TopIsMax(a);
    forall x | x in b
      ensures x in a
    {
      assert x in multiset(b);
    }
    TopIsUnique(b, a[0]);
  }

  lemma DropFront(a: seq<Tree>)
    requires Sorted(a) && a != []
    ensures Sorted(a[1..])
    ensures multiset(a[1..]) == multiset(a) - multiset{a[0]}
  {
    assert a == [a[0]] + a[1..];
  }

  /** The leaves the constructor pushes, one `Node(second, first)` per
      (symbol, frequency) pair. */
  function LeafNodes(pairs: seq<(int, nat)>): (r: seq<Tree>)
    ensures |r| == |pairs|
  {
    if pairs == [] then [] else [Leaf(pairs[0].1, pairs[0].0)] + LeafNodes(pairs[1..])
  }

  lemma {:induction false} LeafNodesCount(pairs: seq<(int, nat)>, t: Tree)
    ensures multiset(LeafNodes(pairs))[t] == if t.Leaf? then multiset(pairs)[(t.value, t.freq)] else 0
  {
    if pairs != [] {
      LeafNodesCount(pairs[1..], t);
      assert pairs == [pairs[0]] + pairs[1..];
    }
  }

  /** Pushing `ts` one after the other onto the queue `q`. */
  function PushAll(q: seq<Tree>, ts: seq<Tree>): (r: seq<Tree>)
    ensures |r| == |q| + |ts|
  {
    if ts == [] then q
    else Insert(PushAll(q, ts[..|ts| - 1]), ts[|ts| - 1])
  }

  lemma {:induction false} PushAllContents(q: seq<Tree>, ts: seq<Tree>)
    ensures multiset(PushAll(q, ts)) == multiset(q) + multiset(ts)
  {
    if ts != [] {
      assert ts == ts[..|ts| - 1] + [ts[|ts| - 1]];
      PushAllContents(q, ts[..|ts| - 1]);
      InsertContents(PushAll(q, ts[..|ts| - 1]), ts[|ts| - 1]);
    }
  }

  lemma {:induction false} PushAllSorted(q: seq<Tree>, ts: seq<Tree>)
    requires Sorted(q)
    ensures Sorted(PushAll(q, ts))
  {
    if ts != [] {
      PushAllSorted(q, ts[..|ts| - 1]);
      InsertSorted(PushAll(q, ts[..|ts| - 1]), ts[|ts| - 1]);
    }
  }

  /** The merge loop: pop the two front trees, push their parent, until one
      tree is left. */
  function Merge(q: seq<Tree>): Tree
    requires q != []
    decreases |q|
  {
    if |q| == 1 then q[0]
    else
      Merge(Insert(q[2..], Node(q[0].freq + q[1].freq, q[0], q[1])))
  }

  /** The tree the constructor builds from the (symbol, frequency) pairs. */
  function Build(pairs: seq<(int, nat)>): Tree
    requires pairs != []
  {
    Merge(PushAll([], LeafNodes(pairs)))
  }

  /** The constructor's two loops: push a leaf per pair, then merge. */
  method BuildTree(pairs: seq<(int, nat)>) returns (tree: Tree)
    requires pairs != []
    ensures tree == Build(pairs)
  {
    var pqueue := PushLeaves(pairs);
    tree := MergeQueue(pqueue);
  }

  /** The first loop: `pqueue.push(new Node(begin->second, begin->first))`
      for every pair. */
  method PushLeaves(pairs: seq<(int, nat)>) returns (pqueue: seq<Tree>)
    ensures pqueue == PushAll([], LeafNodes(pairs))
  {
    pqueue := [];
    var i := 0;
    while i < |pairs|
      invariant 0 <= i <= |pairs|
      invariant pqueue == PushAll([], LeafNodes(pairs[..i]))
    {
      assert pairs[..i + 1] == pairs[..i] + [pairs[i]];
      LeafNodesSnoc(pairs[..i], pairs[i]);
      PushAllSnoc([], LeafNodes(pairs[..i]), Leaf(pairs[i].1, pairs[i].0));
      pqueue := Insert(pqueue, Leaf(pairs[i].1, pairs[i].0));
      i := i + 1;
    }
    assert pairs[..i] == pairs;
  }

  /** The second loop: pop the top two, push their parent; the last tree
      popped is the result. */
  method MergeQueue(start: seq<Tree>) returns (tree: Tree)
    requires start != []
    ensures tree == Merge(start)
  {
    var pqueue := start;
    tree := pqueue[0];
    while pqueue != []
      invariant pqueue != [] ==> Merge(pqueue) == Merge(start)
      invariant pqueue == [] ==> tree == Merge(start)
      decreases |pqueue|
    {
      var top := pqueue[0];
      var rest := pqueue[1..];
      if rest == [] {
        tree := top;
        pqueue := rest;
      } else {
        var top2 := rest[0];
        MergeStep(pqueue);
        pqueue := Insert(rest[1..], Node(top.freq + top2.freq, top, top2));
      }
    }
  }

  lemma MergeStep(q: seq<Tree>)
    requires |q| >= 2
    ensures q[1..][1..] == q[2..] && q[1..][0] == q[1]
    ensures Merge(q) == Merge(Insert(q[1..][1..], Node(q[0].freq + q[1..][0].freq, q[0], q[1..][0])))
  {
    assert q[1..][1..] == q[2..];
  }

  lemma PushAllSnoc(q: seq<Tree>, ts: seq<Tree>, t: Tree)
    ensures PushAll(q, ts + [t]) == Insert(PushAll(q, ts), t)
  {
    assert (ts + [t])[..|ts|] == ts;
  }

  lemma {:induction false} LeafNodesSnoc(pairs: seq<(int, nat)>, p: (int, nat))
    ensures LeafNodes(pairs + [p]) == LeafNodes(pairs) + [Leaf(p.1, p.0)]
  {
    if pairs != [] {
      assert (pairs + [p])[1..] == pairs[1..] + [p];
      LeafNodesSnoc(pairs[1..], p);
    }
  }

  /** The (symbol, frequency) pairs at the leaves of `t`. */
  function LeafBag(t: Tree): multiset<(int, nat)>
  {
    match t
    case Leaf(f, v) => multiset{(v, f)}
    case Node(_, l, r) => LeafBag(l) + LeafBag(r)
  }

  function QueueBag(q: seq<Tree>): multiset<(int, nat)>
  {
    if q == [] then multiset{} else LeafBag(q[0]) + QueueBag(q[1..])
  }

  lemma {:induction false} QueueBagInsert(q: seq<Tree>, t: Tree)
    ensures QueueBag(Insert(q, t)) == QueueBag(q) + LeafBag(t)
  {
    if q != [] && !Less(q[0], t) {
      QueueBagInsert(q[1..], t);
    }
  }

  lemma {:induction false} MergeLeaves(q: seq<Tree>)
    requires q != []
    ensures LeafBag(Merge(q)) == QueueBag(q)
    decreases |q|
  {
    if |q| > 1 {
      var n := Node(q[0].freq + q[1].freq, q[0], q[1]);
      QueueBagInsert(q[2..], n);
      assert q[1..][1..] == q[2..];
      assert QueueBag(q[1..]) == LeafBag(q[1]) + QueueBag(q[2..]);
      assert QueueBag(q) == LeafBag(q[0]) + QueueBag(q[1..]);
      MergeLeaves(Insert(q[2..], n));
    }
  }

  lemma {:induction false} QueueBagPerm(a: seq<Tree>, b: seq<Tree>)
    requires multiset(a) == multiset(b)
    ensures QueueBag(a) == QueueBag(b)
    decreases |a|
  {
    if a != [] {
      var k := IndexOf(b, a[0]);
      RemoveAt(b, k);
      RemoveAt(a, 0);
      assert a[..0] + a[1..] == a[1..];
      QueueBagPerm(a[1..], b[..k] + b[k + 1..]);
      QueueBagSplit(b[..k], b[k + 1..], b[k]);
    }
  }

  /** A position of `x` in `b`. */
  lemma IndexOf(b: seq<Tree>, x: Tree) returns (k: nat)
    requires x in multiset(b)
    ensures k < |b| && b[k] == x
  {
    assert x in b;
    k :| 0 <= k < |b| && b[k] == x;
  }

  /** Taking out the item at `k` takes one of it out of the multiset. */
  lemma RemoveAt(b: seq<Tree>, k: nat)
    requires k < |b|
    ensures b == b[..k] + [b[k]] + b[k + 1..]
    ensures multiset(b[..k] + b[k + 1..]) == multiset(b) - multiset{b[k]}
  {
    assert b == b[..k] + [b[k]] + b[k + 1..];
  }

  lemma {:induction false} QueueBagSplit(x: seq<Tree>, y: seq<Tree>, t: Tree)
    ensures QueueBag(x + [t] + y) == QueueBag(x + y) + LeafBag(t)
  {
    if x == [] {
      assert [t] + y == x + [t] + y;
      assert (x + [t] + y)[1..] == y;
      assert x + y == y;
    } else {
      assert (x + [t] + y)[1..] == x[1..] + [t] + y;
      assert (x + y)[1..] == x[1..] + y;
      QueueBagSplit(x[1..], y, t);
    }
  }

  lemma {:induction false} QueueBagLeaves(pairs: seq<(int, nat)>)
    ensures QueueBag(LeafNodes(pairs)) == multiset(pairs)
  {
    if pairs != [] {
      QueueBagLeaves(pairs[1..]);
      assert pairs == [pairs[0]] + pairs[1..];
    }
  }

  /** The built tree has exactly the input pairs at its leaves. */
  lemma BuildLeaves(pairs: seq<(int, nat)>)
    requires pairs != []
    ensures LeafBag(Build(pairs)) == multiset(pairs)
  {
    var q := PushAll([], LeafNodes(pairs));
    PushAllContents([], LeafNodes(pairs));
    MergeLeaves(q);
    QueueBagPerm(q, LeafNodes(pairs));
    QueueBagLeaves(pairs);
  }

  /** Every internal node's frequency is the sum of its children's. */
  ghost predicate WellWeighted(t: Tree)
  {
    t.Node? ==> t.freq == t.left.freq + t.right.freq && WellWeighted(t.left) && WellWeighted(t.right)
  }

  lemma {:induction false} MergeWeighted(q: seq<Tree>)
    requires q != []
    requires forall t | t in q :: WellWeighted(t)
    ensures WellWeighted(Merge(q))
    decreases |q|
  {
    if |q| > 1 {
      var n := Node(q[0].freq + q[1].freq, q[0], q[1]);
      var q' := Insert(q[2..], n);
      InsertContents(q[2..], n);
      forall t | t in q'
        ensures WellWeighted(t)
      {
        assert t in multiset(q[2..]) + multiset{n};
        if t != n {
          assert t in q[2..];
        }
      }
      MergeWeighted(q');
    }
  }

  lemma BuildWeighted(pairs: seq<(int, nat)>)
    requires pairs != []
    ensures WellWeighted(Build(pairs))
  {
    var ls := LeafNodes(pairs);
    var q := PushAll([], ls);
    PushAllContents([], ls);
    forall t | t in q
      ensures WellWeighted(t)
    {
      assert t in multiset(q);
      assert t in multiset(ls);
      LeafNodesCount(pairs, t);
    }
    MergeWeighted(q);
  }

  lemma {:induction false} MergeIsNode(q: seq<Tree>)
    requires |q| >= 2
    ensures Merge(q).Node?
    decreases |q|
  {
    var n := Node(q[0].freq + q[1].freq, q[0], q[1]);
    var q' := Insert(q[2..], n);
    InsertContents(q[2..], n);
    if |q'| >= 2 {
      MergeIsNode(q');
    } else {
      assert n in multiset(q');
    }
  }

  /** Two or more pairs give an internal root; one pair gives a lone leaf. */
  lemma BuildShape(pairs: seq<(int, nat)>)
    requires pairs != []
    ensures |pairs| >= 2 ==> Build(pairs).Node?
    ensures |pairs| == 1 ==> Build(pairs) == Leaf(pairs[0].1, pairs[0].0)
  {
    if |pairs| >= 2 {
      MergeIsNode(PushAll([], LeafNodes(pairs)));
    } else {
      assert LeafNodes(pairs) == [Leaf(pairs[0].1, pairs[0].0)];
      assert LeafNodes(pairs)[..0] == [];
    }
  }

  /** The tree does not depend on the order in which the pairs are visited
      (the iteration order of the `unordered_map` of counts is
      unspecified). */
  lemma BuildOrderIndependent(p1: seq<(int, nat)>, p2: seq<(int, nat)>)
    requires p1 != [] && multiset(p1) == multiset(p2)
    ensures p2 != [] && Build(p1) == Build(p2)
  {
    assert |multiset(p1)| == |p1| && |multiset(p2)| == |p2|;
    var l1, l2 := LeafNodes(p1), LeafNodes(p2);
    forall t
      ensures multiset(l1)[t] == multiset(l2)[t]
    {
      LeafNodesCount(p1, t);
      LeafNodesCount(p2, t);
    }
    assert multiset(l1) == multiset(l2);
    PushAllContents([], l1);
    PushAllContents([], l2);
    PushAllSorted([], l1);
    PushAllSorted([], l2);
    SortedUnique(PushAll([], l1), PushAll([], l2));
  }

  /** The number of leaves, one per symbol. */
  function Leaves(t: Tree): (r: nat)
    ensures r >= 1
  {
    match t
    case Leaf(_, _) => 1
    case Node(_, l, r) => Leaves(l) + Leaves(r)
  }

  /** A tree whose internal nodes all have two children has one fewer
      internal node than leaves. */
  lemma {:induction false} SizeLeaves(t: Tree)
    ensures Size(t) == 2 * Leaves(t) - 1
  {
    if t.Node? {
      SizeLeaves(t.left);
      SizeLeaves(t.right);
    }
  }

  lemma {:induction false} LeavesBag(t: Tree)
    ensures Leaves(t) == |LeafBag(t)|
  {
    if t.Node? {
      LeavesBag(t.left);
      LeavesBag(t.right);
    }
  }

  /** The symbols at the leaves of `t`. */
  function Values(t: Tree): set<int>
  {
    match t
    case Leaf(_, x) => {x}
    case Node(_, l, r) => Values(l) + Values(r)
  }

  lemma {:induction false} ValuesBag(t: Tree)
    ensures Values(t) == set p | p in LeafBag(t) :: p.0
  {
    if t.Node? {
      ValuesBag(t.left);
      ValuesBag(t.right);
      var all := set p | p in LeafBag(t) :: p.0;
      forall x | x in all
        ensures x in Values(t)
      {
        var p :| p in LeafBag(t) && p.0 == x;
        if p in LeafBag(t.left) {
          assert x in set q | q in LeafBag(t.left) :: q.0;
        } else {
          assert x in set q | q in LeafBag(t.right) :: q.0;
        }
      }
      forall x | x in Values(t)
        ensures x in all
      {
        if x in Values(t.left) {
          var p :| p in LeafBag(t.left) && p.0 == x;
          assert p in LeafBag(t);
        } else {
          var p :| p in LeafBag(t.right) && p.0 == x;
          assert p in LeafBag(t);
        }
      }
      assert Values(t) == all;
    } else {
      assert (t.value, t.freq) in LeafBag(t);
      assert Values(t) == set p | p in LeafBag(t) :: p.0;
    }
  }

  /** The symbols of the (symbol, frequency) pairs. */
  function Symbols(pairs: seq<(int, nat)>): set<int>
  {
    set p | p in pairs :: p.0
  }

  /** Every input symbol, and nothing else, sits at a leaf of the built tree. */
  lemma BuildValues(pairs: seq<(int, nat)>)
    requires pairs != []
    ensures Values(Build(pairs)) == Symbols(pairs)
  {
    BuildLeaves(pairs);
    ValuesBag(Build(pairs));
  }

  /** `fill`: every leaf's symbol gets the path from the root to it, `false`
      for a step to the left child and `true` for a step to the right child;
      a symbol met again later overwrites its earlier code. */
  function PathCodes(t: Tree, prefix: seq<bool>): (r: map<int, seq<bool>>)
  {
    match t
    case Leaf(_, x) => map[x := prefix]
    case Node(_, l, r) => PathCodes(l, prefix + [false]) + PathCodes(r, prefix + [true])
  }

  /** The symbols with a code are exactly the symbols of the tree, and every
      code extends the prefix by as many bits as the leaf is deep. */
  lemma {:induction false} PathCodesShape(t: Tree, prefix: seq<bool>)
    ensures PathCodes(t, prefix).Keys == Values(t)
    ensures forall x | x in PathCodes(t, prefix) ::
      |prefix| <= |PathCodes(t, prefix)[x]| && PathCodes(t, prefix)[x][..|prefix|] == prefix
    ensures t.Node? ==> forall x | x in PathCodes(t, prefix) :: |prefix| < |PathCodes(t, prefix)[x]|
  {
    if t.Node? {
      var l, r := prefix + [false], prefix + [true];
      PathCodesShape(t.left, l);
      PathCodesShape(t.right, r);
      forall x | x in PathCodes(t, prefix)
        ensures |prefix| < |PathCodes(t, prefix)[x]| && PathCodes(t, prefix)[x][..|prefix|] == prefix
      {
        var c := PathCodes(t, prefix)[x];
        if x in PathCodes(t.right, r) {
          assert c[..|r|][..|prefix|] == c[..|prefix|];
        } else {
          assert c[..|l|][..|prefix|] == c[..|prefix|];
        }
      }
    }
  }

  /** `pairs` lists the entries of the counter `count`: each counted symbol
      once, with its count as frequency, in some order. */
  ghost predicate Lists(pairs: seq<(int, nat)>, count: map<int, nat>)
  {
    && (forall i, j | 0 <= i < j < |pairs| :: pairs[i].0 != pairs[j].0)
    && (forall p | p in pairs :: p.0 in count && count[p.0] == p.1)
    && Symbols(pairs) == count.Keys
  }

  /** One listing of a counter. */
  ghost function SomeListing(count: map<int, nat>): (r: seq<(int, nat)>)
    ensures Lists(r, count)
    decreases |count.Keys|
  {
    if count == map[] then []
    else
      HasKey(count);
      var k :| k in count;
      var rest := count - {k};
      assert rest.Keys == count.Keys - {k};
      ListsSnoc(SomeListing(rest), count, k);
      SomeListing(rest) + [(k, count[k])]
  }

  /** Listing the rest of a counter, then one more entry, lists it. */
  lemma ListsSnoc(ps: seq<(int, nat)>, count: map<int, nat>, k: int)
    requires k in count && Lists(ps, count - {k})
    ensures Lists(ps + [(k, count[k])], count)
  {
    var r := ps + [(k, count[k])];
    assert (count - {k}).Keys == count.Keys - {k};
    assert Symbols(r) == Symbols(ps) + {k};
    forall i, j | 0 <= i < j < |r|
      ensures r[i].0 != r[j].0
    {
      if j == |ps| {
        assert r[i].0 in Symbols(ps);
      }
    }
  }

  lemma HasKey(count: map<int, nat>)
    requires count != map[]
    ensures exists k :: k in count
  {
    if forall k :: k !in count {
      assert false;
    }
  }

  /** A listing holds each of its pairs once. */
  lemma {:induction false} ListedOnce(pairs: seq<(int, nat)>, p: (int, nat))
    requires forall i, j | 0 <= i < j < |pairs| :: pairs[i].0 != pairs[j].0
    ensures multiset(pairs)[p] == if p in pairs then 1 else 0
  {
    if pairs != [] {
      var init := pairs[..|pairs| - 1];
      assert pairs == init + [pairs[|pairs| - 1]];
      ListedOnce(init, p);
      if p in init {
        var i :| 0 <= i < |init| && init[i] == p;
        assert pairs[i].0 != pairs[|pairs| - 1].0;
      }
    }
  }

  /** Two listings of the same counter differ at most in their order. */
  lemma ListingsAlike(p1: seq<(int, nat)>, p2: seq<(int, nat)>, count: map<int, nat>)
    requires Lists(p1, count) && Lists(p2, count)
    ensures multiset(p1) == multiset(p2)
  {
    forall p
      ensures multiset(p1)[p] == multiset(p2)[p]
    {
      ListedOnce(p1, p);
      ListedOnce(p2, p);
      if p in p1 {
        Listed(p, p2, count);
      } else if p in p2 {
        Listed(p, p1, count);
      }
    }
  }

  /** A counted pair is in every listing of the counter. */
  lemma Listed(p: (int, nat), pairs: seq<(int, nat)>, count: map<int, nat>)
    requires Lists(pairs, count) && p.0 in count && count[p.0] == p.1
    ensures p in pairs
  {
    assert p.0 in Symbols(pairs);
    var q :| q in pairs && q.0 == p.0;
  }

  /** The tree `new Hufftree(count.begin(), count.end())` builds from a
      counter, whatever order the map hands out its entries in. */
  ghost function CountTree(count: map<int, nat>): Tree
    requires count != map[]
  {
    var pairs := SomeListing(count);
    assert pairs != [] by {
      var k :| k in count.Keys;
      assert k in Symbols(pairs);
    }
    Build(pairs)
  }

  /** Building from any listing of the counter gives `CountTree`. */
  lemma ListingBuilds(pairs: seq<(int, nat)>, count: map<int, nat>)
    requires count != map[] && Lists(pairs, count)
    ensures pairs != [] && Build(pairs) == CountTree(count)
  {
    var k :| k in count.Keys;
    assert k in Symbols(pairs);
    var some := SomeListing(count);
    assert k in Symbols(some);
    ListingsAlike(some, pairs, count);
    BuildOrderIndependent(some, pairs);
  }

  /** A listing has as many pairs as the counter has entries. */
  lemma {:induction false} ListingSize(pairs: seq<(int, nat)>)
    requires forall i, j | 0 <= i < j < |pairs| :: pairs[i].0 != pairs[j].0
    ensures |Symbols(pairs)| == |pairs|
  {
    if pairs != [] {
      var init, last := pairs[..|pairs| - 1], pairs[|pairs| - 1];
      assert pairs == init + [last];
      ListingSize(init);
      assert Symbols(pairs) == Symbols(init) + {last.0};
    }
  }

  /** The pairs of a listing are the counter's entries, each once. */
  lemma ListingPairs(pairs: seq<(int, nat)>, count: map<int, nat>)
    requires Lists(pairs, count)
    ensures forall p :: (p in multiset(pairs) <==> p.0 in count && count[p.0] == p.1)
    ensures forall p | p in multiset(pairs) :: multiset(pairs)[p] == 1
  {
    forall p
      ensures p in multiset(pairs) <==> p.0 in count && count[p.0] == p.1
    {
      if p.0 in count && count[p.0] == p.1 {
        Listed(p, pairs, count);
      }
    }
    forall p | p in multiset(pairs)
      ensures multiset(pairs)[p] == 1
    {
      ListedOnce(pairs, p);
    }
  }

  /** The leaves of `CountTree(count)` are the counter's entries, each once,
      and every internal node weighs the sum of its children: the counts
      are the frequencies the tree is built from. */
  lemma CountTreeLeaves(count: map<int, nat>)
    requires count != map[]
    ensures forall p :: (p in LeafBag(CountTree(count)) <==> p.0 in count && count[p.0] == p.1)
    ensures forall p | p in LeafBag(CountTree(count)) :: LeafBag(CountTree(count))[p] == 1
    ensures WellWeighted(CountTree(count))
    ensures Values(CountTree(count)) == count.Keys
  {
    var pairs := SomeListing(count);
    ListingBuilds(pairs, count);
    var t := CountTree(count);
    assert t == Build(pairs);
    BuildLeaves(pairs);
    ListingPairs(pairs, count);
    BuildWeighted(pairs);
    BuildValues(pairs);
  }
}

=== FILE: coders.dfy ===
/** The encoding and decoding loops of moses/src/Hufftree.h and
    moses/src/Huffman.h.  The two coders repeat the same loops: the encoders
    differ in nothing but the code table, the decoders only in how the
    current tree position is held (an index into `m_nodes`, or a node).
    Each loop is written once here, over the code table or over a step
    function, and proved to compute Pack of the codes, DecodeSpec or
    DecodeWithLengthSpec. */
module Coders {
  import opened Results
  import opened Bits
  import opened Decoding

  /** The encoders' loop over the input: push the code of every value. */
  method PushValues(encoding: map<int, seq<bool>>, w: Writer, values: seq<int>, ghost bits: seq<bool>) returns (w': Writer)
    requires Holds(w, bits)
    ensures Holds(w', bits + Codes(encoding, values))
  {
    w' := w;
    assert bits + Codes(encoding, values[..0]) == bits;
    for k := 0 to |values|
      invariant Holds(w', bits + Codes(encoding, values[..k]))
    {
      w' := PushNext(encoding, w', values, k, bits);
    }
    assert values[..|values|] == values;
  }

  /** One round of that loop: push the code of `values[k]`. */
  method PushNext(encoding: map<int, seq<bool>>, w: Writer, values: seq<int>, k: nat, ghost bits: seq<bool>)
    returns (w': Writer)
    requires k < |values| && Holds(w, bits + Codes(encoding, values[..k]))
    ensures Holds(w', bits + Codes(encoding, values[..k + 1]))
  {
    ghost var sofar := bits + Codes(encoding, values[..k]);
    var code := CodeOf(encoding, values[k]);
    w' := PushCode(w, code, sofar);
    CodesPrefixStep(encoding, values, k);
    Assoc(bits, Codes(encoding, values[..k]), code);
  }

  /** `encode(begin, end)`: the codes of the values, packed eight to a
      byte, bit 0 first, the last byte padded with zeros. */
  method Encode(encoding: map<int, seq<bool>>, values: seq<int>) returns (r: seq<byte>)
    ensures r == Pack(Codes(encoding, values))
    ensures |r| == (|Codes(encoding, values)| + 7) / 8
  {
    StartHolds();
    var w := PushValues(encoding, Start, values, []);
    assert [] + Codes(encoding, values) == Codes(encoding, values);
    FlushPacks(w, Codes(encoding, values));
    r := Flush(w);
  }

  /** `encodeWithLength(begin, end)`: the code of the number of values,
      then the codes of the values, packed as `encode` packs. */
  method EncodeWithLength(encoding: map<int, seq<bool>>, values: seq<int>) returns (r: seq<byte>)
    ensures r == Pack(CodeOf(encoding, |values|) + Codes(encoding, values))
  {
    StartHolds();
    var code := CodeOf(encoding, |values|);
    var w := PushCode(Start, code, []);
    assert [] + code == code;
    w := PushValues(encoding, w, values, code);
    FlushPacks(w, code + Codes(encoding, values));
    r := Flush(w);
  }

  /** `decode(length, begin, end, iter)`: walk the bits, bit 0 of each
      byte first, while fewer than `length` symbols are out; return after
      the byte in which the count is reached. */
  method Decode<S>(step: (S, bool) -> Result<Move<S>>, root: S, length: int, bytes: seq<byte>) returns (r: Result<Decoded>)
    ensures r == DecodeSpec(step, root, length, bytes)
  {
    var out: seq<int> := [];
    var node := root;
    var k := 0;
    while k < |bytes|
      invariant 0 <= k <= |bytes|
      invariant Run(step, root, length, Walk(root, []), Unpack(bytes)[..8 * k]) == Ok(Ran(Walk(node, out), 8 * k))
      invariant k > 0 ==> |out| < length
    {
      var res, i;
      res, node, out, i := DecodeByte(step, root, length, bytes, k, node, out);
      if res.Err? {
        return Err(res.msg);
      }
      if |out| >= length {
        DecodeStopped(step, root, length, bytes, 8 * k + i, Walk(node, out));
        ByteOfStop(k, i, length);
        return Ok(Decoded(out, k + 1, false));
      }
      k := k + 1;
    }
    assert Unpack(bytes)[..8 * k] == Unpack(bytes);
    return Ok(Decoded(out, |bytes|, true));
  }

  /** The inner loop of `decode` on byte `k`: walk its bits while fewer
      than `length` symbols are out. */
  method DecodeByte<S>(step: (S, bool) -> Result<Move<S>>, root: S, length: int, bytes: seq<byte>, k: nat, node0: S, out0: seq<int>)
    returns (r: Result<()>, node: S, out: seq<int>, i: nat)
    requires k < |bytes| && (k > 0 ==> |out0| < length)
    requires Run(step, root, length, Walk(root, []), Unpack(bytes)[..8 * k]) == Ok(Ran(Walk(node0, out0), 8 * k))
    ensures r.Err? ==> DecodeSpec(step, root, length, bytes) == Err(r.msg)
    ensures r.Ok? ==> i <= 8 && (k > 0 ==> i > 0) && (|out| < length ==> i == 8)
    ensures r.Ok? ==> Run(step, root, length, Walk(root, []), Unpack(bytes)[..8 * k + i]) == Ok(Ran(Walk(node, out), 8 * k + i))
  {
    var byte := bytes[k];
    r, node, out, i := Ok(()), node0, out0, 0;
    while i < 8 && |out| < length
      invariant 0 <= i <= 8 && (k > 0 && i == 0 ==> |out| < length)
      invariant Run(step, root, length, Walk(root, []), Unpack(bytes)[..8 * k + i]) == Ok(Ran(Walk(node, out), 8 * k + i))
    {
      var bit := BitOf(byte, i);   // byte & mask, with mask == 1 << i
      ghost var p := 8 * k + i + 1;
      DecodeNext(step, root, length, bytes, k, i, p, node, out);
      match step(node, bit) {
        case Err(m) =>
          DecodeErr(step, root, length, bytes, p, m);
          return Err(m), node, out, i;
        case Ok(Down(n)) =>
          node := n;
        case Ok(Emit(v)) =>
          out := out + [v];
          node := root;
      }
      assert Run(step, root, length, Walk(root, []), Unpack(bytes)[..p]) == Ok(Ran(Walk(node, out), p));
      i := i + 1;
      assert p == 8 * k + i;
    }
  }

  /** The run of `decode` over one more bit. */
  lemma DecodeNext<S>(step: (S, bool) -> Result<Move<S>>, root: S, length: int, bytes: seq<byte>, k: nat, i: nat, p: nat,
                      node: S, out: seq<int>)
    requires k < |bytes| && i < 8 && p == 8 * k + i + 1 && |out| < length
    requires Run(step, root, length, Walk(root, []), Unpack(bytes)[..p - 1]) == Ok(Ran(Walk(node, out), p - 1))
    ensures 0 < p <= 8 * |bytes|
    ensures Run(step, root, length, Walk(root, []), Unpack(bytes)[..p]) ==
      match step(node, BitOf(bytes[k], i))
      case Err(m) => Err(m)
      case Ok(Down(n)) => Ok(Ran(Walk(n, out), p))
      case Ok(Emit(v)) => Ok(Ran(Walk(root, out + [v]), p))
  {
    UnpackStep(bytes, 0, k, i);
    RunSnoc(step, root, length, Walk(root, []), Unpack(bytes)[..8 * k + i], BitOf(bytes[k], i), Walk(node, out));
  }

  /** Undefined behaviour within the first `p` bits is the outcome of
      `decode`. */
  lemma DecodeErr<S>(step: (S, bool) -> Result<Move<S>>, root: S, length: int, bytes: seq<byte>, p: nat, m: string)
    requires 0 < p <= 8 * |bytes|
    requires Run(step, root, length, Walk(root, []), Unpack(bytes)[..p]) == Err(m)
    ensures DecodeSpec(step, root, length, bytes) == Err(m)
  {
    RunPrefixErr(step, root, length, Walk(root, []), Unpack(bytes), p);
  }

  /** Reaching the count within the first `p` bits decides what `decode`
      returns. */
  lemma DecodeStopped<S>(step: (S, bool) -> Result<Move<S>>, root: S, length: int, bytes: seq<byte>, p: nat, w: Walk<S>)
    requires p <= 8 * |bytes| && bytes != [] && |w.out| >= length
    requires Run(step, root, length, Walk(root, []), Unpack(bytes)[..p]) == Ok(Ran(w, p))
    ensures DecodeSpec(step, root, length, bytes) == Ok(Decoded(w.out, if p == 0 then 1 else (p + 7) / 8, false))
  {
    RunPrefixStopped(step, root, length, Walk(root, []), Unpack(bytes), p, w, p);
  }

  /** `decode` stops after byte `k`: when it stops before reading a bit,
      the count was reached before the first byte. */
  lemma ByteOfStop(k: nat, i: nat, length: int)
    requires i <= 8 && (k > 0 ==> i > 0)
    ensures (if 8 * k + i == 0 then 1 else (8 * k + i + 7) / 8) == k + 1
  {
  }

  /** `decodeWithLength` still looking for the length after the first
      `p` bits, at `node`. */
  ghost predicate Seeking<S>(step: (S, bool) -> Result<Move<S>>, root: S, bytes: seq<byte>, p: nat, node: S)
  {
    p <= 8 * |bytes| &&
    Run(step, root, 1, Walk(root, []), Unpack(bytes)[..p]) == Ok(Ran(Walk(node, []), p))
  }

  /** The length is the symbol whose code ends at bit `u1`. */
  ghost predicate LengthAt<S>(step: (S, bool) -> Result<Move<S>>, root: S, bytes: seq<byte>, length: int, u1: nat)
  {
    Run(step, root, 1, Walk(root, []), Unpack(bytes)) == Ok(Ran(Walk(root, [length]), u1))
  }

  /** `decodeWithLength` after the first `p` bits: the length was found at
      bit `u1`, the symbols `out` are emitted since, fewer than it asks
      for, and the walk is at `node`. */
  ghost predicate Counting<S>(step: (S, bool) -> Result<Move<S>>, root: S, bytes: seq<byte>, u1: nat, length: int, p: nat, node: S, out: seq<int>)
  {
    u1 <= p <= 8 * |bytes| && |out| < LengthLimit(length) && LengthAt(step, root, bytes, length, u1) &&
    Run(step, root, LengthLimit(length), Walk(root, []), Unpack(bytes)[u1..p]) == Ok(Ran(Walk(node, out), p - u1))
  }

  /** The first inner loop of `decodeWithLength` on byte `k`: walk its
      bits until the length is found or the byte ends. */
  method SeekLength<S>(step: (S, bool) -> Result<Move<S>>, root: S, bytes: seq<byte>, k: nat, node0: S)
    returns (r: Result<()>, found: bool, length: int, node: S, i: nat, ghost u1: nat)
    requires k < |bytes| && Seeking(step, root, bytes, 8 * k, node0)
    ensures r.Err? ==> DecodeWithLengthSpec(step, root, bytes) == Err(r.msg)
    ensures r.Ok? && found ==> i <= 8 && u1 == 8 * k + i && node == root && LengthAt(step, root, bytes, length, u1)
    ensures r.Ok? && !found ==> i == 8 && Seeking(step, root, bytes, 8 * k + 8, node)
  {
    var byte := bytes[k];
    r, found, length, node, i, u1 := Ok(()), false, 0, node0, 0, 0;
    while i < 8 && !found
      invariant 0 <= i <= 8
      invariant !found ==> Seeking(step, root, bytes, 8 * k + i, node)
      invariant found ==> u1 == 8 * k + i && node == root && LengthAt(step, root, bytes, length, u1)
    {
      var bit := BitOf(byte, i);   // byte & mask, with mask == 1 << i
      ghost var p := 8 * k + i + 1;
      SeekNext(step, root, bytes, k, i, p, node);
      match step(node, bit) {
        case Err(m) =>
          SeekErr(step, root, bytes, p, m);
          return Err(m), found, length, node, i, u1;
        case Ok(Down(n)) =>
          node := n;
        case Ok(Emit(v)) =>
          length := v;
          node := root;
          found := true;
          u1 := p;
          SeekFound(step, root, bytes, u1, v);
      }
      i := i + 1;
    }
  }

  /** The first phase over one more bit. */
  lemma SeekNext<S>(step: (S, bool) -> Result<Move<S>>, root: S, bytes: seq<byte>, k: nat, i: nat, p: nat, node: S)
    requires k < |bytes| && i < 8 && p == 8 * k + i + 1 && Seeking(step, root, bytes, p - 1, node)
    ensures 0 < p <= 8 * |bytes|
    ensures Run(step, root, 1, Walk(root, []), Unpack(bytes)[..p]) ==
      match step(node, BitOf(bytes[k], i))
      case Err(m) => Err(m)
      case Ok(Down(n)) => Ok(Ran(Walk(n, []), p))
      case Ok(Emit(v)) => Ok(Ran(Walk(root, [v]), p))
  {
    UnpackStep(bytes, 0, k, i);
    RunSnoc(step, root, 1, Walk(root, []), Unpack(bytes)[..8 * k + i], BitOf(bytes[k], i), Walk(node, []));
    match step(node, BitOf(bytes[k], i)) {
      case Ok(Emit(v)) => assert [] + [v] == [v];
      case _ =>
    }
  }

  /** Undefined behaviour while looking for the length is the outcome of
      the call. */
  lemma SeekErr<S>(step: (S, bool) -> Result<Move<S>>, root: S, bytes: seq<byte>, p: nat, m: string)
    requires 0 < p <= 8 * |bytes|
    requires Run(step, root, 1, Walk(root, []), Unpack(bytes)[..p]) == Err(m)
    ensures DecodeWithLengthSpec(step, root, bytes) == Err(m)
  {
    RunPrefixErr(step, root, 1, Walk(root, []), Unpack(bytes), p);
  }

  /** The length found at bit `p` is the first symbol of the whole run. */
  lemma SeekFound<S>(step: (S, bool) -> Result<Move<S>>, root: S, bytes: seq<byte>, p: nat, v: int)
    requires p <= 8 * |bytes|
    requires Run(step, root, 1, Walk(root, []), Unpack(bytes)[..p]) == Ok(Ran(Walk(root, [v]), p))
    ensures LengthAt(step, root, bytes, v, p)
  {
    RunPrefixStopped(step, root, 1, Walk(root, []), Unpack(bytes), p, Walk(root, [v]), p);
  }

  /** The second inner loop of `decodeWithLength` on byte `k`, from bit
      `i0`: emit symbols until the count reaches the length (`done`) or the
      byte ends. */
  method CountSymbols<S>(step: (S, bool) -> Result<Move<S>>, root: S, bytes: seq<byte>, k: nat, i0: nat, node0: S, out0: seq<int>, length: int, ghost u1: nat)
    returns (r: Result<()>, done: bool, node: S, out: seq<int>)
    requires k < |bytes| && i0 <= 8 && Counting(step, root, bytes, u1, length, 8 * k + i0, node0, out0)
    ensures r.Err? ==> DecodeWithLengthSpec(step, root, bytes) == Err(r.msg)
    ensures r.Ok? && done ==> DecodeWithLengthSpec(step, root, bytes) == Ok(Decoded(out, k + 1, false))
    ensures r.Ok? && !done ==> Counting(step, root, bytes, u1, length, 8 * k + 8, node, out)
  {
    r, done, node, out := Ok(()), false, node0, out0;
    var i := i0;
    while i < 8
      invariant i0 <= i <= 8 && Counting(step, root, bytes, u1, length, 8 * k + i, node, out)
      invariant r.Ok? && !done
    {
      r, done, node, out := CountBit(step, root, bytes, k, i, node, out, length, u1);
      if r.Err? || done {
        return;
      }
      i := i + 1;
    }
  }

  /** One turn of that loop: step on bit `i` of byte `k`; after an
      emission, stop once `count >= length`. */
  method CountBit<S>(step: (S, bool) -> Result<Move<S>>, root: S, bytes: seq<byte>, k: nat, i: nat, node0: S, out0: seq<int>, length: int, ghost u1: nat)
    returns (r: Result<()>, done: bool, node: S, out: seq<int>)
    requires k < |bytes| && i < 8 && Counting(step, root, bytes, u1, length, 8 * k + i, node0, out0)
    ensures r.Err? ==> DecodeWithLengthSpec(step, root, bytes) == Err(r.msg)
    ensures r.Ok? && done ==> DecodeWithLengthSpec(step, root, bytes) == Ok(Decoded(out, k + 1, false))
    ensures r.Ok? && !done ==> Counting(step, root, bytes, u1, length, 8 * k + i + 1, node, out)
  {
    var limit := LengthLimit(length);
    var bit := BitOf(bytes[k], i);   // byte & mask, with mask == 1 << i
    CountOutcome(step, root, bytes, k, i, node0, out0, length, u1);
    r, done, node, out := Ok(()), false, node0, out0;
    match step(node0, bit) {
      case Err(m) =>
        r := Err(m);
      case Ok(Down(n)) =>
        node := n;
      case Ok(Emit(v)) =>
        out := out + [v];
        node := root;
        if |out| >= limit {   // `count >= length`, tested after the emission
          done := true;
        }
    }
  }

  /** What one more bit does to the counting phase: undefined behaviour,
      the walk going on, or an emission that may reach the count. */
  lemma CountOutcome<S>(step: (S, bool) -> Result<Move<S>>, root: S, bytes: seq<byte>, k: nat, i: nat, node0: S, out0: seq<int>, length: int, u1: nat)
    requires k < |bytes| && i < 8 && Counting(step, root, bytes, u1, length, 8 * k + i, node0, out0)
    ensures match step(node0, BitOf(bytes[k], i))
      case Err(m) => DecodeWithLengthSpec(step, root, bytes) == Err(m)
      case Ok(Down(n)) => Counting(step, root, bytes, u1, length, 8 * k + i + 1, n, out0)
      case Ok(Emit(v)) =>
        if |out0 + [v]| >= LengthLimit(length) then DecodeWithLengthSpec(step, root, bytes) == Ok(Decoded(out0 + [v], k + 1, false))
        else Counting(step, root, bytes, u1, length, 8 * k + i + 1, root, out0 + [v])
  {
    var p := 8 * k + i + 1;
    CountNext(step, root, bytes, k, i, p, node0, out0, length, u1);
    match step(node0, BitOf(bytes[k], i)) {
      case Err(m) =>
        CountErr(step, root, bytes, p, length, u1, m);
      case Ok(Down(n)) =>
        assert Counting(step, root, bytes, u1, length, p, n, out0);
      case Ok(Emit(v)) =>
        if |out0 + [v]| >= LengthLimit(length) {
          CountDoneInByte(step, root, bytes, k, i, p, length, u1, Walk(root, out0 + [v]));
        } else {
          assert Counting(step, root, bytes, u1, length, p, root, out0 + [v]);
        }
    }
  }

  /** The run of the counting phase over one more bit. */
  lemma CountNext<S>(step: (S, bool) -> Result<Move<S>>, root: S, bytes: seq<byte>, k: nat, i: nat, p: nat,
                     node0: S, out0: seq<int>, length: int, u1: nat)
    requires k < |bytes| && i < 8 && p == 8 * k + i + 1 && Counting(step, root, bytes, u1, length, p - 1, node0, out0)
    ensures u1 < p <= 8 * |bytes|
    ensures Run(step, root, LengthLimit(length), Walk(root, []), Unpack(bytes)[u1..p]) ==
      match step(node0, BitOf(bytes[k], i))
      case Err(m) => Err(m)
      case Ok(Down(n)) => Ok(Ran(Walk(n, out0), p - u1))
      case Ok(Emit(v)) => Ok(Ran(Walk(root, out0 + [v]), p - u1))
  {
    var bits := Unpack(bytes);
    UnpackStep(bytes, u1, k, i);
    RunSnoc(step, root, LengthLimit(length), Walk(root, []), bits[u1..8 * k + i], BitOf(bytes[k], i), Walk(node0, out0));
  }

  /** Undefined behaviour within the first `p` bits is the outcome of the
      whole call. */
  lemma CountErr<S>(step: (S, bool) -> Result<Move<S>>, root: S, bytes: seq<byte>, p: nat, length: int, u1: nat, m: string)
    requires u1 < p <= 8 * |bytes| && LengthAt(step, root, bytes, length, u1)
    requires Run(step, root, LengthLimit(length), Walk(root, []), Unpack(bytes)[u1..p]) == Err(m)
    ensures DecodeWithLengthSpec(step, root, bytes) == Err(m)
  {
    LengthThenErr(step, root, bytes, length, u1, p, m);
  }

  /** An emission at bit `p` that brings the count to the length ends the
      call after the byte holding that bit. */
  lemma CountDone<S>(step: (S, bool) -> Result<Move<S>>, root: S, bytes: seq<byte>, p: nat, length: int, u1: nat, w: Walk<S>)
    requires u1 < p <= 8 * |bytes| && LengthAt(step, root, bytes, length, u1)
    requires |w.out| >= LengthLimit(length)
    requires Run(step, root, LengthLimit(length), Walk(root, []), Unpack(bytes)[u1..p]) == Ok(Ran(w, p - u1))
    ensures DecodeWithLengthSpec(step, root, bytes) == Ok(Decoded(w.out, (p + 7) / 8, false))
  {
    LengthThenDone(step, root, bytes, length, u1, p, w);
  }

  /** The same, at bit `i` of byte `k`: the call ends after byte `k`. */
  lemma CountDoneInByte<S>(step: (S, bool) -> Result<Move<S>>, root: S, bytes: seq<byte>, k: nat, i: nat, p: nat,
                           length: int, u1: nat, w: Walk<S>)
    requires i < 8 && p == 8 * k + i + 1
    requires u1 < p <= 8 * |bytes| && LengthAt(step, root, bytes, length, u1)
    requires |w.out| >= LengthLimit(length)
    requires Run(step, root, LengthLimit(length), Walk(root, []), Unpack(bytes)[u1..p]) == Ok(Ran(w, p - u1))
    ensures DecodeWithLengthSpec(step, root, bytes) == Ok(Decoded(w.out, k + 1, false))
  {
    ByteOfBit(k, i, p);
    CountDone(step, root, bytes, p, length, u1, w);
  }

  /** Bit `i` of byte `k` lies in byte `k`. */
  lemma ByteOfBit(k: nat, i: nat, p: nat)
    requires i < 8 && p == 8 * k + i + 1
    ensures (p + 7) / 8 == k + 1
  {
  }

  /** `decodeWithLength(begin, end, iter)`: the first symbol walked out
      of the bits is the count; the symbols after it, in the same bit
      stream, are emitted until as many are out (at least one); return
      after the byte in which that happens. */
  method DecodeWithLength<S>(step: (S, bool) -> Result<Move<S>>, root: S, bytes: seq<byte>) returns (r: Result<Decoded>)
    ensures r == DecodeWithLengthSpec(step, root, bytes)
  {
    var hasLength := false;
    var length := 0;
    var out: seq<int> := [];
    var node := root;
    ghost var u1: nat := 0;
    var k := 0;
    while k < |bytes|
      invariant 0 <= k <= |bytes|
      invariant !hasLength ==> out == [] && Seeking(step, root, bytes, 8 * k, node)
      invariant hasLength ==> Counting(step, root, bytes, u1, length, 8 * k, node, out)
    {
      var i := 0;
      if !hasLength {
        var res;
        res, hasLength, length, node, i, u1 := SeekLength(step, root, bytes, k, node);
        if res.Err? {
          return Err(res.msg);
        }
      }
      if hasLength {   // `if(!has_length) continue;`
        var res, done;
        res, done, node, out := CountSymbols(step, root, bytes, k, i, node, out, length, u1);
        if res.Err? {
          return Err(res.msg);
        }
        if done {
          return Ok(Decoded(out, k + 1, false));
        }
      }
      k := k + 1;
    }
    assert Unpack(bytes)[..8 * k] == Unpack(bytes);
    if hasLength {
      assert Unpack(bytes)[u1..8 * k] == Unpack(bytes)[u1..];
    }
    return Ok(Decoded(out, |bytes|, true));
  }
}

=== FILE: decoding.dfy ===
/** What the Huffman decoders of moses/src/Hufftree.h and moses/src/Huffman.h
    compute, stated once for both.  A decoder walks its tree one bit at a
    time (bit 0 of each byte first): a 0 goes to the left child, a 1 to the
    right child; reaching a leaf emits its symbol and restarts at the root.
    The two coders differ only in how a tree position is represented (an
    index into `m_nodes`, or a node), so the walk is parameterised by a
    `step` function from a position and a bit to the next position or an
    emitted symbol.  A step the source cannot take without undefined
    behaviour (reading past `m_nodes`, following a child of a leaf) is an
    `Err`. */
module Decoding {
  import opened Results
  import opened Bits

  /** One bit's effect: move down to `next`, or reach a leaf holding `value`. */
  datatype Move<S> = Down(next: S) | Emit(value: int)

  /** The decoder's state between bits: the current position and the symbols
      emitted so far. */
  datatype Walk<S> = Walk(node: S, out: seq<int>)

  /** The state after a run, and how many bits the run stepped through. */
  datatype Ran<S> = Ran(walk: Walk<S>, used: nat)

  /** What a decode call leaves behind: the symbols written to the output
      iterator, the number of input bytes it took from the stream, and
      whether it ran into the end of the stream (which fails an
      `istream_iterator`'s stream). */
  datatype Decoded = Decoded(values: seq<int>, consumed: nat, exhausted: bool)

  /** One bit: `node = (byte & mask) ? right : left`, and on reaching a leaf,
      `*iter++ = data` and `node = root`. */
  function Advance<S>(step: (S, bool) -> Result<Move<S>>, root: S, w: Walk<S>, bit: bool): Result<Walk<S>>
  {
    match step(w.node, bit)
    case Err(m) => Err(m)
    case Ok(Down(n)) => Ok(Walk(n, w.out))
    case Ok(Emit(v)) => Ok(Walk(root, w.out + [v]))
  }

  /** Step through `bits` for as long as fewer than `limit` symbols have been
      emitted (the guard `count < length` in front of every bit). */
  function Run<S>(step: (S, bool) -> Result<Move<S>>, root: S, limit: int, w: Walk<S>, bits: seq<bool>): (r: Result<Ran<S>>)
    ensures r.Ok? ==> r.value.used <= |bits|
    ensures r.Ok? && r.value.used < |bits| ==> |r.value.walk.out| >= limit
    decreases |bits|
  {
    if bits == [] || |w.out| >= limit then Ok(Ran(w, 0))
    else
      match Advance(step, root, w, bits[0])
      case Err(m) => Err(m)
      case Ok(w1) =>
        match Run(step, root, limit, w1, bits[1..])
        case Err(m) => Err(m)
        case Ok(ran) => Ok(Ran(ran.walk, ran.used + 1))
  }

  function Shift<S>(r: Result<Ran<S>>, k: nat): Result<Ran<S>>
  {
    match r
    case Err(m) => Err(m)
    case Ok(ran) => Ok(Ran(ran.walk, ran.used + k))
  }

  /** A run that stepped through all of `a` continues into `b` from where it
      stopped. */
  lemma {:induction false} RunAppend<S>(step: (S, bool) -> Result<Move<S>>, root: S, limit: int,
                                        w: Walk<S>, a: seq<bool>, b: seq<bool>, w1: Walk<S>)
    requires Run(step, root, limit, w, a) == Ok(Ran(w1, |a|))
    ensures Run(step, root, limit, w, a + b) == Shift(Run(step, root, limit, w1, b), |a|)
    decreases |a|
  {
    if a == [] {
      assert a + b == b;
    } else {
      assert (a + b)[0] == a[0];
      assert (a + b)[1..] == a[1..] + b;
      var w' := Advance(step, root, w, a[0]).value;
      RunAppend(step, root, limit, w', a[1..], b, w1);
    }
  }

  /** A run that reached its limit inside `a` ignores whatever follows. */
  lemma {:induction false} RunAppendStopped<S>(step: (S, bool) -> Result<Move<S>>, root: S, limit: int,
                                               w: Walk<S>, a: seq<bool>, b: seq<bool>, w1: Walk<S>, u: nat)
    requires Run(step, root, limit, w, a) == Ok(Ran(w1, u))
    requires |w1.out| >= limit
    ensures Run(step, root, limit, w, a + b) == Ok(Ran(w1, u))
    decreases |a|
  {
    if a == [] {
      assert a + b == b;
    } else if |w.out| < limit {
      assert (a + b)[0] == a[0];
      assert (a + b)[1..] == a[1..] + b;
      var w' := Advance(step, root, w, a[0]).value;
      RunAppendStopped(step, root, limit, w', a[1..], b, w1, u - 1);
    }
  }

  /** Undefined behaviour inside `a` is undefined behaviour of the whole run. */
  lemma {:induction false} RunAppendErr<S>(step: (S, bool) -> Result<Move<S>>, root: S, limit: int,
                                           w: Walk<S>, a: seq<bool>, b: seq<bool>)
    requires Run(step, root, limit, w, a).Err?
    ensures Run(step, root, limit, w, a + b) == Run(step, root, limit, w, a)
    decreases |a|
  {
    assert (a + b)[0] == a[0];
    assert (a + b)[1..] == a[1..] + b;
    match Advance(step, root, w, a[0])
    case Err(_) =>
    case Ok(w') => RunAppendErr(step, root, limit, w', a[1..], b);
  }

  /** One more bit after a run that stepped through all of `bits`. */
  lemma RunSnoc<S>(step: (S, bool) -> Result<Move<S>>, root: S, limit: int,
                   w: Walk<S>, bits: seq<bool>, bit: bool, w1: Walk<S>)
    requires Run(step, root, limit, w, bits) == Ok(Ran(w1, |bits|))
    requires |w1.out| < limit
    ensures Run(step, root, limit, w, bits + [bit]) ==
      match Advance(step, root, w1, bit)
      case Err(m) => Err(m)
      case Ok(w2) => Ok(Ran(w2, |bits| + 1))
  {
    RunAppend(step, root, limit, w, bits, [bit], w1);
  }

  /** `q` is a code word leading from position `s` to a leaf holding `x`:
      every bit but the last moves down, the last one reaches the leaf. */
  ghost predicate Follows<S>(step: (S, bool) -> Result<Move<S>>, s: S, q: seq<bool>, x: int)
    decreases |q|
  {
    q != [] && step(s, q[0]).Ok? &&
    match step(s, q[0]).value
    case Emit(v) => |q| == 1 && v == x
    case Down(n) => Follows(step, n, q[1..], x)
  }

  /** No code word is a proper prefix of another, and a code word determines
      its symbol. */
  lemma {:induction false} PrefixFree<S>(step: (S, bool) -> Result<Move<S>>, s: S,
                                         q1: seq<bool>, x1: int, q2: seq<bool>, x2: int)
    requires Follows(step, s, q1, x1) && Follows(step, s, q2, x2)
    requires q1 <= q2
    ensures q1 == q2 && x1 == x2
    decreases |q1|
  {
    assert q2[0] == q1[0];
    match step(s, q1[0]).value
    case Emit(_) =>
    case Down(n) =>
      assert q1[1..] <= q2[1..];
      PrefixFree(step, n, q1[1..], x1, q2[1..], x2);
      assert q1 == [q1[0]] + q1[1..] && q2 == [q2[0]] + q2[1..];
  }

  /** Every code word in `enc` leads from the root to its own symbol. */
  ghost predicate Sound<S>(step: (S, bool) -> Result<Move<S>>, root: S, enc: map<int, seq<bool>>)
  {
    forall x {:trigger Follows(step, root, enc[x], x)} | x in enc :: Follows(step, root, enc[x], x)
  }

  /** `m_encoding[value]`: the code word of `value`, empty when `value` has
      none (the `operator[]` of the encoding map yields an empty vector). */
  function CodeOf(enc: map<int, seq<bool>>, v: int): seq<bool>
  {
    if v in enc then enc[v] else []
  }

  /** The code words of `vs`, one after the other. */
  function Codes(enc: map<int, seq<bool>>, vs: seq<int>): seq<bool>
  {
    if vs == [] then [] else CodeOf(enc, vs[0]) + Codes(enc, vs[1..])
  }

  /** Walking a code word emits its symbol and nothing else. */
  lemma {:induction false} RunCode<S>(step: (S, bool) -> Result<Move<S>>, root: S, limit: int,
                                      s: S, out: seq<int>, q: seq<bool>, x: int)
    requires Follows(step, s, q, x)
    requires |out| < limit
    ensures Run(step, root, limit, Walk(s, out), q) == Ok(Ran(Walk(root, out + [x]), |q|))
    decreases |q|
  {
    match step(s, q[0]).value
    case Emit(_) =>
    case Down(n) =>
      RunCode(step, root, limit, n, out, q[1..], x);
  }

  /** Walking the code words of `vs` emits `vs`. */
  lemma {:induction false} RunCodes<S>(step: (S, bool) -> Result<Move<S>>, root: S, limit: int,
                                       enc: map<int, seq<bool>>, out: seq<int>, vs: seq<int>)
    requires Sound(step, root, enc)
    requires forall i | 0 <= i < |vs| :: vs[i] in enc
    requires |out| + |vs| <= limit
    ensures Run(step, root, limit, Walk(root, out), Codes(enc, vs)) ==
            Ok(Ran(Walk(root, out + vs), |Codes(enc, vs)|))
    decreases |vs|
  {
    if vs == [] {
      assert out + vs == out;
    } else {
      var c := enc[vs[0]];
      RunCode(step, root, limit, root, out, c, vs[0]);
      RunAppend(step, root, limit, Walk(root, out), c, Codes(enc, vs[1..]), Walk(root, out + [vs[0]]));
      RunCodes(step, root, limit, enc, out + [vs[0]], vs[1..]);
      assert out + [vs[0]] + vs[1..] == out + vs;
    }
  }

  /** `decode(length, begin, end, iter)`: decode until `length` symbols are
      out, checking after each byte; the call returns after the byte in
      which the last symbol ended (after the first byte when `length` is not
      positive), or fails the stream when the bytes run out first. */
  function DecodeSpec<S>(step: (S, bool) -> Result<Move<S>>, root: S, length: int, bytes: seq<byte>): Result<Decoded>
  {
    if bytes == [] then Ok(Decoded([], 0, true))
    else
      match Run(step, root, length, Walk(root, []), Unpack(bytes))
      case Err(m) => Err(m)
      case Ok(ran) =>
        if |ran.walk.out| >= length then
          Ok(Decoded(ran.walk.out, if ran.used == 0 then 1 else (ran.used + 7) / 8, false))
        else Ok(Decoded(ran.walk.out, |bytes|, true))
  }

  /** The number of symbols `decodeWithLength` emits after reading the
      length `n`: `count >= length` is tested only after a symbol is
      emitted, so a length below 1 still lets one symbol out. */
  function LengthLimit(n: int): (r: int)
    ensures r >= 1 && (n >= 1 ==> r == n)
  {
    if n < 1 then 1 else n
  }

  /** A run that fails within the first `j` bits fails the same way on all
      of them. */
  lemma RunPrefixErr<S>(step: (S, bool) -> Result<Move<S>>, root: S, limit: int,
                        w: Walk<S>, bits: seq<bool>, j: nat)
    requires j <= |bits| && Run(step, root, limit, w, bits[..j]).Err?
    ensures Run(step, root, limit, w, bits) == Run(step, root, limit, w, bits[..j])
  {
    RunAppendErr(step, root, limit, w, bits[..j], bits[j..]);
    assert bits[..j] + bits[j..] == bits;
  }

  /** A run that reaches its limit within the first `j` bits ignores the
      rest. */
  lemma RunPrefixStopped<S>(step: (S, bool) -> Result<Move<S>>, root: S, limit: int,
                            w: Walk<S>, bits: seq<bool>, j: nat, w1: Walk<S>, u: nat)
    requires j <= |bits| && Run(step, root, limit, w, bits[..j]) == Ok(Ran(w1, u)) && |w1.out| >= limit
    ensures Run(step, root, limit, w, bits) == Ok(Ran(w1, u))
  {
    RunAppendStopped(step, root, limit, w, bits[..j], bits[j..], w1, u);
    assert bits[..j] + bits[j..] == bits;
  }

  /** `decodeWithLength(begin, end, iter)`: the first symbol decoded is the
      length; then symbols are emitted, in the same bit stream, until their
      count reaches it.  The count is compared only after a symbol is
      emitted, so at least one symbol always follows the length. */
  function DecodeWithLengthSpec<S>(step: (S, bool) -> Result<Move<S>>, root: S, bytes: seq<byte>): Result<Decoded>
  {
    if bytes == [] then Ok(Decoded([], 0, true))
    else
      var bits := Unpack(bytes);
      match Run(step, root, 1, Walk(root, []), bits)
      case Err(m) => Err(m)
      case Ok(r1) =>
        if r1.walk.out == [] then Ok(Decoded([], |bytes|, true))
        else
          var limit := LengthLimit(r1.walk.out[0]);
          match Run(step, root, limit, Walk(root, []), bits[r1.used..])
          case Err(m) => Err(m)
          case Ok(r2) =>
            if |r2.walk.out| >= limit then Ok(Decoded(r2.walk.out, (r1.used + r2.used + 7) / 8, false))
            else Ok(Decoded(r2.walk.out, |bytes|, true))
  }

  lemma {:induction false} CodesSnoc(enc: map<int, seq<bool>>, vs: seq<int>, v: int)
    ensures Codes(enc, vs + [v]) == Codes(enc, vs) + CodeOf(enc, v)
  {
    if vs == [] {
      assert vs + [v] == [v];
    } else {
      assert (vs + [v])[1..] == vs[1..] + [v];
      CodesSnoc(enc, vs[1..], v);
    }
  }

  lemma CodesPrefixStep(enc: map<int, seq<bool>>, vs: seq<int>, k: nat)
    requires k < |vs|
    ensures Codes(enc, vs[..k + 1]) == Codes(enc, vs[..k]) + CodeOf(enc, vs[k])
  {
    assert vs[..k + 1] == vs[..k] + [vs[k]];
    CodesSnoc(enc, vs[..k], vs[k]);
  }

  /** `decodeWithLength` once the length `n` ended at bit `u1` and the
      second phase, over bits `u1` to `p`, failed. */
  lemma LengthThenErr<S>(step: (S, bool) -> Result<Move<S>>, root: S, bytes: seq<byte>,
                         n: int, u1: nat, p: nat, m: string)
    requires u1 < p <= |Unpack(bytes)|
    requires Run(step, root, 1, Walk(root, []), Unpack(bytes)) == Ok(Ran(Walk(root, [n]), u1))
    requires Run(step, root, LengthLimit(n), Walk(root, []), Unpack(bytes)[u1..p]) == Err(m)
    ensures DecodeWithLengthSpec(step, root, bytes) == Err(m)
  {
    var bits := Unpack(bytes);
    SliceOfSlice(bits, u1, p);
    RunPrefixErr(step, root, LengthLimit(n), Walk(root, []), bits[u1..], p - u1);
  }

  /** `decodeWithLength` once the length `n` ended at bit `u1` and the
      second phase, over bits `u1` to `p`, emitted enough symbols. */
  lemma LengthThenDone<S>(step: (S, bool) -> Result<Move<S>>, root: S, bytes: seq<byte>,
                          n: int, u1: nat, p: nat, w: Walk<S>)
    requires u1 < p <= |Unpack(bytes)| && |w.out| >= LengthLimit(n)
    requires Run(step, root, 1, Walk(root, []), Unpack(bytes)) == Ok(Ran(Walk(root, [n]), u1))
    requires Run(step, root, LengthLimit(n), Walk(root, []), Unpack(bytes)[u1..p]) == Ok(Ran(w, p - u1))
    ensures DecodeWithLengthSpec(step, root, bytes) == Ok(Decoded(w.out, (p + 7) / 8, false))
  {
    var bits := Unpack(bytes);
    SliceOfSlice(bits, u1, p);
    RunPrefixStopped(step, root, LengthLimit(n), Walk(root, []), bits[u1..], p - u1, w, p - u1);
  }

  lemma CodesStart(enc: map<int, seq<bool>>, vs: seq<int>)
    requires vs != [] && vs[0] in enc
    ensures Codes(enc, vs) == enc[vs[0]] + Codes(enc, vs[1..])
  {
  }

  /** The bits of a packed bit string followed by more bytes. */
  lemma PackedThenRest(bits: seq<bool>, rest: seq<byte>)
    ensures Unpack(Pack(bits) + rest) == bits + (Zeros(Padding(|bits|)) + Unpack(rest))
  {
    UnpackAppend(Pack(bits), rest);
    UnpackPack(bits);
  }

  /** The code words of `vs` followed by anything: exactly `vs` is decoded
      and the run stops at the end of the last code word. */
  lemma RunCodesThen<S>(step: (S, bool) -> Result<Move<S>>, root: S, enc: map<int, seq<bool>>,
                        vs: seq<int>, tail: seq<bool>)
    requires Sound(step, root, enc)
    requires forall i | 0 <= i < |vs| :: vs[i] in enc
    ensures Run(step, root, |vs|, Walk(root, []), Codes(enc, vs) + tail) ==
            Ok(Ran(Walk(root, vs), |Codes(enc, vs)|))
  {
    RunCodes(step, root, |vs|, enc, [], vs);
    assert [] + vs == vs;
    RunAppendStopped(step, root, |vs|, Walk(root, []), Codes(enc, vs), tail, Walk(root, vs), |Codes(enc, vs)|);
  }

  /** Decoding `|vs|` symbols from the encoding of `vs` gives `vs` back and
      takes exactly the encoding's bytes, whatever follows them. */
  lemma DecodeRoundTrip<S>(step: (S, bool) -> Result<Move<S>>, root: S, enc: map<int, seq<bool>>,
                           vs: seq<int>, rest: seq<byte>)
    requires Sound(step, root, enc)
    requires vs != [] && forall i | 0 <= i < |vs| :: vs[i] in enc
    ensures DecodeSpec(step, root, |vs|, Pack(Codes(enc, vs)) + rest) ==
            Ok(Decoded(vs, |Pack(Codes(enc, vs))|, false))
  {
    var c := Codes(enc, vs);
    var bytes := Pack(c) + rest;
    var tail := Zeros(Padding(|c|)) + Unpack(rest);
    CodesStart(enc, vs);
    PackedThenRest(c, rest);
    assert Unpack(bytes) == c + tail;
    RunCodesThen(step, root, enc, vs, tail);
    assert |c| > 0;
    RunThenDecoded(step, root, |vs|, bytes, Walk(root, vs), |c|);
  }

  /** A run that emits `length` symbols in its first `u` bits: the
      symbols and the bytes they end in. */
  lemma RunThenDecoded<S>(step: (S, bool) -> Result<Move<S>>, root: S, length: int, bytes: seq<byte>, w: Walk<S>, u: nat)
    requires bytes != [] && u > 0 && |w.out| >= length
    requires Run(step, root, length, Walk(root, []), Unpack(bytes)) == Ok(Ran(w, u))
    ensures DecodeSpec(step, root, length, bytes) == Ok(Decoded(w.out, (u + 7) / 8, false))
  {
  }

  /** The length's code word followed by anything: the length is decoded
      and the first phase stops at the end of its code word. */
  lemma LengthThen<S>(step: (S, bool) -> Result<Move<S>>, root: S, q: seq<bool>, n: int, tail: seq<bool>)
    requires Follows(step, root, q, n)
    ensures Run(step, root, 1, Walk(root, []), q + tail) == Ok(Ran(Walk(root, [n]), |q|))
  {
    RunCode(step, root, 1, root, [], q, n);
    assert [] + [n] == [n];
    RunAppendStopped(step, root, 1, Walk(root, []), q, tail, Walk(root, [n]), |q|);
  }

  /** Decoding with length the encoding of a non-empty `vs` preceded by the
      code word of its length gives `vs` back and takes exactly the
      encoding's bytes. */
  lemma DecodeWithLengthRoundTrip<S>(step: (S, bool) -> Result<Move<S>>, root: S, enc: map<int, seq<bool>>,
                                     vs: seq<int>, rest: seq<byte>)
    requires Sound(step, root, enc)
    requires vs != [] && forall i | 0 <= i < |vs| :: vs[i] in enc
    requires |vs| in enc
    ensures DecodeWithLengthSpec(step, root, Pack(CodeOf(enc, |vs|) + Codes(enc, vs)) + rest) ==
            Ok(Decoded(vs, |Pack(CodeOf(enc, |vs|) + Codes(enc, vs))|, false))
  {
    var c0 := enc[|vs|];
    assert CodeOf(enc, |vs|) == c0;
    var c := Codes(enc, vs);
    var packed := Pack(c0 + c);
    assert |packed| == (|c0| + |c| + 7) / 8;
    var bytes := packed + rest;
    var tail := Zeros(Padding(|c0 + c|)) + Unpack(rest);
    PackedThenRest(c0 + c, rest);
    var u := Unpack(bytes);
    assert u == c0 + (c + tail);
    DecodeWithLengthBits(step, root, enc, vs, bytes, u, c0, c, tail);
  }

  /** The same, on any bytes whose bits start with the length's code word
      and the codes of `vs`. */
  lemma DecodeWithLengthBits<S>(step: (S, bool) -> Result<Move<S>>, root: S, enc: map<int, seq<bool>>,
                                vs: seq<int>, bytes: seq<byte>, u: seq<bool>, c0: seq<bool>, c: seq<bool>, tail: seq<bool>)
    requires Sound(step, root, enc)
    requires vs != [] && forall i | 0 <= i < |vs| :: vs[i] in enc
    requires |vs| in enc && c0 == enc[|vs|] && c == Codes(enc, vs)
    requires u == Unpack(bytes) && u == c0 + (c + tail)
    ensures DecodeWithLengthSpec(step, root, bytes) == Ok(Decoded(vs, (|c0| + |c| + 7) / 8, false))
  {
    LengthThen(step, root, c0, |vs|, c + tail);
    var p := |c0| + |c|;
    CodesAt(step, root, enc, vs, u, c0, c, tail, p);
    LengthThenDone(step, root, bytes, |vs|, |c0|, p, Walk(root, vs));
  }

  /** The codes of `vs`, found at their place in the bits. */
  lemma CodesAt<S>(step: (S, bool) -> Result<Move<S>>, root: S, enc: map<int, seq<bool>>,
                   vs: seq<int>, u: seq<bool>, c0: seq<bool>, c: seq<bool>, tail: seq<bool>, p: nat)
    requires Sound(step, root, enc)
    requires vs != [] && forall i | 0 <= i < |vs| :: vs[i] in enc
    requires c == Codes(enc, vs) && u == c0 + (c + tail) && p == |c0| + |c|
    ensures |c0| < p <= |u|
    ensures Run(step, root, |vs|, Walk(root, []), u[|c0|..p]) == Ok(Ran(Walk(root, vs), p - |c0|))
  {
    assert u[|c0|..p] == c + [];
    RunCodesThen(step, root, enc, vs, []);
    CodesStart(enc, vs);
  }

  /** A complete `decodeWithLength` never returns an empty sequence. */
  lemma DecodeWithLengthNeverEmpty<S>(step: (S, bool) -> Result<Move<S>>, root: S, bytes: seq<byte>)
    requires DecodeWithLengthSpec(step, root, bytes).Ok?
    requires !DecodeWithLengthSpec(step, root, bytes).value.exhausted
    ensures |DecodeWithLengthSpec(step, root, bytes).value.values| >= 1
  {
  }

  /** So the encoding of an empty sequence, the code word of 0 alone, does
      not decode back to the empty sequence: the decoder reads one more
      symbol from the padding or from whatever bytes follow. */
  lemma EmptyNotDecoded<S>(step: (S, bool) -> Result<Move<S>>, root: S, enc: map<int, seq<bool>>, rest: seq<byte>)
    ensures DecodeWithLengthSpec(step, root, Pack(CodeOf(enc, 0)) + rest) != Ok(Decoded([], |Pack(CodeOf(enc, 0))|, false))
  {
    var bytes := Pack(CodeOf(enc, 0)) + rest;
    if DecodeWithLengthSpec(step, root, bytes).Ok? && !DecodeWithLengthSpec(step, root, bytes).value.exhausted {
      DecodeWithLengthNeverEmpty(step, root, bytes);
    }
  }

  /** `decodeWithLength` as its encoder evidently intends it: the count is
      compared with the length before any symbol is read, so after a length
      of 0 nothing more is read. */
  function DecodeWithLengthFixedSpec<S>(step: (S, bool) -> Result<Move<S>>, root: S, bytes: seq<byte>): Result<Decoded>
  {
    if bytes == [] then Ok(Decoded([], 0, true))
    else
      var bits := Unpack(bytes);
      match Run(step, root, 1, Walk(root, []), bits)
      case Err(m) => Err(m)
      case Ok(r1) =>
        if r1.walk.out == [] then Ok(Decoded([], |bytes|, true))
        else
          var limit := r1.walk.out[0];
          match Run(step, root, limit, Walk(root, []), bits[r1.used..])
          case Err(m) => Err(m)
          case Ok(r2) =>
            if |r2.walk.out| >= limit then Ok(Decoded(r2.walk.out, (r1.used + r2.used + 7) / 8, false))
            else Ok(Decoded(r2.walk.out, |bytes|, true))
  }

  /** On a length of at least 1 the corrected decoder does what the
      decoder as written does. */
  lemma FixedAgrees<S>(step: (S, bool) -> Result<Move<S>>, root: S, bytes: seq<byte>, n: int, u1: nat)
    requires bytes != [] && n >= 1
    requires Run(step, root, 1, Walk(root, []), Unpack(bytes)) == Ok(Ran(Walk(root, [n]), u1))
    ensures DecodeWithLengthFixedSpec(step, root, bytes) == DecodeWithLengthSpec(step, root, bytes)
  {
    assert [n][0] == n && LengthLimit(n) == n;
  }

  /** After a length of 0 the corrected decoder stops at the end of the
      length's code word. */
  lemma FixedEmpty<S>(step: (S, bool) -> Result<Move<S>>, root: S, bytes: seq<byte>, u1: nat)
    requires bytes != []
    requires Run(step, root, 1, Walk(root, []), Unpack(bytes)) == Ok(Ran(Walk(root, [0]), u1))
    ensures DecodeWithLengthFixedSpec(step, root, bytes) == Ok(Decoded([], (u1 + 7) / 8, false))
  {
    assert [0][0] == 0;
    var bits := Unpack(bytes);
    assert Run(step, root, 0, Walk(root, []), bits[u1..]) == Ok(Ran(Walk(root, []), 0));
  }

  /** The corrected decoder gives back every sequence the encoder writes,
      the empty one included. */
  lemma DecodeWithLengthFixedRoundTrip<S>(step: (S, bool) -> Result<Move<S>>, root: S, enc: map<int, seq<bool>>,
                                          vs: seq<int>, rest: seq<byte>)
    requires Sound(step, root, enc)
    requires forall i | 0 <= i < |vs| :: vs[i] in enc
    requires |vs| in enc
    ensures DecodeWithLengthFixedSpec(step, root, Pack(CodeOf(enc, |vs|) + Codes(enc, vs)) + rest) ==
            Ok(Decoded(vs, |Pack(CodeOf(enc, |vs|) + Codes(enc, vs))|, false))
  {
    var c0 := enc[|vs|];
    assert CodeOf(enc, |vs|) == c0;
    var c := Codes(enc, vs);
    var packed := Pack(c0 + c);
    assert |packed| == (|c0| + |c| + 7) / 8;
    var bytes := packed + rest;
    var tail := Zeros(Padding(|c0 + c|)) + Unpack(rest);
    PackedThenRest(c0 + c, rest);
    var u := Unpack(bytes);
    assert u == c0 + (c + tail);
    DecodeWithLengthFixedBits(step, root, enc, vs, bytes, u, c0, c, tail);
  }

  /** The same, on any bytes whose bits start with the length's code word
      and the codes of `vs`. */
  lemma DecodeWithLengthFixedBits<S>(step: (S, bool) -> Result<Move<S>>, root: S, enc: map<int, seq<bool>>,
                                     vs: seq<int>, bytes: seq<byte>, u: seq<bool>, c0: seq<bool>, c: seq<bool>, tail: seq<bool>)
    requires Sound(step, root, enc)
    requires forall i | 0 <= i < |vs| :: vs[i] in enc
    requires |vs| in enc && c0 == enc[|vs|] && c == Codes(enc, vs)
    requires u == Unpack(bytes) && u == c0 + (c + tail)
    ensures DecodeWithLengthFixedSpec(step, root, bytes) == Ok(Decoded(vs, (|c0| + |c| + 7) / 8, false))
  {
    LengthThen(step, root, c0, |vs|, c + tail);
    assert |c0| > 0;
    if vs == [] {
      FixedEmpty(step, root, bytes, |c0|);
    } else {
      FixedAgrees(step, root, bytes, |vs|, |c0|);
      DecodeWithLengthBits(step, root, enc, vs, bytes, u, c0, c, tail);
    }
  }
}

=== FILE: flat_trees.dfy ===
/** The array layout of moses/src/Hufftree.h: the code tree is stored as
    two vectors.  An entry `v >= 0` of `m_nodes` is an internal node whose
    children are the entries `v` (bit 0) and `v + 1` (bit 1); an entry
    `-k < 0` is a leaf whose symbol is `m_data[k - 1]`.  The root is node
    number 0, so its children are the entries 0 and 1; the root itself has
    no entry. */
module FlatTrees {
  import opened Results
  import opened CodeTrees
  import opened Decoding

  /** One decoder bit on the arrays:
      `node = (byte & mask) ? m_nodes[node+1] : m_nodes[node]`, then, when
      the new `node` is negative, the leaf's symbol `m_data[-node-1]` is
      emitted.  An index outside either vector is an `Err`. */
  function Step(nodes: seq<int>, data: seq<int>, node: int, bit: bool): Result<Move<int>>
  {
    var i := if bit then node + 1 else node;
    if i < 0 || i >= |nodes| then Err("m_nodes index out of range")
    else if nodes[i] >= 0 then Ok(Down(nodes[i]))
    else if -nodes[i] - 1 < |data| then Ok(Emit(data[-nodes[i] - 1]))
    else Err("m_data index out of range")
  }

  /** `Step` on fixed arrays, as the step function of the generic decoder. */
  function Stepper(nodes: seq<int>, data: seq<int>): (int, bool) -> Result<Move<int>>
  {
    (node, bit) => Step(nodes, data, node, bit)
  }

  /** Entry `i` of `m_nodes` stands for the tree `t`. */
  ghost predicate Entry(nodes: seq<int>, data: seq<int>, i: int, t: Tree)
    decreases t
  {
    0 <= i < |nodes| &&
    match t
    case Leaf(_, x) => nodes[i] < 0 && -nodes[i] - 1 < |data| && data[-nodes[i] - 1] == x
    case Node(_, l, r) => nodes[i] >= 0 && Entry(nodes, data, nodes[i], l) && Entry(nodes, data, nodes[i] + 1, r)
  }

  /** The arrays store `t`: an internal root has its children at the
      entries 0 and 1; a lone leaf (the one-symbol layout `m_nodes == [-1]`)
      sits at entry 0, which is where bit 0 leads from the root. */
  ghost predicate Represents(nodes: seq<int>, data: seq<int>, t: Tree)
  {
    match t
    case Leaf(_, _) => Entry(nodes, data, 0, t)
    case Node(_, l, r) => Entry(nodes, data, 0, l) && Entry(nodes, data, 1, r)
  }

  /** The layout invariants of a flattened tree of two or more symbols:
      every internal entry is an even index after its own and has its pair
      of children inside `m_nodes`, every leaf entry names an element of
      `m_data`, and the root's two children exist. */
  ghost predicate WellFormed(nodes: seq<int>, data: seq<int>)
  {
    && |nodes| >= 2
    && (forall i | 0 <= i < |nodes| && nodes[i] >= 0 :: i < nodes[i] && nodes[i] % 2 == 0 && nodes[i] + 1 < |nodes|)
    && (forall i | 0 <= i < |nodes| && nodes[i] < 0 :: -nodes[i] - 1 < |data|)
  }

  /** A value `fill` may be called with: an internal node number whose two
      entries exist, or a leaf reference into `m_data`. */
  ghost predicate Ref(nodes: seq<int>, data: seq<int>, index: int)
  {
    if index >= 0 then index + 1 < |nodes| else -index - 1 < |data|
  }

  /** `fill(index, prefix)`: the codes the recursion stores, later stores
      overwriting earlier ones. */
  function FlatCodes(nodes: seq<int>, data: seq<int>, index: int, prefix: seq<bool>): map<int, seq<bool>>
    requires WellFormed(nodes, data) && Ref(nodes, data, index)
    decreases if index >= 0 then |nodes| - index else 0
  {
    if index >= 0 then
      FlatCodes(nodes, data, nodes[index], prefix + [false]) +
      FlatCodes(nodes, data, nodes[index + 1], prefix + [true])
    else map[data[-index - 1] := prefix]
  }

  /** On the arrays of a tree, `fill` computes the tree's root-to-leaf
      paths. */
  lemma {:induction false} FlatCodesArePaths(nodes: seq<int>, data: seq<int>, i: int, t: Tree, prefix: seq<bool>)
    requires WellFormed(nodes, data) && Entry(nodes, data, i, t)
    ensures Ref(nodes, data, nodes[i])
    ensures FlatCodes(nodes, data, nodes[i], prefix) == PathCodes(t, prefix)
    decreases t
  {
    if t.Node? {
      FlatCodesArePaths(nodes, data, nodes[i], t.left, prefix + [false]);
      FlatCodesArePaths(nodes, data, nodes[i] + 1, t.right, prefix + [true]);
    }
  }

  /** `fill(0, [])` on the arrays of an internal root: the tree's paths. */
  lemma RootCodesArePaths(nodes: seq<int>, data: seq<int>, t: Tree)
    requires WellFormed(nodes, data) && Represents(nodes, data, t) && t.Node?
    ensures FlatCodes(nodes, data, 0, []) == PathCodes(t, [])
  {
    assert [] + [false] == [false] && [] + [true] == [true];
    FlatCodesArePaths(nodes, data, 0, t.left, [false]);
    FlatCodesArePaths(nodes, data, 1, t.right, [true]);
  }

  /** Every code `fill(index, prefix)` stores is `prefix` followed by bits
      that lead the decoder from node `index` to that code's own symbol. */
  lemma {:induction false} FlatCodesFollow(nodes: seq<int>, data: seq<int>, index: int, prefix: seq<bool>)
    requires WellFormed(nodes, data) && index >= 0 && Ref(nodes, data, index)
    ensures forall x | x in FlatCodes(nodes, data, index, prefix) ::
      var c := FlatCodes(nodes, data, index, prefix)[x];
      |prefix| < |c| && c[..|prefix|] == prefix && Follows(Stepper(nodes, data), index, c[|prefix|..], x)
    decreases |nodes| - index, 1
  {
    ChildFollows(nodes, data, index, false, prefix);
    ChildFollows(nodes, data, index, true, prefix);
  }

  /** The codes stored below one child of node `index`: `prefix`, the bit
      that selects that child, then bits leading from the child to the
      symbol. */
  lemma {:induction false} ChildFollows(nodes: seq<int>, data: seq<int>, index: int, bit: bool, prefix: seq<bool>)
    requires WellFormed(nodes, data) && index >= 0 && Ref(nodes, data, index)
    ensures var child := if bit then nodes[index + 1] else nodes[index];
      Ref(nodes, data, child) &&
      forall x | x in FlatCodes(nodes, data, child, prefix + [bit]) ::
        var c := FlatCodes(nodes, data, child, prefix + [bit])[x];
        |prefix| < |c| && c[..|prefix|] == prefix && Follows(Stepper(nodes, data), index, c[|prefix|..], x)
    decreases |nodes| - index, 0
  {
    var child := if bit then nodes[index + 1] else nodes[index];
    var p := prefix + [bit];
    var m := FlatCodes(nodes, data, child, p);
    if child >= 0 {
      FlatCodesFollow(nodes, data, child, p);
      forall x | x in m
        ensures |prefix| < |m[x]| && m[x][..|prefix|] == prefix && Follows(Stepper(nodes, data), index, m[x][|prefix|..], x)
      {
        var c := m[x];
        assert c[..|p|][..|prefix|] == c[..|prefix|];
        assert c[|prefix|..][0] == c[..|p|][|prefix|] == bit;
        assert c[|prefix|..][1..] == c[|p|..];
      }
    } else {
      forall x | x in m
        ensures |prefix| < |m[x]| && m[x][..|prefix|] == prefix && Follows(Stepper(nodes, data), index, m[x][|prefix|..], x)
      {
        assert m[x] == p;
        assert p[|prefix|..] == [bit];
      }
    }
  }

  /** The codes `fill(0, [])` stores are sound for the decoder started at
      node 0: each one leads to its own symbol. */
  lemma RootCodesSound(nodes: seq<int>, data: seq<int>)
    requires WellFormed(nodes, data)
    ensures Sound(Stepper(nodes, data), 0, FlatCodes(nodes, data, 0, []))
  {
    FlatCodesFollow(nodes, data, 0, []);
    forall x | x in FlatCodes(nodes, data, 0, [])
      ensures Follows(Stepper(nodes, data), 0, FlatCodes(nodes, data, 0, [])[x], x)
    {
      assert FlatCodes(nodes, data, 0, [])[x][0..] == FlatCodes(nodes, data, 0, [])[x];
    }
  }

  /** The one-symbol layout `m_nodes == [-1]`, `m_data == [v]`: the code
      `[false]` leads from node 0 to `v`. */
  lemma SingleSound(v: int)
    ensures Sound(Stepper([-1], [v]), 0, map[v := [false]])
  {
    assert Step([-1], [v], 0, false) == Ok(Emit(v));
  }

  /** Sum of the sizes of the trees waiting in the queue. */
  function QueueSize(q: seq<Tree>): nat
  {
    if q == [] then 0 else Size(q[0]) + QueueSize(q[1..])
  }

  /** Sum of the leaf counts of the trees waiting in the queue. */
  function QueueLeaves(q: seq<Tree>): nat
  {
    if q == [] then 0 else Leaves(q[0]) + QueueLeaves(q[1..])
  }

  lemma {:induction false} QueueSumsAppend(a: seq<Tree>, b: seq<Tree>)
    ensures QueueSize(a + b) == QueueSize(a) + QueueSize(b)
    ensures QueueLeaves(a + b) == QueueLeaves(a) + QueueLeaves(b)
  {
    if a == [] {
      assert a + b == b;
    } else {
      assert (a + b)[1..] == a[1..] + b;
      QueueSumsAppend(a[1..], b);
    }
  }

  /** What the breadth-first walk has written for entry `i`, which stands
      for `all[i + 1]`, the `(i + 2)`-th tree taken from the queue: an
      internal node's entry is an even index after its own whose two
      entries stand for its children; a leaf's entry names its symbol. */
  ghost predicate Laid(nodes: seq<int>, data: seq<int>, all: seq<Tree>, i: int)
  {
    0 <= i < |nodes| && i + 1 < |all| &&
    match all[i + 1]
    case Node(_, l, r) =>
      var v := nodes[i];
      v >= 0 && v % 2 == 0 && i < v && v + 2 < |all| && all[v + 1] == l && all[v + 2] == r
    case Leaf(_, x) =>
      nodes[i] < 0 && -nodes[i] - 1 < |data| && data[-nodes[i] - 1] == x
  }

  lemma LaidGrows(nodes: seq<int>, data: seq<int>, all: seq<Tree>,
                  nodes': seq<int>, data': seq<int>, all': seq<Tree>, i: int)
    requires Laid(nodes, data, all, i)
    requires nodes <= nodes' && data <= data' && all <= all'
    ensures Laid(nodes', data', all', i)
  {
    var v := nodes[i];
    if all[i + 1].Node? {
      assert all'[v + 1] == all[v + 1] && all'[v + 2] == all[v + 2];
    } else {
      assert data'[-v - 1] == data[-v - 1];
    }
  }

  /** Once every entry is laid out, entry `i` stands for `all[i + 1]`. */
  lemma {:induction false} LaidEntry(nodes: seq<int>, data: seq<int>, all: seq<Tree>, i: int)
    requires |nodes| + 1 == |all|
    requires forall j | 0 <= j < |nodes| :: Laid(nodes, data, all, j)
    requires 0 <= i < |nodes|
    ensures Entry(nodes, data, i, all[i + 1])
    decreases |nodes| - i
  {
    assert Laid(nodes, data, all, i);
    if all[i + 1].Node? {
      LaidEntry(nodes, data, all, nodes[i]);
      LaidEntry(nodes, data, all, nodes[i] + 1);
    }
  }

  /** Taking the front tree off the queue, and queueing its children when
      it is an internal node, moves its size and its leaves out of the
      queue's sums. */
  lemma QueueTake(q: seq<Tree>)
    requires q != []
    ensures QueueSize(q) == Size(q[0]) + QueueSize(q[1..])
    ensures QueueLeaves(q) == Leaves(q[0]) + QueueLeaves(q[1..])
    ensures q[0].Node? ==>
      && QueueSize(q[1..] + [q[0].left, q[0].right]) == QueueSize(q[1..]) + Size(q[0].left) + Size(q[0].right)
      && QueueLeaves(q[1..] + [q[0].left, q[0].right]) == QueueLeaves(q[1..]) + Leaves(q[0].left) + Leaves(q[0].right)
  {
    if q[0].Node? {
      var children := [q[0].left, q[0].right];
      assert children[1..] == [q[0].right] && children[1..][1..] == [];
      QueueSumsAppend(q[1..], children);
    }
  }

  /** What the walk has laid out after taking `popped` trees from the
      queue: `all` lists every tree queued so far, in queue order, and each
      entry written so far stands for its tree. */
  ghost predicate Layout(tree: Tree, nodes: seq<int>, data: seq<int>, all: seq<Tree>, popped: nat, nodeNo: int)
  {
    && tree.Node? && popped <= |all| && |all| == 1 + nodeNo && nodeNo % 2 == 0 && all[0] == tree
    && (popped == 0 ==> nodeNo == 0 && nodes == [] && data == [])
    && (popped >= 1 ==> nodeNo >= 2 && |nodes| == popped - 1 && all[1] == tree.left && all[2] == tree.right)
    && forall j | 0 <= j < |nodes| :: Laid(nodes, data, all, j)
  }

  /** Taking an internal node queues its children and, unless it is the
      root, writes `nodeNo` as its entry. */
  lemma LayoutNode(tree: Tree, nodes: seq<int>, data: seq<int>, all: seq<Tree>, popped: nat, nodeNo: int)
    requires Layout(tree, nodes, data, all, popped, nodeNo) && popped < |all| && all[popped].Node?
    ensures var t := all[popped];
            Layout(tree, if nodeNo > 0 then nodes + [nodeNo] else nodes, data, all + [t.left, t.right], popped + 1, nodeNo + 2)
  {
    var t := all[popped];
    var nodes' := if nodeNo > 0 then nodes + [nodeNo] else nodes;
    var all' := all + [t.left, t.right];
    forall j | 0 <= j < |nodes|
      ensures Laid(nodes', data, all', j)
    {
      LaidGrows(nodes, data, all, nodes', data, all', j);
    }
    if nodeNo > 0 {
      assert Laid(nodes', data, all', |nodes|);
    }
  }

  /** Taking a leaf writes the next negative entry and appends its symbol. */
  lemma LayoutLeaf(tree: Tree, nodes: seq<int>, data: seq<int>, all: seq<Tree>, popped: nat, nodeNo: int)
    requires Layout(tree, nodes, data, all, popped, nodeNo) && popped < |all| && all[popped].Leaf? && tree.Node?
    ensures Layout(tree, nodes + [-|data| - 1], data + [all[popped].value], all, popped + 1, nodeNo)
  {
    var nodes', data' := nodes + [-|data| - 1], data + [all[popped].value];
    forall j | 0 <= j < |nodes|
      ensures Laid(nodes', data', all, j)
    {
      LaidGrows(nodes, data, all, nodes', data', all, j);
    }
    assert Laid(nodes', data', all, |nodes|);
  }

  /** The constructor's breadth-first walk: take the front tree; an internal
      node queues its two children and, unless it is the root, gets the
      entry `node_no`, the number of the entry pair its children will
      occupy; a leaf gets the entry `--symb_no` and its symbol is appended to
      `m_data`. */
  method Flatten(tree: Tree) returns (nodes: seq<int>, data: seq<int>)
    requires tree.Node?
    ensures WellFormed(nodes, data) && Represents(nodes, data, tree)
    ensures |nodes| == Size(tree) - 1 && |data| == Leaves(tree)
  {
    var queue := [tree];
    nodes, data := [], [];
    var nodeNo, symbNo := 0, 0;
    ghost var all := [tree];
    ghost var popped := 0;
    while queue != []
      invariant Layout(tree, nodes, data, all, popped, nodeNo)
      invariant queue == all[popped..] && symbNo == -|data|
      invariant Size(tree) == popped + QueueSize(queue)
      invariant Leaves(tree) == |data| + QueueLeaves(queue)
      decreases QueueSize(queue)
    {
      var actual := queue[0];
      QueueTake(queue);
      queue := queue[1..];
      if actual.Node? {
        LayoutNode(tree, nodes, data, all, popped, nodeNo);
        queue := queue + [actual.left, actual.right];
        all := all + [actual.left, actual.right];
        if nodeNo > 0 {
          nodes := nodes + [nodeNo];
        }
        nodeNo := nodeNo + 2;
      } else {
        LayoutLeaf(tree, nodes, data, all, popped, nodeNo);
        symbNo := symbNo - 1;
        nodes := nodes + [symbNo];
        data := data + [actual.value];
      }
      popped := popped + 1;
      assert queue == all[popped..];
    }
    LayoutDone(tree, nodes, data, all, popped, nodeNo);
  }

  /** When the queue is empty, every entry is laid out, so the arrays are
      well formed and store the tree. */
  lemma LayoutDone(tree: Tree, nodes: seq<int>, data: seq<int>, all: seq<Tree>, popped: nat, nodeNo: int)
    requires Layout(tree, nodes, data, all, popped, nodeNo) && popped == |all| && tree.Node?
    ensures WellFormed(nodes, data) && Represents(nodes, data, tree)
  {
    LaidEntry(nodes, data, all, 0);
    LaidEntry(nodes, data, all, 1);
    forall i | 0 <= i < |nodes| && nodes[i] >= 0
      ensures i < nodes[i] && nodes[i] % 2 == 0 && nodes[i] + 1 < |nodes|
    {
      assert Laid(nodes, data, all, i);
    }
    forall i | 0 <= i < |nodes| && nodes[i] < 0
      ensures -nodes[i] - 1 < |data|
    {
      assert Laid(nodes, data, all, i);
    }
  }
}

=== FILE: hash_index.dfy ===
/** The fingerprint-checked minimal perfect hash of moses/src/HashIndex.h.
    The perfect hash built by the cmph library (`cmph_new`, `cmph_search`)
    and the MurmurHash3 fingerprint are opaque: the first is the function
    handed to `Create`, the second the function the index is made with.
    `GetHash` trusts the perfect hash's slot only when the key's fingerprint
    matches the one stored there. */
module HashIndex {
  import opened Results

  /** A 32-bit unsigned fingerprint. */
  type Fprint = x: int | 0 <= x < 0x1_0000_0000

  /** No two different keys share a slot. */
  ghost predicate Injective(hash: string -> nat, keys: seq<string>)
  {
    forall i, j | 0 <= i < |keys| && 0 <= j < |keys| && hash(keys[i]) == hash(keys[j]) :: keys[i] == keys[j]
  }

  /** No key hashes to slot `j`. */
  ghost predicate Unhit(hash: string -> nat, keys: seq<string>, j: int)
  {
    forall i | 0 <= i < |keys| :: hash(keys[i]) != j
  }

  /** No key after `keys[i]` hashes to the slot of `keys[i]`: its fingerprint
      is the one left there. */
  ghost predicate LastAt(hash: string -> nat, keys: seq<string>, i: int)
    requires 0 <= i < |keys|
  {
    forall i2 | i < i2 < |keys| :: hash(keys[i2]) != hash(keys[i])
  }

  function Max(a: nat, b: nat): nat
  {
    if a < b then b else a
  }

  /** The length `m_fprints` grows to from `n` when the keys' slots are
      filled: at least one past every slot. */
  function Grown(n: nat, hash: string -> nat, keys: seq<string>): (r: nat)
    ensures r >= n && forall i | 0 <= i < |keys| :: hash(keys[i]) < r
  {
    if keys == [] then n
    else Max(Grown(n, hash, keys[..|keys| - 1]), hash(keys[|keys| - 1]) + 1)
  }

  /** Slot `j` of `m_fprints` before the keys are written: its old entry, or
      the 0 that `resize` puts in. */
  function Before(f: seq<Fprint>, j: nat): Fprint
  {
    if j < |f| then f[j] else 0
  }

  /** `f` is what `m_fprints` becomes from `f0` once the fingerprints of
      `keys` are written: one slot past every key's slot (or as long as
      before), each key's slot holding the fingerprint of the last key
      hashed there, every other slot as before or 0. */
  ghost predicate Written(f0: seq<Fprint>, hash: string -> nat, fprint: string -> Fprint, keys: seq<string>, f: seq<Fprint>)
  {
    && |f| == Grown(|f0|, hash, keys)
    && (forall j | 0 <= j < |f| && Unhit(hash, keys, j) :: f[j] == Before(f0, j))
    && (forall i | 0 <= i < |keys| && LastAt(hash, keys, i) :: f[hash(keys[i])] == fprint(keys[i]))
  }

  /** One turn of `CalcFprints`: grow to one past `idx` if shorter, then
      store `v` at `idx`. */
  function Store(f: seq<Fprint>, idx: nat, v: Fprint): (r: seq<Fprint>)
    ensures |r| == Max(|f|, idx + 1) && r[idx] == v
    ensures forall j | 0 <= j < |r| && j != idx :: r[j] == Before(f, j)
  {
    (if idx >= |f| then f + FreshSlots(idx + 1 - |f|) else f)[idx := v]
  }

  /** Writing one more key keeps `Written`. */
  lemma WriteStep(f0: seq<Fprint>, hash: string -> nat, fprint: string -> Fprint, keys: seq<string>, k: nat, f: seq<Fprint>)
    requires k < |keys| && Written(f0, hash, fprint, keys[..k], f)
    ensures Written(f0, hash, fprint, keys[..k + 1], Store(f, hash(keys[k]), fprint(keys[k])))
  {
    var ks, ks1 := keys[..k], keys[..k + 1];
    assert ks1[..k] == ks && ks1 == ks + [keys[k]];
    var g := Store(f, hash(keys[k]), fprint(keys[k]));
    UnhitStep(f0, hash, ks, keys[k], ks1, f, g);
    LastStep(hash, fprint, ks, keys[k], ks1, f, g);
  }

  /** A slot no key of `ks1 == ks + [key]` hashes to keeps its entry. */
  lemma UnhitStep(f0: seq<Fprint>, hash: string -> nat, ks: seq<string>, key: string, ks1: seq<string>,
                  f: seq<Fprint>, g: seq<Fprint>)
    requires ks1 == ks + [key] && |f| >= |f0|
    requires forall j | 0 <= j < |f| && Unhit(hash, ks, j) :: f[j] == Before(f0, j)
    requires forall j | 0 <= j < |g| && j != hash(key) :: g[j] == Before(f, j)
    ensures forall j | 0 <= j < |g| && Unhit(hash, ks1, j) :: g[j] == Before(f0, j)
  {
    forall j | 0 <= j < |g| && Unhit(hash, ks1, j)
      ensures g[j] == Before(f0, j)
    {
      assert hash(ks1[|ks|]) != j;
      assert Unhit(hash, ks, j) by {
        forall i | 0 <= i < |ks| ensures hash(ks[i]) != j {
          assert ks[i] == ks1[i];
        }
      }
    }
  }

  /** The last key of `ks1 == ks + [key]` hashed to a slot owns it. */
  lemma LastStep(hash: string -> nat, fprint: string -> Fprint, ks: seq<string>, key: string, ks1: seq<string>,
                 f: seq<Fprint>, g: seq<Fprint>)
    requires ks1 == ks + [key] && |g| >= |f|
    requires forall i | 0 <= i < |ks| :: hash(ks[i]) < |f|
    requires forall i | 0 <= i < |ks| && LastAt(hash, ks, i) :: f[hash(ks[i])] == fprint(ks[i])
    requires hash(key) < |g| && g[hash(key)] == fprint(key)
    requires forall j | 0 <= j < |g| && j != hash(key) :: g[j] == Before(f, j)
    ensures forall i | 0 <= i < |ks1| && LastAt(hash, ks1, i) :: hash(ks1[i]) < |g| && g[hash(ks1[i])] == fprint(ks1[i])
  {
    forall i | 0 <= i < |ks1| && LastAt(hash, ks1, i)
      ensures hash(ks1[i]) < |g| && g[hash(ks1[i])] == fprint(ks1[i])
    {
      if i < |ks| {
        assert ks1[i] == ks[i];
        assert hash(ks1[|ks|]) != hash(ks1[i]);
        assert LastAt(hash, ks, i) by {
          forall i2 | i < i2 < |ks| ensures hash(ks[i2]) != hash(ks[i]) {
            assert ks[i2] == ks1[i2];
          }
        }
      }
    }
  }

  /** `Save`: the number of fingerprints, then the fingerprints (after the
      dump of the perfect hash, which is not part of this model). */
  function SavedPrints(fprints: seq<Fprint>): seq<Cell>
  {
    [Num(|fprints|)] + Nums(fprints)
  }

  /** What `Load` reads after the perfect hash: a count, then that many
      32-bit fingerprints, or None when the stream holds anything else. */
  function ReadPrints(s: seq<Cell>): (r: Option<seq<Fprint>>)
    ensures r.Some? ==> |s| > 0 && s[0].Num? && |r.value| == s[0].n && 1 + |r.value| <= |s|
  {
    if |s| == 0 || !s[0].Num? || s[0].n < 0 then None
    else
      match ReadNums(s[1..], s[0].n)
      case None => None
      case Some(xs) =>
        if forall i | 0 <= i < |xs| :: 0 <= xs[i] < 0x1_0000_0000 then Some(xs) else None
  }

  /** Reading back what `Save` wrote gives the same fingerprints. */
  lemma ReadSavedPrints(fprints: seq<Fprint>, rest: seq<Cell>)
    ensures ReadPrints(SavedPrints(fprints) + rest) == Some(fprints)
  {
    var s := SavedPrints(fprints) + rest;
    assert s[1..] == Nums(fprints) + rest;
    ReadNumsOfNums(fprints, rest);
  }

  /** Every key's slot lies inside `f` and holds the key's own
      fingerprint, so that `GetHash` finds the key there. */
  ghost predicate OwnSlots(hash: string -> nat, fprint: string -> Fprint, keys: seq<string>, f: seq<Fprint>)
  {
    forall i | 0 <= i < |keys| :: hash(keys[i]) < |f| && f[hash(keys[i])] == fprint(keys[i])
  }

  /** With a hash injective on the keys, every key's slot holds the key's
      own fingerprint once the fingerprints are written: the last key to
      write a slot is the same key. */
  lemma {:induction false} OwnPrints(hash: string -> nat, fprint: string -> Fprint, keys: seq<string>, f: seq<Fprint>)
    requires Injective(hash, keys)
    requires forall i | 0 <= i < |keys| :: hash(keys[i]) < |f|
    requires forall i | 0 <= i < |keys| && LastAt(hash, keys, i) :: f[hash(keys[i])] == fprint(keys[i])
    ensures forall i | 0 <= i < |keys| :: f[hash(keys[i])] == fprint(keys[i])
  {
    forall i | 0 <= i < |keys|
      ensures f[hash(keys[i])] == fprint(keys[i])
    {
      var last := LastWith(hash, keys, i);
      assert keys[last] == keys[i];
    }
  }

  /** The last index whose key shares the slot of `keys[i]`. */
  lemma {:induction false} LastWith(hash: string -> nat, keys: seq<string>, i: nat) returns (last: nat)
    requires i < |keys|
    ensures i <= last < |keys| && hash(keys[last]) == hash(keys[i]) && LastAt(hash, keys, last)
    decreases |keys| - i
  {
    if LastAt(hash, keys, i) {
      last := i;
    } else {
      var i2 :| i < i2 < |keys| && hash(keys[i2]) == hash(keys[i]);
      last := LastWith(hash, keys, i2);
    }
  }

  class HashIndex {
    var keys: seq<string>
    var fprints: seq<Fprint>
    var hash: string -> nat
    const fprint: string -> Fprint

    /** `HashIndex()`: no keys, no fingerprints.  There is no perfect hash
        before `Create`; the placeholder sends every key to slot 0, which
        no lookup may use while `m_fprints` is empty. */
    constructor (fprint: string -> Fprint)
      ensures keys == [] && fprints == [] && this.fprint == fprint
    {
      keys, fprints, hash, this.fprint := [], [], _ => 0, fprint;
    }

    /** `GetSize()`: the number of fingerprint slots. */
    function GetSize(): (r: nat)
      reads this
      ensures r == |fprints|
    {
      |fprints|
    }

    /** `GetHash(key)`: the perfect hash's slot when the fingerprint stored
        there is the key's, `GetSize()` otherwise.  The slot is read without
        a bounds check, so it must be a slot of `m_fprints`. */
    function GetHash(key: string): (r: nat)
      reads this
      requires hash(key) < |fprints|
      ensures r == hash(key) <==> fprint(key) == fprints[hash(key)]
      ensures r != hash(key) <==> r == GetSize()
    {
      var idx := hash(key);
      if fprint(key) == fprints[idx] then idx else GetSize()
    }

    /** `GetHashByIndex(index)`: `GetHash` of the `index`-th key added, or
        `GetSize()` past the last key. */
    function GetHashByIndex(index: nat): (r: nat)
      reads this
      requires index < |keys| ==> hash(keys[index]) < |fprints|
      ensures index < |keys| ==> r == GetHash(keys[index])
      ensures index >= |keys| ==> r == GetSize()
    {
      if index < |keys| then GetHash(keys[index]) else GetSize()
    }

    /** `AddKey(key)`: append the key. */
    method AddKey(key: string)
      modifies this
      ensures keys == old(keys) + [key]
      ensures fprints == old(fprints) && hash == old(hash)
    {
      keys := keys + [key];
    }

    /** `ClearKeys()`: its body is empty, so the keys stay. */
    method ClearKeys()
      ensures keys == old(keys) && fprints == old(fprints) && hash == old(hash)
    {
    }

    /** `Create()`: take the perfect hash built on the keys, then write the
        fingerprints.  When the hash is injective on the keys, as a perfect
        hash is, every key added is found at its own slot. */
    method Create(mph: string -> nat)
      modifies this
      ensures keys == old(keys) && hash == mph
      ensures Written(old(fprints), hash, fprint, keys, fprints)
      ensures Injective(hash, keys) ==>
        forall i | 0 <= i < |keys| :: hash(keys[i]) < GetSize() && GetHash(keys[i]) == hash(keys[i])
      ensures Injective(hash, keys) ==> OwnSlots(hash, fprint, keys, fprints)
    {
      hash := mph;
      CalcFprints();
      if Injective(hash, keys) {
        OwnPrints(hash, fprint, keys, fprints);
      }
    }

    /** `CalcFprints()`: for each key in turn, grow `m_fprints` to one past
        the key's slot when it is shorter, and store the key's fingerprint
        there; a later key with the same slot overwrites an earlier one. */
    method CalcFprints()
      modifies this
      ensures keys == old(keys) && hash == old(hash)
      ensures Written(old(fprints), hash, fprint, keys, fprints)
    {
      var ks, h, f0 := keys, hash, fprints;
      var f: seq<Fprint> := fprints;
      for k := 0 to |ks|
        invariant Written(f0, h, fprint, ks[..k], f)
        invariant keys == ks && hash == h
      {
        var idx := h(ks[k]);
        WriteStep(f0, h, fprint, ks, k, f);
        ghost var before := f;
        if idx >= |f| {
          f := f + FreshSlots(idx + 1 - |f|);
        }
        f := f[idx := fprint(ks[k])];
        assert f == Store(before, idx, fprint(ks[k]));
      }
      assert ks[..|ks|] == ks;
      fprints := f;
    }

    /** `Save(mphf)`: the fingerprints, with their count in front. */
    method Save() returns (cells: seq<Cell>)
      ensures cells == SavedPrints(fprints)
      ensures ReadPrints(cells) == Some(fprints)
    {
      cells := [Num(|fprints|)] + Nums(fprints);
      ReadSavedPrints(fprints, []);
      assert cells + [] == cells;
    }

    /** `Load(mphf)`: take the perfect hash read back, then the fingerprints;
        what `Save` wrote is read back to the same fingerprints, so every
        lookup answers as before. */
    method Load(mph: string -> nat, cells: seq<Cell>)
      requires ReadPrints(cells).Some?
      modifies this
      ensures hash == mph && fprints == ReadPrints(cells).value && keys == old(keys)
    {
      hash := mph;
      fprints := ReadPrints(cells).value;
    }
  }

  /** `n` fresh slots. */
  function FreshSlots(n: nat): (r: seq<Fprint>)
    ensures |r| == n && forall i | 0 <= i < n :: r[i] == 0
  {
    if n == 0 then [] else [0] + FreshSlots(n - 1)
  }
}

=== FILE: huffman.dfy ===
/** The pointer-tree Huffman coder of moses/src/Huffman.h.  The coder holds
    the tree itself (here a `Tree` value) and walks it node by node while
    decoding; `encoding` maps each symbol to its root-to-leaf path.  The
    nodes of one instantiation share the static counter `Node::nodes`,
    bumped by every leaf made; `Save` writes that counter as the number of
    leaves to read back. */
module Huffman {
  import opened Results
  import opened Bits
  import opened CodeTrees
  import opened Decoding
  import Coders

  /** One decoding step from the node `node`: take the right child on a set
      bit, the left child on a clear one; a leaf child emits its symbol (and
      the walk restarts at the root), an internal child becomes the new
      position.  A leaf has no children (its `leftChild` is null and its
      `rightChild` shares storage with `data`), so a step from a leaf, which
      happens only when the whole tree is one leaf, is an error. */
  function TreeStep(node: Tree, bit: bool): (r: Result<Move<Tree>>)
    ensures r.Ok? <==> node.Node?
    ensures r.Ok? ==> var child := if bit then node.right else node.left;
      (child.Leaf? ==> r.value == Emit(child.value)) && (child.Node? ==> r.value == Down(child))
  {
    if node.Leaf? then Err("step from a leaf")
    else
      var child := if bit then node.right else node.left;
      if child.Leaf? then Ok(Emit(child.value)) else Ok(Down(child))
  }

  /** `TreeStep` as the step function of the generic decoder. */
  function TreeStepper(): (Tree, bool) -> Result<Move<Tree>>
  {
    (node, bit) => TreeStep(node, bit)
  }

  /** Every code `fill` stores below an internal node `t` is `prefix`
      followed by bits that lead the decoder from `t` to that code's own
      symbol. */
  lemma {:induction false} PathCodesFollow(t: Tree, prefix: seq<bool>)
    requires t.Node?
    ensures forall x | x in PathCodes(t, prefix) ::
      var c := PathCodes(t, prefix)[x];
      |prefix| < |c| && c[..|prefix|] == prefix && Follows(TreeStepper(), t, c[|prefix|..], x)
    decreases t, 1
  {
    ChildPathsFollow(t, false, prefix);
    ChildPathsFollow(t, true, prefix);
  }

  /** The codes stored below one child of the internal node `t`: `prefix`,
      the bit that selects that child, then bits leading from the child to
      the symbol. */
  lemma {:induction false} ChildPathsFollow(t: Tree, bit: bool, prefix: seq<bool>)
    requires t.Node?
    ensures var child := if bit then t.right else t.left;
      forall x | x in PathCodes(child, prefix + [bit]) ::
        var c := PathCodes(child, prefix + [bit])[x];
        |prefix| < |c| && c[..|prefix|] == prefix && Follows(TreeStepper(), t, c[|prefix|..], x)
    decreases t, 0
  {
    var child := if bit then t.right else t.left;
    var p := prefix + [bit];
    var m := PathCodes(child, p);
    if child.Node? {
      PathCodesFollow(child, p);
      forall x | x in m
        ensures |prefix| < |m[x]| && m[x][..|prefix|] == prefix && Follows(TreeStepper(), t, m[x][|prefix|..], x)
      {
        var c := m[x];
        assert c[..|p|][..|prefix|] == c[..|prefix|];
        assert c[|prefix|..][0] == c[..|p|][|prefix|] == bit;
        assert c[|prefix|..][1..] == c[|p|..];
      }
    } else {
      forall x | x in m
        ensures |prefix| < |m[x]| && m[x][..|prefix|] == prefix && Follows(TreeStepper(), t, m[x][|prefix|..], x)
      {
        assert m[x] == p;
        assert p[|prefix|..] == [bit];
      }
    }
  }

  /** For a tree with two or more leaves, the codes `fill(bitvec)` stores
      from the root are sound for the decoder started at the root: each
      leads to its own symbol, so they are prefix free. */
  lemma RootPathsSound(t: Tree)
    requires t.Node?
    ensures Sound(TreeStepper(), t, PathCodes(t, []))
  {
    PathCodesFollow(t, []);
    forall x | x in PathCodes(t, [])
      ensures Follows(TreeStepper(), t, PathCodes(t, [])[x], x)
    {
      assert PathCodes(t, [])[x][0..] == PathCodes(t, [])[x];
    }
  }

  /** A tree of one leaf: its symbol's code is empty, so every sequence of
      that symbol encodes to no bits at all, and decoding anything fails at
      the first bit. */
  lemma SingleLeaf(f: nat, v: int, vs: seq<int>, length: int, bytes: seq<byte>)
    requires forall i | 0 <= i < |vs| :: vs[i] == v
    requires bytes != [] && length >= 1
    ensures Codes(PathCodes(Leaf(f, v), []), vs) == []
    ensures DecodeSpec(TreeStepper(), Leaf(f, v), length, bytes).Err?
  {
    SingleLeafCodes(f, v, vs);
    var bits := Unpack(bytes);
    assert TreeStep(Leaf(f, v), bits[0]).Err?;
  }

  lemma {:induction false} SingleLeafCodes(f: nat, v: int, vs: seq<int>)
    requires forall i | 0 <= i < |vs| :: vs[i] == v
    ensures Codes(PathCodes(Leaf(f, v), []), vs) == []
  {
    if vs != [] {
      SingleLeafCodes(f, v, vs[1..]);
    }
  }

  /** The leaves of `t` from left to right, as (symbol, frequency) pairs:
      the order in which `Node::Save` visits them. */
  function LeafList(t: Tree): (r: seq<(int, nat)>)
    ensures |r| == Leaves(t)
  {
    match t
    case Leaf(f, v) => [(v, f)]
    case Node(_, l, r) => LeafList(l) + LeafList(r)
  }

  /** The numbers `Node::Save` writes: for each leaf from left to right,
      its frequency, then its symbol. */
  function LeafNums(t: Tree): (r: seq<int>)
    ensures |r| == 2 * Leaves(t)
  {
    match t
    case Leaf(f, v) => [f, v]
    case Node(_, l, r) => LeafNums(l) + LeafNums(r)
  }

  /** The leaves are the tree's (symbol, frequency) pairs. */
  lemma {:induction false} LeafListBag(t: Tree)
    ensures multiset(LeafList(t)) == LeafBag(t)
  {
    if t.Node? {
      LeafListBag(t.left);
      LeafListBag(t.right);
    }
  }

  /** Pairs (frequency, symbol) read back from a flat list of numbers, or
      None when a frequency is negative (the frequency is unsigned). */
  function ReadLeaves(xs: seq<int>): (r: Option<seq<(int, nat)>>)
    requires |xs| % 2 == 0
    ensures r.Some? ==> 2 * |r.value| == |xs|
  {
    if xs == [] then Some([])
    else if xs[0] < 0 then None
    else
      match ReadLeaves(xs[2..])
      case None => None
      case Some(rest) => Some([(xs[1], xs[0])] + rest)
  }

  lemma {:induction false} ReadLeafNums(t: Tree)
    ensures ReadLeaves(LeafNums(t)) == Some(LeafList(t))
  {
    if t.Node? {
      ReadLeafNums(t.left);
      ReadLeafNums(t.right);
      ReadLeavesAppend(LeafNums(t.left), LeafNums(t.right));
    } else {
      assert LeafNums(t)[2..] == [];
      assert [(t.value, t.freq)] + [] == LeafList(t);
    }
  }

  lemma {:induction false} ReadLeavesAppend(a: seq<int>, b: seq<int>)
    requires |a| % 2 == 0 && |b| % 2 == 0
    requires ReadLeaves(a).Some? && ReadLeaves(b).Some?
    ensures ReadLeaves(a + b) == Some(ReadLeaves(a).value + ReadLeaves(b).value)
    decreases |a|
  {
    if a != [] {
      assert (a + b)[2..] == a[2..] + b;
      assert (a + b)[0] == a[0] && (a + b)[1] == a[1];
      ReadLeavesAppend(a[2..], b);
      var h := [(a[1], a[0])];
      assert ReadLeaves(a).value == h + ReadLeaves(a[2..]).value;
      assert h + (ReadLeaves(a[2..]).value + ReadLeaves(b).value) == h + ReadLeaves(a[2..]).value + ReadLeaves(b).value;
    } else {
      assert a + b == b;
      assert ReadLeaves(a).value + ReadLeaves(b).value == ReadLeaves(b).value;
    }
  }

  /** What the FILE constructor reads: a count `length`, then `length`
      (frequency, symbol) pairs; the pairs and the number of stream items
      taken, or None when the stream runs out or holds something else. */
  function ReadLeavesFile(s: seq<Cell>): (r: Option<(seq<(int, nat)>, nat)>)
    ensures r.Some? ==> r.value.1 <= |s| && r.value.1 == 1 + 2 * |r.value.0|
  {
    if |s| == 0 || !s[0].Num? || s[0].n < 0 then None
    else
      match ReadNums(s[1..], 2 * s[0].n)
      case None => None
      case Some(xs) =>
        match ReadLeaves(xs)
        case None => None
        case Some(pairs) => Some((pairs, 1 + 2 * s[0].n))
  }

  /** `Save(out)` as written: the value of the shared counter `count`, then
      the leaves. */
  function SavedAsWritten(count: nat, t: Tree): seq<Cell>
  {
    [Num(count)] + Nums(LeafNums(t))
  }

  /** `Save(out)` writing the number of leaves of its own tree. */
  function SavedTree(t: Tree): seq<Cell>
  {
    [Num(Leaves(t))] + Nums(LeafNums(t))
  }

  /** Once the counter exceeds the tree's own number of leaves (it does as
      soon as a second tree of the same types has been built), reading the
      saved tree back either fails or runs past its end into whatever the
      stream holds next. */
  lemma SaveCountMismatch(count: nat, t: Tree, rest: seq<Cell>)
    requires count > Leaves(t)
    ensures var r := ReadLeavesFile(SavedAsWritten(count, t) + rest);
      r.None? || r.value.1 > |SavedAsWritten(count, t)|
  {
  }

  /** With nothing after it, a tree saved with too large a count cannot be
      read back at all. */
  lemma SaveCountUnreadable(count: nat, t: Tree)
    requires count > Leaves(t)
    ensures ReadLeavesFile(SavedAsWritten(count, t)).None?
  {
    var s := SavedAsWritten(count, t);
    assert |s[1..]| == 2 * Leaves(t) < 2 * count;
  }

  /** Reading back a tree saved with its own leaf count gives its leaves,
      and stops right after them. */
  lemma ReadSavedLeaves(t: Tree, rest: seq<Cell>)
    ensures ReadLeavesFile(SavedTree(t) + rest) == Some((LeafList(t), |SavedTree(t)|))
  {
    var s := SavedTree(t) + rest;
    assert s[1..] == Nums(LeafNums(t)) + rest;
    ReadNumsOfNums(LeafNums(t), rest);
    ReadLeafNums(t);
  }

  /** Rebuilding from the leaves of a built tree gives the same tree: the
      priority queue sees the same multiset of leaves. */
  lemma RebuildSame(pairs: seq<(int, nat)>)
    requires pairs != []
    ensures LeafList(Build(pairs)) != [] && Build(LeafList(Build(pairs))) == Build(pairs)
  {
    BuildLeaves(pairs);
    LeafListBag(Build(pairs));
    BuildOrderIndependent(pairs, LeafList(Build(pairs)));
  }

  /** `Node::nodes`, the number of leaf nodes made so far by one
      instantiation of the coder. */
  class LeafCounter {
    var nodes: nat

    constructor ()
      ensures nodes == 0
    {
      nodes := 0;
    }
  }

  class Hufftree {
    const tree: Tree
    var encoding: map<int, seq<bool>>

    /** The codes are the paths of the tree, and the tree is the one the
        priority queue rebuilds from its own leaves. */
    ghost predicate Valid()
      reads this
    {
      encoding == PathCodes(tree, []) && Build(LeafList(tree)) == tree
    }

    /** `Hufftree(begin, end)` on the (symbol, frequency) pairs: make a leaf
        per pair (each bumping the counter), merge them with the priority
        queue, fill the codes from the root. */
    constructor (pairs: seq<(int, nat)>, counter: LeafCounter)
      requires pairs != []
      modifies counter
      ensures tree == Build(pairs) && Valid()
      ensures counter.nodes == old(counter.nodes) + |pairs|
    {
      var t := BuildTree(pairs);
      counter.nodes := counter.nodes + |pairs|;
      tree := t;
      encoding := map[];
      new;
      Fill(tree, []);
      RebuildSame(pairs);
    }

    /** `Hufftree(FILE*)`: read the count and that many (frequency, symbol)
        pairs, then build exactly as from pairs.  A count of zero leaves no
        tree to fill from, so the stream must hold at least one pair. */
    constructor Load(cells: seq<Cell>, counter: LeafCounter)
      requires ReadLeavesFile(cells).Some? && ReadLeavesFile(cells).value.0 != []
      modifies counter
      ensures tree == Build(ReadLeavesFile(cells).value.0) && Valid()
      ensures counter.nodes == old(counter.nodes) + |ReadLeavesFile(cells).value.0|
    {
      var pairs := ReadLeavesFile(cells).value.0;
      var t := BuildTree(pairs);
      counter.nodes := counter.nodes + |pairs|;
      tree := t;
      encoding := map[];
      new;
      Fill(tree, []);
      RebuildSame(pairs);
    }

    /** `Save(out)` as written: the shared counter, then the leaves. */
    method Save(counter: LeafCounter) returns (cells: seq<Cell>)
      ensures cells == SavedAsWritten(counter.nodes, tree)
    {
      cells := [Num(counter.nodes)] + Nums(LeafNums(tree));
    }

    /** `Save(out)` writing the tree's own number of leaves: loading what it
        writes rebuilds this very tree. */
    method SaveLeaves() returns (cells: seq<Cell>)
      requires Valid()
      ensures cells == SavedTree(tree)
      ensures ReadLeavesFile(cells) == Some((LeafList(tree), |cells|))
      ensures LeafList(tree) != [] && Build(ReadLeavesFile(cells).value.0) == tree
    {
      cells := [Num(Leaves(tree))] + Nums(LeafNums(tree));
      ReadSavedLeaves(tree, []);
      assert cells + [] == cells;
    }

    /** `Node::fill(encoding, prefix)`: store the path to every leaf of `t`. */
    method Fill(t: Tree, prefix: seq<bool>)
      modifies this
      ensures encoding == old(encoding) + PathCodes(t, prefix)
      decreases t
    {
      match t
      case Leaf(_, x) =>
        encoding := encoding[x := prefix];
      case Node(_, l, r) =>
        ghost var e0 := encoding;
        Fill(l, prefix + [false]);
        Fill(r, prefix + [true]);
        assert e0 + PathCodes(t, prefix) == e0 + PathCodes(l, prefix + [false]) + PathCodes(r, prefix + [true]);
    }

    /** `encode(value)`: the code of `value`, empty when it has none; on a
        tree of two or more leaves a known value's code decodes back to it. */
    method EncodeValue(value: int) returns (code: seq<bool>)
      requires Valid()
      ensures code == CodeOf(encoding, value)
      ensures value !in encoding ==> code == []
      ensures tree.Node? && value in encoding ==>
        DecodeSpec(TreeStepper(), tree, 1, Pack(code)) == Ok(Decoded([value], |Pack(code)|, false))
    {
      code := CodeOf(encoding, value);
      if tree.Node? && value in encoding {
        assert [value][1..] == [];
        assert Codes(encoding, [value]) == code + Codes(encoding, []);
        assert code + [] == code;
        RootPathsSound(tree);
        DecodeRoundTrip(TreeStepper(), tree, encoding, [value], []);
        assert Pack(code) + [] == Pack(code);
      }
    }

    /** `encode(begin, end)`. */
    method Encode(values: seq<int>) returns (r: seq<byte>)
      ensures r == Pack(Codes(encoding, values))
    {
      r := Coders.Encode(encoding, values);
    }

    /** `encodeWithLength(begin, end)`. */
    method EncodeWithLength(values: seq<int>) returns (r: seq<byte>)
      ensures r == Pack(CodeOf(encoding, |values|) + Codes(encoding, values))
    {
      r := Coders.EncodeWithLength(encoding, values);
    }

    /** `decode(length, begin, end, iter)`, walking the tree from its root. */
    method Decode(length: int, bytes: seq<byte>) returns (r: Result<Decoded>)
      ensures r == DecodeSpec(TreeStepper(), tree, length, bytes)
    {
      r := Coders.Decode(TreeStepper(), tree, length, bytes);
    }

    /** `decodeWithLength(begin, end, iter)`, walking the tree from its root. */
    method DecodeWithLength(bytes: seq<byte>) returns (r: Result<Decoded>)
      ensures r == DecodeWithLengthSpec(TreeStepper(), tree, bytes)
    {
      r := Coders.DecodeWithLength(TreeStepper(), tree, bytes);
    }
  }

  /** Two trees built in turn with the same counter: the second one saved as
      written cannot be read back. */
  method SecondTreeSaved(first: seq<(int, nat)>, second: seq<(int, nat)>) returns (cells: seq<Cell>)
    requires first != [] && second != []
    ensures ReadLeavesFile(cells).None?
  {
    var counter := new LeafCounter();
    var a := new Hufftree(first, counter);
    var b := new Hufftree(second, counter);
    cells := b.Save(counter);
    BuildLeaves(second);
    LeavesBag(Build(second));
    assert |multiset(second)| == |second|;
    SaveCountUnreadable(counter.nodes, b.tree);
  }

  /** Encoding symbols of a tree built from two or more pairs and decoding
      as many symbols gives them back, whatever follows the bytes. */
  lemma RoundTrip(pairs: seq<(int, nat)>, vs: seq<int>, rest: seq<byte>)
    requires |pairs| >= 2
    requires vs != [] && forall i | 0 <= i < |vs| :: vs[i] in Symbols(pairs)
    ensures var enc := PathCodes(Build(pairs), []);
      DecodeSpec(TreeStepper(), Build(pairs), |vs|, Pack(Codes(enc, vs)) + rest) ==
      Ok(Decoded(vs, |Pack(Codes(enc, vs))|, false))
  {
    BuildShape(pairs);
    RootPathsSound(Build(pairs));
    PathCodesShape(Build(pairs), []);
    BuildValues(pairs);
    DecodeRoundTrip(TreeStepper(), Build(pairs), PathCodes(Build(pairs), []), vs, rest);
  }

  /** The same with the length in front, when the length is itself one of
      the tree's symbols. */
  lemma RoundTripWithLength(pairs: seq<(int, nat)>, vs: seq<int>, rest: seq<byte>)
    requires |pairs| >= 2
    requires vs != [] && forall i | 0 <= i < |vs| :: vs[i] in Symbols(pairs)
    requires |vs| in Symbols(pairs)
    ensures var enc := PathCodes(Build(pairs), []);
      DecodeWithLengthSpec(TreeStepper(), Build(pairs), Pack(CodeOf(enc, |vs|) + Codes(enc, vs)) + rest) ==
      Ok(Decoded(vs, |Pack(CodeOf(enc, |vs|) + Codes(enc, vs))|, false))
  {
    BuildShape(pairs);
    RootPathsSound(Build(pairs));
    PathCodesShape(Build(pairs), []);
    BuildValues(pairs);
    DecodeWithLengthRoundTrip(TreeStepper(), Build(pairs), PathCodes(Build(pairs), []), vs, rest);
  }
}

=== FILE: hufftree.dfy ===
/** The flat-array Huffman coder of moses/src/Hufftree.h.  The tree is kept
    as `m_nodes` and `m_data` (see FlatTrees); `m_encoding` maps each symbol
    to its code and is filled only for a coder built for encoding. */
module Hufftree {
  import opened Results
  import opened Bits
  import opened CodeTrees
  import opened Decoding
  import opened FlatTrees
  import Coders

  /** What `Save` writes: the length of `m_nodes`, its entries, the length
      of `m_data`, its entries. */
  function SavedTree(nodes: seq<int>, data: seq<int>): seq<Cell>
  {
    [Num(|nodes|)] + Nums(nodes) + [Num(|data|)] + Nums(data)
  }

  /** What the FILE constructor reads: the two vectors and the number of
      stream items they took, or None when the stream does not hold a count
      followed by that many numbers, twice. */
  function ReadTree(s: seq<Cell>): (r: Option<(seq<int>, seq<int>, nat)>)
    ensures r.Some? ==> r.value.2 <= |s|
  {
    if |s| == 0 || !s[0].Num? || s[0].n < 0 then None
    else
      match ReadNums(s[1..], s[0].n)
      case None => None
      case Some(nodes) =>
        var k := 1 + |nodes|;
        if |s| <= k || !s[k].Num? || s[k].n < 0 then None
        else
          match ReadNums(s[k + 1..], s[k].n)
          case None => None
          case Some(data) => Some((nodes, data, k + 1 + |data|))
  }

  /** Reading back what `Save` wrote gives the same vectors and stops right
      after them. */
  lemma ReadSavedTree(nodes: seq<int>, data: seq<int>, rest: seq<Cell>)
    ensures ReadTree(SavedTree(nodes, data) + rest) == Some((nodes, data, |SavedTree(nodes, data)|))
  {
    var s := SavedTree(nodes, data) + rest;
    var k := 1 + |nodes|;
    assert s[1..] == Nums(nodes) + ([Num(|data|)] + Nums(data) + rest);
    ReadNumsOfNums(nodes, [Num(|data|)] + Nums(data) + rest);
    assert s[k] == Num(|data|);
    assert s[k + 1..] == Nums(data) + rest;
    ReadNumsOfNums(data, rest);
  }

  lemma UnionAssociates(a: map<int, seq<bool>>, b: map<int, seq<bool>>, c: map<int, seq<bool>>)
    ensures a + (b + c) == a + b + c
  {
    var l, r := a + (b + c), a + b + c;
    assert l.Keys == r.Keys;
    assert forall k | k in l :: l[k] == r[k];
  }

  /** Encoding symbols with the codes `fill` stores for a well-formed
      layout, then decoding as many, gives them back and takes exactly the
      encoded bytes, whatever follows them. */
  lemma RoundTrip(nodes: seq<int>, data: seq<int>, vs: seq<int>, rest: seq<byte>)
    requires WellFormed(nodes, data)
    requires vs != [] && forall i | 0 <= i < |vs| :: vs[i] in FlatCodes(nodes, data, 0, [])
    ensures var enc := FlatCodes(nodes, data, 0, []);
      DecodeSpec(Stepper(nodes, data), 0, |vs|, Pack(Codes(enc, vs)) + rest) ==
      Ok(Decoded(vs, |Pack(Codes(enc, vs))|, false))
  {
    RootCodesSound(nodes, data);
    DecodeRoundTrip(Stepper(nodes, data), 0, FlatCodes(nodes, data, 0, []), vs, rest);
  }

  /** The same for `encodeWithLength` and `decodeWithLength`, when the
      number of symbols is itself a symbol of the tree. */
  lemma RoundTripWithLength(nodes: seq<int>, data: seq<int>, vs: seq<int>, rest: seq<byte>)
    requires WellFormed(nodes, data)
    requires vs != [] && forall i | 0 <= i < |vs| :: vs[i] in FlatCodes(nodes, data, 0, [])
    requires |vs| in FlatCodes(nodes, data, 0, [])
    ensures var enc := FlatCodes(nodes, data, 0, []);
      DecodeWithLengthSpec(Stepper(nodes, data), 0, Pack(CodeOf(enc, |vs|) + Codes(enc, vs)) + rest) ==
      Ok(Decoded(vs, |Pack(CodeOf(enc, |vs|) + Codes(enc, vs))|, false))
  {
    RootCodesSound(nodes, data);
    DecodeWithLengthRoundTrip(Stepper(nodes, data), 0, FlatCodes(nodes, data, 0, []), vs, rest);
  }

  class Hufftree {
    const nodes: seq<int>
    const data: seq<int>
    const forEncoding: bool
    var encoding: map<int, seq<bool>>

    /** The codes of a coder built for encoding lead the decoder from node
        0 to their own symbols. */
    ghost predicate Valid()
      reads this
    {
      forEncoding ==> Sound(Stepper(nodes, data), 0, encoding)
    }

    /** The coder `Hufftree(count.begin(), count.end(), true)` builds from
        the counter `count`: one entry gives the one-leaf layout, two or
        more the layout and the root-to-leaf codes of `CountTree(count)`. */
    ghost predicate EncodesCount(count: map<int, nat>)
      reads this
    {
      && count != map[] && forEncoding
      && (|count.Keys| == 1 ==>
            forall k | k in count :: nodes == [-1] && data == [k] && encoding == map[k := [false]])
      && (|count.Keys| >= 2 ==>
            && WellFormed(nodes, data) && Represents(nodes, data, CountTree(count))
            && encoding == PathCodes(CountTree(count), []))
    }

    /** `Hufftree(begin, end, forEncoding)` on the (symbol, frequency) pairs.
        One pair gives the layout `[-1]`, `[v]` and the code `[false]`
        whatever `forEncoding` says; two or more give the breadth-first
        layout of the tree the priority queue builds and, for encoding, the
        root-to-leaf paths of that tree as codes. */
    constructor (pairs: seq<(int, nat)>, forEncoding: bool)
      requires pairs != []
      ensures this.forEncoding == forEncoding && Valid()
      ensures |pairs| == 1 ==> nodes == [-1] && data == [pairs[0].0] && encoding == map[pairs[0].0 := [false]]
      ensures |pairs| >= 2 ==>
        && WellFormed(nodes, data) && Represents(nodes, data, Build(pairs))
        && |data| == |pairs| && |nodes| == 2 * (|pairs| - 1)
        && encoding == (if forEncoding then PathCodes(Build(pairs), []) else map[])
      ensures forEncoding ==> encoding.Keys == Symbols(pairs)
    {
      var n: seq<int>, d: seq<int>;
      if |pairs| == 1 {
        n, d := [-1], [pairs[0].0];
      } else {
        n, d := Layout(pairs);
      }
      nodes, data, this.forEncoding := n, d, forEncoding;
      encoding := map[];
      new;
      if |pairs| == 1 {
        encoding := map[pairs[0].0 := [false]];
        SingleSound(pairs[0].0);
        assert Symbols(pairs) == {pairs[0].0};
      } else if forEncoding {
        Fill(0, []);
        assert encoding == FlatCodes(nodes, data, 0, []);
        LayoutCodes(pairs, nodes, data);
      }
    }

    /** The constructor on two or more pairs: build the tree with the
        priority queue, then lay it out breadth first. */
    static method Layout(pairs: seq<(int, nat)>) returns (nodes: seq<int>, data: seq<int>)
      requires |pairs| >= 2
      ensures WellFormed(nodes, data) && Represents(nodes, data, Build(pairs))
      ensures |data| == |pairs| && |nodes| == 2 * (|pairs| - 1)
    {
      BuildShape(pairs);
      var t := BuildTree(pairs);
      nodes, data := Flatten(t);
      SizeLeaves(t);
      LeavesBag(t);
      BuildLeaves(pairs);
      assert |multiset(pairs)| == |pairs|;
    }

    /** The codes `fill(0, [])` stores on the layout of the built tree: its
        root-to-leaf paths, one for each input symbol, each leading the
        decoder to its symbol. */
    static lemma LayoutCodes(pairs: seq<(int, nat)>, nodes: seq<int>, data: seq<int>)
      requires |pairs| >= 2
      requires WellFormed(nodes, data) && Represents(nodes, data, Build(pairs))
      ensures FlatCodes(nodes, data, 0, []) == PathCodes(Build(pairs), [])
      ensures FlatCodes(nodes, data, 0, []).Keys == Symbols(pairs)
      ensures Sound(Stepper(nodes, data), 0, FlatCodes(nodes, data, 0, []))
    {
      BuildShape(pairs);
      RootCodesArePaths(nodes, data, Build(pairs));
      RootCodesSound(nodes, data);
      PathCodesShape(Build(pairs), []);
      BuildValues(pairs);
    }

    /** `Hufftree(FILE*, forEncoding)`: read the two vectors `Save` wrote;
        for encoding, fill the codes from them. */
    constructor Load(cells: seq<Cell>, forEncoding: bool)
      requires ReadTree(cells).Some?
      requires forEncoding ==> WellFormed(ReadTree(cells).value.0, ReadTree(cells).value.1)
      ensures nodes == ReadTree(cells).value.0 && data == ReadTree(cells).value.1
      ensures this.forEncoding == forEncoding && Valid()
      ensures encoding == if forEncoding then FlatCodes(nodes, data, 0, []) else map[]
    {
      nodes, data, this.forEncoding := ReadTree(cells).value.0, ReadTree(cells).value.1, forEncoding;
      encoding := map[];
      new;
      if forEncoding {
        Fill(0, []);
        RootCodesSound(nodes, data);
      }
    }

    /** `Save(out)`. */
    method Save() returns (cells: seq<Cell>)
      ensures cells == SavedTree(nodes, data)
      ensures ReadTree(cells) == Some((nodes, data, |cells|))
    {
      cells := [Num(|nodes|)] + Nums(nodes) + [Num(|data|)] + Nums(data);
      ReadSavedTree(nodes, data, []);
      assert cells + [] == cells;
    }

    /** `fill(index, prefix)`: store the path to every leaf below `index`. */
    method Fill(index: int, prefix: seq<bool>)
      requires WellFormed(nodes, data) && Ref(nodes, data, index)
      modifies this
      ensures encoding == old(encoding) + FlatCodes(nodes, data, index, prefix)
      decreases if index >= 0 then |nodes| - index else 0
    {
      if index >= 0 {
        ghost var e0 := encoding;
        Fill(nodes[index], prefix + [false]);
        Fill(nodes[index + 1], prefix + [true]);
        UnionAssociates(e0, FlatCodes(nodes, data, nodes[index], prefix + [false]), FlatCodes(nodes, data, nodes[index + 1], prefix + [true]));
      } else {
        encoding := encoding[data[-index - 1] := prefix];
      }
    }

    /** `encode(value)`: the code of `value`, empty when it has none; on a
        coder built for encoding a known value's code decodes back to it. */
    method EncodeValue(value: int) returns (code: seq<bool>)
      requires Valid()
      ensures code == CodeOf(encoding, value)
      ensures value !in encoding ==> code == []
      ensures forEncoding && value in encoding ==>
        DecodeSpec(Stepper(nodes, data), 0, 1, Pack(code)) == Ok(Decoded([value], |Pack(code)|, false))
    {
      code := CodeOf(encoding, value);
      if forEncoding && value in encoding {
        assert [value][1..] == [];
        assert Codes(encoding, [value]) == code + Codes(encoding, []);
        assert code + [] == code;
        DecodeRoundTrip(Stepper(nodes, data), 0, encoding, [value], []);
        assert Pack(code) + [] == Pack(code);
      }
    }

    /** `encode(begin, end)`; it asserts `m_forEncoding`. */
    method Encode(values: seq<int>) returns (r: seq<byte>)
      requires forEncoding
      ensures r == Pack(Codes(encoding, values))
    {
      r := Coders.Encode(encoding, values);
    }

    /** `encodeWithLength(begin, end)`; it asserts `m_forEncoding`. */
    method EncodeWithLength(values: seq<int>) returns (r: seq<byte>)
      requires forEncoding
      ensures r == Pack(CodeOf(encoding, |values|) + Codes(encoding, values))
    {
      r := Coders.EncodeWithLength(encoding, values);
    }

    /** `decode(length, begin, end, iter)` on the arrays. */
    method Decode(length: int, bytes: seq<byte>) returns (r: Result<Decoded>)
      ensures r == DecodeSpec(Stepper(nodes, data), 0, length, bytes)
    {
      r := Coders.Decode(Stepper(nodes, data), 0, length, bytes);
    }

    /** `decodeWithLength(begin, end, iter)` on the arrays. */
    method DecodeWithLength(bytes: seq<byte>) returns (r: Result<Decoded>)
      ensures r == DecodeWithLengthSpec(Stepper(nodes, data), 0, bytes)
    {
      r := Coders.DecodeWithLength(Stepper(nodes, data), 0, bytes);
    }
  }
}

=== FILE: phrase_coder.dfy ===
/** The collection coder of moses/src/PhraseCoder.h.  A collection of target
    phrases is first packed into a stream of numbers (the ids of the words,
    the id of a stop symbol, then the scores), the symbols and scores are
    counted, Huffman codes are built from the counts, and the packed stream
    is re-encoded by a state machine into one bit string; a second state
    machine decodes that bit string back into target phrases.  Scores are
    opaque numbers here: they stand for the transformed floats of the
    source. */
module PhraseCoder {
  import opened Results
  import opened Bits
  import opened Decoding
  import opened FlatTrees
  import opened Symbols
  import CodeTrees
  import Hufftree

  /** The word `packTargetPhrase` writes after the words of every phrase. */
  const StopSymbol: string := "__SPECIAL_STOP_SYMBOL__"

  /** The id `m_targetSymbolsMap["__SPECIAL_STOP_SYMBOL__"]` yields: the
      stored one, or 0 when the map does not know the stop symbol. */
  function StopId(ids: map<string, nat>): nat
  {
    if StopSymbol in ids then ids[StopSymbol] else 0
  }

  // ---------------------------------------------------------------------
  // Counters

  /** `count[k]`, read from an unordered_map whose missing entries are 0. */
  function CountOf(m: map<int, nat>, k: int): nat
  {
    if k in m then m[k] else 0
  }

  /** `count[k]++`. */
  function Bump(m: map<int, nat>, k: int): map<int, nat>
  {
    m[k := CountOf(m, k) + 1]
  }

  /** The counter after `count[x]++` for every `x` of `xs`, in order. */
  function Counted(m: map<int, nat>, xs: seq<int>): map<int, nat>
    decreases |xs|
  {
    if xs == [] then m else Bump(Counted(m, xs[..|xs| - 1]), xs[|xs| - 1])
  }

  /** Counting `xs` adds to each entry the number of times it occurs in `xs`. */
  lemma {:induction false} CountedCounts(m: map<int, nat>, xs: seq<int>, k: int)
    ensures CountOf(Counted(m, xs), k) == CountOf(m, k) + multiset(xs)[k]
    decreases |xs|
  {
    if xs != [] {
      var init, x := xs[..|xs| - 1], xs[|xs| - 1];
      CountedCounts(m, init, k);
      assert xs == init + [x];
      assert multiset(xs) == multiset(init) + multiset{x};
    }
  }

  /** The counter's keys after counting `xs` are its old keys and the
      elements of `xs`. */
  lemma {:induction false} CountedKeys(m: map<int, nat>, xs: seq<int>)
    ensures Counted(m, xs).Keys == m.Keys + set x | x in xs
    decreases |xs|
  {
    if xs != [] {
      var init, x := xs[..|xs| - 1], xs[|xs| - 1];
      CountedKeys(m, init);
      assert xs == init + [x];
      assert (set y | y in xs) == (set y | y in init) + {x};
    }
  }

  lemma {:induction false} CountedAppend(m: map<int, nat>, xs: seq<int>, ys: seq<int>)
    ensures Counted(m, xs + ys) == Counted(Counted(m, xs), ys)
    decreases |ys|
  {
    if ys == [] {
      assert xs + ys == xs;
    } else {
      var init := ys[..|ys| - 1];
      assert (xs + ys)[..|xs + ys| - 1] == xs + init;
      CountedAppend(m, xs, init);
    }
  }

  lemma CountedSnoc(m: map<int, nat>, xs: seq<int>, x: int)
    ensures Counted(m, xs + [x]) == Bump(Counted(m, xs), x)
  {
    assert (xs + [x])[..|xs|] == xs;
  }

  // ---------------------------------------------------------------------
  // Packing

  /** One row of a `StringCollection` as `packCollection` uses it: the
      tokens of the target phrase (column 1) and its transformed scores
      (column 2). */
  datatype Entry = Entry(words: seq<string>, scores: seq<int>)

  /** A target phrase as symbol ids, with its scores. */
  datatype Target = Target(words: seq<int>, scores: seq<int>)

  /** What `packTargetPhrase` then `packScores` write for one phrase: the
      word ids, the stop id, the scores. */
  function PackedTarget(t: Target, stop: int): seq<Cell>
  {
    Nums(t.words + [stop]) + Nums(t.scores)
  }

  /** What `packCollection` returns. */
  function PackedCollection(ts: seq<Target>, stop: int): seq<Cell>
  {
    if ts == [] then [] else PackedTarget(ts[0], stop) + PackedCollection(ts[1..], stop)
  }

  lemma {:induction false} PackedCollectionSnoc(ts: seq<Target>, t: Target, stop: int)
    ensures PackedCollection(ts + [t], stop) == PackedCollection(ts, stop) + PackedTarget(t, stop)
  {
    if ts == [] {
      assert ts + [t] == [t];
    } else {
      assert (ts + [t])[1..] == ts[1..] + [t];
      PackedCollectionSnoc(ts[1..], t, stop);
    }
  }

  /** Every word of every entry has an id. */
  ghost predicate Known(ids: map<string, nat>, es: seq<Entry>)
  {
    forall k, j | 0 <= k < |es| && 0 <= j < |es[k].words| :: es[k].words[j] in ids
  }

  /** The entries with their words replaced by their ids. */
  function Targets(ids: map<string, nat>, es: seq<Entry>): (r: seq<Target>)
    requires Known(ids, es)
    ensures |r| == |es|
  {
    seq(|es|, k requires 0 <= k < |es| => Target(IdsOf(ids, es[k].words), es[k].scores))
  }

  /** The symbols `packCollection` counts: each phrase's ids and the stop id. */
  function SymbolsOf(ts: seq<Target>, stop: int): seq<int>
  {
    if ts == [] then [] else ts[0].words + [stop] + SymbolsOf(ts[1..], stop)
  }

  /** The scores `packCollection` counts. */
  function ScoresOf(ts: seq<Target>): seq<int>
  {
    if ts == [] then [] else ts[0].scores + ScoresOf(ts[1..])
  }

  lemma {:induction false} SymbolsOfSnoc(ts: seq<Target>, t: Target, stop: int)
    ensures SymbolsOf(ts + [t], stop) == SymbolsOf(ts, stop) + (t.words + [stop])
    ensures ScoresOf(ts + [t]) == ScoresOf(ts) + t.scores
  {
    if ts == [] {
      assert ts + [t] == [t];
    } else {
      assert (ts + [t])[1..] == ts[1..] + [t];
      SymbolsOfSnoc(ts[1..], t, stop);
    }
  }

  /** Extending the known ids and the list of entries by one keeps the
      ids of the earlier entries. */
  lemma TargetsStep(ids: map<string, nat>, ids': map<string, nat>, es: seq<Entry>, k: nat)
    requires k < |es| && Known(ids, es[..k]) && Extends(ids, ids') && Known(ids', es[..k + 1])
    ensures Known(ids', es[..k])
    ensures Targets(ids', es[..k + 1]) == Targets(ids, es[..k]) + [Target(IdsOf(ids', es[k].words), es[k].scores)]
  {
    forall j | 0 <= j < k
      ensures Targets(ids', es[..k + 1])[j] == Targets(ids, es[..k])[j]
    {
      IdsOfGrown(ids, ids', es[j].words);
    }
  }

  /** One more entry packed: the packed collection and both counters grow
      by what that entry adds, even though the ids may have grown. */
  lemma PackStep(ids: map<string, nat>, ids': map<string, nat>, es: seq<Entry>, k: nat, sym0: map<int, nat>, score0: map<int, nat>)
    requires k < |es| && Known(ids, es[..k]) && Extends(ids, ids')
    requires StopSymbol in ids' && (k > 0 ==> StopSymbol in ids)
    requires forall j | 0 <= j < |es[k].words| :: es[k].words[j] in ids'
    ensures Known(ids', es[..k + 1])
    ensures var tr := Target(IdsOf(ids', es[k].words), es[k].scores);
            var before, after := Targets(ids, es[..k]), Targets(ids', es[..k + 1]);
            && PackedCollection(after, StopId(ids')) == PackedCollection(before, StopId(ids)) + PackedTarget(tr, ids'[StopSymbol])
            && Counted(sym0, SymbolsOf(after, StopId(ids'))) ==
               Counted(Counted(sym0, SymbolsOf(before, StopId(ids))), tr.words + [ids'[StopSymbol]])
            && Counted(score0, ScoresOf(after)) == Counted(Counted(score0, ScoresOf(before)), tr.scores)
  {
    var stop := ids'[StopSymbol];
    var tr := Target(IdsOf(ids', es[k].words), es[k].scores);
    var before := Targets(ids, es[..k]);
    assert Known(ids', es[..k + 1]) by {
      var front := es[..k + 1];
      forall m | 0 <= m < k + 1
        ensures forall j | 0 <= j < |front[m].words| :: front[m].words[j] in ids'
      {
        if m < k {
          assert front[m] == es[..k][m];
        }
      }
    }
    TargetsStep(ids, ids', es, k);
    if k == 0 {
      assert before == [];
    } else {
      assert StopId(ids) == stop;
    }
    PackedCollectionSnoc(before, tr, stop);
    SymbolsOfSnoc(before, tr, stop);
    CountedAppend(sym0, SymbolsOf(before, stop), tr.words + [stop]);
    CountedAppend(score0, ScoresOf(before), tr.scores);
  }

  // ---------------------------------------------------------------------
  // The encoder as a specification

  /** The code tables and parameters the encoder uses. */
  datatype Codec = Codec(symbols: map<int, seq<bool>>, scores: map<int, seq<bool>>, stop: int, numScore: nat)

  /** Where the encoder is in a phrase: among its symbols, or after the
      stop symbol with `done` scores read. */
  datatype Reading = InPhrase | InScores(done: nat)

  /** The bits `encodePackedCollection` writes for the packed stream `s`:
      it reads a symbol and writes its code; after the stop symbol it reads
      and codes `numScore` scores; it stops at the first read that fails. */
  function EncodeFrom(c: Codec, s: seq<Cell>, r: Reading): seq<bool>
    decreases |s|, if r.InScores? then 1 else 0
  {
    match r
    case InPhrase =>
      if s == [] || !s[0].Num? then []
      else CodeOf(c.symbols, s[0].n) + EncodeFrom(c, s[1..], if s[0].n == c.stop then InScores(0) else InPhrase)
    case InScores(d) =>
      if d == c.numScore then EncodeFrom(c, s, InPhrase)
      else if s == [] || !s[0].Num? then []
      else CodeOf(c.scores, s[0].n) + EncodeFrom(c, s[1..], InScores(d + 1))
  }

  /** The codes of one phrase: its symbols, the stop symbol, its scores. */
  function TargetBits(c: Codec, t: Target): seq<bool>
  {
    Codes(c.symbols, t.words + [c.stop]) + Codes(c.scores, t.scores)
  }

  function CollectionBits(c: Codec, ts: seq<Target>): seq<bool>
  {
    if ts == [] then [] else TargetBits(c, ts[0]) + CollectionBits(c, ts[1..])
  }

  /** A phrase the coder can carry: no word is the stop symbol and it has
      exactly `numScore` scores. */
  ghost predicate Regular(c: Codec, t: Target)
  {
    (forall j | 0 <= j < |t.words| :: t.words[j] != c.stop) && |t.scores| == c.numScore
  }

  lemma {:induction false} EncodeWords(c: Codec, ws: seq<int>, tail: seq<Cell>)
    requires forall j | 0 <= j < |ws| :: ws[j] != c.stop
    ensures EncodeFrom(c, Nums(ws + [c.stop]) + tail, InPhrase) ==
            Codes(c.symbols, ws + [c.stop]) + EncodeFrom(c, tail, InScores(0))
  {
    var s := Nums(ws + [c.stop]) + tail;
    var v := (ws + [c.stop])[0];
    assert s[0] == Num(v);
    assert s[1..] == Nums((ws + [c.stop])[1..]) + tail;
    if ws == [] {
      assert [c.stop][1..] == [];
      assert Nums([]) + tail == tail;
    } else {
      assert (ws + [c.stop])[1..] == ws[1..] + [c.stop];
      EncodeWords(c, ws[1..], tail);
    }
  }

  lemma {:induction false} EncodeScores(c: Codec, xs: seq<int>, d: nat, tail: seq<Cell>)
    requires d + |xs| == c.numScore
    ensures EncodeFrom(c, Nums(xs) + tail, InScores(d)) == Codes(c.scores, xs) + EncodeFrom(c, tail, InPhrase)
    decreases |xs|
  {
    if xs == [] {
      assert Nums(xs) + tail == tail;
    } else {
      EncodeFirstScore(c, xs, d, tail);
      EncodeScores(c, xs[1..], d + 1, tail);
    }
  }

  /** The first of the scores still to read. */
  lemma EncodeFirstScore(c: Codec, xs: seq<int>, d: nat, tail: seq<Cell>)
    requires xs != [] && d + |xs| == c.numScore
    ensures EncodeFrom(c, Nums(xs) + tail, InScores(d)) ==
            CodeOf(c.scores, xs[0]) + EncodeFrom(c, Nums(xs[1..]) + tail, InScores(d + 1))
  {
    var s := Nums(xs) + tail;
    assert s[0] == Num(xs[0]);
    assert s[1..] == Nums(xs[1..]) + tail;
    assert d != c.numScore && s != [] && s[0].Num?;
    assert EncodeFrom(c, s, InScores(d)) == CodeOf(c.scores, s[0].n) + EncodeFrom(c, s[1..], InScores(d + 1));
  }

  /** Re-encoding a packed collection of regular phrases writes the codes
      of each phrase in turn: its symbols, the stop symbol, its scores. */
  lemma {:induction false} EncodePacked(c: Codec, ts: seq<Target>)
    requires forall k | 0 <= k < |ts| :: Regular(c, ts[k])
    ensures EncodeFrom(c, PackedCollection(ts, c.stop), InPhrase) == CollectionBits(c, ts)
  {
    if ts != [] {
      var t := ts[0];
      var tail := PackedCollection(ts[1..], c.stop);
      assert Regular(c, t);
      assert PackedCollection(ts, c.stop) == Nums(t.words + [c.stop]) + (Nums(t.scores) + tail);
      EncodeWords(c, t.words, Nums(t.scores) + tail);
      EncodeScores(c, t.scores, 0, tail);
      EncodePacked(c, ts[1..]);
    }
  }

  /** The state machine's states (the enum `EncodeState`). */
  datatype EncodeState = ReadSymbol | ReadScore | ReadAlignment | EncodeSymbol | EncodeScore | EncodeAlignment

  /** The bits still to come from a state of the machine, with the rest `s`
      of the stream unread, `cur` scores of the phrase read, and the last
      symbol and score read. */
  function Pending(c: Codec, state: EncodeState, s: seq<Cell>, cur: nat, symbol: int, score: int): seq<bool>
  {
    match state
    case ReadSymbol => EncodeFrom(c, s, InPhrase)
    case EncodeSymbol => CodeOf(c.symbols, symbol) + EncodeFrom(c, s, if symbol == c.stop then InScores(0) else InPhrase)
    case ReadScore => EncodeFrom(c, s, InScores(cur))
    case EncodeScore => CodeOf(c.scores, score) + EncodeFrom(c, s, InScores(cur))
    case ReadAlignment => EncodeFrom(c, s, InPhrase)
    case EncodeAlignment => EncodeFrom(c, s, InPhrase)
  }

  /** The order in which states follow each other without a read. */
  function Rank(state: EncodeState): nat
  {
    match state
    case ReadSymbol => 0
    case EncodeAlignment => 1
    case ReadAlignment => 2
    case ReadScore => 3
    case EncodeScore => 4
    case EncodeSymbol => 5
  }

  /** The machine between two steps: the read position `i` in the stream,
      `cur` scores read, and the symbol and score read last. */
  ghost predicate OnTrack(c: Codec, packed: seq<Cell>, state: EncodeState, i: nat, cur: nat, symbol: int, score: int,
                          sofar: seq<bool>, total: seq<bool>)
  {
    && i <= |packed|
    && (state in {ReadSymbol, EncodeSymbol, ReadAlignment, EncodeAlignment} ==> cur == 0)
    && sofar + Pending(c, state, packed[i..], cur, symbol, score) == total
  }

  /** The `Read` cases of the switch: `ReadSymbol` reads a symbol,
      `ReadScore` reads a score or, after `numScore` of them, turns to the
      next phrase, and `ReadAlignment` reads nothing.  A read that fails
      (`good` false) leaves nothing more to write. */
  method ReadItem(c: Codec, packed: seq<Cell>, state: EncodeState, i: nat, cur: nat, symbol: int, score: int,
                  ghost sofar: seq<bool>, ghost total: seq<bool>)
    returns (state': EncodeState, i': nat, cur': nat, symbol': int, score': int, good: bool)
    requires state in {ReadSymbol, ReadScore, ReadAlignment}
    requires OnTrack(c, packed, state, i, cur, symbol, score, sofar, total)
    ensures i <= i' <= |packed|
    ensures good ==> OnTrack(c, packed, state', i', cur', symbol', score', sofar, total) && (i' > i || Rank(state') < Rank(state))
    ensures !good ==> sofar == total
  {
    state', i', cur', symbol', score', good := state, i, cur, symbol, score, true;
    var readable := i < |packed| && packed[i].Num?;
    if i < |packed| {
      assert packed[i..][1..] == packed[i + 1..];
    }
    match state {
      case ReadSymbol =>
        if readable {
          symbol' := packed[i].n;
          i' := i + 1;
        } else {
          good := false;
          assert sofar + [] == sofar;
        }
        state' := EncodeSymbol;
      case ReadScore =>
        if cur == c.numScore {
          cur' := 0;
          state' := ReadAlignment;
        } else {
          cur' := cur + 1;
          if readable {
            score' := packed[i].n;
            i' := i + 1;
          } else {
            good := false;
            assert sofar + [] == sofar;
          }
          state' := EncodeScore;
        }
      case ReadAlignment =>
        state' := EncodeAlignment;
    }
  }

  /** The code an `Encode` state writes: the symbol's code from the symbol
      tree, the score's code from the score tree, nothing for the
      alignment. */
  function Written(c: Codec, state: EncodeState, symbol: int, score: int): seq<bool>
  {
    match state
    case EncodeSymbol => CodeOf(c.symbols, symbol)
    case EncodeScore => CodeOf(c.scores, score)
    case _ => []
  }

  /** The state an `Encode` state hands over to: after the stop symbol the
      scores follow, after a score the next score, after anything else the
      next symbol. */
  function After(c: Codec, state: EncodeState, symbol: int): EncodeState
  {
    match state
    case EncodeSymbol => if symbol == c.stop then ReadScore else ReadSymbol
    case EncodeScore => ReadScore
    case _ => ReadSymbol
  }

  /** Writing moves the written code from the pending bits to the bits
      already out. */
  lemma PendingAfterWrite(c: Codec, state: EncodeState, s: seq<Cell>, cur: nat, symbol: int, score: int)
    requires state in {EncodeSymbol, EncodeScore, EncodeAlignment}
    requires state == EncodeSymbol ==> cur == 0
    ensures Pending(c, state, s, cur, symbol, score) ==
            Written(c, state, symbol, score) + Pending(c, After(c, state, symbol), s, cur, symbol, score)
  {
    if state == EncodeAlignment {
      assert [] + EncodeFrom(c, s, InPhrase) == EncodeFrom(c, s, InPhrase);
    }
  }

  /** The `Encode` cases of the switch: write the code of the symbol or
      score just read (`encode` of the symbol tree or of the score tree,
      whose encodings `c` holds), then read on.  `EncodeAlignment` writes
      nothing. */
  method WriteItem(c: Codec, packed: seq<Cell>, state: EncodeState, i: nat, cur: nat, symbol: int, score: int,
                   w: Writer, ghost sofar: seq<bool>, ghost total: seq<bool>)
    returns (state': EncodeState, w': Writer, ghost sofar': seq<bool>)
    requires state in {EncodeSymbol, EncodeScore, EncodeAlignment}
    requires OnTrack(c, packed, state, i, cur, symbol, score, sofar, total) && Holds(w, sofar)
    ensures OnTrack(c, packed, state', i, cur, symbol, score, sofar', total) && Holds(w', sofar')
    ensures Rank(state') < Rank(state)
  {
    var code := Written(c, state, symbol, score);
    state' := After(c, state, symbol);
    ghost var rest := packed[i..];
    PendingAfterWrite(c, state, rest, cur, symbol, score);
    assert sofar + (code + Pending(c, state', rest, cur, symbol, score)) ==
           (sofar + code) + Pending(c, state', rest, cur, symbol, score);
    w' := PushCode(w, code, sofar);
    sofar' := sofar + code;
  }

  // ---------------------------------------------------------------------
  // The decoder as a specification

  /** The decoder's states.  `Alignment` is never entered and `Add` is left
      in the same step it is entered, so neither is a resting state. */
  datatype Mode = New | Phrase | Score

  /** The decoder's variables between two bits: the state, the tree
      position `node`, the current phrase's words and scores, and the
      phrases added to the collection. */
  datatype DState = DState(mode: Mode, node: int, words: seq<int>, scores: seq<int>, done: seq<Target>)

  /** The decoder still reading, returned early, or fallen outside the trees. */
  datatype Outcome = Going(st: DState) | Stopped(found: seq<Target>) | Failed(msg: string)

  /** The two trees' arrays and the parameters the decoder uses. */
  datatype Trees = Trees(symNodes: seq<int>, symData: seq<int>, scoreNodes: seq<int>, scoreData: seq<int>, stop: int, numScore: nat)

  const Initial: DState := DState(New, 0, [], [], [])

  /** The tree a mode walks: the score tree in `Score`, else the symbol tree. */
  function ModeStepper(t: Trees, mode: Mode): (int, bool) -> Result<Move<int>>
  {
    if mode == Score then Stepper(t.scoreNodes, t.scoreData) else Stepper(t.symNodes, t.symData)
  }

  /** The words a phrase has before the next symbol: none in `New`. */
  function WordsSoFar(st: DState): seq<int>
  {
    if st.mode == New then [] else st.words
  }

  /** The `node < 0` block on the leaf value `x`: `New` starts a phrase;
      in `Phrase` the stop symbol switches to `Score` and any other symbol
      is a word; in `Score` the value is a score, and the `numScore`-th one
      completes the phrase, which is added (the flag) and the state is
      `New` again. */
  function Reached(t: Trees, st: DState, x: int): (DState, bool)
  {
    var words := WordsSoFar(st);
    if st.mode == Score then
      var scores := st.scores + [x];
      if |scores| == t.numScore then (DState(New, 0, st.words, [], st.done + [Target(st.words, scores)]), true)
      else (DState(Score, 0, st.words, scores, st.done), false)
    else if x == t.stop then (DState(Score, 0, words, st.scores, st.done), false)
    else (DState(Phrase, 0, words + [x], st.scores, st.done), false)
  }

  /** After a phrase is added within the last byte the decoder returns. */
  function Settle(r: (DState, bool), last: bool): Outcome
  {
    if r.1 && last then Stopped(r.0.done) else Going(r.0)
  }

  /** One bit of `decodeCollection`; `last` says that it is in the last byte. */
  function Feed(t: Trees, o: Outcome, bit: bool, last: bool): Outcome
  {
    match o
    case Going(st) =>
      (match ModeStepper(t, st.mode)(st.node, bit)
       case Err(m) => Failed(m)
       case Ok(Down(n)) => Going(st.(node := n))
       case Ok(Emit(x)) => Settle(Reached(t, st, x), last))
    case _ => o
  }

  /** `bits` fed one by one to the decoder, the first of them being bit
      `at` of the whole input; bits from `lastFrom` on are in the last byte. */
  function FeedSeq(t: Trees, o: Outcome, bits: seq<bool>, at: int, lastFrom: int): Outcome
    decreases |bits|
  {
    if bits == [] then o else FeedSeq(t, Feed(t, o, bits[0], at >= lastFrom), bits[1..], at + 1, lastFrom)
  }

  /** `decodeCollection(encoded)`: the phrases added, or `Err` when a walk
      leaves the arrays. */
  function DecodeCollectionSpec(t: Trees, bytes: seq<byte>): Result<seq<Target>>
  {
    match FeedSeq(t, Going(Initial), Unpack(bytes), 0, 8 * (|bytes| - 1))
    case Going(st) => Ok(st.done)
    case Stopped(d) => Ok(d)
    case Failed(m) => Err(m)
  }

  lemma {:induction false} FeedAppend(t: Trees, o: Outcome, a: seq<bool>, b: seq<bool>, at: int, lastFrom: int)
    ensures FeedSeq(t, o, a + b, at, lastFrom) == FeedSeq(t, FeedSeq(t, o, a, at, lastFrom), b, at + |a|, lastFrom)
    decreases |a|
  {
    if a == [] {
      assert a + b == b;
    } else {
      assert (a + b)[0] == a[0] && (a + b)[1..] == a[1..] + b;
      FeedAppend(t, Feed(t, o, a[0], at >= lastFrom), a[1..], b, at + 1, lastFrom);
    }
  }

  lemma FeedSnoc(t: Trees, o: Outcome, a: seq<bool>, x: bool, at: int, lastFrom: int)
    ensures FeedSeq(t, o, a + [x], at, lastFrom) == Feed(t, FeedSeq(t, o, a, at, lastFrom), x, at + |a| >= lastFrom)
  {
    FeedAppend(t, o, a, [x], at, lastFrom);
  }

  /** A decoder that has returned or failed stays so. */
  lemma {:induction false} FeedHalted(t: Trees, o: Outcome, bits: seq<bool>, at: int, lastFrom: int)
    requires !o.Going?
    ensures FeedSeq(t, o, bits, at, lastFrom) == o
    decreases |bits|
  {
    if bits != [] {
      FeedHalted(t, o, bits[1..], at + 1, lastFrom);
    }
  }

  /** Walking a code word of the current mode's tree ends in the leaf block
      on its symbol. */
  lemma {:induction false} FeedCode(t: Trees, st: DState, code: seq<bool>, x: int, at: int, lastFrom: int)
    requires Follows(ModeStepper(t, st.mode), st.node, code, x)
    ensures FeedSeq(t, Going(st), code, at, lastFrom) == Settle(Reached(t, st, x), at + |code| - 1 >= lastFrom)
    decreases |code|
  {
    match ModeStepper(t, st.mode)(st.node, code[0]).value
    case Emit(_) =>
    case Down(n) =>
      FeedCode(t, st.(node := n), code[1..], x, at + 1, lastFrom);
  }

  /** The trees of `t` decode the code tables of `c`. */
  ghost predicate Matches(t: Trees, c: Codec)
  {
    && t.stop == c.stop && t.numScore == c.numScore
    && Sound(Stepper(t.symNodes, t.symData), 0, c.symbols)
    && Sound(Stepper(t.scoreNodes, t.scoreData), 0, c.scores)
  }

  /** Every symbol and score of `tr` has a code. */
  ghost predicate Coded(c: Codec, tr: Target)
  {
    && c.stop in c.symbols
    && (forall j | 0 <= j < |tr.words| :: tr.words[j] in c.symbols)
    && (forall j | 0 <= j < |tr.scores| :: tr.scores[j] in c.scores)
  }

  /** One symbol code from `New` or `Phrase`: the stop symbol switches to
      `Score`, any other symbol is appended as a word (to an empty phrase
      in `New`). */
  lemma SymbolStep(t: Trees, st: DState, code: seq<bool>, x: int, at: int, lastFrom: int)
    requires st.mode != Score && st.node == 0
    requires Follows(Stepper(t.symNodes, t.symData), 0, code, x)
    ensures FeedSeq(t, Going(st), code, at, lastFrom) ==
            if x == t.stop then Going(DState(Score, 0, WordsSoFar(st), st.scores, st.done))
            else Going(DState(Phrase, 0, WordsSoFar(st) + [x], st.scores, st.done))
  {
    FeedCode(t, st, code, x, at, lastFrom);
  }

  /** One score code in `Score`: the score is appended, and the
      `numScore`-th one adds the phrase. */
  lemma ScoreStep(t: Trees, st: DState, code: seq<bool>, x: int, at: int, lastFrom: int)
    requires st.mode == Score && st.node == 0
    requires Follows(Stepper(t.scoreNodes, t.scoreData), 0, code, x)
    ensures |code| >= 1
    ensures FeedSeq(t, Going(st), code, at, lastFrom) ==
            if |st.scores| + 1 == t.numScore
            then Settle((DState(New, 0, st.words, [], st.done + [Target(st.words, st.scores + [x])]), true), at + |code| - 1 >= lastFrom)
            else Going(DState(Score, 0, st.words, st.scores + [x], st.done))
  {
    FeedCode(t, st, code, x, at, lastFrom);
  }

  /** The codes of a non-empty list of words, from `New` or `Phrase`,
      append the words to the phrase. */
  lemma {:induction false} FeedWords(t: Trees, c: Codec, st: DState, ws: seq<int>, at: int, lastFrom: int)
    requires Sound(Stepper(t.symNodes, t.symData), 0, c.symbols) && st.mode != Score && st.node == 0
    requires ws != [] && forall j | 0 <= j < |ws| :: ws[j] in c.symbols && ws[j] != t.stop
    ensures FeedSeq(t, Going(st), Codes(c.symbols, ws), at, lastFrom) ==
            Going(DState(Phrase, 0, WordsSoFar(st) + ws, st.scores, st.done))
    decreases |ws|
  {
    WordsTail(c, t.stop, ws);
    var code := c.symbols[ws[0]];
    var rest := Codes(c.symbols, ws[1..]);
    CodesStart(c.symbols, ws);
    SymbolStep(t, st, code, ws[0], at, lastFrom);
    if |ws| == 1 {
      assert Codes(c.symbols, ws) == code && [ws[0]] == ws;
    } else {
      var st1 := DState(Phrase, 0, WordsSoFar(st) + [ws[0]], st.scores, st.done);
      FeedWords(t, c, st1, ws[1..], at + |code|, lastFrom);
      FeedAppend(t, Going(st), code, rest, at, lastFrom);
      ConsSplit(WordsSoFar(st), ws);
    }
  }

  /** The first of some plain words, and the words after it. */
  lemma WordsTail(c: Codec, stop: int, ws: seq<int>)
    requires ws != [] && forall j | 0 <= j < |ws| :: ws[j] in c.symbols && ws[j] != stop
    ensures ws[0] in c.symbols && ws[0] != stop
    ensures forall j | 0 <= j < |ws[1..]| :: ws[1..][j] in c.symbols && ws[1..][j] != stop
  {
  }

  lemma ConsSplit<T>(front: seq<T>, ws: seq<T>)
    requires ws != []
    ensures front + [ws[0]] + ws[1..] == front + ws
  {
    assert [ws[0]] + ws[1..] == ws;
  }

  /** The codes of a phrase's symbols and stop symbol, from `New`, lead to
      `Score` with the phrase's words. */
  lemma FeedPhrase(t: Trees, c: Codec, st: DState, ws: seq<int>, at: int, lastFrom: int)
    requires Sound(Stepper(t.symNodes, t.symData), 0, c.symbols) && st.mode == New && st.node == 0
    requires t.stop in c.symbols && forall j | 0 <= j < |ws| :: ws[j] in c.symbols && ws[j] != t.stop
    ensures FeedSeq(t, Going(st), Codes(c.symbols, ws + [t.stop]), at, lastFrom) ==
            Going(DState(Score, 0, ws, st.scores, st.done))
  {
    var stopCode := c.symbols[t.stop];
    var words := Codes(c.symbols, ws);
    CodesSnoc(c.symbols, ws, t.stop);
    if ws == [] {
      assert Codes(c.symbols, ws + [t.stop]) == stopCode;
      SymbolStep(t, st, stopCode, t.stop, at, lastFrom);
    } else {
      FeedWords(t, c, st, ws, at, lastFrom);
      assert [] + ws == ws;
      SymbolStep(t, DState(Phrase, 0, ws, st.scores, st.done), stopCode, t.stop, at + |words|, lastFrom);
      FeedAppend(t, Going(st), words, stopCode, at, lastFrom);
    }
  }

  /** The codes of the scores, in `Score`, complete and add the phrase; the
      decoder returns when the last code ends in the last byte. */
  lemma {:induction false} FeedScores(t: Trees, c: Codec, st: DState, xs: seq<int>, at: int, lastFrom: int)
    requires Sound(Stepper(t.scoreNodes, t.scoreData), 0, c.scores) && st.mode == Score && st.node == 0
    requires xs != [] && |st.scores| + |xs| == t.numScore
    requires forall j | 0 <= j < |xs| :: xs[j] in c.scores
    ensures |Codes(c.scores, xs)| >= 1
    ensures FeedSeq(t, Going(st), Codes(c.scores, xs), at, lastFrom) ==
            Settle((DState(New, 0, st.words, [], st.done + [Target(st.words, st.scores + xs)]), true),
                   at + |Codes(c.scores, xs)| - 1 >= lastFrom)
    decreases |xs|
  {
    var code := c.scores[xs[0]];
    var rest := Codes(c.scores, xs[1..]);
    CodesStart(c.scores, xs);
    ScoreStep(t, st, code, xs[0], at, lastFrom);
    if |xs| == 1 {
      assert Codes(c.scores, xs) == code && [xs[0]] == xs;
    } else {
      var st1 := DState(Score, 0, st.words, st.scores + [xs[0]], st.done);
      FeedScores(t, c, st1, xs[1..], at + |code|, lastFrom);
      FeedAppend(t, Going(st), code, rest, at, lastFrom);
      ConsSplit(st.scores, xs);
    }
  }

  /** `st` is between phrases: in `New` at the root with no scores. */
  ghost predicate AtPhraseStart(st: DState)
  {
    st.mode == New && st.node == 0 && st.scores == []
  }

  /** The codes of one regular phrase, from `New`, add exactly that phrase. */
  lemma FeedTarget(t: Trees, c: Codec, st: DState, tr: Target, at: int, lastFrom: int)
    requires Matches(t, c) && c.numScore >= 1 && AtPhraseStart(st)
    requires Regular(c, tr) && Coded(c, tr)
    ensures FeedSeq(t, Going(st), TargetBits(c, tr), at, lastFrom) ==
            Settle((DState(New, 0, tr.words, [], st.done + [tr]), true), at + |TargetBits(c, tr)| - 1 >= lastFrom)
  {
    var a := Codes(c.symbols, tr.words + [c.stop]);
    var b := Codes(c.scores, tr.scores);
    FeedPhrase(t, c, st, tr.words, at, lastFrom);
    FeedScores(t, c, DState(Score, 0, tr.words, [], st.done), tr.scores, at + |a|, lastFrom);
    FeedAppend(t, Going(st), a, b, at, lastFrom);
    assert [] + tr.scores == tr.scores;
  }

  /** No two phrase ends fall into the last byte: every phrase but the
      last ends before the byte holding the end of the bits. */
  ghost predicate LastByteHoldsOneEnd(c: Codec, ts: seq<Target>)
  {
    ts != [] ==> |CollectionBits(c, ts[..|ts| - 1])| <= 8 * ((|CollectionBits(c, ts)| + 7) / 8 - 1)
  }

  /** Every phrase takes at least the bits of the stop symbol's code. */
  lemma {:induction false} CollectionBitsAtLeast(c: Codec, ts: seq<Target>)
    requires c.stop in c.symbols && c.symbols[c.stop] != []
    ensures |CollectionBits(c, ts)| >= |ts|
  {
    if ts != [] {
      CodesSnoc(c.symbols, ts[0].words, c.stop);
      CollectionBitsAtLeast(c, ts[1..]);
    }
  }

  /** The trees decode `c`, which has scores, and every phrase of `ts` is
      regular and coded. */
  ghost predicate Carries(t: Trees, c: Codec, ts: seq<Target>)
  {
    Matches(t, c) && c.numScore >= 1 && forall k | 0 <= k < |ts| :: Regular(c, ts[k]) && Coded(c, ts[k])
  }

  /** The codes of a non-empty list of phrases, from `New`, add all of them
      and return in the last one, given that only it ends at or after
      `lastFrom` and it does end there. */
  lemma {:induction false} FeedCollection(t: Trees, c: Codec, st: DState, ts: seq<Target>, at: int, lastFrom: int)
    requires Carries(t, c, ts) && AtPhraseStart(st) && ts != []
    requires at + |CollectionBits(c, ts[..|ts| - 1])| <= lastFrom <= at + |CollectionBits(c, ts)| - 1
    ensures FeedSeq(t, Going(st), CollectionBits(c, ts), at, lastFrom) == Stopped(st.done + ts)
    decreases |ts|
  {
    if |ts| == 1 {
      FeedOnlyTarget(t, c, st, ts, at, lastFrom);
    } else {
      var a := TargetBits(c, ts[0]);
      var next := DState(New, 0, ts[0].words, [], st.done + [ts[0]]);
      var rest := CollectionBits(c, ts[1..]);
      FeedFirstTarget(t, c, st, ts, at, lastFrom);
      FeedCollection(t, c, next, ts[1..], at + |a|, lastFrom);
      FeedAppend(t, Going(st), a, rest, at, lastFrom);
      ConsSplit(st.done, ts);
    }
  }

  /** The codes of a single phrase that ends in the last byte add it and
      return. */
  lemma FeedOnlyTarget(t: Trees, c: Codec, st: DState, ts: seq<Target>, at: int, lastFrom: int)
    requires Carries(t, c, ts) && AtPhraseStart(st) && |ts| == 1
    requires at <= lastFrom <= at + |CollectionBits(c, ts)| - 1
    ensures FeedSeq(t, Going(st), CollectionBits(c, ts), at, lastFrom) == Stopped(st.done + ts)
  {
    var tr := ts[0];
    CarriesFirst(t, c, ts);
    FeedTarget(t, c, st, tr, at, lastFrom);
    assert ts[1..] == [] && [tr] == ts;
    assert CollectionBits(c, ts) == TargetBits(c, tr) + [] == TargetBits(c, tr);
    assert FeedSeq(t, Going(st), TargetBits(c, tr), at, lastFrom) == Stopped(st.done + [tr]);
  }

  /** The codes of the first of several phrases add it without returning,
      and the rest of the phrases still meet the conditions. */
  lemma FeedFirstTarget(t: Trees, c: Codec, st: DState, ts: seq<Target>, at: int, lastFrom: int)
    requires Carries(t, c, ts) && AtPhraseStart(st) && |ts| >= 2
    requires at + |CollectionBits(c, ts[..|ts| - 1])| <= lastFrom <= at + |CollectionBits(c, ts)| - 1
    ensures FeedSeq(t, Going(st), TargetBits(c, ts[0]), at, lastFrom) == Going(DState(New, 0, ts[0].words, [], st.done + [ts[0]]))
    ensures CollectionBits(c, ts) == TargetBits(c, ts[0]) + CollectionBits(c, ts[1..])
    ensures Carries(t, c, ts[1..]) && AtPhraseStart(DState(New, 0, ts[0].words, [], st.done + [ts[0]]))
    ensures at + |TargetBits(c, ts[0])| + |CollectionBits(c, ts[1..][..|ts[1..]| - 1])| <= lastFrom
    ensures lastFrom <= at + |TargetBits(c, ts[0])| + |CollectionBits(c, ts[1..])| - 1
  {
    CarriesFirst(t, c, ts);
    FeedTarget(t, c, st, ts[0], at, lastFrom);
    CollectionBitsFront(c, ts);
    assert |ts[1..]| - 1 == |ts| - 2;
  }

  lemma CarriesFirst(t: Trees, c: Codec, ts: seq<Target>)
    requires Carries(t, c, ts) && ts != []
    ensures Matches(t, c) && c.numScore >= 1 && Regular(c, ts[0]) && Coded(c, ts[0]) && Carries(t, c, ts[1..])
  {
    assert forall k | 0 <= k < |ts| - 1 :: ts[1..][k] == ts[k + 1];
  }

  lemma CollectionBitsFront(c: Codec, ts: seq<Target>)
    requires |ts| >= 2
    ensures CollectionBits(c, ts) == TargetBits(c, ts[0]) + CollectionBits(c, ts[1..])
    ensures CollectionBits(c, ts[..|ts| - 1]) == TargetBits(c, ts[0]) + CollectionBits(c, ts[1..][..|ts| - 2])
  {
    assert ts[..|ts| - 1][1..] == ts[1..][..|ts| - 2];
  }

  /** Decoding the encoded bits of a list of regular, coded phrases gives
      the list back, provided no two phrases end in the last byte. */
  lemma CollectionRoundTrip(t: Trees, c: Codec, ts: seq<Target>)
    requires Carries(t, c, ts) && LastByteHoldsOneEnd(c, ts)
    ensures DecodeCollectionSpec(t, Pack(CollectionBits(c, ts))) == Ok(ts)
  {
    if ts == [] {
      assert CollectionBits(c, ts) == [];
      DecodeNothing(t);
    } else {
      var b := CollectionBits(c, ts);
      var lastFrom := 8 * ((|b| + 7) / 8 - 1);
      FeedAllTargets(t, c, ts, b, lastFrom);
      DecodePacked(t, b, ts, lastFrom);
    }
  }

  /** No bytes decode to no phrases. */
  lemma DecodeNothing(t: Trees)
    ensures DecodeCollectionSpec(t, Pack([])) == Ok([])
  {
    assert Pack([]) == [] && Unpack([]) == [];
  }

  /** A decoder that returns with `found` at the end of the bits `b`
      decodes the packing of `b` to `found`: the padding is not read. */
  lemma DecodePacked(t: Trees, b: seq<bool>, found: seq<Target>, lastFrom: int)
    requires lastFrom == 8 * ((|b| + 7) / 8 - 1)
    requires FeedSeq(t, Going(Initial), b, 0, lastFrom) == Stopped(found)
    ensures DecodeCollectionSpec(t, Pack(b)) == Ok(found)
  {
    var pad := Zeros(Padding(|b|));
    var bytes := Pack(b);
    assert 8 * (|bytes| - 1) == lastFrom;
    UnpackPack(b);
    FeedAppend(t, Going(Initial), b, pad, 0, lastFrom);
    FeedHalted(t, Stopped(found), pad, |b|, lastFrom);
    assert FeedSeq(t, Going(Initial), Unpack(bytes), 0, 8 * (|bytes| - 1)) == Stopped(found);
  }

  /** The codes of a non-empty collection, with the last byte of their
      packing holding only the end of the last phrase, add every phrase
      and return. */
  lemma FeedAllTargets(t: Trees, c: Codec, ts: seq<Target>, b: seq<bool>, lastFrom: int)
    requires Carries(t, c, ts) && LastByteHoldsOneEnd(c, ts) && ts != []
    requires b == CollectionBits(c, ts) && lastFrom == 8 * ((|b| + 7) / 8 - 1)
    ensures FeedSeq(t, Going(Initial), b, 0, lastFrom) == Stopped(ts)
  {
    assert Coded(c, ts[0]) && Follows(Stepper(t.symNodes, t.symData), 0, c.symbols[c.stop], c.stop);
    CollectionBitsAtLeast(c, ts);
    LastByteStart(|b|);
    FeedCollection(t, c, Initial, ts, 0, lastFrom);
    assert [] + ts == ts;
  }

  /** The last of the bytes holding n > 0 bits starts at or before the last bit. */
  lemma LastByteStart(n: nat)
    requires n >= 1
    ensures 8 * ((n + 7) / 8 - 1) <= n - 1
  {
  }

  /** Two trees of one node each, their codes, and two phrases without
      words and with the score 5. */
  const ExampleTrees := Trees([-1, -2], [7, 9], [-1, -2], [5, 6], 7, 1)
  const ExampleCodec := Codec(map[7 := [false], 9 := [true]], map[5 := [false], 6 := [true]], 7, 1)
  const ExamplePhrases := [Target([], [5]), Target([], [5])]

  /** The early return loses a phrase: with the symbol codes 0 for the stop
      symbol 7 and 1 for the word 9, the score code 0 for the score 5 and one
      score per phrase, two phrases without words take four bits, one byte,
      and the decoder returns after the first. */
  lemma LastBytePhraseDropped()
    ensures Carries(ExampleTrees, ExampleCodec, ExamplePhrases)
    ensures Pack(CollectionBits(ExampleCodec, ExamplePhrases)) == [0]
    ensures DecodeCollectionSpec(ExampleTrees, [0]) == Ok([Target([], [5])])
  {
    ExampleCarries();
    ExamplePacks();
    ExampleDecodes();
  }

  lemma ExampleCarries()
    ensures Carries(ExampleTrees, ExampleCodec, ExamplePhrases)
  {
    assert Follows(Stepper([-1, -2], [7, 9]), 0, [false], 7);
    assert Follows(Stepper([-1, -2], [7, 9]), 0, [true], 9);
    assert Follows(Stepper([-1, -2], [5, 6]), 0, [false], 5);
    assert Follows(Stepper([-1, -2], [5, 6]), 0, [true], 6);
  }

  /** The two phrases take the four bits 0000, packed into the byte 0. */
  lemma ExamplePacks()
    ensures Pack(CollectionBits(ExampleCodec, ExamplePhrases)) == [0]
  {
    var c, ts := ExampleCodec, ExamplePhrases;
    var two := [false, false];
    assert Codes(c.symbols, [] + [7]) == [false];
    assert Codes(c.scores, [5]) == [false];
    assert TargetBits(c, Target([], [5])) == two;
    assert CollectionBits(c, ts[1..]) == two;
    assert CollectionBits(c, ts) == Zeros(4);
    ByteOfZeros(4);
  }

  /** The byte 0 decodes to one phrase: the decoder returns after the
      second bit, which lies in the last byte. */
  lemma ExampleDecodes()
    ensures DecodeCollectionSpec(ExampleTrees, [0]) == Ok([Target([], [5])])
  {
    var t := ExampleTrees;
    var two := [false, false];
    var bits := Unpack([0]);
    assert bits == BitsOf(0) + Unpack([]);
    BitsOfZero();
    assert bits == two + Zeros(6);
    var o1 := Feed(t, Going(Initial), false, true);
    assert o1 == Going(DState(Score, 0, [], [], []));
    var o2 := Feed(t, o1, false, true);
    assert Stepper([-1, -2], [5, 6])(0, false) == Ok(Emit(5));
    assert [] + [5] == [5] && [] + [Target([], [5])] == [Target([], [5])];
    assert o2 == Stopped([Target([], [5])]);
    assert FeedSeq(t, Going(Initial), two, 0, 0) == o2;
    FeedAppend(t, Going(Initial), two, Zeros(6), 0, 0);
    FeedHalted(t, o2, Zeros(6), 2, 0);
  }

  /** Bit i of byte k is the next bit the decoder takes after the first
      8k+i. */
  lemma FeedNextBit(t: Trees, bytes: seq<byte>, k: nat, i: nat)
    requires k < |bytes| && i < 8
    ensures var bits := Unpack(bytes);
            var lastFrom := 8 * (|bytes| - 1);
            FeedSeq(t, Going(Initial), bits[..8 * k + i + 1], 0, lastFrom) ==
            Feed(t, FeedSeq(t, Going(Initial), bits[..8 * k + i], 0, lastFrom), BitOf(bytes[k], i), 8 * k + i >= lastFrom)
  {
    var bits := Unpack(bytes);
    UnpackIndex(bytes, k, i);
    assert bits[..8 * k + i + 1] == bits[..8 * k + i] + [BitOf(bytes[k], i)];
    FeedSnoc(t, Going(Initial), bits[..8 * k + i], BitOf(bytes[k], i), 0, 8 * (|bytes| - 1));
  }

  /** Once the decoder has returned or failed after the first n bits, the
      rest of the input changes nothing. */
  lemma FeedStopsEarly(t: Trees, bytes: seq<byte>, n: nat, o: Outcome)
    requires n <= 8 * |bytes| && !o.Going?
    requires FeedSeq(t, Going(Initial), Unpack(bytes)[..n], 0, 8 * (|bytes| - 1)) == o
    ensures FeedSeq(t, Going(Initial), Unpack(bytes), 0, 8 * (|bytes| - 1)) == o
  {
    var bits := Unpack(bytes);
    assert bits == bits[..n] + bits[n..];
    FeedAppend(t, Going(Initial), bits[..n], bits[n..], 0, 8 * (|bytes| - 1));
    FeedHalted(t, o, bits[n..], n, 8 * (|bytes| - 1));
  }

  // ---------------------------------------------------------------------
  // The coder object

  lemma HasMember(s: set<int>)
    requires s != {}
    ensures exists x :: x in s
  {
    if forall x :: x !in s {
      assert false;
    }
  }

  /** Pairs listing the entries of a counter, in some order (the iteration
      order of the unordered_map). */
  method Listing(m: map<int, nat>) returns (ps: seq<(int, nat)>)
    ensures CodeTrees.Lists(ps, m)
  {
    ps := [];
    var rest := m.Keys;
    while rest != {}
      invariant CodeTrees.Symbols(ps) + rest == m.Keys && CodeTrees.Symbols(ps) !! rest
      invariant forall i, j | 0 <= i < j < |ps| :: ps[i].0 != ps[j].0
      invariant forall p | p in ps :: p.0 in m && m[p.0] == p.1
      decreases rest
    {
      HasMember(rest);
      var k :| k in rest;
      assert CodeTrees.Symbols(ps + [(k, m[k])]) == CodeTrees.Symbols(ps) + {k};
      forall i | 0 <= i < |ps|
        ensures ps[i].0 != k
      {
        assert ps[i].0 in CodeTrees.Symbols(ps);
      }
      ps := ps + [(k, m[k])];
      rest := rest - {k};
    }
  }

  /** One half of `calcHuffmanCodes`: the encoding tree of the pairs of a
      counter, in whatever order the map lists them.  It is the Huffman
      tree of the counts, and it gives a code to exactly the counted
      values. */
  method EncodingTree(count: map<int, nat>) returns (tree: Hufftree.Hufftree)
    requires count != map[]
    ensures fresh(tree) && tree.Valid() && tree.EncodesCount(count) && tree.encoding.Keys == count.Keys
  {
    var pairs := Listing(count);
    CodeTrees.ListingBuilds(pairs, count);
    CodeTrees.ListingSize(pairs);
    tree := new Hufftree.Hufftree(pairs, true);
    if |pairs| == 1 {
      assert CodeTrees.Symbols(pairs) == {pairs[0].0};
    }
  }

  /** What `save` writes: the symbol vector, then the symbol tree and the
      score tree as `Hufftree::Save` writes them. */
  function SavedCoder(symbols: seq<string>, symNodes: seq<int>, symData: seq<int>, scoreNodes: seq<int>, scoreData: seq<int>): seq<Cell>
  {
    SavedSymbols(symbols) + Hufftree.SavedTree(symNodes, symData) + Hufftree.SavedTree(scoreNodes, scoreData)
  }

  /** What `load` reads, in the same order. */
  function ReadCoder(s: seq<Cell>): Option<(seq<string>, seq<int>, seq<int>, seq<int>, seq<int>)>
  {
    match ReadSymbols(s)
    case None => None
    case Some((symbols, k)) =>
      match Hufftree.ReadTree(s[k..])
      case None => None
      case Some((sn, sd, k2)) =>
        match Hufftree.ReadTree(s[k + k2..])
        case None => None
        case Some((cn, cd, _)) => Some((symbols, sn, sd, cn, cd))
  }

  /** The three parts `load` reads one after the other. */
  lemma ReadCoderParts(s: seq<Cell>)
    requires ReadCoder(s).Some?
    ensures ReadSymbols(s).Some? && ReadSymbols(s).value.0 == ReadCoder(s).value.0
    ensures var k := ReadSymbols(s).value.1;
      && Hufftree.ReadTree(s[k..]).Some?
      && Hufftree.ReadTree(s[k..]).value.0 == ReadCoder(s).value.1
      && Hufftree.ReadTree(s[k..]).value.1 == ReadCoder(s).value.2
      && var k2 := Hufftree.ReadTree(s[k..]).value.2;
      && k + k2 <= |s|
      && Hufftree.ReadTree(s[k + k2..]).Some?
      && Hufftree.ReadTree(s[k + k2..]).value.0 == ReadCoder(s).value.3
      && Hufftree.ReadTree(s[k + k2..]).value.1 == ReadCoder(s).value.4
  {
  }

  lemma ReadSavedCoder(symbols: seq<string>, symNodes: seq<int>, symData: seq<int>, scoreNodes: seq<int>, scoreData: seq<int>)
    ensures ReadCoder(SavedCoder(symbols, symNodes, symData, scoreNodes, scoreData)) ==
            Some((symbols, symNodes, symData, scoreNodes, scoreData))
  {
    var a := SavedSymbols(symbols);
    var b := Hufftree.SavedTree(symNodes, symData);
    var d := Hufftree.SavedTree(scoreNodes, scoreData);
    var s := a + b + d;
    ReadSavedSymbols(symbols, b + d);
    assert s == a + (b + d);
    assert s[|a|..] == b + d;
    Hufftree.ReadSavedTree(symNodes, symData, d);
    assert s[|a| + |b|..] == d + [];
    Hufftree.ReadSavedTree(scoreNodes, scoreData, []);
  }

  class PhraseCoder {
    const table: SymbolTable
    var symbolCount: map<int, nat>
    var scoreCount: map<int, nat>
    var symbolTree: Hufftree.Hufftree?
    var scoreTree: Hufftree.Hufftree?
    const numScore: nat

    /** The coder starts with no symbols, empty counters and no trees. */
    constructor (numScore: nat)
      ensures fresh(table) && table.Valid() && table.symbols == [] && table.ids == map[]
      ensures symbolCount == map[] && scoreCount == map[] && symbolTree == null && scoreTree == null
      ensures this.numScore == numScore
    {
      table := new SymbolTable();
      symbolCount, scoreCount := map[], map[];
      symbolTree, scoreTree := null, null;
      this.numScore := numScore;
    }

    /** `packTargetPhrase(targetPhrase, os)` on the tokens of the phrase:
        give the stop symbol an id first, then write and count the id of
        each word, then write and count the stop id. */
    method PackTargetPhrase(words: seq<string>) returns (cells: seq<Cell>)
      requires table.Valid()
      modifies this, table
      ensures table.Valid() && Extends(old(table.ids), table.ids)
      ensures StopSymbol in table.ids && forall k | 0 <= k < |words| :: words[k] in table.ids
      ensures StopSymbol !in old(table.ids) ==> table.ids[StopSymbol] == |old(table.symbols)|
      ensures forall k | 0 <= k < |words| :: table.Get(IdsOf(table.ids, words)[k]) == words[k]
      ensures cells == Nums(IdsOf(table.ids, words) + [table.ids[StopSymbol]])
      ensures symbolCount == Counted(old(symbolCount), IdsOf(table.ids, words) + [table.ids[StopSymbol]])
      ensures scoreCount == old(scoreCount) && symbolTree == old(symbolTree) && scoreTree == old(scoreTree)
    {
      var stpIdx := table.AddOrGet(StopSymbol);
      cells := PackWords(words);
      NumsAppend(IdsOf(table.ids, words), [stpIdx]);
      CountedSnoc(old(symbolCount), IdsOf(table.ids, words), stpIdx);
      cells := cells + [Num(stpIdx)];
      symbolCount := Bump(symbolCount, stpIdx);
    }

    /** The loop of `packTargetPhrase`: write and count the id of each
        word, giving new words the next free ids. */
    method PackWords(words: seq<string>) returns (cells: seq<Cell>)
      requires table.Valid()
      modifies this, table
      ensures table.Valid() && Extends(old(table.ids), table.ids)
      ensures forall k | 0 <= k < |words| :: words[k] in table.ids
      ensures cells == Nums(IdsOf(table.ids, words))
      ensures symbolCount == Counted(old(symbolCount), IdsOf(table.ids, words))
      ensures scoreCount == old(scoreCount) && symbolTree == old(symbolTree) && scoreTree == old(scoreTree)
    {
      cells := [];
      for k := 0 to |words|
        invariant table.Valid() && Extends(old(table.ids), table.ids)
        invariant forall j | 0 <= j < k :: words[j] in table.ids
        invariant cells == Nums(IdsOf(table.ids, words[..k]))
        invariant symbolCount == Counted(old(symbolCount), IdsOf(table.ids, words[..k]))
        invariant scoreCount == old(scoreCount) && symbolTree == old(symbolTree) && scoreTree == old(scoreTree)
      {
        ghost var ids0 := table.ids;
        var idx := table.AddOrGet(words[k]);
        WordStep(ids0, table.ids, words, k, old(symbolCount));
        cells := cells + [Num(idx)];
        symbolCount := Bump(symbolCount, idx);
      }
      assert words[..|words|] == words;
    }

    /** `packScores(scores, os)` on the transformed scores: write and count
        each one. */
    method PackScores(scores: seq<int>) returns (cells: seq<Cell>)
      modifies this
      ensures cells == Nums(scores)
      ensures scoreCount == Counted(old(scoreCount), scores)
      ensures symbolCount == old(symbolCount) && symbolTree == old(symbolTree) && scoreTree == old(scoreTree)
    {
      cells := [];
      for k := 0 to |scores|
        invariant cells == Nums(scores[..k])
        invariant scoreCount == Counted(old(scoreCount), scores[..k])
        invariant symbolCount == old(symbolCount) && symbolTree == old(symbolTree) && scoreTree == old(scoreTree)
      {
        PackedScoreStep(old(scoreCount), scores, k);
        cells := cells + [Num(scores[k])];
        scoreCount := Bump(scoreCount, scores[k]);
      }
      assert scores[..|scores|] == scores;
    }

    /** `packCollection(collection)`: pack each row's phrase and scores in
        turn.  The result is the packed collection of the rows with their
        words replaced by ids, and the counters have counted each id, each
        stop id and each score once more. */
    method PackCollection(entries: seq<Entry>) returns (cells: seq<Cell>)
      requires table.Valid()
      modifies this, table
      ensures table.Valid() && Extends(old(table.ids), table.ids) && Known(table.ids, entries)
      ensures entries != [] ==> StopSymbol in table.ids
      ensures cells == PackedCollection(Targets(table.ids, entries), StopId(table.ids))
      ensures symbolCount == Counted(old(symbolCount), SymbolsOf(Targets(table.ids, entries), StopId(table.ids)))
      ensures scoreCount == Counted(old(scoreCount), ScoresOf(Targets(table.ids, entries)))
      ensures symbolTree == old(symbolTree) && scoreTree == old(scoreTree)
    {
      cells := [];
      for k := 0 to |entries|
        invariant table.Valid() && Extends(old(table.ids), table.ids) && Known(table.ids, entries[..k])
        invariant k > 0 ==> StopSymbol in table.ids
        invariant cells == PackedCollection(Targets(table.ids, entries[..k]), StopId(table.ids))
        invariant symbolCount == Counted(old(symbolCount), SymbolsOf(Targets(table.ids, entries[..k]), StopId(table.ids)))
        invariant scoreCount == Counted(old(scoreCount), ScoresOf(Targets(table.ids, entries[..k])))
        invariant symbolTree == old(symbolTree) && scoreTree == old(scoreTree)
      {
        ghost var ids0 := table.ids;
        var phrase := PackTargetPhrase(entries[k].words);
        var scores := PackScores(entries[k].scores);
        PackStep(ids0, table.ids, entries, k, old(symbolCount), old(scoreCount));
        cells := cells + (phrase + scores);
      }
      assert entries[..|entries|] == entries;
    }

    /** `calcHuffmanCodes()`: build an encoding symbol tree from the symbol
        counter and an encoding score tree from the score counter.  Every
        counted symbol and every counted score then has a code that decodes
        back to it.  (The bits-per-symbol figures it prints are not
        modelled.) */
    method CalcHuffmanCodes()
      requires symbolCount != map[] && scoreCount != map[]
      modifies this
      ensures symbolTree != null && fresh(symbolTree) && symbolTree.forEncoding && symbolTree.Valid()
      ensures scoreTree != null && fresh(scoreTree) && scoreTree.forEncoding && scoreTree.Valid()
      ensures symbolTree.encoding.Keys == symbolCount.Keys && scoreTree.encoding.Keys == scoreCount.Keys
      ensures symbolTree.EncodesCount(symbolCount) && scoreTree.EncodesCount(scoreCount)
      ensures symbolCount == old(symbolCount) && scoreCount == old(scoreCount)
    {
      symbolTree := EncodingTree(symbolCount);
      scoreTree := EncodingTree(scoreCount);
    }

    /** `save(out)`. */
    method Save() returns (cells: seq<Cell>)
      requires symbolTree != null && scoreTree != null
      ensures cells == SavedCoder(table.symbols, symbolTree.nodes, symbolTree.data, scoreTree.nodes, scoreTree.data)
      ensures ReadCoder(cells) == Some((table.symbols, symbolTree.nodes, symbolTree.data, scoreTree.nodes, scoreTree.data))
    {
      var a := table.Save();
      var b := symbolTree.Save();
      var d := scoreTree.Save();
      cells := a + b + d;
      ReadSavedCoder(table.symbols, symbolTree.nodes, symbolTree.data, scoreTree.nodes, scoreTree.data);
    }

    /** `load(in)`: the symbol vector, then two trees read for decoding
        only; the symbol map stays as it was. */
    method Load(cells: seq<Cell>)
      requires ReadCoder(cells).Some?
      modifies this`symbolTree, this`scoreTree, table
      ensures table.symbols == ReadCoder(cells).value.0 && table.ids == old(table.ids)
      ensures symbolTree != null && symbolTree.nodes == ReadCoder(cells).value.1 && symbolTree.data == ReadCoder(cells).value.2
      ensures scoreTree != null && scoreTree.nodes == ReadCoder(cells).value.3 && scoreTree.data == ReadCoder(cells).value.4
      ensures !symbolTree.forEncoding && !scoreTree.forEncoding
      ensures symbolCount == old(symbolCount) && scoreCount == old(scoreCount)
    {
      ReadCoderParts(cells);
      table.Load(cells);
      var symbols, scores := LoadTrees(cells);
      symbolTree, scoreTree := symbols, scores;
    }

    /** The two trees `load` reads after the symbol vector. */
    static method LoadTrees(cells: seq<Cell>) returns (symbols: Hufftree.Hufftree, scores: Hufftree.Hufftree)
      requires ReadCoder(cells).Some?
      ensures symbols.nodes == ReadCoder(cells).value.1 && symbols.data == ReadCoder(cells).value.2
      ensures scores.nodes == ReadCoder(cells).value.3 && scores.data == ReadCoder(cells).value.4
      ensures !symbols.forEncoding && !scores.forEncoding
    {
      ReadCoderParts(cells);
      var k := ReadSymbols(cells).value.1;
      var k2 := Hufftree.ReadTree(cells[k..]).value.2;
      symbols := new Hufftree.Hufftree.Load(cells[k..], false);
      scores := new Hufftree.Hufftree.Load(cells[k + k2..], false);
    }

    /** `encodePackedCollection(packedCollection)`: the state machine that
        reads symbols until the stop symbol, then `numScore` scores, and
        writes the code of each item read, until a read fails.  The result
        is the packing of the bits `EncodeFrom` describes, with the stop id
        looked up in the symbol map. */
    method EncodePackedCollection(packed: seq<Cell>) returns (r: seq<byte>)
      requires symbolTree != null && scoreTree != null
      modifies table
      ensures table.ids == old(table.ids)[StopSymbol := StopId(old(table.ids))] && table.symbols == old(table.symbols)
      ensures r == Pack(EncodeFrom(Codec(symbolTree.encoding, scoreTree.encoding, StopId(old(table.ids)), numScore), packed, InPhrase))
    {
      var phraseStopSymbol := table.Lookup(StopSymbol);
      var c := Codec(symbolTree.encoding, scoreTree.encoding, phraseStopSymbol, numScore);
      ghost var ids := table.ids;
      assert ids == old(table.ids)[StopSymbol := StopId(old(table.ids))];
      ghost var total := EncodeFrom(c, packed, InPhrase);
      var state := ReadSymbol;
      var w := Start;
      ghost var sofar: seq<bool> := [];
      var symbol, score := 0, 0;
      var currScore := 0;
      var i := 0;          // the read position in the packed stream
      var good := true;    // the stream has not failed
      while good
        invariant table.ids == ids && table.symbols == old(table.symbols)
        invariant Holds(w, sofar)
        invariant good ==> OnTrack(c, packed, state, i, currScore, symbol, score, sofar, total)
        invariant !good ==> sofar == total
        decreases if good then 1 else 0, |packed| - i, Rank(state)
      {
        if state in {ReadSymbol, ReadScore, ReadAlignment} {
          state, i, currScore, symbol, score, good := ReadItem(c, packed, state, i, currScore, symbol, score, sofar, total);
        } else {
          state, w, sofar := WriteItem(c, packed, state, i, currScore, symbol, score, w, sofar, total);
        }
      }
      FlushPacks(w, sofar);
      r := Flush(w);
    }

    /** `decodeCollection(encoded, sourcePhrase)`: walk the bits of each
        byte, bit 0 first, through the symbol tree (states `New` and
        `Phrase`) or the score tree (state `Score`), and act on each leaf;
        return after a phrase is added within the last byte.  The phrases
        come out as symbol ids and scores (turning ids into words and
        scores into feature values is not modelled). */
    method DecodeCollection(encoded: seq<byte>) returns (r: Result<seq<Target>>)
      requires symbolTree != null && scoreTree != null
      modifies table
      ensures table.ids == old(table.ids)[StopSymbol := StopId(old(table.ids))] && table.symbols == old(table.symbols)
      ensures r == DecodeCollectionSpec(Trees(symbolTree.nodes, symbolTree.data, scoreTree.nodes, scoreTree.data, StopId(old(table.ids)), numScore), encoded)
    {
      var phraseStopSymbol := table.Lookup(StopSymbol);
      var t := Trees(symbolTree.nodes, symbolTree.data, scoreTree.nodes, scoreTree.data, phraseStopSymbol, numScore);
      ghost var ids := table.ids;
      var state := New;
      var node := 0;
      var words: seq<int> := [];
      var scores: seq<int> := [];
      var coll: seq<Target> := [];
      for k := 0 to |encoded|
        invariant table.ids == ids && table.symbols == old(table.symbols)
        invariant FeedSeq(t, Going(Initial), Unpack(encoded)[..8 * k], 0, 8 * (|encoded| - 1)) == Going(DState(state, node, words, scores, coll))
      {
        var stopped;
        stopped, state, node, words, scores, coll := DecodeCollectionByte(t, encoded, k, state, node, words, scores, coll);
        if stopped.Some? {
          return stopped.value;
        }
      }
      assert Unpack(encoded)[..8 * |encoded|] == Unpack(encoded);
      return Ok(coll);
    }
  }

  /** The inner loop of `decodeCollection` on byte `k`: its bits, bit 0
      first, through the tree of the current state; the outcome of the
      call when it returns within the byte, or else the state after it. */
  method DecodeCollectionByte(t: Trees, encoded: seq<byte>, k: nat, state0: Mode, node0: int,
                              words0: seq<int>, scores0: seq<int>, coll0: seq<Target>)
    returns (stopped: Option<Result<seq<Target>>>, state: Mode, node: int, words: seq<int>, scores: seq<int>, coll: seq<Target>)
    requires k < |encoded|
    requires FeedSeq(t, Going(Initial), Unpack(encoded)[..8 * k], 0, 8 * (|encoded| - 1)) == Going(DState(state0, node0, words0, scores0, coll0))
    ensures stopped.Some? ==> DecodeCollectionSpec(t, encoded) == stopped.value
    ensures stopped.None? ==> FeedSeq(t, Going(Initial), Unpack(encoded)[..8 * k + 8], 0, 8 * (|encoded| - 1)) == Going(DState(state, node, words, scores, coll))
  {
    var byte := encoded[k];
    ghost var bits, lastFrom := Unpack(encoded), 8 * (|encoded| - 1);
    stopped, state, node, words, scores, coll := None, state0, node0, words0, scores0, coll0;
    for i := 0 to 8
      invariant stopped == None
      invariant FeedSeq(t, Going(Initial), bits[..8 * k + i], 0, lastFrom) == Going(DState(state, node, words, scores, coll))
    {
      var bit := BitOf(byte, i);   // byte & mask, with mask == 1 << i
      var last := k == |encoded| - 1;
      ghost var next := Feed(t, Going(DState(state, node, words, scores, coll)), bit, last);
      FeedNextBit(t, encoded, k, i);
      stopped, state, node, words, scores, coll := DecodeCollectionBit(t, state, node, words, scores, coll, bit, last);
      if stopped.Some? {
        FeedStopsEarly(t, encoded, 8 * k + i + 1, next);
        return;
      }
    }
  }

  /** What `decodeCollection` returns once the decoder stops, or None
      while it is still reading. */
  function Returned(o: Outcome): (r: Option<Result<seq<Target>>>)
    ensures r.None? <==> o.Going?
  {
    match o
    case Going(_) => None
    case Stopped(d) => Some(Ok(d))
    case Failed(m) => Some(Err(m))
  }

  /** One pass of the inner loop of `decodeCollection`: bit `bit` through
      the tree of the current state, with `last` saying that it is in the
      last byte.  It does what `Feed` says. */
  method DecodeCollectionBit(t: Trees, state0: Mode, node0: int, words0: seq<int>, scores0: seq<int>, coll0: seq<Target>,
                             bit: bool, last: bool)
    returns (stopped: Option<Result<seq<Target>>>, state: Mode, node: int, words: seq<int>, scores: seq<int>, coll: seq<Target>)
    ensures stopped == Returned(Feed(t, Going(DState(state0, node0, words0, scores0, coll0)), bit, last))
    ensures stopped.None? ==> Feed(t, Going(DState(state0, node0, words0, scores0, coll0)), bit, last) == Going(DState(state, node, words, scores, coll))
  {
    stopped, state, node, words, scores, coll := None, state0, node0, words0, scores0, coll0;
    FeedOneBit(t, DState(state, node, words, scores, coll), bit, last);
    var move := if state == Score then Step(t.scoreNodes, t.scoreData, node, bit)
                else Step(t.symNodes, t.symData, node, bit);
    match move {
      case Err(m) =>
        return Some(Err(m)), state, node, words, scores, coll;
      case Ok(Down(n)) =>
        node := n;
      case Ok(Emit(x)) =>
        var add;
        state, words, scores, coll, add := Leaf(t, state, node, words, scores, coll, x);
        if add && last {
          return Some(Ok(coll)), state, node, words, scores, coll;
        }
        node := 0;
    }
  }

  /** The `node < 0` block of `decodeCollection` on the leaf value `x`:
      `New` starts a phrase; in `Phrase` the stop symbol switches to
      `Score` and any other symbol is a word; in `Score` the value is a
      score, and the `numScore`-th one adds the phrase (`add`) and goes
      back to `New`.  It does what the decoder specification says. */
  method Leaf(t: Trees, state0: Mode, ghost node: int, words0: seq<int>, scores0: seq<int>, coll0: seq<Target>, x: int)
    returns (state: Mode, words: seq<int>, scores: seq<int>, coll: seq<Target>, add: bool)
    ensures Reached(t, DState(state0, node, words0, scores0, coll0), x) == (DState(state, 0, words, scores, coll), add)
  {
    state, words, scores, coll, add := state0, words0, scores0, coll0, false;
    if state == New {
      words := [];             // a new TargetPhrase
      state := Phrase;
    }
    if state == Phrase {
      if x == t.stop {
        state := Score;
      } else {
        words := words + [x];
      }
    } else if state == Score {
      scores := scores + [x];
      if |scores| == t.numScore {
        coll := coll + [Target(words, scores)];
        scores := [];
        add := true;
        state := New;
      }
    }
  }

  /** One bit of the decoder, with the tree chosen by the state. */
  lemma FeedOneBit(t: Trees, st: DState, bit: bool, last: bool)
    ensures Feed(t, Going(st), bit, last) ==
      match (if st.mode == Score then Step(t.scoreNodes, t.scoreData, st.node, bit) else Step(t.symNodes, t.symData, st.node, bit))
      case Err(m) => Failed(m)
      case Ok(Down(n)) => Going(st.(node := n))
      case Ok(Emit(x)) => Settle(Reached(t, st, x), last)
  {
  }

  /** One more score packed: it is written and counted once more. */
  lemma PackedScoreStep(count0: map<int, nat>, scores: seq<int>, k: nat)
    requires k < |scores|
    ensures Nums(scores[..k + 1]) == Nums(scores[..k]) + [Num(scores[k])]
    ensures Counted(count0, scores[..k + 1]) == Bump(Counted(count0, scores[..k]), scores[k])
  {
    assert scores[..k + 1] == scores[..k] + [scores[k]];
    NumsAppend(scores[..k], [scores[k]]);
    CountedSnoc(count0, scores[..k], scores[k]);
  }

  lemma IdsStep(ids: map<string, nat>, ids': map<string, nat>, words: seq<string>, k: nat)
    requires k < |words| && (forall j | 0 <= j < k :: words[j] in ids) && Extends(ids, ids') && words[k] in ids'
    ensures forall j | 0 <= j < k + 1 :: words[j] in ids'
    ensures IdsOf(ids', words[..k + 1]) == IdsOf(ids, words[..k]) + [ids'[words[k]]]
  {
  }

  /** One more word packed: its id is written and counted once more. */
  lemma WordStep(ids: map<string, nat>, ids': map<string, nat>, words: seq<string>, k: nat, count0: map<int, nat>)
    requires k < |words| && (forall j | 0 <= j < k :: words[j] in ids) && Extends(ids, ids') && words[k] in ids'
    ensures forall j | 0 <= j < k + 1 :: words[j] in ids'
    ensures Nums(IdsOf(ids', words[..k + 1])) == Nums(IdsOf(ids, words[..k])) + [Num(ids'[words[k]])]
    ensures Counted(count0, IdsOf(ids', words[..k + 1])) == Bump(Counted(count0, IdsOf(ids, words[..k])), ids'[words[k]])
  {
    var idx := ids'[words[k]];
    IdsStep(ids, ids', words, k);
    NumsAppend(IdsOf(ids, words[..k]), [idx]);
    CountedSnoc(count0, IdsOf(ids, words[..k]), idx);
  }
}

=== FILE: phrase_groups.dfy ===
/** How `LoadText` of moses/src/PhraseDictionaryMemoryHashed.cpp reads a
    text phrase table: each line is split at "|||" into fields; the first
    line fixes the number of fields; lines whose source field holds only
    spaces and tabs are skipped; consecutive lines with the same source
    form one group, whose trimmed source becomes one key of the hash index
    and whose target phrases and scores are packed together into one
    stream. */
module PhraseGroups {
  import opened Results
  import opened Symbols

  /** One line of the table after splitting at "|||": the number of fields,
      the source phrase (field 0), the tokens of the target phrase
      (field 1) and the transformed scores of field 2.  Splitting,
      tokenising and score parsing are not part of this model. */
  datatype Line = Line(fields: nat, source: string, words: seq<string>, scores: seq<int>)

  /** Why a load stops: the first line has fewer than 3 fields (the
      `assert`), a later line has another number of fields than the first
      (the `abort` after "Syntax error at file:line"), or a Huffman tree is
      built from an empty counter (the top of an empty priority queue). */
  datatype Failure = FieldCount | SyntaxError(lineNum: nat) | NoCounts

  /** `find_first_not_of(" \t") == npos`. */
  predicate Blank(s: string)
  {
    forall i | 0 <= i < |s| :: s[i] == ' ' || s[i] == '\t'
  }

  /** The characters `Trim` drops at both ends: space, tab, newline and
      carriage return (moses/src/Util.h is not part of this model). */
  predicate Dropped(c: char)
  {
    c == ' ' || c == '\t' || c == '\n' || c == '\r'
  }

  /** `Trim(s)`: `s` without its leading and trailing dropped characters. */
  function Trim(s: string): (r: string)
    ensures r == [] || (!Dropped(r[0]) && !Dropped(r[|r| - 1]))
    ensures |r| <= |s|
    decreases |s|
  {
    if s == [] then []
    else if Dropped(s[0]) then Trim(s[1..])
    else if Dropped(s[|s| - 1]) then Trim(s[..|s| - 1])
    else s
  }

  /** Every line has as many fields as the first, which has at least 3. */
  ghost predicate Uniform(lines: seq<Line>)
  {
    lines == [] || (lines[0].fields >= 3 && forall k | 0 <= k < |lines| :: lines[k].fields == lines[0].fields)
  }

  /** The lines `LoadText` packs: those whose source is not blank, in order. */
  function Kept(lines: seq<Line>): (r: seq<Line>)
    ensures forall l | l in r :: l in lines && !Blank(l.source)
    ensures |r| <= |lines|
  {
    if lines == [] then []
    else if Blank(lines[|lines| - 1].source) then Kept(lines[..|lines| - 1])
    else Kept(lines[..|lines| - 1]) + [lines[|lines| - 1]]
  }

  /** The lines cut into runs of consecutive lines with the same source: a
      line opens a new run exactly when its source differs from the one of
      the line before it. */
  function Runs(ls: seq<Line>): (r: seq<seq<Line>>)
    ensures (r == []) == (ls == [])
    ensures forall i | 0 <= i < |r| :: r[i] != []
    decreases |ls|
  {
    if ls == [] then []
    else
      var init, l := ls[..|ls| - 1], ls[|ls| - 1];
      var rs := Runs(init);
      if init != [] && init[|init| - 1].source == l.source then rs[..|rs| - 1] + [rs[|rs| - 1] + [l]]
      else rs + [[l]]
  }

  /** The runs one after the other. */
  function Concat(rs: seq<seq<Line>>): seq<Line>
  {
    if rs == [] then [] else Concat(rs[..|rs| - 1]) + rs[|rs| - 1]
  }

  /** The runs are a partition of the lines into maximal groups: they give
      back the lines in order, none is empty (see `Runs`), the lines of a
      run share its source, and two neighbouring runs have different
      sources. */
  lemma RunsPartition(ls: seq<Line>)
    ensures Concat(Runs(ls)) == ls
    ensures forall i, j | 0 <= i < |Runs(ls)| && 0 <= j < |Runs(ls)[i]| :: Runs(ls)[i][j].source == Runs(ls)[i][0].source
    ensures forall i | 0 <= i < |Runs(ls)| - 1 :: Runs(ls)[i][0].source != Runs(ls)[i + 1][0].source
  {
    RunsConcat(ls);
    RunsUniform(ls);
    RunsDiffer(ls);
  }

  /** The last run ends with the last line. */
  lemma RunsLast(ls: seq<Line>)
    requires ls != []
    ensures var rs := Runs(ls); rs[|rs| - 1][|rs[|rs| - 1]| - 1] == ls[|ls| - 1]
  {
  }

  lemma {:induction false} RunsConcat(ls: seq<Line>)
    ensures Concat(Runs(ls)) == ls
    decreases |ls|
  {
    if ls != [] {
      var init, l := ls[..|ls| - 1], ls[|ls| - 1];
      RunsConcat(init);
      var rs, r := Runs(init), Runs(ls);
      assert init + [l] == ls;
      if init != [] && init[|init| - 1].source == l.source {
        var front, last := rs[..|rs| - 1], rs[|rs| - 1];
        assert r == front + [last + [l]];
        assert r[..|r| - 1] == front;
        assert Concat(r) == Concat(front) + (last + [l]);
        assert Concat(rs) == Concat(front) + last;
        assert Concat(front) + (last + [l]) == (Concat(front) + last) + [l];
      } else {
        assert r == rs + [[l]];
        assert r[..|r| - 1] == rs;
        assert Concat(r) == Concat(rs) + [l];
      }
    }
  }

  lemma {:induction false} RunsUniform(ls: seq<Line>)
    ensures forall i, j | 0 <= i < |Runs(ls)| && 0 <= j < |Runs(ls)[i]| :: Runs(ls)[i][j].source == Runs(ls)[i][0].source
    decreases |ls|
  {
    if ls != [] {
      var init, l := ls[..|ls| - 1], ls[|ls| - 1];
      RunsUniform(init);
      if init != [] && init[|init| - 1].source == l.source {
        RunsLast(init);
      }
    }
  }

  lemma {:induction false} RunsDiffer(ls: seq<Line>)
    ensures forall i | 0 <= i < |Runs(ls)| - 1 :: Runs(ls)[i][0].source != Runs(ls)[i + 1][0].source
    decreases |ls|
  {
    if ls != [] {
      var init, l := ls[..|ls| - 1], ls[|ls| - 1];
      RunsDiffer(init);
      if init != [] && init[|init| - 1].source != l.source {
        RunsLast(init);
        RunsUniform(init);
      }
    }
  }

  /** Every word of every line has an id. */
  ghost predicate Known(ids: map<string, nat>, ls: seq<Line>)
  {
    forall l | l in ls :: WordsKnown(ids, l.words)
  }

  ghost predicate WordsKnown(ids: map<string, nat>, words: seq<string>)
  {
    forall k | 0 <= k < |words| :: words[k] in ids
  }

  /** The id of each word, or 0 for a word without one. */
  function IdsIn(ids: map<string, nat>, words: seq<string>): (r: seq<int>)
    ensures |r| == |words|
    ensures forall k | 0 <= k < |words| :: r[k] == (if words[k] in ids then ids[words[k]] else 0)
  {
    seq(|words|, k requires 0 <= k < |words| => if words[k] in ids then ids[words[k]] else 0)
  }

  /** What `PackTargetPhrase` writes for the tokens `words`: the number of
      words cast to `unsigned char`, then the id of each word.  Items of
      the packed stream are numbers here; their byte widths (one byte,
      eight bytes, four bytes) are not part of this model. */
  function PackedPhrase(ids: map<string, nat>, words: seq<string>): seq<int>
  {
    [|words| % 256] + IdsIn(ids, words)
  }

  /** What `PackTargetPhrase` then `PackScores` write for one line. */
  function PackedLine(ids: map<string, nat>, l: Line): seq<int>
  {
    PackedPhrase(ids, l.words) + l.scores
  }

  /** The packed stream of a group of lines. */
  function PackedRun(ids: map<string, nat>, run: seq<Line>): seq<int>
  {
    if run == [] then [] else PackedLine(ids, run[0]) + PackedRun(ids, run[1..])
  }

  lemma {:induction false} PackedRunSnoc(ids: map<string, nat>, run: seq<Line>, l: Line)
    ensures PackedRun(ids, run + [l]) == PackedRun(ids, run) + PackedLine(ids, l)
  {
    if run == [] {
      assert run + [l] == [l];
    } else {
      assert (run + [l])[1..] == run[1..] + [l];
      PackedRunSnoc(ids, run[1..], l);
    }
  }

  /** Later ids that keep the earlier ones pack a group the same way. */
  lemma {:induction false} PackedRunGrown(ids: map<string, nat>, ids': map<string, nat>, run: seq<Line>)
    requires Extends(ids, ids') && Known(ids, run)
    ensures PackedRun(ids', run) == PackedRun(ids, run)
  {
    if run != [] {
      assert run[0] in run;
      assert IdsIn(ids', run[0].words) == IdsIn(ids, run[0].words);
      assert Known(ids, run[1..]) by {
        forall l | l in run[1..] ensures WordsKnown(ids, l.words) {
          assert l in run;
        }
      }
      PackedRunGrown(ids, ids', run[1..]);
    }
  }

  /** The symbols `PackTargetPhrase` counts for one line: the word ids,
      then the count byte. */
  function LineSymbols(ids: map<string, nat>, l: Line): seq<int>
  {
    IdsIn(ids, l.words) + [|l.words| % 256]
  }

  /** The symbols counted for the lines, in order. */
  function SymbolsOf(ids: map<string, nat>, ls: seq<Line>): seq<int>
  {
    if ls == [] then [] else SymbolsOf(ids, ls[..|ls| - 1]) + LineSymbols(ids, ls[|ls| - 1])
  }

  /** The scores counted for the lines, in order. */
  function ScoresOf(ls: seq<Line>): seq<int>
  {
    if ls == [] then [] else ScoresOf(ls[..|ls| - 1]) + ls[|ls| - 1].scores
  }

  lemma {:induction false} SymbolsOfGrown(ids: map<string, nat>, ids': map<string, nat>, ls: seq<Line>)
    requires Extends(ids, ids') && Known(ids, ls)
    ensures SymbolsOf(ids', ls) == SymbolsOf(ids, ls)
  {
    if ls != [] {
      assert ls[|ls| - 1] in ls;
      assert Known(ids, ls[..|ls| - 1]) by {
        forall l | l in ls[..|ls| - 1] ensures WordsKnown(ids, l.words) {
          assert l in ls;
        }
      }
      SymbolsOfGrown(ids, ids', ls[..|ls| - 1]);
      assert IdsIn(ids', ls[|ls| - 1].words) == IdsIn(ids, ls[|ls| - 1].words);
    }
  }

  /** Every counted symbol is the id of a word of some line or the count
      byte of some line. */
  lemma {:induction false} SymbolsOfHas(ids: map<string, nat>, ls: seq<Line>, l: Line)
    requires l in ls
    ensures forall k | 0 <= k < |l.words| :: IdsIn(ids, l.words)[k] in SymbolsOf(ids, ls)
    ensures |l.words| % 256 in SymbolsOf(ids, ls)
    decreases |ls|
  {
    var init := ls[..|ls| - 1];
    assert ls == init + [ls[|ls| - 1]];
    if l != ls[|ls| - 1] {
      assert l in init;
      SymbolsOfHas(ids, init, l);
    } else {
      var ln := LineSymbols(ids, l);
      assert ln[|ln| - 1] == |l.words| % 256;
      forall k | 0 <= k < |l.words| ensures IdsIn(ids, l.words)[k] in SymbolsOf(ids, ls) {
        assert ln[k] == IdsIn(ids, l.words)[k];
      }
    }
  }

  /** Every score of every line is counted. */
  lemma {:induction false} ScoresOfHas(ls: seq<Line>, l: Line)
    requires l in ls
    ensures forall k | 0 <= k < |l.scores| :: l.scores[k] in ScoresOf(ls)
    decreases |ls|
  {
    var init := ls[..|ls| - 1];
    assert ls == init + [ls[|ls| - 1]];
    if l != ls[|ls| - 1] {
      assert l in init;
      ScoresOfHas(init, l);
    }
  }

  /** The key of a run: the trimmed source of its first line. */
  function RunKey(run: seq<Line>): string
  {
    if run == [] then Trim("") else Trim(run[0].source)
  }

  /** The key of each run, in order. */
  function KeysOfRuns(rs: seq<seq<Line>>): (r: seq<string>)
    ensures |r| == |rs|
  {
    if rs == [] then [] else KeysOfRuns(rs[..|rs| - 1]) + [RunKey(rs[|rs| - 1])]
  }

  /** The packed stream of each run, in order. */
  function PackedRuns(ids: map<string, nat>, rs: seq<seq<Line>>): (r: seq<seq<int>>)
    ensures |r| == |rs|
  {
    if rs == [] then [] else PackedRuns(ids, rs[..|rs| - 1]) + [PackedRun(ids, rs[|rs| - 1])]
  }

  lemma {:induction false} KeysOfRunsAt(rs: seq<seq<Line>>, i: nat)
    requires i < |rs|
    ensures KeysOfRuns(rs)[i] == RunKey(rs[i])
    decreases |rs|
  {
    if i < |rs| - 1 {
      KeysOfRunsAt(rs[..|rs| - 1], i);
    }
  }

  lemma {:induction false} PackedRunsAt(ids: map<string, nat>, rs: seq<seq<Line>>, i: nat)
    requires i < |rs|
    ensures PackedRuns(ids, rs)[i] == PackedRun(ids, rs[i])
    decreases |rs|
  {
    if i < |rs| - 1 {
      PackedRunsAt(ids, rs[..|rs| - 1], i);
    }
  }

  /** The keys `LoadText` adds to the hash index: the key of each group,
      or the trimmed empty string when no line was kept (the key added
      after the loop whatever the loop did). */
  function KeysOf(ls: seq<Line>): (r: seq<string>)
    ensures |r| >= 1
  {
    var rs := Runs(ls);
    if rs == [] then [Trim("")] else KeysOfRuns(rs)
  }

  /** The packed groups `LoadText` collects, one for each key. */
  function GroupsOf(ids: map<string, nat>, ls: seq<Line>): (r: seq<seq<int>>)
    ensures |r| == |KeysOf(ls)|
  {
    var rs := Runs(ls);
    if rs == [] then [[]] else PackedRuns(ids, rs)
  }

  // ---------------------------------------------------------------------
  // The reading loop, one line at a time

  /** What the field-count checks of `LoadText` report for the lines, in
      order: the first line fixes the number of fields, which must be at
      least 3; the first later line with another number of fields stops the
      load, named by its 1-based line number. */
  function Schema(lines: seq<Line>): (r: Option<Failure>)
    ensures r != Some(NoCounts)
  {
    if lines == [] then None
    else
      var k := |lines| - 1;
      match Schema(lines[..k])
      case Some(f) => Some(f)
      case None =>
        if k == 0 && lines[0].fields < 3 then Some(FieldCount)
        else if lines[k].fields != lines[0].fields then Some(SyntaxError(k + 1))
        else None
  }

  /** Line `k` is the first whose number of fields differs from the first
      line's. */
  ghost predicate MismatchAt(lines: seq<Line>, k: int)
  {
    1 <= k < |lines| && lines[k].fields != lines[0].fields &&
    forall j | 0 <= j < k :: lines[j].fields == lines[0].fields
  }

  /** The checks pass exactly on uniform lines; they fail with `FieldCount`
      exactly when the first line has fewer than 3 fields, and otherwise
      name the first line that breaks the field count. */
  lemma {:induction false} SchemaMeaning(lines: seq<Line>)
    ensures Schema(lines) == None <==> Uniform(lines)
    ensures Schema(lines) == Some(FieldCount) <==> lines != [] && lines[0].fields < 3
    ensures Schema(lines).Some? && Schema(lines).value.SyntaxError? ==>
      lines[0].fields >= 3 && MismatchAt(lines, Schema(lines).value.lineNum - 1)
    decreases |lines|
  {
    if lines != [] {
      var k := |lines| - 1;
      var init := lines[..k];
      SchemaMeaning(init);
      if k > 0 {
        assert init[0] == lines[0];
      }
      if Schema(init) == None && Schema(lines) == None && k > 0 {
        assert Uniform(lines) by {
          assert forall j | 0 <= j < k :: init[j] == lines[j];
        }
      }
      if Schema(init).Some? && Schema(init).value.SyntaxError? {
        assert forall j | 0 <= j < k :: init[j] == lines[j];
      }
      if Schema(init) == None && k > 0 && Schema(lines).Some? {
        assert forall j | 0 <= j < k :: init[j] == lines[j];
      }
      if Uniform(lines) && k > 0 {
        assert Uniform(init) by {
          assert forall j | 0 <= j < k :: init[j] == lines[j];
        }
      }
    }
  }

  /** Once the checks fail on a prefix, they fail the same way on the
      whole. */
  lemma {:induction false} SchemaPrefix(lines: seq<Line>, k: nat)
    requires k <= |lines| && Schema(lines[..k]).Some?
    ensures Schema(lines) == Schema(lines[..k])
    decreases |lines| - k
  {
    if k < |lines| {
      var lines' := lines[..k + 1];
      assert lines'[..k] == lines[..k];
      assert Schema(lines') == Schema(lines[..k]);
      SchemaPrefix(lines, k + 1);
    } else {
      assert lines[..k] == lines;
    }
  }

  /** The checks on one more line. */
  lemma SchemaStep(lines: seq<Line>, k: nat)
    requires k < |lines|
    ensures Schema(lines[..k + 1]) ==
      match Schema(lines[..k])
      case Some(f) => Some(f)
      case None =>
        if k == 0 && lines[0].fields < 3 then Some(FieldCount)
        else if lines[k].fields != lines[0].fields then Some(SyntaxError(k + 1))
        else None
  {
    assert lines[..k + 1][..k] == lines[..k];
  }

  lemma KeptStep(lines: seq<Line>, k: nat)
    requires k < |lines|
    ensures Kept(lines[..k + 1]) == if Blank(lines[k].source) then Kept(lines[..k]) else Kept(lines[..k]) + [lines[k]]
  {
    assert lines[..k + 1][..k] == lines[..k];
  }

  /** The source of the last kept line: `prevSourcePhrase`, or "" before
      the first. */
  function LastSource(ls: seq<Line>): string
  {
    if ls == [] then "" else ls[|ls| - 1].source
  }

  /** The keys added while the lines are read: all but the one added after
      the loop. */
  function KeysBefore(ls: seq<Line>): seq<string>
  {
    var ks := KeysOf(ls);
    ks[..|ks| - 1]
  }

  /** The key added after the loop completes the keys. */
  lemma KeysAfter(ls: seq<Line>)
    requires forall l | l in ls :: !Blank(l.source)
    ensures KeysBefore(ls) + [Trim(LastSource(ls))] == KeysOf(ls)
  {
    if ls != [] {
      RunsLast(ls);
      RunsUniform(ls);
    }
  }

  /** Every line of a run is one of the lines. */
  lemma {:induction false} RunsIn(ls: seq<Line>)
    ensures forall i, l | 0 <= i < |Runs(ls)| && l in Runs(ls)[i] :: l in ls
    decreases |ls|
  {
    if ls != [] {
      var init := ls[..|ls| - 1];
      RunsIn(init);
      assert forall l | l in init :: l in ls;
    }
  }

  /** Later ids that keep the earlier ones pack every group the same way. */
  lemma GroupsGrown(ids: map<string, nat>, ids': map<string, nat>, ls: seq<Line>)
    requires Extends(ids, ids') && Known(ids, ls)
    ensures GroupsOf(ids', ls) == GroupsOf(ids, ls)
  {
    RunsIn(ls);
    PackedRunsGrown(ids, ids', ls, Runs(ls));
  }

  lemma {:induction false} PackedRunsGrown(ids: map<string, nat>, ids': map<string, nat>, ls: seq<Line>, rs: seq<seq<Line>>)
    requires Extends(ids, ids') && Known(ids, ls)
    requires forall i, l | 0 <= i < |rs| && l in rs[i] :: l in ls
    ensures PackedRuns(ids', rs) == PackedRuns(ids, rs)
    decreases |rs|
  {
    if rs != [] {
      var run := rs[|rs| - 1];
      assert Known(ids, run) by {
        forall l | l in run ensures WordsKnown(ids, l.words) {
          assert l in ls;
        }
      }
      PackedRunGrown(ids, ids', run);
      PackedRunsGrown(ids, ids', ls, rs[..|rs| - 1]);
    }
  }

  /** A line with the source of the line before joins the last group. */
  lemma GroupsJoin(ids: map<string, nat>, ls: seq<Line>, l: Line)
    requires ls != [] && LastSource(ls) == l.source
    ensures KeysOf(ls + [l]) == KeysOf(ls)
    ensures var g := GroupsOf(ids, ls); GroupsOf(ids, ls + [l]) == g[..|g| - 1] + [g[|g| - 1] + PackedLine(ids, l)]
  {
    var rs := Runs(ls);
    assert (ls + [l])[..|ls|] == ls;
    var rs' := Runs(ls + [l]);
    var front := rs[..|rs| - 1];
    assert rs' == front + [rs[|rs| - 1] + [l]];
    assert rs'[..|rs'| - 1] == front;
    PackedRunSnoc(ids, rs[|rs| - 1], l);
  }

  /** A line with another source than the line before opens a new group. */
  lemma GroupsOpen(ids: map<string, nat>, ls: seq<Line>, l: Line)
    requires LastSource(ls) != l.source
    ensures ls != [] ==> KeysOf(ls + [l]) == KeysOf(ls) + [Trim(l.source)]
    ensures ls != [] ==> GroupsOf(ids, ls + [l]) == GroupsOf(ids, ls) + [PackedLine(ids, l)]
    ensures ls == [] ==> KeysOf(ls + [l]) == [Trim(l.source)] && GroupsOf(ids, ls + [l]) == [PackedLine(ids, l)]
  {
    OneRun(ids, l);
    if ls == [] {
      assert ls + [l] == [l];
      FirstRun(ids, l);
    } else {
      assert (ls + [l])[..|ls|] == ls;
      NextRun(ids, ls, l, Runs(ls), Runs(ls + [l]));
    }
  }

  lemma FirstRun(ids: map<string, nat>, l: Line)
    requires PackedRun(ids, [l]) == PackedLine(ids, l)
    ensures KeysOf([l]) == [Trim(l.source)] && GroupsOf(ids, [l]) == [PackedLine(ids, l)]
  {
    RunsOne(l);
    SingleRun(ids, [l]);
  }

  lemma RunsOne(l: Line)
    ensures Runs([l]) == [[l]]
  {
    assert [l][..0] == [];
  }

  lemma SingleRun(ids: map<string, nat>, run: seq<Line>)
    ensures KeysOfRuns([run]) == [RunKey(run)] && PackedRuns(ids, [run]) == [PackedRun(ids, run)]
  {
    assert [run][..0] == [];
  }

  lemma NextRun(ids: map<string, nat>, ls: seq<Line>, l: Line, rs: seq<seq<Line>>, rs': seq<seq<Line>>)
    requires ls != [] && LastSource(ls) != l.source && (ls + [l])[..|ls|] == ls
    requires rs == Runs(ls) && rs' == Runs(ls + [l])
    requires PackedRun(ids, [l]) == PackedLine(ids, l)
    ensures KeysOf(ls + [l]) == KeysOf(ls) + [Trim(l.source)]
    ensures GroupsOf(ids, ls + [l]) == GroupsOf(ids, ls) + [PackedLine(ids, l)]
  {
    assert rs' == rs + [[l]];
    assert rs'[..|rs'| - 1] == rs;
  }

  lemma OneRun(ids: map<string, nat>, l: Line)
    ensures PackedRun(ids, [l]) == PackedLine(ids, l)
  {
    assert PackedRun(ids, [l]) == PackedLine(ids, l) + PackedRun(ids, []);
    assert PackedLine(ids, l) + [] == PackedLine(ids, l);
  }

  /** The reading loop on a kept line with the source of the line before:
      the line's packed form is appended to the open stream. */
  lemma ReadJoin(ids: map<string, nat>, ids': map<string, nat>, ls: seq<Line>, l: Line, groups: seq<seq<int>>, stream: seq<int>)
    requires ls != [] && LastSource(ls) == l.source
    requires Extends(ids, ids') && Known(ids, ls)
    requires groups + [stream] == GroupsOf(ids, ls)
    ensures groups + [stream + PackedLine(ids', l)] == GroupsOf(ids', ls + [l])
    ensures KeysBefore(ls + [l]) == KeysBefore(ls)
  {
    GroupsGrown(ids, ids', ls);
    GroupsJoin(ids', ls, l);
    var g := GroupsOf(ids', ls);
    assert g[..|g| - 1] == groups;
  }

  /** The reading loop on a kept line with another source than the line
      before: the open stream is closed under the previous key, and a new
      one holds the line's packed form. */
  lemma ReadOpen(ids: map<string, nat>, ids': map<string, nat>, ls: seq<Line>, l: Line, groups: seq<seq<int>>, stream: seq<int>)
    requires ls != [] && LastSource(ls) != l.source && forall x | x in ls :: !Blank(x.source)
    requires Extends(ids, ids') && Known(ids, ls)
    requires groups + [stream] == GroupsOf(ids, ls)
    ensures groups + [stream] + [[] + PackedLine(ids', l)] == GroupsOf(ids', ls + [l])
    ensures KeysBefore(ls + [l]) == KeysBefore(ls) + [Trim(LastSource(ls))]
  {
    GroupsGrown(ids, ids', ls);
    GroupsOpen(ids', ls, l);
    KeysAfter(ls);
    assert [] + PackedLine(ids', l) == PackedLine(ids', l);
    var ks := KeysOf(ls + [l]);
    assert ks[..|ks| - 1] == KeysOf(ls);
  }

  /** The reading loop on the first kept line: it opens the first stream. */
  lemma ReadFirst(ids: map<string, nat>, l: Line, groups: seq<seq<int>>, stream: seq<int>)
    requires !Blank(l.source) && groups + [stream] == GroupsOf(ids, [])
    ensures groups + [stream + PackedLine(ids, l)] == GroupsOf(ids, [l])
    ensures KeysBefore([l]) == KeysBefore([])
  {
    assert Runs([]) == [];
    assert (groups + [stream])[|groups|] == stream;
    assert groups == [] && stream == [];
    GroupsOpen(ids, [], l);
    assert [] + [l] == [l];
    assert [] + PackedLine(ids, l) == PackedLine(ids, l);
  }

  lemma KnownSnoc(ids: map<string, nat>, ids': map<string, nat>, ls: seq<Line>, l: Line)
    requires Extends(ids, ids') && Known(ids, ls) && WordsKnown(ids', l.words)
    ensures Known(ids', ls + [l])
  {
    forall x | x in ls + [l] ensures WordsKnown(ids', x.words) {
      if x in ls {
        assert WordsKnown(ids, x.words);
      }
    }
  }
}

=== FILE: phrase_records.dfy ===
/** The packed and the compressed forms of a group of target phrases in
    moses/src/PhraseDictionaryMemoryHashed.cpp.  A packed group is the
    stream `PackTargetPhrase` and `PackScores` wrote, read back record by
    record by `UnpackTargetPhrase` and `UnpackScores`; a compressed group
    is, for each record, the word ids Huffman-coded with their count in
    front, then the scores Huffman-coded; `CreateTargetPhraseCollection`
    decodes it record by record.  Also here: the pairing of alignment
    positions, the slot remap of `LoadText`, and a counting fact about
    perfect hashes. */
module PhraseRecords {
  import opened Results
  import opened Bits
  import opened Decoding
  import opened PhraseGroups
  import opened PhraseCoder

  // ---------------------------------------------------------------------
  // Unpacking

  /** `UnpackTargetPhrase(is, symbols)` and `UnpackAlignment(is, alignment)`,
      which have the same body: read one byte `c`, then `c` items; the
      items and the number of items taken, or None when the stream ends
      first (which fails it). */
  function ReadCounted(s: seq<int>): (r: Option<(seq<int>, nat)>)
    ensures r.Some? ==> 1 <= r.value.1 <= |s| && |r.value.0| == r.value.1 - 1
  {
    if s == [] then None
    else
      var c := s[0] % 256;
      if |s| < 1 + c then None else Some((s[1..1 + c], 1 + c))
  }

  /** `UnpackScores(is, scores)`: read `m_numScoreComponent` items, or
      None when the stream ends first. */
  function UnpackScores(s: seq<int>, n: nat): (r: Option<seq<int>>)
    ensures r.Some? ==> n <= |s| && |r.value| == n
  {
    if |s| < n then None else Some(s[..n])
  }

  /** The records `LoadText` takes from a packed group: phrase then
      scores, for as long as both reads succeed. */
  function Records(s: seq<int>, n: nat): seq<Target>
    decreases |s|
  {
    match ReadCounted(s)
    case None => []
    case Some((ids, k)) =>
      match UnpackScores(s[k..], n)
      case None => []
      case Some(xs) => [Target(ids, xs)] + Records(s[k + n..], n)
  }

  /** Reading a packed phrase of fewer than 256 words gives back the ids
      of its words, and takes exactly the count byte and the ids. */
  lemma UnpackPackedPhrase(ids: map<string, nat>, words: seq<string>, rest: seq<int>)
    requires |words| < 256
    ensures ReadCounted(PackedPhrase(ids, words) + rest) == Some((IdsIn(ids, words), 1 + |words|))
  {
    var s := PackedPhrase(ids, words) + rest;
    assert s[1..1 + |words|] == IdsIn(ids, words);
  }

  /** A line fits the packed format: fewer than 256 words, and as many
      scores as the table has score components. */
  ghost predicate Fits(l: Line, n: nat)
  {
    |l.words| < 256 && |l.scores| == n
  }

  /** The lines as records of word ids and scores. */
  function TargetsOf(ids: map<string, nat>, run: seq<Line>): (r: seq<Target>)
    ensures |r| == |run|
  {
    if run == [] then [] else [Target(IdsIn(ids, run[0].words), run[0].scores)] + TargetsOf(ids, run[1..])
  }

  /** Reading back the packed stream of a group of lines whose lines fit
      gives one record for each line, in order, and then goes on with
      whatever follows. */
  lemma {:induction false} RecordsOfRun(ids: map<string, nat>, run: seq<Line>, n: nat, rest: seq<int>)
    requires forall i | 0 <= i < |run| :: Fits(run[i], n)
    ensures Records(PackedRun(ids, run) + rest, n) == TargetsOf(ids, run) + Records(rest, n)
  {
    if run == [] {
      assert PackedRun(ids, run) + rest == rest;
    } else {
      var tail := PackedRun(ids, run[1..]) + rest;
      var t := Target(IdsIn(ids, run[0].words), run[0].scores);
      PackedRunCons(ids, run, rest);
      RecordsOfLine(ids, run[0], n, tail);
      RecordsOfRun(ids, run[1..], n, rest);
      Assoc([t], TargetsOf(ids, run[1..]), Records(rest, n));
    }
  }

  lemma PackedRunCons(ids: map<string, nat>, run: seq<Line>, rest: seq<int>)
    requires run != []
    ensures PackedRun(ids, run) + rest == PackedLine(ids, run[0]) + (PackedRun(ids, run[1..]) + rest)
  {
    Assoc(PackedLine(ids, run[0]), PackedRun(ids, run[1..]), rest);
  }

  /** One packed line, then anything. */
  lemma RecordsOfLine(ids: map<string, nat>, l: Line, n: nat, rest: seq<int>)
    requires Fits(l, n)
    ensures Records(PackedLine(ids, l) + rest, n) == [Target(IdsIn(ids, l.words), l.scores)] + Records(rest, n)
  {
    var p := PackedPhrase(ids, l.words);
    var s := PackedLine(ids, l) + rest;
    assert s == p + (l.scores + rest);
    UnpackPackedPhrase(ids, l.words, l.scores + rest);
    assert s[|p|..] == l.scores + rest;
    assert (l.scores + rest)[..n] == l.scores;
    assert s[|p| + n..] == rest;
  }

  // ---------------------------------------------------------------------
  // Compression

  /** What the compression loop of `LoadText` writes for one record:
      `encodeWithLength` of the ids with the symbol codes, then `encode`
      of the scores with the score codes. */
  function RecordBytes(symEnc: map<int, seq<bool>>, scoreEnc: map<int, seq<bool>>, t: Target): seq<byte>
  {
    Pack(CodeOf(symEnc, |t.words|) + Codes(symEnc, t.words)) + Pack(Codes(scoreEnc, t.scores))
  }

  /** The compressed form of the records, one after the other. */
  function CompressedRecords(symEnc: map<int, seq<bool>>, scoreEnc: map<int, seq<bool>>, rs: seq<Target>): seq<byte>
  {
    if rs == [] then [] else RecordBytes(symEnc, scoreEnc, rs[0]) + CompressedRecords(symEnc, scoreEnc, rs[1..])
  }

  // ---------------------------------------------------------------------
  // Decompression

  /** A `decode` that stopped on its own took at least one byte and no
      more than it was given. */
  lemma DecodeTakes<S>(step: (S, bool) -> Result<Move<S>>, root: S, length: int, bytes: seq<byte>)
    requires DecodeSpec(step, root, length, bytes).Ok? && !DecodeSpec(step, root, length, bytes).value.exhausted
    ensures 1 <= DecodeSpec(step, root, length, bytes).value.consumed <= |bytes|
  {
    var ran := Run(step, root, length, Walk(root, []), Unpack(bytes)).value;
    assert ran.used <= 8 * |bytes|;
  }

  /** A run that stepped through no bit left the walk as it was. */
  lemma RunIdle<S>(step: (S, bool) -> Result<Move<S>>, root: S, limit: int, w: Walk<S>, bits: seq<bool>)
    requires Run(step, root, limit, w, bits).Ok? && Run(step, root, limit, w, bits).value.used == 0
    ensures Run(step, root, limit, w, bits).value.walk == w
  {
  }

  /** A `decodeWithLength` that stopped on its own took at least one byte
      and no more than it was given. */
  lemma DecodeWithLengthTakes<S>(step: (S, bool) -> Result<Move<S>>, root: S, bytes: seq<byte>)
    requires DecodeWithLengthSpec(step, root, bytes).Ok? && !DecodeWithLengthSpec(step, root, bytes).value.exhausted
    ensures 1 <= DecodeWithLengthSpec(step, root, bytes).value.consumed <= |bytes|
  {
    var bits := Unpack(bytes);
    var r1 := Run(step, root, 1, Walk(root, []), bits).value;
    if r1.used == 0 {
      RunIdle(step, root, 1, Walk(root, []), bits);
    }
    var limit := LengthLimit(r1.walk.out[0]);
    var r2 := Run(step, root, limit, Walk(root, []), bits[r1.used..]).value;
    assert r1.used + r2.used <= 8 * |bytes|;
  }

  /** The loop of `CreateTargetPhraseCollection`: while
      `DecompressTargetPhrase` (`decodeWithLength` with the symbol tree)
      and `DecompressScores` (`decode` of `n` scores with the score tree)
      both leave the stream good, add the record and go on after the bytes
      they took.  A decode that runs into the end of the stream fails it
      and ends the loop, dropping the record it began. */
  function Decompressed(sym: (int, bool) -> Result<Move<int>>, score: (int, bool) -> Result<Move<int>>, n: nat, bytes: seq<byte>): Result<seq<Target>>
    decreases |bytes|
  {
    match DecodeWithLengthSpec(sym, 0, bytes)
    case Err(m) => Err(m)
    case Ok(d1) =>
      if d1.exhausted then Ok([])
      else
        DecodeWithLengthTakes(sym, 0, bytes);
        var rest := bytes[d1.consumed..];
        match DecodeSpec(score, 0, n, rest)
        case Err(m) => Err(m)
        case Ok(d2) =>
          if d2.exhausted then Ok([])
          else
            DecodeTakes(score, 0, n, rest);
            match Decompressed(sym, score, n, rest[d2.consumed..])
            case Err(m) => Err(m)
            case Ok(ts) => Ok([Target(d1.values, d2.values)] + ts)
  }

  /** A record the codes can carry: at least one word, the word count and
      every word with a symbol code, `n` scores each with a score code. */
  ghost predicate Encodable(symEnc: map<int, seq<bool>>, scoreEnc: map<int, seq<bool>>, n: nat, t: Target)
  {
    && t.words != [] && |t.words| in symEnc && (forall k | 0 <= k < |t.words| :: t.words[k] in symEnc)
    && |t.scores| == n && (forall k | 0 <= k < |t.scores| :: t.scores[k] in scoreEnc)
  }

  /** Decompressing the compressed records gives them back, in order, when
      the codes lead the decoders to their symbols, every record can be
      carried, and there is at least one score component. */
  lemma {:induction false} DecompressCompressed(sym: (int, bool) -> Result<Move<int>>, score: (int, bool) -> Result<Move<int>>,
                                                symEnc: map<int, seq<bool>>, scoreEnc: map<int, seq<bool>>, n: nat, rs: seq<Target>)
    requires Sound(sym, 0, symEnc) && Sound(score, 0, scoreEnc) && n >= 1
    requires forall i | 0 <= i < |rs| :: Encodable(symEnc, scoreEnc, n, rs[i])
    ensures Decompressed(sym, score, n, CompressedRecords(symEnc, scoreEnc, rs)) == Ok(rs)
  {
    if rs == [] {
      assert DecodeWithLengthSpec(sym, 0, []) == Ok(Decoded([], 0, true));
    } else {
      var tail := CompressedRecords(symEnc, scoreEnc, rs[1..]);
      assert CompressedRecords(symEnc, scoreEnc, rs) == RecordBytes(symEnc, scoreEnc, rs[0]) + tail;
      DecompressCompressed(sym, score, symEnc, scoreEnc, n, rs[1..]);
      DecompressFirst(sym, score, symEnc, scoreEnc, n, rs, tail);
    }
  }

  /** The step of the above: the first record, then the rest. */
  lemma DecompressFirst(sym: (int, bool) -> Result<Move<int>>, score: (int, bool) -> Result<Move<int>>,
                        symEnc: map<int, seq<bool>>, scoreEnc: map<int, seq<bool>>, n: nat, rs: seq<Target>,
                        tail: seq<byte>)
    requires Sound(sym, 0, symEnc) && Sound(score, 0, scoreEnc) && n >= 1
    requires rs != [] && Encodable(symEnc, scoreEnc, n, rs[0])
    requires Decompressed(sym, score, n, tail) == Ok(rs[1..])
    ensures Decompressed(sym, score, n, RecordBytes(symEnc, scoreEnc, rs[0]) + tail) == Ok(rs)
  {
    var t, ts := rs[0], rs[1..];
    assert [t] + ts == rs;
    DecompressRecord(sym, score, symEnc, scoreEnc, n, t, tail);
  }

  /** One compressed record, then anything. */
  lemma DecompressRecord(sym: (int, bool) -> Result<Move<int>>, score: (int, bool) -> Result<Move<int>>,
                         symEnc: map<int, seq<bool>>, scoreEnc: map<int, seq<bool>>, n: nat, t: Target, tail: seq<byte>)
    requires Sound(sym, 0, symEnc) && Sound(score, 0, scoreEnc) && n >= 1
    requires Encodable(symEnc, scoreEnc, n, t)
    ensures Decompressed(sym, score, n, RecordBytes(symEnc, scoreEnc, t) + tail) ==
      match Decompressed(sym, score, n, tail)
      case Err(m) => Err(m)
      case Ok(ts) => Ok([t] + ts)
  {
    var a := Pack(CodeOf(symEnc, |t.words|) + Codes(symEnc, t.words));
    var b := Pack(Codes(scoreEnc, t.scores));
    DecodeWithLengthRoundTrip(sym, 0, symEnc, t.words, b + tail);
    DecodeRoundTrip(score, 0, scoreEnc, t.scores, tail);
    DecompressedStep(sym, score, n, a, b, tail, t);
  }

  /** A record whose phrase takes the bytes `a` and whose scores take the
      bytes `b` is followed by the records of what comes after. */
  lemma DecompressedStep(sym: (int, bool) -> Result<Move<int>>, score: (int, bool) -> Result<Move<int>>, n: nat,
                         a: seq<byte>, b: seq<byte>, tail: seq<byte>, t: Target)
    requires DecodeWithLengthSpec(sym, 0, a + (b + tail)) == Ok(Decoded(t.words, |a|, false))
    requires DecodeSpec(score, 0, n, b + tail) == Ok(Decoded(t.scores, |b|, false))
    ensures Decompressed(sym, score, n, a + b + tail) ==
      match Decompressed(sym, score, n, tail)
      case Err(m) => Err(m)
      case Ok(ts) => Ok([t] + ts)
  {
    assert a + b + tail == a + (b + tail);
    assert (a + (b + tail))[|a|..] == b + tail;
    assert (b + tail)[|b|..] == tail;
  }

  // ---------------------------------------------------------------------
  // Alignments

  /** What `PackAlignment` writes for the positions: their number cast to
      `unsigned char`, then each position cast to `unsigned char`. */
  function PackedAlignment(positions: seq<int>): (r: seq<int>)
    ensures |r| == 1 + |positions|
  {
    [|positions| % 256] + seq(|positions|, i requires 0 <= i < |positions| => positions[i] % 256)
  }

  /** `alignment2` of `UnpackAlignment(is, targetPhrase)` and
      `DecompressAlignment`: the pair (a[i-1], a[i]) for each odd i. */
  function Pairs(a: seq<int>): set<(int, int)>
    decreases |a|
  {
    if |a| < 2 then {}
    else if |a| % 2 == 1 then Pairs(a[..|a| - 1])
    else Pairs(a[..|a| - 2]) + {(a[|a| - 2], a[|a| - 1])}
  }

  /** The source and target positions of alignment points, one after the
      other, as "s-t s-t ..." tokenises. */
  function Flat(ps: seq<(int, int)>): (r: seq<int>)
    ensures |r| == 2 * |ps|
  {
    if ps == [] then [] else Flat(ps[..|ps| - 1]) + [ps[|ps| - 1].0, ps[|ps| - 1].1]
  }

  /** The alignment points as a set. */
  function PointSet(ps: seq<(int, int)>): set<(int, int)>
  {
    if ps == [] then {} else PointSet(ps[..|ps| - 1]) + {ps[|ps| - 1]}
  }

  /** Pairing the flattened points gives back the set of points. */
  lemma {:induction false} PairsOfFlat(ps: seq<(int, int)>)
    ensures Pairs(Flat(ps)) == PointSet(ps)
  {
    if ps != [] {
      var a := Flat(ps);
      assert a[..|a| - 2] == Flat(ps[..|ps| - 1]);
      PairsOfFlat(ps[..|ps| - 1]);
    }
  }

  /** Every flattened position is one of a point. */
  lemma {:induction false} FlatBelow(ps: seq<(int, int)>, bound: int)
    requires forall j | 0 <= j < |ps| :: 0 <= ps[j].0 < bound && 0 <= ps[j].1 < bound
    ensures forall i | 0 <= i < |Flat(ps)| :: 0 <= Flat(ps)[i] < bound
  {
    if ps != [] {
      FlatBelow(ps[..|ps| - 1], bound);
    }
  }

  /** Packing then unpacking the positions of at most 127 alignment points,
      each below 256, and pairing them gives back the points. */
  lemma AlignmentRoundTrip(ps: seq<(int, int)>, rest: seq<int>)
    requires 2 * |ps| < 256 && forall j | 0 <= j < |ps| :: 0 <= ps[j].0 < 256 && 0 <= ps[j].1 < 256
    ensures ReadCounted(PackedAlignment(Flat(ps)) + rest).Some?
    ensures Pairs(ReadCounted(PackedAlignment(Flat(ps)) + rest).value.0) == PointSet(ps)
  {
    var a := Flat(ps);
    FlatBelow(ps, 256);
    ReadPackedAlignment(a, rest);
    PairsOfFlat(ps);
  }

  /** Positions below 256, fewer than 256 of them, come back unchanged. */
  lemma ReadPackedAlignment(a: seq<int>, rest: seq<int>)
    requires |a| < 256 && forall i | 0 <= i < |a| :: 0 <= a[i] < 256
    ensures ReadCounted(PackedAlignment(a) + rest) == Some((a, 1 + |a|))
  {
    var p := PackedAlignment(a);
    var s := p + rest;
    assert s[0] == |a|;
    assert p[1..] == a;
    assert s[1..1 + |a|] == p[1..];
  }

  /** `DecompressAlignment` on a tree given by its step function: decode
      with length, then pair the values. */
  function AlignmentOf(step: (int, bool) -> Result<Move<int>>, bytes: seq<byte>): Result<set<(int, int)>>
  {
    match DecodeWithLengthSpec(step, 0, bytes)
    case Err(m) => Err(m)
    case Ok(d) => Ok(Pairs(d.values))
  }

  /** Decoding the positions of alignment points, encoded with length by
      the codes of the same tree, gives back the points. */
  lemma AlignmentDecodes(step: (int, bool) -> Result<Move<int>>, enc: map<int, seq<bool>>, ps: seq<(int, int)>, rest: seq<byte>)
    requires Sound(step, 0, enc) && ps != []
    requires 2 * |ps| in enc && forall i | 0 <= i < 2 * |ps| :: Flat(ps)[i] in enc
    ensures AlignmentOf(step, Pack(CodeOf(enc, |Flat(ps)|) + Codes(enc, Flat(ps))) + rest) == Ok(PointSet(ps))
  {
    DecodeWithLengthRoundTrip(step, 0, enc, Flat(ps), rest);
    PairsOfFlat(ps);
  }

  // ---------------------------------------------------------------------
  // Slot remap

  /** `std::vector<size_t> map(size)`, then `map[j] = i` for each index
      `i` in turn whose slot `j` is not `size`. */
  function Remapped(slots: seq<int>, size: nat): (r: seq<int>)
    ensures |r| == size
  {
    if slots == [] then seq(size, _ => 0)
    else
      var m := Remapped(slots[..|slots| - 1], size);
      var j := slots[|slots| - 1];
      if 0 <= j < size then m[j := |slots| - 1] else m
  }

  /** Each entry of the map is 0 or an index whose slot it is. */
  lemma {:induction false} RemappedFrom(slots: seq<int>, size: nat)
    ensures forall j | 0 <= j < size :: var i := Remapped(slots, size)[j];
      i == 0 || (0 <= i < |slots| && slots[i] == j)
  {
    if slots != [] {
      RemappedFrom(slots[..|slots| - 1], size);
    }
  }

  /** The entry at the slot of index `i` is `i` when no later index has the
      same slot. */
  lemma {:induction false} RemappedAt(slots: seq<int>, size: nat, i: nat)
    requires i < |slots| && 0 <= slots[i] < size
    requires forall i2 | i < i2 < |slots| :: slots[i2] != slots[i]
    ensures Remapped(slots, size)[slots[i]] == i
    decreases |slots|
  {
    if i < |slots| - 1 {
      RemappedAt(slots[..|slots| - 1], size, i);
    }
  }

  // ---------------------------------------------------------------------
  // Counting slots

  /** The numbers below `n`, in order. */
  function Range(n: nat): (r: seq<int>)
    ensures |r| == n && forall i | 0 <= i < n :: r[i] == i
  {
    if n == 0 then [] else Range(n - 1) + [n - 1]
  }

  lemma {:induction false} DistinctCard(xs: seq<int>)
    requires forall i, j | 0 <= i < j < |xs| :: xs[i] != xs[j]
    ensures |set x | x in xs| == |xs|
  {
    if xs != [] {
      var init := xs[..|xs| - 1];
      DistinctCard(init);
      assert (set x | x in xs) == (set x | x in init) + {xs[|xs| - 1]};
    }
  }

  /** `|xs|` different slots below `size` need `|xs| <= size`: a hash
      that is injective on the keys has at least as many slots as keys. */
  lemma Pigeonhole(xs: seq<int>, size: nat)
    requires forall i, j | 0 <= i < j < |xs| :: xs[i] != xs[j]
    requires forall i | 0 <= i < |xs| :: 0 <= xs[i] < size
    ensures |xs| <= size
  {
    DistinctCard(xs);
    DistinctCard(Range(size));
    forall x | x in xs ensures x in Range(size) {
      assert Range(size)[x] == x;
    }
    SubsetCard(set x | x in xs, set x | x in Range(size));
  }

  lemma SubsetCard(a: set<int>, b: set<int>)
    requires a <= b
    ensures |a| <= |b|
  {
    assert a * b == a && a + b == b;
    assert |a + b| == |a - b| + |b - a| + |a * b|;
  }
}

=== FILE: phrase_table.dfy ===
/** The hashed in-memory phrase table of
    moses/src/PhraseDictionaryMemoryHashed.cpp: `LoadText` packs the lines
    of a text phrase table group by group, builds a Huffman tree for the
    word ids and one for the scores, builds the hash index on the group
    keys, and stores each group's records compressed at its key's slot;
    `CreateTargetPhraseCollection` finds a source phrase's slot and decodes
    the records there; `SaveBinary` and `LoadBinary` write and read the
    index, the vocabulary, the two trees and the compressed groups. */
module PhraseTables {
  import opened Results
  import opened Bits
  import opened Decoding
  import opened FlatTrees
  import opened Symbols
  import opened PhraseGroups
  import opened PhraseRecords
  import PC = PhraseCoder
  import Hufftree
  import HashIndex

  // ---------------------------------------------------------------------
  // Stream layout of the binary table

  /** What `m_targetPhrases.save` writes: the number of compressed groups,
      then each as a byte string. */
  function SavedPhrases(ps: seq<seq<byte>>): (r: seq<Cell>)
    ensures |r| == 1 + |ps|
  {
    [Num(|ps|)] + Blobs(ps)
  }

  function Blobs(ps: seq<seq<byte>>): (r: seq<Cell>)
    ensures |r| == |ps|
  {
    if ps == [] then [] else [Blob(ps[0])] + Blobs(ps[1..])
  }

  /** Reads `n` byte strings from the front of `s`. */
  function ReadBlobs(s: seq<Cell>, n: nat): (r: Option<seq<seq<byte>>>)
    ensures r.Some? ==> |r.value| == n && n <= |s|
  {
    if n == 0 then Some([])
    else if |s| == 0 || !s[0].Blob? || !IsBytes(s[0].b) then None
    else
      match ReadBlobs(s[1..], n - 1)
      case None => None
      case Some(rest) => Some([s[0].b] + rest)
  }

  predicate IsBytes(b: seq<int>)
  {
    forall i | 0 <= i < |b| :: 0 <= b[i] < 256
  }

  /** What `m_targetPhrases.load` reads. */
  function ReadPhrases(s: seq<Cell>): Option<seq<seq<byte>>>
  {
    if |s| == 0 || !s[0].Num? || s[0].n < 0 then None else ReadBlobs(s[1..], s[0].n)
  }

  lemma {:induction false} ReadBlobsOfBlobs(ps: seq<seq<byte>>, tail: seq<Cell>)
    ensures ReadBlobs(Blobs(ps) + tail, |ps|) == Some(ps)
  {
    if ps != [] {
      var rest := Blobs(ps[1..]) + tail;
      var s := [Blob(ps[0])] + rest;
      assert Blobs(ps) + tail == s;
      assert s[1..] == rest;
      ReadBlobsOfBlobs(ps[1..], tail);
      assert ReadBlobs(s, |ps|) == Some([ps[0]] + ps[1..]);
      assert [ps[0]] + ps[1..] == ps;
    }
  }

  lemma ReadSavedPhrases(ps: seq<seq<byte>>)
    ensures ReadPhrases(SavedPhrases(ps)) == Some(ps)
  {
    var s := SavedPhrases(ps);
    assert s[1..] == Blobs(ps) + [];
    ReadBlobsOfBlobs(ps, []);
  }

  // ---------------------------------------------------------------------
  // Alignment pairs

  /** The loop of `UnpackAlignment(is, targetPhrase)` and of
      `DecompressAlignment`: for each odd `i`, insert the pair
      `(alignment[i-1], alignment[i])`. */
  method PairUp(alignment: seq<int>) returns (pairs: set<(int, int)>)
    ensures pairs == Pairs(alignment)
  {
    pairs := {};
    for i := 0 to |alignment|
      invariant pairs == Pairs(alignment[..i])
    {
      PairsStep(alignment, i);
      if i % 2 == 1 {
        pairs := pairs + {(alignment[i - 1], alignment[i])};
      }
    }
    assert alignment[..|alignment|] == alignment;
  }

  lemma PairsStep(a: seq<int>, i: nat)
    requires i < |a|
    ensures Pairs(a[..i + 1]) == if i % 2 == 1 then Pairs(a[..i]) + {(a[i - 1], a[i])} else Pairs(a[..i])
  {
    var b := a[..i + 1];
    assert b[..|b| - 1] == a[..i];
    if i % 2 == 1 {
      assert b[..|b| - 2] == a[..i - 1];
      assert a[..i][..i - 1] == a[..i - 1];
    }
  }

  // ---------------------------------------------------------------------
  // Step lemmas for the packing loops

  /** Looking up one more word, with ids that keep the earlier ones. */
  lemma WordStep(ids: map<string, nat>, ids': map<string, nat>, words: seq<string>, k: nat, c: int, count0: map<int, nat>)
    requires k < |words| && (forall j | 0 <= j < k :: words[j] in ids) && Extends(ids, ids') && words[k] in ids'
    ensures forall j | 0 <= j < k + 1 :: words[j] in ids'
    ensures [c] + IdsIn(ids', words[..k + 1]) == [c] + IdsIn(ids, words[..k]) + [ids'[words[k]]]
    ensures PC.Counted(count0, IdsIn(ids', words[..k + 1])) == PC.Bump(PC.Counted(count0, IdsIn(ids, words[..k])), ids'[words[k]])
  {
    IdsInSnoc(ids, ids', words, k);
    PC.CountedSnoc(count0, IdsIn(ids, words[..k]), ids'[words[k]]);
  }

  lemma IdsInSnoc(ids: map<string, nat>, ids': map<string, nat>, words: seq<string>, k: nat)
    requires k < |words| && (forall j | 0 <= j < k :: words[j] in ids) && Extends(ids, ids') && words[k] in ids'
    ensures IdsIn(ids', words[..k + 1]) == IdsIn(ids, words[..k]) + [ids'[words[k]]]
  {
    var a, b := IdsIn(ids', words[..k + 1]), IdsIn(ids, words[..k]) + [ids'[words[k]]];
    forall j | 0 <= j < k + 1 ensures a[j] == b[j] {
      if j < k {
        assert words[..k][j] == words[j];
      }
    }
  }

  /** The vocabulary spells back every word of `words`. */
  lemma Spelled(t: SymbolTable, words: seq<string>, items: seq<int>)
    requires t.Valid() && WordsKnown(t.ids, words) && items == PackedPhrase(t.ids, words)
    ensures forall k | 0 <= k < |words| :: t.Get(items[k + 1]) == words[k]
  {
  }

  /** Counting one more item. */
  lemma CountStep(count0: map<int, nat>, xs: seq<int>, k: nat)
    requires k < |xs|
    ensures PC.Counted(count0, xs[..k + 1]) == PC.Bump(PC.Counted(count0, xs[..k]), xs[k])
  {
    assert xs[..k + 1] == xs[..k] + [xs[k]];
    PC.CountedSnoc(count0, xs[..k], xs[k]);
  }

  /** The counters after one more kept line. */
  lemma CountLine(ids: map<string, nat>, ids': map<string, nat>, ls: seq<Line>, l: Line, sym0: map<int, nat>, score0: map<int, nat>)
    requires Extends(ids, ids') && Known(ids, ls)
    ensures PC.Counted(PC.Counted(sym0, PhraseGroups.SymbolsOf(ids, ls)), LineSymbols(ids', l)) == PC.Counted(sym0, PhraseGroups.SymbolsOf(ids', ls + [l]))
    ensures PC.Counted(PC.Counted(score0, PhraseGroups.ScoresOf(ls)), l.scores) == PC.Counted(score0, PhraseGroups.ScoresOf(ls + [l]))
  {
    SymbolsOfGrown(ids, ids', ls);
    assert (ls + [l])[..|ls|] == ls;
    PC.CountedAppend(sym0, PhraseGroups.SymbolsOf(ids', ls), LineSymbols(ids', l));
    PC.CountedAppend(score0, PhraseGroups.ScoresOf(ls), l.scores);
  }

  /** One record read off the front of a packed group is compressed ahead
      of the rest. */
  lemma CompressStep(symEnc: map<int, seq<bool>>, scoreEnc: map<int, seq<bool>>, s: seq<int>, n: nat,
                     ids: seq<int>, k: nat, xs: seq<int>)
    requires ReadCounted(s) == Some((ids, k)) && UnpackScores(s[k..], n) == Some(xs)
    ensures CompressedRecords(symEnc, scoreEnc, Records(s, n)) ==
      RecordBytes(symEnc, scoreEnc, PC.Target(ids, xs)) + CompressedRecords(symEnc, scoreEnc, Records(s[k + n..], n))
  {
    var rs := [PC.Target(ids, xs)] + Records(s[k + n..], n);
    assert Records(s, n) == rs;
    assert rs[1..] == Records(s[k + n..], n);
  }

  /** `GetHashByIndex(index)` on the parts of an index (the perfect hash,
      the fingerprint function, the keys and the fingerprints): the slot of
      the `index`-th key when the key's fingerprint is stored there, the
      number of slots otherwise. */
  function SlotAt(mph: string -> nat, fprint: string -> HashIndex.Fprint, keys: seq<string>,
                  fprints: seq<HashIndex.Fprint>, index: nat): (r: nat)
    ensures r <= |fprints|
  {
    if index < |keys| && mph(keys[index]) < |fprints| && fprint(keys[index]) == fprints[mph(keys[index])]
    then mph(keys[index]) else |fprints|
  }

  /** The slots `GetHashByIndex` gives the first `n` indexes. */
  function Slots(mph: string -> nat, fprint: string -> HashIndex.Fprint, keys: seq<string>,
                 fprints: seq<HashIndex.Fprint>, n: nat): (r: seq<int>)
    ensures |r| == n && forall i | 0 <= i < n :: r[i] == SlotAt(mph, fprint, keys, fprints, i)
  {
    if n == 0 then [] else Slots(mph, fprint, keys, fprints, n - 1) + [SlotAt(mph, fprint, keys, fprints, n - 1)]
  }

  /** The remap `LoadText` builds over all `GetSize()` slots. */
  function RemapOf(mph: string -> nat, fprint: string -> HashIndex.Fprint, keys: seq<string>,
                   fprints: seq<HashIndex.Fprint>): (r: seq<int>)
    ensures |r| == |fprints|
  {
    Remapped(Slots(mph, fprint, keys, fprints, |fprints|), |fprints|)
  }

  /** What the compression loop of `LoadText` stores for the slots of the
      remap `m`: for each, the records of the packed group it names,
      compressed.  (The remap names a group for every slot; a slot naming
      none would hold nothing.) */
  function Stored(symEnc: map<int, seq<bool>>, scoreEnc: map<int, seq<bool>>, n: nat, groups: seq<seq<int>>, m: seq<int>): (r: seq<seq<byte>>)
    ensures |r| == |m|
  {
    if m == [] then []
    else
      var g := m[|m| - 1];
      Stored(symEnc, scoreEnc, n, groups, m[..|m| - 1])
        + [if 0 <= g < |groups| then CompressedRecords(symEnc, scoreEnc, Records(groups[g], n)) else []]
  }

  lemma StoredSnoc(symEnc: map<int, seq<bool>>, scoreEnc: map<int, seq<bool>>, n: nat, groups: seq<seq<int>>, m: seq<int>, j: nat)
    requires j < |m| && 0 <= m[j] < |groups|
    ensures Stored(symEnc, scoreEnc, n, groups, m[..j + 1]) ==
      Stored(symEnc, scoreEnc, n, groups, m[..j]) + [CompressedRecords(symEnc, scoreEnc, Records(groups[m[j]], n))]
  {
    assert m[..j + 1][..j] == m[..j];
  }

  /** The slot `j` holds the compressed records of the group `m[j]`. */
  lemma {:induction false} StoredAt(symEnc: map<int, seq<bool>>, scoreEnc: map<int, seq<bool>>, n: nat, groups: seq<seq<int>>, m: seq<int>, j: nat)
    requires j < |m| && 0 <= m[j] < |groups|
    ensures Stored(symEnc, scoreEnc, n, groups, m)[j] == CompressedRecords(symEnc, scoreEnc, Records(groups[m[j]], n))
    decreases |m|
  {
    if j < |m| - 1 {
      StoredAt(symEnc, scoreEnc, n, groups, m[..|m| - 1], j);
    }
  }

  /** One line with a non-blank source read after the kept lines `ls`:
      closing the open stream when the source changes and packing the line
      onto the open stream gives the groups of `ls + [l]`, and the keys
      added are those of every group of `ls + [l]` but the open one. */
  lemma ReadStep(ids: map<string, nat>, ids': map<string, nat>, ls: seq<Line>, l: Line, prev: string,
                 groups: seq<seq<int>>, stream: seq<int>, keys: seq<string>)
    requires !Blank(l.source) && forall x | x in ls :: !Blank(x.source)
    requires Extends(ids, ids') && Known(ids, ls) && WordsKnown(ids', l.words) && prev == LastSource(ls)
    requires groups + [stream] == GroupsOf(ids, ls) && keys == KeysBefore(ls)
    ensures Known(ids', ls + [l])
    ensures l.source != prev && prev != "" ==>
      groups + [stream] + [[] + PackedLine(ids', l)] == GroupsOf(ids', ls + [l]) && keys + [Trim(prev)] == KeysBefore(ls + [l])
    ensures !(l.source != prev && prev != "") ==>
      groups + [stream + PackedLine(ids', l)] == GroupsOf(ids', ls + [l]) && keys == KeysBefore(ls + [l])
  {
    assert ls != [] ==> ls[|ls| - 1] in ls;
    if ls == [] {
      ReadFirst(ids', l, groups, stream);
    } else if LastSource(ls) == l.source {
      ReadJoin(ids, ids', ls, l, groups, stream);
    } else {
      ReadOpen(ids, ids', ls, l, groups, stream);
    }
    KnownSnoc(ids, ids', ls, l);
  }

  /** The state of the reading loop of `LoadText` after the kept lines
      `ls`, started from the vocabulary `ids0` and the counters `sym0` and
      `score0`: the shape of the groups read so far, and the counters. */
  ghost predicate ReadState(ls: seq<Line>, ids0: map<string, nat>, sym0: map<int, nat>, score0: map<int, nat>,
                            ids: map<string, nat>, symCount: map<int, nat>, scoreCount: map<int, nat>,
                            prev: string, groups: seq<seq<int>>, stream: seq<int>, keys: seq<string>)
  {
    ReadShape(ls, ids0, ids, prev, groups, stream, keys) && Tallied(ls, sym0, score0, ids, symCount, scoreCount)
  }

  /** Every word of `ls` has an id in `ids`, `prev` is the last source
      read, the closed streams and the open one are the packed groups of
      `ls`, and the keys added are those of every group but the open one. */
  ghost predicate ReadShape(ls: seq<Line>, ids0: map<string, nat>, ids: map<string, nat>,
                            prev: string, groups: seq<seq<int>>, stream: seq<int>, keys: seq<string>)
  {
    && (forall x | x in ls :: !Blank(x.source))
    && Extends(ids0, ids) && Known(ids, ls) && prev == LastSource(ls)
    && groups + [stream] == GroupsOf(ids, ls) && keys == KeysBefore(ls)
  }

  /** The counters have counted the symbols and the scores of `ls`. */
  ghost predicate Tallied(ls: seq<Line>, sym0: map<int, nat>, score0: map<int, nat>,
                          ids: map<string, nat>, symCount: map<int, nat>, scoreCount: map<int, nat>)
  {
    && symCount == PC.Counted(sym0, PhraseGroups.SymbolsOf(ids, ls))
    && scoreCount == PC.Counted(score0, PhraseGroups.ScoresOf(ls))
  }

  /** The reading state before any line. */
  lemma ReadStart(ids: map<string, nat>, sym0: map<int, nat>, score0: map<int, nat>)
    ensures ReadState([], ids, sym0, score0, ids, sym0, score0, "", [], [], [])
  {
    assert Runs([]) == [];
  }

  /** After the last line, adding the trimmed last source as a key and
      closing the open stream gives the keys and the groups of all the
      kept lines. */
  lemma ReadDone(ls: seq<Line>, ids0: map<string, nat>, sym0: map<int, nat>, score0: map<int, nat>,
                 ids: map<string, nat>, symCount: map<int, nat>, scoreCount: map<int, nat>,
                 prev: string, groups: seq<seq<int>>, stream: seq<int>, keys: seq<string>)
    requires ReadState(ls, ids0, sym0, score0, ids, symCount, scoreCount, prev, groups, stream, keys)
    ensures Extends(ids0, ids) && Known(ids, ls)
    ensures keys + [Trim(prev)] == KeysOf(ls) && groups + [stream] == GroupsOf(ids, ls)
    ensures symCount == PC.Counted(sym0, PhraseGroups.SymbolsOf(ids, ls))
    ensures scoreCount == PC.Counted(score0, PhraseGroups.ScoresOf(ls))
  {
    KeysAfter(ls);
  }

  /** Reading one more line with a non-blank source keeps the reading
      state: when the source changes, the trimmed previous source is added
      as a key and the open stream is closed; the packed line goes onto the
      open stream and its symbols and scores are counted. */
  lemma ReadAdvance(ls: seq<Line>, ids0: map<string, nat>, sym0: map<int, nat>, score0: map<int, nat>,
                    ids: map<string, nat>, symCount: map<int, nat>, scoreCount: map<int, nat>,
                    prev: string, groups: seq<seq<int>>, stream: seq<int>, keys: seq<string>,
                    l: Line, ids': map<string, nat>, symCount': map<int, nat>, scoreCount': map<int, nat>,
                    groups': seq<seq<int>>, stream': seq<int>, keys': seq<string>)
    requires ReadState(ls, ids0, sym0, score0, ids, symCount, scoreCount, prev, groups, stream, keys)
    requires !Blank(l.source) && Extends(ids, ids') && WordsKnown(ids', l.words)
    requires symCount' == PC.Counted(symCount, LineSymbols(ids', l)) && scoreCount' == PC.Counted(scoreCount, l.scores)
    requires l.source != prev && prev != "" ==>
      groups' == groups + [stream] && stream' == PackedLine(ids', l) && keys' == keys + [Trim(prev)]
    requires !(l.source != prev && prev != "") ==>
      groups' == groups && stream' == stream + PackedLine(ids', l) && keys' == keys
    ensures ReadState(ls + [l], ids0, sym0, score0, ids', symCount', scoreCount', l.source, groups', stream', keys')
  {
    ShapeAdvance(ls, ids0, ids, prev, groups, stream, keys, l, ids', groups', stream', keys');
    CountLine(ids, ids', ls, l, sym0, score0);
  }

  lemma ShapeAdvance(ls: seq<Line>, ids0: map<string, nat>, ids: map<string, nat>,
                     prev: string, groups: seq<seq<int>>, stream: seq<int>, keys: seq<string>,
                     l: Line, ids': map<string, nat>, groups': seq<seq<int>>, stream': seq<int>, keys': seq<string>)
    requires ReadShape(ls, ids0, ids, prev, groups, stream, keys)
    requires !Blank(l.source) && Extends(ids, ids') && WordsKnown(ids', l.words)
    requires l.source != prev && prev != "" ==>
      groups' == groups + [stream] && stream' == PackedLine(ids', l) && keys' == keys + [Trim(prev)]
    requires !(l.source != prev && prev != "") ==>
      groups' == groups && stream' == stream + PackedLine(ids', l) && keys' == keys
    ensures ReadShape(ls + [l], ids0, ids', l.source, groups', stream', keys')
  {
    if l.source != prev && prev != "" {
      ShapeOpen(ls, ids0, ids, prev, groups, stream, keys, l, ids');
    } else {
      ShapeJoin(ls, ids0, ids, prev, groups, stream, keys, l, ids');
    }
  }

  /** A line whose source differs from the previous one opens a group. */
  lemma ShapeOpen(ls: seq<Line>, ids0: map<string, nat>, ids: map<string, nat>,
                  prev: string, groups: seq<seq<int>>, stream: seq<int>, keys: seq<string>,
                  l: Line, ids': map<string, nat>)
    requires ReadShape(ls, ids0, ids, prev, groups, stream, keys)
    requires !Blank(l.source) && Extends(ids, ids') && WordsKnown(ids', l.words)
    requires l.source != prev && prev != ""
    ensures ReadShape(ls + [l], ids0, ids', l.source, groups + [stream], PackedLine(ids', l), keys + [Trim(prev)])
  {
    ReadStep(ids, ids', ls, l, prev, groups, stream, keys);
    assert [] + PackedLine(ids', l) == PackedLine(ids', l);
    assert LastSource(ls + [l]) == l.source;
  }

  /** A line with the previous line's source, or the first line, joins the
      open group. */
  lemma ShapeJoin(ls: seq<Line>, ids0: map<string, nat>, ids: map<string, nat>,
                  prev: string, groups: seq<seq<int>>, stream: seq<int>, keys: seq<string>,
                  l: Line, ids': map<string, nat>)
    requires ReadShape(ls, ids0, ids, prev, groups, stream, keys)
    requires !Blank(l.source) && Extends(ids, ids') && WordsKnown(ids', l.words)
    requires !(l.source != prev && prev != "")
    ensures ReadShape(ls + [l], ids0, ids', l.source, groups, stream + PackedLine(ids', l), keys)
  {
    ReadStep(ids, ids', ls, l, prev, groups, stream, keys);
    assert LastSource(ls + [l]) == l.source;
  }

  // ---------------------------------------------------------------------
  // Finding a group again

  /** No key occurs twice. */
  ghost predicate Distinct(keys: seq<string>)
  {
    forall i, j | 0 <= i < j < |keys| :: keys[i] != keys[j]
  }

  /** What every group needs to be found again after `LoadText`: at least
      one score component, every kept line fits the packed format and has a
      word, no two groups share a key, and the perfect hash sends different
      keys to different slots. */
  ghost predicate Loadable(lines: seq<Line>, mph: string -> nat, n: nat)
  {
    && n >= 1
    && (forall l | l in Kept(lines) :: Fits(l, n) && l.words != [])
    && Distinct(KeysOf(Kept(lines))) && HashIndex.Injective(mph, KeysOf(Kept(lines)))
  }

  /** Every entry of the remap is 0 or the index of a key whose slot it
      is, so it names a key. */
  lemma RemapRange(mph: string -> nat, fprint: string -> HashIndex.Fprint, keys: seq<string>, fprints: seq<HashIndex.Fprint>)
    requires |keys| >= 1
    ensures forall j | 0 <= j < |fprints| :: 0 <= RemapOf(mph, fprint, keys, fprints)[j] < |keys|
  {
    var size := |fprints|;
    var slots := Slots(mph, fprint, keys, fprints, size);
    RemappedFrom(slots, size);
    forall j | 0 <= j < size
      ensures 0 <= Remapped(slots, size)[j] < |keys|
    {
      var i := Remapped(slots, size)[j];
      if i != 0 {
        assert slots[i] == SlotAt(mph, fprint, keys, fprints, i) == j;
      }
    }
  }

  /** When the perfect hash keeps different keys apart and every key's
      slot holds its own fingerprint, there are at least as many slots as
      keys, and the remap sends the slot of the `i`-th key back to `i`. */
  lemma SlotOfKey(mph: string -> nat, fprint: string -> HashIndex.Fprint, keys: seq<string>, fprints: seq<HashIndex.Fprint>, i: nat)
    requires i < |keys| && Distinct(keys) && HashIndex.Injective(mph, keys)
    requires HashIndex.OwnSlots(mph, fprint, keys, fprints)
    ensures i < |fprints| && mph(keys[i]) < |fprints|
    ensures RemapOf(mph, fprint, keys, fprints)[mph(keys[i])] == i
  {
    var size := |fprints|;
    var xs := seq(|keys|, k requires 0 <= k < |keys| => mph(keys[k]));
    forall a, b | 0 <= a < b < |xs|
      ensures xs[a] != xs[b]
    {
      assert keys[a] != keys[b];
    }
    Pigeonhole(xs, size);
    var slots := Slots(mph, fprint, keys, fprints, size);
    forall i2 | i < i2 < |slots|
      ensures slots[i2] != slots[i]
    {
      if i2 < |keys| {
        assert keys[i] != keys[i2];
      }
    }
    RemappedAt(slots, size, i);
  }

  lemma {:induction false} TargetsOfAt(ids: map<string, nat>, run: seq<Line>, k: nat)
    requires k < |run|
    ensures TargetsOf(ids, run)[k] == PC.Target(IdsIn(ids, run[k].words), run[k].scores)
    decreases k
  {
    if k > 0 {
      TargetsOfAt(ids, run[1..], k - 1);
    }
  }

  /** The packed group of the `i`-th run holds that run's records. */
  lemma GroupRecords(ids: map<string, nat>, ls: seq<Line>, n: nat, i: nat)
    requires i < |Runs(ls)| && forall l | l in ls :: Fits(l, n)
    ensures Records(GroupsOf(ids, ls)[i], n) == TargetsOf(ids, Runs(ls)[i])
  {
    var rs := Runs(ls);
    RunsIn(ls);
    PackedRunsAt(ids, rs, i);
    RecordsOfRun(ids, rs[i], n, []);
    assert PackedRun(ids, rs[i]) + [] == PackedRun(ids, rs[i]);
    var ts := TargetsOf(ids, rs[i]);
    assert ts + [] == ts;
  }

  /** The `i`-th group, compressed with codes that cover its symbols and
      scores, decompresses to the records of its run. */
  lemma GroupDecodes(sym: (int, bool) -> Result<Move<int>>, score: (int, bool) -> Result<Move<int>>,
                     symEnc: map<int, seq<bool>>, scoreEnc: map<int, seq<bool>>,
                     ids: map<string, nat>, ls: seq<Line>, n: nat, i: nat)
    requires Sound(sym, 0, symEnc) && Sound(score, 0, scoreEnc) && n >= 1
    requires forall x | x in PhraseGroups.SymbolsOf(ids, ls) :: x in symEnc
    requires forall x | x in PhraseGroups.ScoresOf(ls) :: x in scoreEnc
    requires forall l | l in ls :: Fits(l, n) && l.words != []
    requires i < |Runs(ls)|
    ensures Decompressed(sym, score, n, CompressedRecords(symEnc, scoreEnc, Records(GroupsOf(ids, ls)[i], n)))
            == Ok(TargetsOf(ids, Runs(ls)[i]))
  {
    GroupRecords(ids, ls, n, i);
    RunsIn(ls);
    RunEncodable(symEnc, scoreEnc, ids, ls, n, Runs(ls)[i]);
    DecompressCompressed(sym, score, symEnc, scoreEnc, n, TargetsOf(ids, Runs(ls)[i]));
  }

  /** Codes that cover every counted symbol and score can carry every
      record of a run of kept lines that fit and have a word. */
  lemma RunEncodable(symEnc: map<int, seq<bool>>, scoreEnc: map<int, seq<bool>>, ids: map<string, nat>,
                     ls: seq<Line>, n: nat, run: seq<Line>)
    requires forall x | x in PhraseGroups.SymbolsOf(ids, ls) :: x in symEnc
    requires forall x | x in PhraseGroups.ScoresOf(ls) :: x in scoreEnc
    requires forall l | l in run :: l in ls && Fits(l, n) && l.words != []
    ensures forall k | 0 <= k < |run| :: Encodable(symEnc, scoreEnc, n, TargetsOf(ids, run)[k])
  {
    forall k | 0 <= k < |run|
      ensures Encodable(symEnc, scoreEnc, n, TargetsOf(ids, run)[k])
    {
      assert run[k] in run;
      TargetsOfAt(ids, run, k);
      LineEncodable(symEnc, scoreEnc, ids, ls, n, run[k]);
    }
  }

  /** The record of one such line. */
  lemma LineEncodable(symEnc: map<int, seq<bool>>, scoreEnc: map<int, seq<bool>>, ids: map<string, nat>,
                      ls: seq<Line>, n: nat, l: Line)
    requires forall x | x in PhraseGroups.SymbolsOf(ids, ls) :: x in symEnc
    requires forall x | x in PhraseGroups.ScoresOf(ls) :: x in scoreEnc
    requires l in ls && Fits(l, n) && l.words != []
    ensures Encodable(symEnc, scoreEnc, n, PC.Target(IdsIn(ids, l.words), l.scores))
  {
    var w := IdsIn(ids, l.words);
    SymbolsOfHas(ids, ls, l);
    ScoresOfHas(ls, l);
    forall k | 0 <= k < |w|
      ensures w[k] in symEnc
    {
      assert w[k] in PhraseGroups.SymbolsOf(ids, ls);
    }
    assert |w| in symEnc by {
      assert |l.words| % 256 == |w|;
    }
    forall k | 0 <= k < |l.scores|
      ensures l.scores[k] in scoreEnc
    {
      var x := l.scores[k];
      assert x in PhraseGroups.ScoresOf(ls);
      assert x in scoreEnc;
    }
  }

  /** `GetTargetSymbol` of each id: the words `DecompressTargetPhrase`
      and `UnpackTargetPhrase` add to a target phrase. */
  function Words(t: SymbolTable, ids: seq<int>): (r: seq<string>)
    reads t
    ensures |r| == |ids|
  {
    seq(|ids|, k requires 0 <= k < |ids| reads t => t.Get(ids[k]))
  }

  /** The records as target phrases: their ids spelled, their scores as
      decoded. */
  function Spelling(t: SymbolTable, ts: seq<PC.Target>): (r: seq<PC.Entry>)
    reads t
    ensures |r| == |ts|
  {
    seq(|ts|, k requires 0 <= k < |ts| reads t => PC.Entry(Words(t, ts[k].words), ts[k].scores))
  }

  /** The words and scores of the lines. */
  function EntriesOf(run: seq<Line>): (r: seq<PC.Entry>)
    ensures |r| == |run|
  {
    seq(|run|, k requires 0 <= k < |run| => PC.Entry(run[k].words, run[k].scores))
  }

  /** Spelling the records of lines whose words the vocabulary knows gives
      back the lines' own words and scores. */
  lemma SpelledRun(t: SymbolTable, run: seq<Line>)
    requires t.Valid() && Known(t.ids, run)
    ensures Spelling(t, TargetsOf(t.ids, run)) == EntriesOf(run)
  {
    forall k | 0 <= k < |run|
      ensures Spelling(t, TargetsOf(t.ids, run))[k] == EntriesOf(run)[k]
    {
      TargetsOfAt(t.ids, run, k);
      assert run[k] in run;
      assert Words(t, IdsIn(t.ids, run[k].words)) == run[k].words;
    }
  }

  /** The records `done` in front of the records of `r`, or the error of
      `r`. */
  function After(done: seq<PC.Target>, r: Result<seq<PC.Target>>): Result<seq<PC.Target>>
  {
    match r
    case Err(m) => Err(m)
    case Ok(ts) => Ok(done + ts)
  }

  lemma AfterNothing(r: Result<seq<PC.Target>>)
    ensures After([], r) == r
  {
    if r.Ok? {
      assert [] + r.value == r.value;
    }
  }

  /** Decoding one more record after `done`. */
  lemma AfterSnoc(done: seq<PC.Target>, t: PC.Target, r: Result<seq<PC.Target>>)
    ensures After(done, After([t], r)) == After(done + [t], r)
  {
    if r.Ok? {
      assert done + ([t] + r.value) == done + [t] + r.value;
    }
  }

  /** One record decoded from the front of `bytes`: its words with the
      symbol tree, then its scores with the score tree from where the words
      stopped; the rest of the records come after it. */
  lemma DecompressedNext(sym: (int, bool) -> Result<Move<int>>, score: (int, bool) -> Result<Move<int>>, n: nat,
                         bytes: seq<byte>, d1: Decoded, d2: Decoded)
    requires DecodeWithLengthSpec(sym, 0, bytes) == Ok(d1) && !d1.exhausted && d1.consumed <= |bytes|
    requires DecodeSpec(score, 0, n, bytes[d1.consumed..]) == Ok(d2) && !d2.exhausted && d2.consumed <= |bytes| - d1.consumed
    ensures Decompressed(sym, score, n, bytes)
            == After([PC.Target(d1.values, d2.values)], Decompressed(sym, score, n, bytes[d1.consumed..][d2.consumed..]))
  {
  }

  /** Decoding stops at the front of `bytes` when the symbol tree fails
      or finds the stream exhausted. */
  lemma DecompressedStops(sym: (int, bool) -> Result<Move<int>>, score: (int, bool) -> Result<Move<int>>, n: nat,
                          bytes: seq<byte>)
    ensures DecodeWithLengthSpec(sym, 0, bytes).Err? ==>
      Decompressed(sym, score, n, bytes) == Err(DecodeWithLengthSpec(sym, 0, bytes).msg)
    ensures DecodeWithLengthSpec(sym, 0, bytes).Ok? && DecodeWithLengthSpec(sym, 0, bytes).value.exhausted ==>
      Decompressed(sym, score, n, bytes) == Ok([])
  {
  }

  /** Decoding stops after the words of a record when the score tree
      fails or finds the stream exhausted. */
  lemma DecompressedStopsLater(sym: (int, bool) -> Result<Move<int>>, score: (int, bool) -> Result<Move<int>>, n: nat,
                               bytes: seq<byte>, d1: Decoded)
    requires DecodeWithLengthSpec(sym, 0, bytes) == Ok(d1) && !d1.exhausted && d1.consumed <= |bytes|
    ensures DecodeSpec(score, 0, n, bytes[d1.consumed..]).Err? ==>
      Decompressed(sym, score, n, bytes) == Err(DecodeSpec(score, 0, n, bytes[d1.consumed..]).msg)
    ensures DecodeSpec(score, 0, n, bytes[d1.consumed..]).Ok? && DecodeSpec(score, 0, n, bytes[d1.consumed..]).value.exhausted ==>
      Decompressed(sym, score, n, bytes) == Ok([])
  {
  }

  /** Spelling one more record. */
  lemma SpellingSnoc(t: SymbolTable, ts: seq<PC.Target>, x: PC.Target)
    ensures Spelling(t, ts + [x]) == Spelling(t, ts) + [PC.Entry(Words(t, x.words), x.scores)]
  {
    assert forall k | 0 <= k < |ts| :: (ts + [x])[k] == ts[k];
  }

  /** A lookup's records spelled, as `CreateTargetPhraseCollection` adds
      them to the collection. */
  function SpellAll(t: SymbolTable, c: Option<Result<seq<PC.Target>>>): Option<Result<seq<PC.Entry>>>
    reads t
  {
    match c
    case None => None
    case Some(Err(m)) => Some(Err(m))
    case Some(Ok(ts)) => Some(Ok(Spelling(t, ts)))
  }

  /** What `UnpackAlignment(is, alignment)` leaves in the vector it is
      given fresh: after the count byte `c`, `c` positions; when the stream
      ends first, the bytes it still held and then the zeros that `resize`
      put in. */
  function AlignmentBytes(s: seq<int>): (r: seq<int>)
    ensures ReadCounted(s).Some? ==> r == ReadCounted(s).value.0
    ensures s != [] ==> |r| == s[0] % 256
  {
    if s == [] then []
    else
      var c := s[0] % 256;
      if |s| < 1 + c then s[1..] + seq(1 + c - |s|, _ => 0) else s[1..1 + c]
  }

  /** Reading back a packed alignment gives its points. */
  lemma UnpackPackedAlignment(ps: seq<(int, int)>, rest: seq<int>)
    requires 2 * |ps| < 256 && forall j | 0 <= j < |ps| :: 0 <= ps[j].0 < 256 && 0 <= ps[j].1 < 256
    ensures ReadCounted(PackedAlignment(Flat(ps)) + rest).Some?
    ensures Pairs(AlignmentBytes(PackedAlignment(Flat(ps)) + rest)) == PointSet(ps)
  {
    AlignmentRoundTrip(ps, rest);
  }

  /** `DecompressAlignment` decodes with the score tree.  The byte 6 holds
      the bits 0, 1, 1: with the code 0 for the count 2 and 1 for the
      position 0, it is the alignment {(0, 0)} encoded with length; a score
      tree with other symbols at its two leaves reads a count of 1 and the
      position 7 from it, and so no point at all. */
  lemma AlignmentWithScoreTree()
    ensures AlignmentOf(Stepper([-1, -2], [2, 0]), [6]) == Ok({(0, 0)})
    ensures AlignmentOf(Stepper([-1, -2], [1, 7]), [6]) == Ok({})
  {
    SixBits();
    TwoZeros();
    OneSeven();
  }

  /** The bits of the byte 6, least significant first. */
  lemma SixBits()
    ensures Unpack([6]) == [false, true, true, false, false, false, false, false]
  {
    assert Unpack([6]) == BitsOf(6) + Unpack([]);
    assert BitOf(6, 0) == false;
    assert BitOf(6, 1) == BitOf(3, 0) == true;
    assert BitOf(6, 2) == BitOf(1, 0) == true;
    assert BitOf(6, 3) == BitOf(0, 0) == false;
    BitOfZero(1);
    BitOfZero(2);
    BitOfZero(3);
    BitOfZero(4);
    assert BitOf(6, 4) == BitOf(0, 1) && BitOf(6, 5) == BitOf(0, 2);
    assert BitOf(6, 6) == BitOf(0, 3) && BitOf(6, 7) == BitOf(0, 4);
  }

  /** The code 0 for 2 and 1 for 0: the bits 0, 1, 1 decode to [2] and then
      [0, 0]. */
  lemma TwoZeros()
    requires Unpack([6]) == [false, true, true, false, false, false, false, false]
    ensures AlignmentOf(Stepper([-1, -2], [2, 0]), [6]) == Ok({(0, 0)})
  {
    TwoZerosDecoded();
    PairsOfTwo(0, 0);
  }

  lemma TwoZerosDecoded()
    requires Unpack([6]) == [false, true, true, false, false, false, false, false]
    ensures DecodeWithLengthSpec(Stepper([-1, -2], [2, 0]), 0, [6]) == Ok(Decoded([0, 0], 1, false))
  {
    TwoZerosRuns();
    assert Unpack([6])[1..3] == [true, true];
    LengthThenDone(Stepper([-1, -2], [2, 0]), 0, [6], 2, 1, 3, Walk(0, [0, 0]));
  }

  /** Two positions make one point. */
  lemma PairsOfTwo(a: int, b: int)
    ensures Pairs([a, b]) == {(a, b)}
  {
    assert [a, b][..0] == [];
  }

  lemma TwoZerosRuns()
    ensures var st := Stepper([-1, -2], [2, 0]);
      && Run(st, 0, 1, Walk(0, []), [false, true, true, false, false, false, false, false]) == Ok(Ran(Walk(0, [2]), 1))
      && Run(st, 0, 2, Walk(0, []), [true, true]) == Ok(Ran(Walk(0, [0, 0]), 2))
  {
    var st := Stepper([-1, -2], [2, 0]);
    assert [] + [2] == [2];
    assert st(0, false) == Step([-1, -2], [2, 0], 0, false) == Ok(Emit(2));
    var b: seq<bool> := [false, true, true, false, false, false, false, false];
    assert Advance(st, 0, Walk(0, []), false) == Ok(Walk(0, [2]));
    assert Run(st, 0, 1, Walk(0, [2]), b[1..]) == Ok(Ran(Walk(0, [2]), 0));
    TwoZerosCount();
  }

  lemma TwoZerosCount()
    ensures Run(Stepper([-1, -2], [2, 0]), 0, 2, Walk(0, []), [true, true]) == Ok(Ran(Walk(0, [0, 0]), 2))
  {
    var st := Stepper([-1, -2], [2, 0]);
    assert [] + [0] == [0] && [0] + [0] == [0, 0];
    assert st(0, true) == Step([-1, -2], [2, 0], 0, true) == Ok(Emit(0));
    assert Advance(st, 0, Walk(0, []), true) == Ok(Walk(0, [0]));
    assert Advance(st, 0, Walk(0, [0]), true) == Ok(Walk(0, [0, 0]));
    assert Run(st, 0, 2, Walk(0, [0, 0]), []) == Ok(Ran(Walk(0, [0, 0]), 0));
    assert [true, true][1..] == [true] && [true][1..] == [];
    assert Run(st, 0, 2, Walk(0, [0]), [true]) == Ok(Ran(Walk(0, [0, 0]), 1));
  }

  /** Leaves 1 and 7: the same bits decode to the count [1] and then [7]. */
  lemma OneSeven()
    requires Unpack([6]) == [false, true, true, false, false, false, false, false]
    ensures AlignmentOf(Stepper([-1, -2], [1, 7]), [6]) == Ok({})
  {
    var st := Stepper([-1, -2], [1, 7]);
    OneSevenRuns();
    assert Unpack([6])[1..2] == [true];
    LengthThenDone(st, 0, [6], 1, 1, 2, Walk(0, [7]));
  }

  lemma OneSevenRuns()
    ensures var st := Stepper([-1, -2], [1, 7]);
      && Run(st, 0, 1, Walk(0, []), [false, true, true, false, false, false, false, false]) == Ok(Ran(Walk(0, [1]), 1))
      && Run(st, 0, 1, Walk(0, []), [true]) == Ok(Ran(Walk(0, [7]), 1))
  {
    OneRun();
    SevenRun();
  }

  lemma OneRun()
    ensures Run(Stepper([-1, -2], [1, 7]), 0, 1, Walk(0, []), [false, true, true, false, false, false, false, false])
            == Ok(Ran(Walk(0, [1]), 1))
  {
    var st := Stepper([-1, -2], [1, 7]);
    assert [] + [1] == [1];
    assert st(0, false) == Step([-1, -2], [1, 7], 0, false) == Ok(Emit(1));
    var b: seq<bool> := [false, true, true, false, false, false, false, false];
    assert Advance(st, 0, Walk(0, []), false) == Ok(Walk(0, [1]));
    assert Run(st, 0, 1, Walk(0, [1]), b[1..]) == Ok(Ran(Walk(0, [1]), 0));
  }

  lemma SevenRun()
    ensures Run(Stepper([-1, -2], [1, 7]), 0, 1, Walk(0, []), [true]) == Ok(Ran(Walk(0, [7]), 1))
  {
    var st := Stepper([-1, -2], [1, 7]);
    assert [] + [7] == [7];
    assert st(0, true) == Step([-1, -2], [1, 7], 0, true) == Ok(Emit(7));
    assert Advance(st, 0, Walk(0, []), true) == Ok(Walk(0, [7]));
    assert [true][1..] == [];
    assert Run(st, 0, 1, Walk(0, [7]), []) == Ok(Ran(Walk(0, [7]), 0));
  }

  // ---------------------------------------------------------------------
  // The binary table

  /** The parts of a binary table: the index's fingerprints, the symbol
      vector, the arrays of the symbol tree and of the score tree, and the
      compressed groups. */
  datatype Saved = Saved(fprints: seq<HashIndex.Fprint>, symbols: seq<string>,
                         symNodes: seq<int>, symData: seq<int>, scoreNodes: seq<int>, scoreData: seq<int>,
                         phrases: seq<seq<byte>>)

  /** What `SaveBinary` writes, in order (after the perfect hash's own dump,
      which is not part of this model). */
  function SavedTable(t: Saved): seq<Cell>
  {
    HashIndex.SavedPrints(t.fprints) + SavedSymbols(t.symbols) + Hufftree.SavedTree(t.symNodes, t.symData)
      + Hufftree.SavedTree(t.scoreNodes, t.scoreData) + SavedPhrases(t.phrases)
  }

  /** What `LoadBinary` reads, in the same order, or None when the stream
      does not hold the five parts. */
  function ReadTable(s: seq<Cell>): Option<Saved>
  {
    match HashIndex.ReadPrints(s)
    case None => None
    case Some(fprints) =>
      match ReadFromSymbols(s[1 + |fprints|..])
      case None => None
      case Some(t) => Some(t.(fprints := fprints))
  }

  /** The parts after the fingerprints. */
  function ReadFromSymbols(s: seq<Cell>): Option<Saved>
  {
    match ReadSymbols(s)
    case None => None
    case Some((symbols, k)) =>
      match ReadFromTrees(s[k..])
      case None => None
      case Some(t) => Some(t.(symbols := symbols))
  }

  /** The parts after the symbol vector. */
  function ReadFromTrees(s: seq<Cell>): Option<Saved>
  {
    match Hufftree.ReadTree(s)
    case None => None
    case Some((sn, sd, k)) =>
      match Hufftree.ReadTree(s[k..])
      case None => None
      case Some((cn, cd, k2)) =>
        match ReadPhrases(s[k + k2..])
        case None => None
        case Some(phrases) => Some(Saved([], [], sn, sd, cn, cd, phrases))
  }

  /** Reading a saved table gives back every part. */
  lemma ReadSavedTable(t: Saved)
    ensures ReadTable(SavedTable(t)) == Some(t)
  {
    var a := HashIndex.SavedPrints(t.fprints);
    var rest := SavedSymbols(t.symbols) + Hufftree.SavedTree(t.symNodes, t.symData)
      + Hufftree.SavedTree(t.scoreNodes, t.scoreData) + SavedPhrases(t.phrases);
    var s := SavedTable(t);
    assert s == a + rest;
    HashIndex.ReadSavedPrints(t.fprints, rest);
    assert s[1 + |t.fprints|..] == rest;
    ReadSavedSymbolsOn(t);
  }

  lemma ReadSavedSymbolsOn(t: Saved)
    ensures ReadFromSymbols(SavedSymbols(t.symbols) + Hufftree.SavedTree(t.symNodes, t.symData)
      + Hufftree.SavedTree(t.scoreNodes, t.scoreData) + SavedPhrases(t.phrases)) == Some(t.(fprints := []))
  {
    var b := SavedSymbols(t.symbols);
    var rest := Hufftree.SavedTree(t.symNodes, t.symData) + Hufftree.SavedTree(t.scoreNodes, t.scoreData) + SavedPhrases(t.phrases);
    var s := b + Hufftree.SavedTree(t.symNodes, t.symData) + Hufftree.SavedTree(t.scoreNodes, t.scoreData) + SavedPhrases(t.phrases);
    assert s == b + rest;
    ReadSavedSymbols(t.symbols, rest);
    assert s[|b|..] == rest;
    ReadSavedTrees(t);
  }

  lemma ReadSavedTrees(t: Saved)
    ensures ReadFromTrees(Hufftree.SavedTree(t.symNodes, t.symData) + Hufftree.SavedTree(t.scoreNodes, t.scoreData)
      + SavedPhrases(t.phrases)) == Some(t.(fprints := [], symbols := []))
  {
    var c := Hufftree.SavedTree(t.symNodes, t.symData);
    var d := Hufftree.SavedTree(t.scoreNodes, t.scoreData);
    var e := SavedPhrases(t.phrases);
    var s := c + d + e;
    assert s == c + (d + e);
    Hufftree.ReadSavedTree(t.symNodes, t.symData, d + e);
    assert Hufftree.ReadTree(s) == Some((t.symNodes, t.symData, |c|));
    assert s[|c|..] == d + e;
    Hufftree.ReadSavedTree(t.scoreNodes, t.scoreData, e);
    assert Hufftree.ReadTree(s[|c|..]) == Some((t.scoreNodes, t.scoreData, |d|));
    assert s[|c| + |d|..] == e;
    ReadSavedPhrases(t.phrases);
    ReadTreesAt(s, t.symNodes, t.symData, |c|, t.scoreNodes, t.scoreData, |d|, t.phrases);
  }

  /** The parts after the symbol vector, read one after the other. */
  lemma ReadTreesAt(s: seq<Cell>, sn: seq<int>, sd: seq<int>, k: nat, cn: seq<int>, cd: seq<int>, k2: nat,
                    phrases: seq<seq<byte>>)
    requires Hufftree.ReadTree(s) == Some((sn, sd, k)) && Hufftree.ReadTree(s[k..]) == Some((cn, cd, k2))
    requires k + k2 <= |s| && ReadPhrases(s[k + k2..]) == Some(phrases)
    ensures ReadFromTrees(s) == Some(Saved([], [], sn, sd, cn, cd, phrases))
  {
  }

  /** A table that reads whole has each part where `LoadBinary` reads it:
      the symbols right after the fingerprints, the symbol tree after the
      symbols, the score tree after that and the groups last. */
  lemma ReadTableParts(cells: seq<Cell>)
    requires ReadTable(cells).Some?
    ensures var t := ReadTable(cells).value;
      HashIndex.ReadPrints(cells) == Some(t.fprints) && 1 + |t.fprints| <= |cells| &&
      var s1 := cells[1 + |t.fprints|..];
      ReadSymbols(s1).Some? && ReadSymbols(s1).value.0 == t.symbols &&
      var s2 := s1[ReadSymbols(s1).value.1..];
      Hufftree.ReadTree(s2).Some? && Hufftree.ReadTree(s2).value.0 == t.symNodes && Hufftree.ReadTree(s2).value.1 == t.symData &&
      var s3 := s2[Hufftree.ReadTree(s2).value.2..];
      Hufftree.ReadTree(s3).Some? && Hufftree.ReadTree(s3).value.0 == t.scoreNodes && Hufftree.ReadTree(s3).value.1 == t.scoreData &&
      ReadPhrases(s3[Hufftree.ReadTree(s3).value.2..]) == Some(t.phrases)
  {
    var p := HashIndex.ReadPrints(cells).value;
    var s1 := cells[1 + |p|..];
    assert ReadFromSymbols(s1).Some? && ReadTable(cells).value == ReadFromSymbols(s1).value.(fprints := p);
    FromSymbolsParts(s1);
  }

  /** The same for the parts after the fingerprints. */
  lemma FromSymbolsParts(s1: seq<Cell>)
    requires ReadFromSymbols(s1).Some?
    ensures var t := ReadFromSymbols(s1).value;
      ReadSymbols(s1).Some? && ReadSymbols(s1).value.0 == t.symbols &&
      var s2 := s1[ReadSymbols(s1).value.1..];
      Hufftree.ReadTree(s2).Some? && Hufftree.ReadTree(s2).value.0 == t.symNodes && Hufftree.ReadTree(s2).value.1 == t.symData &&
      var s3 := s2[Hufftree.ReadTree(s2).value.2..];
      Hufftree.ReadTree(s3).Some? && Hufftree.ReadTree(s3).value.0 == t.scoreNodes && Hufftree.ReadTree(s3).value.1 == t.scoreData &&
      ReadPhrases(s3[Hufftree.ReadTree(s3).value.2..]) == Some(t.phrases)
  {
    var s2 := s1[ReadSymbols(s1).value.1..];
    assert ReadFromTrees(s2).Some?;
    assert ReadFromSymbols(s1).value == ReadFromTrees(s2).value.(symbols := ReadSymbols(s1).value.0);
    FromTreesParts(s2);
  }

  /** The same for the parts after the symbol vector. */
  lemma FromTreesParts(s2: seq<Cell>)
    requires ReadFromTrees(s2).Some?
    ensures var t := ReadFromTrees(s2).value;
      Hufftree.ReadTree(s2).Some? && Hufftree.ReadTree(s2).value.0 == t.symNodes && Hufftree.ReadTree(s2).value.1 == t.symData &&
      var s3 := s2[Hufftree.ReadTree(s2).value.2..];
      Hufftree.ReadTree(s3).Some? && Hufftree.ReadTree(s3).value.0 == t.scoreNodes && Hufftree.ReadTree(s3).value.1 == t.scoreData &&
      ReadPhrases(s3[Hufftree.ReadTree(s3).value.2..]) == Some(t.phrases)
  {
    var t1 := Hufftree.ReadTree(s2).value;
    var t2 := Hufftree.ReadTree(s2[t1.2..]).value;
    assert s2[t1.2..][t2.2..] == s2[t1.2 + t2.2..];
  }

  /** The index after `m_hash.Create()` on the keys of `ls`, as values:
      the keys are those of the groups, the fingerprints are written from
      `f0`, every key's slot lies inside them, and, when `mph` keeps the
      keys apart, each key's slot holds its own fingerprint. */
  ghost predicate Built(ls: seq<Line>, mph: string -> nat, f0: seq<HashIndex.Fprint>, fprint: string -> HashIndex.Fprint,
                        keys: seq<string>, fprints: seq<HashIndex.Fprint>)
  {
    && keys == KeysOf(ls)
    && HashIndex.Written(f0, mph, fprint, keys, fprints)
    && (forall i | 0 <= i < |keys| :: mph(keys[i]) < |fprints|)
    && (HashIndex.Injective(mph, keys) ==> HashIndex.OwnSlots(mph, fprint, keys, fprints))
  }

  class PhraseDictionary {
    /** `m_targetSymbols` and `m_targetSymbolsMap`. */
    const table: SymbolTable
    /** `m_hash`. */
    const hash: HashIndex.HashIndex
    /** `m_numScoreComponent`. */
    const numScore: nat
    var symbolCount: map<int, nat>
    var scoreCount: map<int, nat>
    var alignCount: map<int, nat>
    var treeSymbols: Hufftree.Hufftree?
    var treeScores: Hufftree.Hufftree?
    var treeAlignments: Hufftree.Hufftree?
    /** `m_targetPhrases`: one compressed group per hash slot. */
    var targetPhrases: seq<seq<byte>>

    /** `PhraseDictionaryMemoryHashed(numScoreComponent, ...)`: empty
        vocabulary, empty index, no trees.  `fprint` is the fingerprint
        function of the index. */
    constructor (numScore: nat, fprint: string -> HashIndex.Fprint)
      ensures this.numScore == numScore
      ensures fresh(table) && table.Valid() && table.symbols == [] && table.ids == map[]
      ensures fresh(hash) && hash.keys == [] && hash.fprints == [] && hash.fprint == fprint
      ensures symbolCount == map[] && scoreCount == map[] && alignCount == map[]
      ensures treeSymbols == null && treeScores == null && treeAlignments == null && targetPhrases == []
    {
      this.numScore := numScore;
      table := new SymbolTable();
      hash := new HashIndex.HashIndex(fprint);
      symbolCount, scoreCount, alignCount := map[], map[], map[];
      treeSymbols, treeScores, treeAlignments := null, null, null;
      targetPhrases := [];
    }

    /** `PackTargetPhrase(targetPhrase, os)` on the tokens `words`: write
        the word count as one byte, then for each word the id
        `AddOrGetTargetSymbol` gives it, counting each id; then count the
        count byte too, so that `encodeWithLength` finds a code for it.
        Each id written names its word in the vocabulary. */
    method PackTargetPhrase(words: seq<string>) returns (items: seq<int>)
      requires table.Valid()
      modifies this, table
      ensures table.Valid() && Extends(old(table.ids), table.ids) && WordsKnown(table.ids, words)
      ensures items == PackedPhrase(table.ids, words)
      ensures forall k | 0 <= k < |words| :: table.Get(items[k + 1]) == words[k]
      ensures symbolCount == PC.Counted(old(symbolCount), IdsIn(table.ids, words) + [|words| % 256])
      ensures scoreCount == old(scoreCount) && alignCount == old(alignCount) && targetPhrases == old(targetPhrases)
      ensures treeSymbols == old(treeSymbols) && treeScores == old(treeScores) && treeAlignments == old(treeAlignments)
    {
      var c := |words| % 256;
      items := [c];
      ghost var ids0, count0 := table.ids, symbolCount;
      for k := 0 to |words|
        invariant table.Valid() && Extends(ids0, table.ids)
        invariant forall j | 0 <= j < k :: words[j] in table.ids
        invariant items == [c] + IdsIn(table.ids, words[..k])
        invariant symbolCount == PC.Counted(count0, IdsIn(table.ids, words[..k]))
        invariant scoreCount == old(scoreCount) && alignCount == old(alignCount) && targetPhrases == old(targetPhrases)
        invariant treeSymbols == old(treeSymbols) && treeScores == old(treeScores) && treeAlignments == old(treeAlignments)
      {
        ghost var ids := table.ids;
        var idx := table.AddOrGet(words[k]);
        WordStep(ids, table.ids, words, k, c, count0);
        items := items + [idx];
        symbolCount := PC.Bump(symbolCount, idx);
      }
      assert words[..|words|] == words;
      PC.CountedSnoc(count0, IdsIn(table.ids, words), c);
      symbolCount := PC.Bump(symbolCount, c);
      Spelled(table, words, items);
    }

    /** `PackScores(scores, os)` on the scores already parsed and
        transformed: write each score and count it. */
    method PackScores(scores: seq<int>) returns (items: seq<int>)
      modifies this
      ensures items == scores
      ensures scoreCount == PC.Counted(old(scoreCount), scores)
      ensures symbolCount == old(symbolCount) && alignCount == old(alignCount) && targetPhrases == old(targetPhrases)
      ensures treeSymbols == old(treeSymbols) && treeScores == old(treeScores) && treeAlignments == old(treeAlignments)
    {
      items := [];
      ghost var count0 := scoreCount;
      for k := 0 to |scores|
        invariant items == scores[..k]
        invariant scoreCount == PC.Counted(count0, scores[..k])
        invariant symbolCount == old(symbolCount) && alignCount == old(alignCount) && targetPhrases == old(targetPhrases)
        invariant treeSymbols == old(treeSymbols) && treeScores == old(treeScores) && treeAlignments == old(treeAlignments)
      {
        CountStep(count0, scores, k);
        items := items + [scores[k]];
        scoreCount := PC.Bump(scoreCount, scores[k]);
      }
      assert scores[..|scores|] == scores;
    }

    /** `PackAlignment(alignment, os)` on the tokenised positions: write
        their number as one byte, then each position cast to one byte,
        counting each byte written and then the count byte. */
    method PackAlignment(positions: seq<nat>) returns (items: seq<int>)
      modifies this
      ensures items == PackedAlignment(positions)
      ensures alignCount == PC.Counted(old(alignCount), items[1..] + [items[0]])
      ensures symbolCount == old(symbolCount) && scoreCount == old(scoreCount) && targetPhrases == old(targetPhrases)
      ensures treeSymbols == old(treeSymbols) && treeScores == old(treeScores) && treeAlignments == old(treeAlignments)
    {
      var c := |positions| % 256;
      items := [c];
      ghost var bytes := PackedAlignment(positions)[1..];
      ghost var count0 := alignCount;
      for k := 0 to |positions|
        invariant items == [c] + bytes[..k]
        invariant alignCount == PC.Counted(count0, bytes[..k])
        invariant symbolCount == old(symbolCount) && scoreCount == old(scoreCount) && targetPhrases == old(targetPhrases)
        invariant treeSymbols == old(treeSymbols) && treeScores == old(treeScores) && treeAlignments == old(treeAlignments)
      {
        var position := positions[k] % 256;
        CountStep(count0, bytes, k);
        items := items + [position];
        alignCount := PC.Bump(alignCount, position);
      }
      assert bytes[..|positions|] == bytes;
      PC.CountedSnoc(count0, bytes, c);
      alignCount := PC.Bump(alignCount, c);
    }

    /** The two calls of the `LoadText` loop for one line:
        `PackTargetPhrase` then `PackScores`. */
    method PackLine(l: Line) returns (items: seq<int>)
      requires table.Valid()
      modifies this, table
      ensures table.Valid() && Extends(old(table.ids), table.ids) && WordsKnown(table.ids, l.words)
      ensures items == PackedLine(table.ids, l)
      ensures symbolCount == PC.Counted(old(symbolCount), LineSymbols(table.ids, l))
      ensures scoreCount == PC.Counted(old(scoreCount), l.scores)
      ensures alignCount == old(alignCount) && targetPhrases == old(targetPhrases)
      ensures treeSymbols == old(treeSymbols) && treeScores == old(treeScores) && treeAlignments == old(treeAlignments)
    {
      var p := PackTargetPhrase(l.words);
      var q := PackScores(l.scores);
      items := p + q;
    }

    /** One line with a non-blank source in the reading loop of `LoadText`:
        when its source differs from a non-empty previous one, the trimmed
        previous source becomes a key and its stream is closed; then the
        line is packed onto the open stream.  `ls` are the kept lines read
        before it. */
    method AddLine(l: Line, ghost ls: seq<Line>, ghost ids0: map<string, nat>, ghost sym0: map<int, nat>, ghost score0: map<int, nat>,
                   prev: string, groups: seq<seq<int>>, stream: seq<int>)
      returns (groups': seq<seq<int>>, stream': seq<int>)
      requires !Blank(l.source) && table.Valid()
      requires ReadState(ls, ids0, sym0, score0, table.ids, symbolCount, scoreCount, prev, groups, stream, hash.keys)
      modifies this, table, hash
      ensures table.Valid()
      ensures ReadState(ls + [l], ids0, sym0, score0, table.ids, symbolCount, scoreCount, l.source, groups', stream', hash.keys)
      ensures hash.fprints == old(hash.fprints) && hash.hash == old(hash.hash)
      ensures alignCount == old(alignCount) && targetPhrases == old(targetPhrases)
      ensures treeSymbols == old(treeSymbols) && treeScores == old(treeScores) && treeAlignments == old(treeAlignments)
    {
      ghost var ids, keys, sc, scc := table.ids, hash.keys, symbolCount, scoreCount;
      var push := l.source != prev && prev != "";
      groups', stream' := groups, stream;
      if push {
        hash.AddKey(Trim(prev));
        groups' := groups' + [stream'];
        stream' := [];
      }
      var items := PackLine(l);
      stream' := stream' + items;
      ReadAdvance(ls, ids0, sym0, score0, ids, sc, scc, prev, groups, stream, keys,
                  l, table.ids, symbolCount, scoreCount, groups', stream', hash.keys);
    }

    /** The reading loop of `LoadText` over the split lines: check the
        number of fields, skip lines with a blank source, and whenever the
        source changes add the trimmed previous source as a key and close
        its packed stream; after the loop add the last key and stream.  On
        success the keys are the keys of the groups of kept lines, the
        streams their packed lines, and the counters have counted every
        id, count byte and score packed. */
    method ReadLines(lines: seq<Line>) returns (failure: Option<Failure>, groups: seq<seq<int>>)
      requires table.Valid() && hash.keys == []
      modifies this, table, hash
      ensures failure == Schema(lines)
      ensures failure == None ==> ReadIn(lines, old(table.ids), old(symbolCount), old(scoreCount), symbolCount, scoreCount)
      ensures failure == None ==> hash.keys == KeysOf(Kept(lines)) && groups == GroupsOf(table.ids, Kept(lines))
      ensures hash.fprints == old(hash.fprints) && hash.hash == old(hash.hash)
      ensures alignCount == old(alignCount) && targetPhrases == old(targetPhrases)
      ensures treeSymbols == old(treeSymbols) && treeScores == old(treeScores) && treeAlignments == old(treeAlignments)
    {
      var numElement: Option<nat> := None;
      var prev: string := "";
      var stream: seq<int> := [];
      groups := [];
      ghost var ids0, sym0, score0 := table.ids, symbolCount, scoreCount;
      ghost var ls: seq<Line> := [];
      ReadStart(ids0, sym0, score0);
      for k := 0 to |lines|
        invariant Schema(lines[..k]) == None && ls == Kept(lines[..k])
        invariant numElement == if k == 0 then None else Some(lines[0].fields)
        invariant table.Valid()
        invariant ReadState(ls, ids0, sym0, score0, table.ids, symbolCount, scoreCount, prev, groups, stream, hash.keys)
        invariant hash.fprints == old(hash.fprints) && hash.hash == old(hash.hash)
        invariant alignCount == old(alignCount) && targetPhrases == old(targetPhrases)
        invariant treeSymbols == old(treeSymbols) && treeScores == old(treeScores) && treeAlignments == old(treeAlignments)
      {
        var l := lines[k];
        SchemaStep(lines, k);
        if numElement == None {
          numElement := Some(l.fields);
          if l.fields < 3 {
            SchemaPrefix(lines, k + 1);
            return Some(FieldCount), groups;
          }
        }
        if l.fields != numElement.value {
          SchemaPrefix(lines, k + 1);
          return Some(SyntaxError(k + 1)), groups;
        }
        KeptStep(lines, k);
        if Blank(l.source) {
          continue;
        }
        groups, stream := AddLine(l, ls, ids0, sym0, score0, prev, groups, stream);
        prev := l.source;
        ls := ls + [l];
      }
      assert lines[..|lines|] == lines;
      ReadDone(ls, ids0, sym0, score0, table.ids, symbolCount, scoreCount, prev, groups, stream, hash.keys);
      hash.AddKey(Trim(prev));
      groups := groups + [stream];
      failure := None;
    }

    /** The body of the compression loop of `LoadText` for one packed
        group: while a phrase and then its scores can be read off the
        group, append `encodeWithLength` of the ids with the symbol tree and
        `encode` of the scores with the score tree. */
    method CompressGroup(packed: seq<int>) returns (bytes: seq<byte>)
      requires treeSymbols != null && treeScores != null
      requires treeSymbols.forEncoding && treeScores.forEncoding
      ensures bytes == CompressedRecords(treeSymbols.encoding, treeScores.encoding, Records(packed, numScore))
    {
      var s := packed;
      var done := false;
      bytes := [];
      while !done
        invariant bytes + (if done then [] else CompressedRecords(treeSymbols.encoding, treeScores.encoding, Records(s, numScore)))
          == CompressedRecords(treeSymbols.encoding, treeScores.encoding, Records(packed, numScore))
        decreases |s| + (if done then 0 else 1)
      {
        var phrase := ReadCounted(s);
        var scores := if phrase.None? then None else UnpackScores(s[phrase.value.1..], numScore);
        if scores.None? {
          assert bytes + [] == bytes;
          done := true;
        } else {
          var ids, k := phrase.value.0, phrase.value.1;
          var a := treeSymbols.EncodeWithLength(ids);
          var b := treeScores.Encode(scores.value);
          CompressStep(treeSymbols.encoding, treeScores.encoding, s, numScore, ids, k, scores.value);
          Assoc(bytes, a + b, CompressedRecords(treeSymbols.encoding, treeScores.encoding, Records(s[k + numScore..], numScore)));
          bytes := bytes + (a + b);
          s := s[k + numScore..];
        }
      }
    }

    /** The slot remap of `LoadText`: a vector of `GetSize()` zeros, then
        for each index below `GetSize()` whose `GetHashByIndex` is a slot,
        that slot maps to the index. */
    method Remap() returns (m: seq<int>)
      requires forall i | 0 <= i < |hash.keys| :: hash.hash(hash.keys[i]) < |hash.fprints|
      ensures m == RemapOf(hash.hash, hash.fprint, hash.keys, hash.fprints)
    {
      var size := hash.GetSize();
      m := seq(size, _ => 0);
      for i := 0 to size
        invariant m == Remapped(Slots(hash.hash, hash.fprint, hash.keys, hash.fprints, i), size)
      {
        var j := hash.GetHashByIndex(i);
        assert j == SlotAt(hash.hash, hash.fprint, hash.keys, hash.fprints, i);
        ghost var slots := Slots(hash.hash, hash.fprint, hash.keys, hash.fprints, i);
        assert (slots + [j])[..i] == slots;
        if j != size {
          m := m[j := i];
        }
      }
    }

    /** The compression loop of `LoadText`: for each slot in turn, compress
        the group the remap puts there and append it to the phrases; then
        the `ClearKeys()` that follows the loop, whose body is empty. */
    method CompressGroups(groups: seq<seq<int>>, m: seq<int>) returns (phrases: seq<seq<byte>>)
      requires treeSymbols != null && treeScores != null
      requires treeSymbols.forEncoding && treeScores.forEncoding
      requires forall j | 0 <= j < |m| :: 0 <= m[j] < |groups|
      ensures phrases == Stored(treeSymbols.encoding, treeScores.encoding, numScore, groups, m)
    {
      ghost var e1, e2 := treeSymbols.encoding, treeScores.encoding;
      phrases := [];
      for j := 0 to |m|
        invariant phrases == Stored(e1, e2, numScore, groups, m[..j])
        modifies {}
      {
        var bytes := CompressGroup(groups[m[j]]);
        StoredSnoc(e1, e2, numScore, groups, m, j);
        phrases := phrases + [bytes];
      }
      assert m[..|m|] == m;
      hash.ClearKeys();
    }

    /** The state after `LoadText` has read the kept lines `ls`, with what
        every group needs to be found again: both trees built for encoding
        from counters that cover the packed symbols and scores, the keys of
        the groups different and kept apart by the perfect hash, and each
        slot holding the compressed group the remap puts there. */
    ghost predicate Findable(ls: seq<Line>)
      reads this, table, hash, treeSymbols, treeScores
    {
      && treeSymbols != null && treeScores != null
      && treeSymbols.forEncoding && treeSymbols.Valid() && treeScores.forEncoding && treeScores.Valid()
      && table.Valid() && Known(table.ids, ls) && numScore >= 1
      && (forall l | l in ls :: Fits(l, numScore) && l.words != [])
      && (forall x | x in PhraseGroups.SymbolsOf(table.ids, ls) :: x in treeSymbols.encoding)
      && (forall x | x in PhraseGroups.ScoresOf(ls) :: x in treeScores.encoding)
      && hash.keys == KeysOf(ls) && Distinct(hash.keys) && HashIndex.Injective(hash.hash, hash.keys)
      && HashIndex.OwnSlots(hash.hash, hash.fprint, hash.keys, hash.fprints)
      && targetPhrases == Stored(treeSymbols.encoding, treeScores.encoding, numScore, GroupsOf(table.ids, ls),
                                 RemapOf(hash.hash, hash.fprint, hash.keys, hash.fprints))
    }

    /** What `CreateTargetPhraseCollection(source)` finds, as records of
        ids and scores: nothing when the index answers `GetSize()`, else
        the records decoded from the compressed group at the slot. */
    ghost function Collection(source: string): Option<Result<seq<PC.Target>>>
      reads this, hash
      requires treeSymbols != null && treeScores != null && hash.hash(source) < |hash.fprints|
    {
      var index := hash.GetHash(source);
      if index == hash.GetSize() then None
      else if index >= |targetPhrases| then Some(Err("m_targetPhrases index out of range"))
      else Some(Decompressed(Stepper(treeSymbols.nodes, treeSymbols.data), Stepper(treeScores.nodes, treeScores.data),
                             numScore, targetPhrases[index]))
    }

    /** Looking up the key of every group gives back the group's lines:
        their words and their scores, in the order they were read. */
    lemma FoundAll(ls: seq<Line>)
      requires Findable(ls)
      ensures FoundAgain(ls)
    {
      forall i | 0 <= i < |Runs(ls)|
        ensures hash.hash(KeysOf(ls)[i]) < hash.GetSize()
        ensures Collection(KeysOf(ls)[i]) == Some(Ok(TargetsOf(table.ids, Runs(ls)[i])))
        ensures SpellAll(table, Collection(KeysOf(ls)[i])) == Some(Ok(EntriesOf(Runs(ls)[i])))
      {
        FoundOne(ls, i);
        RunsIn(ls);
        assert Known(table.ids, Runs(ls)[i]);
        SpelledRun(table, Runs(ls)[i]);
      }
    }

    /** The key of the `i`-th group. */
    lemma FoundOne(ls: seq<Line>, i: nat)
      requires Findable(ls) && i < |Runs(ls)|
      ensures hash.hash(KeysOf(ls)[i]) < hash.GetSize()
      ensures Collection(KeysOf(ls)[i]) == Some(Ok(TargetsOf(table.ids, Runs(ls)[i])))
    {
      var rs := Runs(ls);
      var size := hash.GetSize();
      var m := RemapOf(hash.hash, hash.fprint, hash.keys, hash.fprints);
      var groups := GroupsOf(table.ids, ls);
      var e1, e2 := treeSymbols.encoding, treeScores.encoding;
      SlotOfKey(hash.hash, hash.fprint, hash.keys, hash.fprints, i);
      var idx := hash.hash(hash.keys[i]);
      StoredAt(e1, e2, numScore, groups, m, idx);
      GroupDecodes(Stepper(treeSymbols.nodes, treeSymbols.data), Stepper(treeScores.nodes, treeScores.data),
                   e1, e2, table.ids, ls, numScore, i);
    }

    /** After the lines are read: the vocabulary knows every word of the
        kept lines and keeps the ids it had in `ids0`, and the counters
        `syms` and `scores`, which started at `sym0` and `score0`, have
        counted every symbol and every score packed. */
    ghost predicate ReadIn(lines: seq<Line>, ids0: map<string, nat>, sym0: map<int, nat>, score0: map<int, nat>,
                           syms: map<int, nat>, scores: map<int, nat>)
      reads table
    {
      && table.Valid() && Extends(ids0, table.ids) && Known(table.ids, Kept(lines))
      && syms == PC.Counted(sym0, PhraseGroups.SymbolsOf(table.ids, Kept(lines)))
      && scores == PC.Counted(score0, PhraseGroups.ScoresOf(Kept(lines)))
    }

    /** Both trees are built for encoding, the symbol tree with a code for
        every counted symbol, the score tree for every counted score. */
    ghost predicate TreesBuilt()
      reads this`treeSymbols, this`treeScores, this`symbolCount, this`scoreCount, treeSymbols, treeScores
    {
      && treeSymbols != null && treeSymbols.forEncoding && treeSymbols.Valid() && treeSymbols.encoding.Keys == symbolCount.Keys
      && treeScores != null && treeScores.forEncoding && treeScores.Valid() && treeScores.encoding.Keys == scoreCount.Keys
    }

    /** The trees are built from the counters: the symbol tree is the
        Huffman tree of `symbolCount`, the score tree that of
        `scoreCount`. */
    ghost predicate TreesOfCounts()
      reads this`treeSymbols, this`treeScores, this`symbolCount, this`scoreCount, treeSymbols, treeScores
    {
      && treeSymbols != null && treeSymbols.EncodesCount(symbolCount)
      && treeScores != null && treeScores.EncodesCount(scoreCount)
    }

    /** The index holds the keys of the groups of `ls`, with the perfect
        hash `mph` and the fingerprints written over `f0`; a hash injective
        on the keys finds each key at its own slot; and each slot holds the
        compressed group the remap puts there. */
    ghost predicate Indexed(ls: seq<Line>, mph: string -> nat, f0: seq<HashIndex.Fprint>)
      reads this, table, hash, treeSymbols, treeScores
    {
      && treeSymbols != null && treeScores != null
      && HashBuilt(ls, mph, f0)
      && targetPhrases == Stored(treeSymbols.encoding, treeScores.encoding, numScore, GroupsOf(table.ids, ls),
                                 RemapOf(hash.hash, hash.fprint, hash.keys, hash.fprints))
    }

    /** The index after `m_hash.Create()` on the keys of `ls`: the perfect
        hash is `mph`, the fingerprints are written from `f0`, and, when
        `mph` keeps the keys apart, each key is found at its own slot. */
    ghost predicate HashBuilt(ls: seq<Line>, mph: string -> nat, f0: seq<HashIndex.Fprint>)
      reads hash
    {
      hash.hash == mph && Built(ls, mph, f0, hash.fprint, hash.keys, hash.fprints)
    }

    /** Looking up the key of every group of `ls` gives back the group's
        lines, their words and their scores, in the order they were read. */
    ghost predicate FoundAgain(ls: seq<Line>)
      reads this, table, hash
    {
      && treeSymbols != null && treeScores != null
      && forall i | 0 <= i < |Runs(ls)| ::
        && hash.hash(KeysOf(ls)[i]) < hash.GetSize()
        && Collection(KeysOf(ls)[i]) == Some(Ok(TargetsOf(table.ids, Runs(ls)[i])))
        && SpellAll(table, Collection(KeysOf(ls)[i])) == Some(Ok(EntriesOf(Runs(ls)[i])))
    }

    /** What `LoadText` leaves, with the lines and the hash `Loadable`, is
        a state in which every group can be found again. */
    lemma FindableFrom(lines: seq<Line>, mph: string -> nat, f0: seq<HashIndex.Fprint>,
                       ids0: map<string, nat>, sym0: map<int, nat>, score0: map<int, nat>)
      requires ReadIn(lines, ids0, sym0, score0, symbolCount, scoreCount) && TreesBuilt() && Indexed(Kept(lines), mph, f0)
      requires Loadable(lines, mph, numScore)
      ensures Findable(Kept(lines))
    {
      var ls := Kept(lines);
      PC.CountedKeys(sym0, PhraseGroups.SymbolsOf(table.ids, ls));
      PC.CountedKeys(score0, PhraseGroups.ScoresOf(ls));
    }

    /** The calls `new Hufftree(symbolCount...)` and
        `new Hufftree(scoreCount...)` of `LoadText`. */
    method BuildTrees()
      requires symbolCount != map[] && scoreCount != map[]
      modifies this`treeSymbols, this`treeScores
      ensures TreesBuilt() && TreesOfCounts() && fresh(treeSymbols) && fresh(treeScores)
    {
      treeSymbols := PC.EncodingTree(symbolCount);
      treeScores := PC.EncodingTree(scoreCount);
    }

    /** The index and the stored groups together. */
    lemma IndexedBy(ls: seq<Line>, mph: string -> nat, f0: seq<HashIndex.Fprint>, groups: seq<seq<int>>, m: seq<int>)
      requires treeSymbols != null && treeScores != null && HashBuilt(ls, mph, f0)
      requires groups == GroupsOf(table.ids, ls) && m == RemapOf(hash.hash, hash.fprint, hash.keys, hash.fprints)
      requires targetPhrases == Stored(treeSymbols.encoding, treeScores.encoding, numScore, groups, m)
      ensures Indexed(ls, mph, f0)
    {
    }

    /** `m_hash.Create()` followed by the slot remap of `LoadText`: for
        each slot, the position of the key that hashes there. */
    method CreateIndex(mph: string -> nat, ghost ls: seq<Line>) returns (m: seq<int>)
      requires hash.keys == KeysOf(ls)
      modifies hash
      ensures HashBuilt(ls, mph, old(hash.fprints))
      ensures m == RemapOf(hash.hash, hash.fprint, hash.keys, hash.fprints)
      ensures forall j | 0 <= j < |m| :: 0 <= m[j] < |hash.keys|
    {
      hash.Create(mph);
      m := Remap();
      RemapRange(hash.hash, hash.fprint, hash.keys, hash.fprints);
    }

    /** The part of `LoadText` after the trees: `m_hash.Create()`, the slot
        remap, the compression of each slot's group into `m_targetPhrases`,
        `ClearKeys()`; the trees stay as they were built. */
    method IndexGroups(groups: seq<seq<int>>, mph: string -> nat, ghost ls: seq<Line>) returns (m: seq<int>)
      requires TreesBuilt() && TreesOfCounts() && targetPhrases == []
      requires hash.keys == KeysOf(ls) && groups == GroupsOf(table.ids, ls)
      modifies this`targetPhrases, hash
      ensures TreesBuilt() && TreesOfCounts()
      ensures HashBuilt(ls, mph, old(hash.fprints))
      ensures m == RemapOf(hash.hash, hash.fprint, hash.keys, hash.fprints)
      ensures targetPhrases == Stored(treeSymbols.encoding, treeScores.encoding, numScore, groups, m)
    {
      m := CreateIndex(mph, ls);
      targetPhrases := CompressGroups(groups, m);
    }

    /** The part of `LoadText` after the trees are built: the index and
        the compressed groups. */
    method BuildIndex(groups: seq<seq<int>>, mph: string -> nat, ghost lines: seq<Line>)
      requires TreesBuilt() && TreesOfCounts() && targetPhrases == []
      requires hash.keys == KeysOf(Kept(lines)) && groups == GroupsOf(table.ids, Kept(lines))
      modifies this`targetPhrases, hash
      ensures TreesBuilt() && TreesOfCounts()
      ensures Indexed(Kept(lines), mph, old(hash.fprints))
    {
      var m := IndexGroups(groups, mph, Kept(lines));
      IndexedBy(Kept(lines), mph, old(hash.fprints), groups, m);
    }

    /** `LoadText(...)` on the split lines, with `mph` the perfect hash that
        `Create` builds on the keys: read and pack the lines, build the
        symbol tree and the score tree from the counters, build the index,
        remap the slots, and compress each slot's group.  A line with the
        wrong number of fields stops the load; so does an empty counter,
        from which no tree can be built.  When the keys of the groups are
        different and the perfect hash keeps them apart, looking up the
        key of any group gives back that group's lines. */
    method LoadText(lines: seq<Line>, mph: string -> nat) returns (failure: Option<Failure>)
      requires table.Valid() && hash.keys == [] && targetPhrases == []
      modifies this, table, hash
      ensures Schema(lines).Some? ==> failure == Schema(lines)
      ensures Schema(lines) == None ==> ReadIn(lines, old(table.ids), old(symbolCount), old(scoreCount), symbolCount, scoreCount)
      ensures Schema(lines) == None ==>
        && (failure == None <==> symbolCount != map[] && scoreCount != map[])
        && (failure == None || failure == Some(NoCounts))
      ensures failure == None ==> TreesBuilt() && TreesOfCounts() && fresh(treeSymbols) && fresh(treeScores)
      ensures failure == None ==> Indexed(Kept(lines), mph, old(hash.fprints))
      ensures failure == None && Loadable(lines, mph, numScore) ==> FoundAgain(Kept(lines))
    {
      var groups;
      failure, groups := ReadLines(lines);
      if failure != None {
        return;
      }
      if symbolCount == map[] || scoreCount == map[] {
        return Some(NoCounts);
      }
      BuildTrees();
      BuildIndex(groups, mph, lines);
      if Loadable(lines, mph, numScore) {
        FindableFrom(lines, mph, old(hash.fprints), old(table.ids), old(symbolCount), old(scoreCount));
        FoundAll(Kept(lines));
      }
    }

    /** `CreateTargetPhraseCollection(sourcePhrase)` on the source phrase's
        string: look it up in the index; when found, decode records from the
        compressed group at its slot, `DecompressTargetPhrase` with the
        symbol tree then `DecompressScores` with the score tree, for as long
        as both leave the stream good, spelling each id with
        `GetTargetSymbol`.  Its result is `Collection(source)` spelled. */
    method CreateTargetPhraseCollection(source: string) returns (r: Option<Result<seq<PC.Entry>>>)
      requires treeSymbols != null && treeScores != null && hash.hash(source) < |hash.fprints|
      ensures r == SpellAll(table, Collection(source))
    {
      var index := hash.GetHash(source);
      if index == hash.GetSize() {
        return None;
      }
      if index >= |targetPhrases| {
        return Some(Err("m_targetPhrases index out of range"));
      }
      ghost var sym, score := Stepper(treeSymbols.nodes, treeSymbols.data), Stepper(treeScores.nodes, treeScores.data);
      var bytes := targetPhrases[index];
      var entries: seq<PC.Entry> := [];
      ghost var found: seq<PC.Target> := [];
      AfterNothing(Decompressed(sym, score, numScore, bytes));
      while true
        invariant Decompressed(sym, score, numScore, targetPhrases[index]) == After(found, Decompressed(sym, score, numScore, bytes))
        invariant entries == Spelling(table, found)
        decreases |bytes|
      {
        var d1 := treeSymbols.DecodeWithLength(bytes);
        DecompressedStops(sym, score, numScore, bytes);
        if d1.Err? {
          return Some(Err(d1.msg));
        }
        if d1.value.exhausted {
          assert found + [] == found;
          return Some(Ok(entries));
        }
        DecodeWithLengthTakes(sym, 0, bytes);
        var rest := bytes[d1.value.consumed..];
        var d2 := treeScores.Decode(numScore, rest);
        DecompressedStopsLater(sym, score, numScore, bytes, d1.value);
        if d2.Err? {
          return Some(Err(d2.msg));
        }
        if d2.value.exhausted {
          assert found + [] == found;
          return Some(Ok(entries));
        }
        DecodeTakes(score, 0, numScore, rest);
        var t := PC.Target(d1.value.values, d2.value.values);
        DecompressedNext(sym, score, numScore, bytes, d1.value, d2.value);
        AfterSnoc(found, t, Decompressed(sym, score, numScore, rest[d2.value.consumed..]));
        SpellingSnoc(table, found, t);
        entries := entries + [PC.Entry(Words(table, t.words), t.scores)];
        found := found + [t];
        bytes := rest[d2.value.consumed..];
      }
    }

    /** `UnpackAlignment(is, targetPhrase)` on the items of a packed
        alignment: read the vector as `UnpackAlignment(is, alignment)` does
        and pair its positions.  `good` is whether the stream held the
        count and all the positions it announces. */
    method UnpackAlignment(s: seq<int>) returns (pairs: set<(int, int)>, good: bool)
      ensures good == ReadCounted(s).Some?
      ensures pairs == Pairs(AlignmentBytes(s))
      ensures good ==> pairs == Pairs(ReadCounted(s).value.0)
    {
      var alignment := AlignmentBytes(s);
      good := ReadCounted(s).Some?;
      pairs := PairUp(alignment);
    }

    /** `DecompressAlignment(is, targetPhrase)` as written: it decodes the
        positions with `m_treeScores`, the score tree. */
    method DecompressAlignment(bytes: seq<byte>) returns (r: Result<set<(int, int)>>)
      requires treeScores != null
      ensures r == AlignmentOf(Stepper(treeScores.nodes, treeScores.data), bytes)
    {
      var d := treeScores.DecodeWithLength(bytes);
      if d.Err? {
        return Err(d.msg);
      }
      var pairs := PairUp(d.value.values);
      r := Ok(pairs);
    }

    /** `DecompressAlignment` with the tree the alignments are encoded
        with, `m_treeAlignments`: what `AlignmentDecodes` shows gives the
        points back. */
    method DecompressAlignmentFixed(bytes: seq<byte>) returns (r: Result<set<(int, int)>>)
      requires treeAlignments != null
      ensures r == AlignmentOf(Stepper(treeAlignments.nodes, treeAlignments.data), bytes)
    {
      var d := treeAlignments.DecodeWithLength(bytes);
      if d.Err? {
        return Err(d.msg);
      }
      var pairs := PairUp(d.value.values);
      r := Ok(pairs);
    }

    /** The parts of the dictionary that `SaveBinary` writes. */
    ghost function Snapshot(): (r: Saved)
      reads this, hash, table, treeSymbols, treeScores
      requires treeSymbols != null && treeScores != null
      ensures r.fprints == hash.fprints && r.symbols == table.symbols && r.phrases == targetPhrases
      ensures r.symNodes == treeSymbols.nodes && r.symData == treeSymbols.data
      ensures r.scoreNodes == treeScores.nodes && r.scoreData == treeScores.data
    {
      Saved(hash.fprints, table.symbols, treeSymbols.nodes, treeSymbols.data, treeScores.nodes, treeScores.data,
            targetPhrases)
    }

    /** `SaveBinary(filePath)`: the index, the symbol vector, the symbol
        tree, the score tree and the compressed groups, one after the
        other; reading them back gives each part as it was. */
    method SaveBinary() returns (cells: seq<Cell>)
      requires treeSymbols != null && treeScores != null
      ensures cells == SavedTable(Snapshot())
      ensures ReadTable(cells) == Some(Snapshot())
    {
      var a := hash.Save();
      var b := table.Save();
      var c := treeSymbols.Save();
      var d := treeScores.Save();
      cells := a + b + c + d + SavedPhrases(targetPhrases);
      ReadSavedTable(Snapshot());
    }

    /** The assignments at the end of `LoadBinary`, once every part has
        been read: each member takes the part read for it. */
    method Install(cells: seq<Cell>, mph: string -> nat, s1: seq<Cell>, s2: seq<Cell>, s3: seq<Cell>,
                   phrases: seq<seq<byte>>)
      requires HashIndex.ReadPrints(cells).Some? && ReadSymbols(s1).Some?
      requires Hufftree.ReadTree(s2).Some? && Hufftree.ReadTree(s3).Some?
      modifies this`treeSymbols, this`treeScores, this`targetPhrases, hash, table
      ensures hash.fprints == HashIndex.ReadPrints(cells).value && hash.hash == mph && hash.keys == old(hash.keys)
      ensures table.symbols == ReadSymbols(s1).value.0 && table.ids == old(table.ids)
      ensures treeSymbols != null && fresh(treeSymbols) && !treeSymbols.forEncoding
      ensures treeSymbols.nodes == Hufftree.ReadTree(s2).value.0 && treeSymbols.data == Hufftree.ReadTree(s2).value.1
      ensures treeScores != null && fresh(treeScores) && !treeScores.forEncoding
      ensures treeScores.nodes == Hufftree.ReadTree(s3).value.0 && treeScores.data == Hufftree.ReadTree(s3).value.1
      ensures targetPhrases == phrases
    {
      hash.Load(mph, cells);
      table.Load(s1);
      treeSymbols := new Hufftree.Hufftree.Load(s2, false);
      treeScores := new Hufftree.Hufftree.Load(s3, false);
      targetPhrases := phrases;
    }

    /** `LoadBinary(filePath)` on the stream after the perfect hash's own
        dump, with `mph` the perfect hash that dump holds: the index, the
        symbol vector, the two trees (built for decoding only) and the
        compressed groups, in the order `SaveBinary` writes them.  A stream
        that does not hold all five parts is refused and nothing changes. */
    method LoadBinary(cells: seq<Cell>, mph: string -> nat) returns (ok: bool)
      modifies this`treeSymbols, this`treeScores, this`targetPhrases, hash, table
      ensures ok == ReadTable(cells).Some?
      ensures ok ==> treeSymbols != null && treeScores != null && fresh(treeSymbols) && fresh(treeScores)
      ensures ok ==> !treeSymbols.forEncoding && !treeScores.forEncoding && hash.hash == mph
      ensures ok ==> Snapshot() == ReadTable(cells).value
      ensures table.ids == old(table.ids) && hash.keys == old(hash.keys)
      ensures !ok ==> unchanged(this, hash, table)
    {
      var t := ReadTable(cells);
      if t.None? {
        return false;
      }
      ReadTableParts(cells);
      var s1 := cells[1 + |t.value.fprints|..];
      var s2 := s1[ReadSymbols(s1).value.1..];
      var s3 := s2[Hufftree.ReadTree(s2).value.2..];
      Install(cells, mph, s1, s2, s3, t.value.phrases);
      ok := true;
    }
  }
}

=== FILE: results.dfy ===
/** Values shared by all modules: the outcome of an operation that the C++
    code may leave undefined (an unchecked vector index, a null tree), and the
    items of the sequential binary streams the savers write and the loaders
    read. */
module Results {

  /** `Err` marks what the C++ code leaves undefined (it reads out of range,
      dereferences a null pointer or aborts); `msg` says which. */
  datatype Result<T> = Ok(value: T) | Err(msg: string)

  datatype Option<T> = None | Some(value: T)

  /** One item of a binary stream: a number written with fwrite/os.write, a
      length-prefixed string, or a byte string of packed codes. */
  datatype Cell = Num(n: int) | Text(s: string) | Blob(b: seq<int>)

  /** The numbers of `xs` as stream items. */
  function Nums(xs: seq<int>): (r: seq<Cell>)
    ensures |r| == |xs|
  {
    if xs == [] then [] else [Num(xs[0])] + Nums(xs[1..])
  }

  /** Reads `n` numbers from the front of `s`, or None when a non-number or the
      end of the stream comes first. */
  function ReadNums(s: seq<Cell>, n: nat): (r: Option<seq<int>>)
    ensures r.Some? ==> |r.value| == n && n <= |s|
  {
    if n == 0 then Some([])
    else if |s| == 0 || !s[0].Num? then None
    else
      match ReadNums(s[1..], n - 1)
      case None => None
      case Some(rest) => Some([s[0].n] + rest)
  }

  lemma {:induction false} ReadNumsOfNums(xs: seq<int>, tail: seq<Cell>)
    ensures ReadNums(Nums(xs) + tail, |xs|) == Some(xs)
  {
    if xs != [] {
      var rest := Nums(xs[1..]) + tail;
      var s := [Num(xs[0])] + rest;
      assert Nums(xs) + tail == s;
      assert s[1..] == rest;
      ReadNumsOfNums(xs[1..], tail);
      assert ReadNums(s, |xs|) == Some([xs[0]] + xs[1..]);
      assert [xs[0]] + xs[1..] == xs;
    }
  }

  lemma {:induction false} NumsAppend(a: seq<int>, b: seq<int>)
    ensures Nums(a + b) == Nums(a) + Nums(b)
  {
    if a != [] {
      assert (a + b)[1..] == a[1..] + b;
      NumsAppend(a[1..], b);
    } else {
      assert a + b == b;
    }
  }
}

=== FILE: symbols.dfy ===
/** The target-word vocabulary that PhraseCoder and
    PhraseDictionaryMemoryHashed both keep: the vector `m_targetSymbols` of
    strings, indexed by symbol id, and the map `m_targetSymbolsMap` from a
    string back to its id.  The two classes define `AddOrGetTargetSymbol`
    and `GetTargetSymbol` identically; they are modelled once here. */
module Symbols {
  import opened Results

  /** What `GetTargetSymbol` answers for an id it does not know. */
  const ErrorSymbol: string := "##ERROR##"

  /** The strings of `symbols` as stream items: how `StringVector::save`
      lays out the vector (its own file format is not part of this model). */
  function SavedSymbols(symbols: seq<string>): seq<Cell>
  {
    [Num(|symbols|)] + TextsOf(symbols)
  }

  function TextsOf(symbols: seq<string>): (r: seq<Cell>)
    ensures |r| == |symbols|
  {
    if symbols == [] then [] else [Text(symbols[0])] + TextsOf(symbols[1..])
  }

  /** Reads `n` strings from the front of `s`. */
  function ReadTexts(s: seq<Cell>, n: nat): (r: Option<seq<string>>)
    ensures r.Some? ==> |r.value| == n && n <= |s|
  {
    if n == 0 then Some([])
    else if |s| == 0 || !s[0].Text? then None
    else
      match ReadTexts(s[1..], n - 1)
      case None => None
      case Some(rest) => Some([s[0].s] + rest)
  }

  /** `StringVector::load`: the vector and the number of items it took. */
  function ReadSymbols(s: seq<Cell>): (r: Option<(seq<string>, nat)>)
    ensures r.Some? ==> r.value.1 <= |s|
  {
    if |s| == 0 || !s[0].Num? || s[0].n < 0 then None
    else
      match ReadTexts(s[1..], s[0].n)
      case None => None
      case Some(xs) => Some((xs, 1 + |xs|))
  }

  lemma {:induction false} ReadTextsOfTexts(xs: seq<string>, tail: seq<Cell>)
    ensures ReadTexts(TextsOf(xs) + tail, |xs|) == Some(xs)
  {
    if xs != [] {
      var rest := TextsOf(xs[1..]) + tail;
      var s := [Text(xs[0])] + rest;
      assert TextsOf(xs) + tail == s;
      assert s[1..] == rest;
      ReadTextsOfTexts(xs[1..], tail);
      assert ReadTexts(s, |xs|) == Some([xs[0]] + xs[1..]);
      assert [xs[0]] + xs[1..] == xs;
    }
  }

  /** Loading what was saved gives the same strings back and stops right
      after them. */
  lemma ReadSavedSymbols(symbols: seq<string>, rest: seq<Cell>)
    ensures ReadSymbols(SavedSymbols(symbols) + rest) == Some((symbols, |SavedSymbols(symbols)|))
  {
    var s := SavedSymbols(symbols) + rest;
    assert s[1..] == TextsOf(symbols) + rest;
    ReadTextsOfTexts(symbols, rest);
  }

  /** The ids of `words` in `ids`; every word must have one. */
  function IdsOf(ids: map<string, nat>, words: seq<string>): (r: seq<int>)
    requires forall k | 0 <= k < |words| :: words[k] in ids
    ensures |r| == |words|
    ensures forall k | 0 <= k < |words| :: r[k] == ids[words[k]]
  {
    seq(|words|, k requires 0 <= k < |words| => ids[words[k]])
  }

  /** `b` keeps every id of `a`. */
  ghost predicate Extends(a: map<string, nat>, b: map<string, nat>)
  {
    forall s | s in a :: s in b && b[s] == a[s]
  }

  /** A later map that keeps every id of an earlier one gives the same ids. */
  lemma IdsOfGrown(ids: map<string, nat>, ids': map<string, nat>, words: seq<string>)
    requires forall k | 0 <= k < |words| :: words[k] in ids
    requires Extends(ids, ids')
    ensures IdsOf(ids', words) == IdsOf(ids, words)
  {
  }

  class SymbolTable {
    var symbols: seq<string>
    var ids: map<string, nat>

    /** Every string the map knows sits in the vector at its own id.  (The
        converse need not hold: a loaded table has the vector and an empty
        map.)  It makes the map injective and the next id fresh. */
    ghost predicate Valid()
      reads this
    {
      forall s | s in ids :: ids[s] < |symbols| && symbols[ids[s]] == s
    }

    constructor ()
      ensures symbols == [] && ids == map[] && Valid()
    {
      symbols, ids := [], map[];
    }

    /** `AddOrGetTargetSymbol(symbol)`: the id the map has for `symbol`, or
        else the next free id, under which `symbol` is appended. */
    method AddOrGet(symbol: string) returns (id: nat)
      requires Valid()
      modifies this
      ensures Valid()
      ensures id < |symbols| && Get(id) == symbol
      ensures symbol in ids && ids[symbol] == id
      ensures symbol in old(ids) ==> id == old(ids)[symbol] && symbols == old(symbols) && ids == old(ids)
      ensures symbol !in old(ids) ==> id == |old(symbols)| && symbols == old(symbols) + [symbol] && ids == old(ids)[symbol := id]
    {
      if symbol in ids {
        id := ids[symbol];
      } else {
        id := |symbols|;
        ids := ids[symbol := id];
        symbols := symbols + [symbol];
      }
    }

    /** `m_targetSymbolsMap[symbol]`: std::map's `operator[]`, which first
        inserts the id 0 when `symbol` is missing. */
    method Lookup(symbol: string) returns (id: nat)
      modifies this
      ensures id == (if symbol in old(ids) then old(ids)[symbol] else 0)
      ensures ids == old(ids)[symbol := id] && symbols == old(symbols)
    {
      if symbol in ids {
        id := ids[symbol];
      } else {
        id := 0;
        ids := ids[symbol := 0];
      }
    }

    /** `GetTargetSymbol(idx)`: the string stored under `idx`, or
        "##ERROR##" past the end of the vector. */
    function Get(idx: int): (r: string)
      reads this
      ensures 0 <= idx < |symbols| ==> r == symbols[idx]
      ensures !(0 <= idx < |symbols|) ==> r == ErrorSymbol
    {
      if 0 <= idx < |symbols| then symbols[idx] else ErrorSymbol
    }

    /** `m_targetSymbols.save(out)`. */
    method Save() returns (cells: seq<Cell>)
      ensures cells == SavedSymbols(symbols)
      ensures ReadSymbols(cells) == Some((symbols, |cells|))
    {
      cells := [Num(|symbols|)] + TextsOf(symbols);
      ReadSavedSymbols(symbols, []);
      assert cells + [] == cells;
    }

    /** `m_targetSymbols.load(in)`: the vector is replaced, the map is left
        as it was. */
    method Load(cells: seq<Cell>)
      requires ReadSymbols(cells).Some?
      modifies this
      ensures symbols == ReadSymbols(cells).value.0 && ids == old(ids)
    {
      symbols := ReadSymbols(cells).value.0;
    }
  }
}

=== FILE: uint8n.dfy ===
/** `uint8n<n>` of moses/src/uint8n.h: an unsigned integer of `n` bytes
    kept big-endian in a fixed array, converted from and to a signed 64-bit
    `long` and read from and written to a byte stream.  The aliases
    `uint8`, `uint16`, `uint24` and `uint32` are this class at `n` = 1, 2, 3
    and 4. */
module Uint8n {
  import opened Results
  import opened Bits

  /** A signed 64-bit `long`. */
  type Long = x: int | -0x8000_0000_0000_0000 <= x < 0x8000_0000_0000_0000

  function Pow256(n: nat): (r: nat)
    ensures r >= 1
  {
    if n == 0 then 1 else 256 * Pow256(n - 1)
  }

  /** The low `n` bytes of `a` in two's complement, most significant first:
      the last byte is `a` truncated to `unsigned char`, the ones before it
      are those of `a >> 8` (an arithmetic shift, which rounds down). */
  function ToBytes(a: int, n: nat): (r: seq<byte>)
    ensures |r| == n
    decreases n
  {
    if n == 0 then [] else ToBytes(a / 256, n - 1) + [a % 256]
  }

  /** The value of bytes read most significant first. */
  function FromBytes(s: seq<byte>): (r: int)
  {
    if s == [] then 0 else FromBytes(s[..|s| - 1]) * 256 + s[|s| - 1]
  }

  /** `n` bytes hold a value in [0, 256^n). */
  lemma {:induction false} FromBytesRange(s: seq<byte>)
    ensures 0 <= FromBytes(s) < Pow256(|s|)
  {
    if s != [] {
      FromBytesRange(s[..|s| - 1]);
    }
  }

  /** Euclidean division is unique. */
  lemma DivModUnique(a: int, d: int, q: int, r: int)
    requires d > 0 && a == d * q + r && 0 <= r < d
    ensures a / d == q && a % d == r
  {
    var q', r' := a / d, a % d;
    assert a == d * q' + r' && 0 <= r' < d;
    if q' != q {
      var k := if q' < q then q - q' else q' - q;
      assert k >= 1;
      MulAtLeast(d, k);
    }
  }

  lemma {:induction false} MulAtLeast(d: nat, k: nat)
    requires k >= 1
    ensures d * k >= d
    decreases k
  {
    if k > 1 {
      MulAtLeast(d, k - 1);
      assert d * k == d * (k - 1) + d;
    }
  }

  /** Converting to `n` bytes and back keeps `a` modulo 256^n. */
  lemma {:induction false} FromToBytes(a: int, n: nat)
    ensures FromBytes(ToBytes(a, n)) == a % Pow256(n)
    decreases n
  {
    if n == 0 {
      assert a % 1 == 0;
    } else {
      var s := ToBytes(a, n);
      assert s[..n - 1] == ToBytes(a / 256, n - 1);
      FromToBytes(a / 256, n - 1);
      var m := Pow256(n - 1);
      var q, r := a / 256, a % 256;
      var t, u := q / m, q % m;
      var mt := m * t;
      assert q == mt + u && 0 <= u < m;
      assert a == 256 * mt + (256 * u + r);
      var big := 256 * m;
      assert big * t == 256 * mt;
      assert FromBytes(s) == 256 * u + r;
      DivModUnique(a, big, t, 256 * u + r);
    }
  }

  /** Bytes converted to a value and back are the same bytes. */
  lemma {:induction false} ToFromBytes(s: seq<byte>)
    ensures ToBytes(FromBytes(s), |s|) == s
  {
    if s != [] {
      var init, last := s[..|s| - 1], s[|s| - 1];
      ToFromBytes(init);
      DivModUnique(FromBytes(s), 256, FromBytes(init), last);
      assert s == init + [last];
    }
  }

  /** `operator==` as written: it compares `bytes[1]` to `bytes[n]`, so it
      never looks at `bytes[0]` and reads one past the end of both arrays
      whenever bytes 1 to n-1 agree. */
  function EqualsAsWritten(x: seq<byte>, y: seq<byte>, i: nat): (r: Result<bool>)
    requires |x| == |y| && 1 <= i <= |x| + 1
    decreases |x| + 1 - i
  {
    if i > |x| then Ok(true)
    else if i == |x| then Err("bytes[n] is past the end")
    else if x[i] != y[i] then Ok(false)
    else EqualsAsWritten(x, y, i + 1)
  }

  /** Two values that differ only in their most significant byte are never
      told apart: the comparison runs past the end instead of answering. */
  lemma {:induction false} EqualsMissesFirstByte(x: seq<byte>, y: seq<byte>, i: nat)
    requires |x| == |y| && 1 <= i <= |x|
    requires x[1..] == y[1..]
    ensures EqualsAsWritten(x, y, i).Err?
    decreases |x| - i
  {
    if i < |x| {
      assert x[i] == x[1..][i - 1] == y[1..][i - 1] == y[i];
      EqualsMissesFirstByte(x, y, i + 1);
    }
  }

  /** The one-byte values 1 and 0 are not found unequal. */
  lemma EqualsAsWrittenCounterexample()
    ensures ToBytes(1, 1) != ToBytes(0, 1)
    ensures EqualsAsWritten(ToBytes(1, 1), ToBytes(0, 1), 1).Err?
  {
    assert ToBytes(1, 1) == [1];
    assert ToBytes(0, 1) == [0];
  }

  class Uint8n {
    const n: nat
    const bytes: array<byte>

    ghost predicate Valid()
      reads this
    {
      n >= 1 && bytes.Length == n
    }

    /** `uint8n(long a)`: the low `n` bytes of `a`, most significant first. */
    constructor (n: nat, a: Long)
      requires n >= 1
      ensures Valid() && fresh(bytes)
      ensures bytes[..] == ToBytes(a, n)
    {
      this.n := n;
      bytes := new byte[n];
      new;
      Assign(a);
    }

    /** `operator=(long a)`: store the low `n` bytes of `a`, last byte
        first, shifting `a` right by 8 after each. */
    method Assign(a: Long)
      requires Valid()
      modifies bytes
      ensures bytes[..] == ToBytes(a, n)
    {
      var x := a;
      for i := 1 to n + 1
        invariant ToBytes(a, n) == ToBytes(x, n - i + 1) + bytes[n - i + 1..]
      {
        bytes[n - i] := x % 256;
        assert bytes[n - i..] == [x % 256] + bytes[n - i + 1..];
        x := x / 256;
      }
    }

    /** `operator long()`: fold the bytes most significant first.  With at
        most 7 bytes the signed 64-bit accumulator cannot overflow, and the
        value is the one the bytes stand for. */
    method ToLong() returns (r: Long)
      requires Valid() && n <= 7
      ensures r == FromBytes(bytes[..])
      ensures 0 <= r < Pow256(n)
    {
      var a: int := bytes[0];
      assert bytes[..1] == [] + [bytes[0]];
      for i := 1 to n
        invariant a == FromBytes(bytes[..i])
        invariant 0 <= a < Pow256(i)
      {
        FromBytesRange(bytes[..i + 1]);
        assert bytes[..i + 1][..i] == bytes[..i];
        a := a * 256 + bytes[i];
      }
      assert bytes[..n] == bytes[..];
      PowBound(n);
      r := a;
    }

    /** `operator==` with the loop running over `bytes[0]` to `bytes[n-1]`:
        equal exactly when all bytes are. */
    method Equals(other: Uint8n) returns (r: bool)
      requires Valid() && other.Valid() && other.n == n
      ensures r <==> bytes[..] == other.bytes[..]
    {
      for i := 0 to n
        invariant bytes[..i] == other.bytes[..i]
      {
        if bytes[i] != other.bytes[i] {
          return false;
        }
        assert bytes[..i + 1] == bytes[..i] + [bytes[i]];
        assert other.bytes[..i + 1] == other.bytes[..i] + [other.bytes[i]];
      }
      assert bytes[..] == bytes[..n];
      assert other.bytes[..] == other.bytes[..n];
      r := true;
    }

    /** `operator=(uint8n& a)` as written: it returns its argument and
        leaves this value as it was. */
    method AssignFromAsWritten(other: Uint8n) returns (r: Uint8n)
      ensures r == other && bytes[..] == old(bytes[..])
    {
      r := other;
    }

    /** `operator=(uint8n& a)` copying the bytes, as an assignment should. */
    method AssignFrom(other: Uint8n) returns (r: Uint8n)
      requires Valid() && other.Valid() && other.n == n
      modifies bytes
      ensures r == this && bytes[..] == old(other.bytes[..])
    {
      var copy := other.bytes[..];
      for i := 0 to n
        invariant bytes[..i] == copy[..i]
      {
        bytes[i] := copy[i];
        assert bytes[..i + 1] == bytes[..i] + [copy[i]];
        assert copy[..i + 1] == copy[..i] + [copy[i]];
      }
      assert bytes[..] == bytes[..n];
      r := this;
    }

    /** `operator>>(os)`: put `bytes[0]` to `bytes[n-1]` in order. */
    method Write() returns (out: seq<byte>)
      requires Valid()
      ensures out == bytes[..]
    {
      out := [];
      for i := 0 to n
        invariant out == bytes[..i]
      {
        out := out + [bytes[i]];
      }
    }

    /** `operator<<(is)`: get `bytes[0]` to `bytes[n-1]` in order; once the
        stream runs out, `get` leaves the remaining bytes as they were. */
    method Read(input: seq<byte>) returns (rest: seq<byte>)
      requires Valid()
      modifies bytes
      ensures var k := if |input| < n then |input| else n;
        bytes[..] == input[..k] + old(bytes[k..]) && rest == input[k..]
    {
      var k := if |input| < n then |input| else n;
      for i := 0 to k
        invariant forall j | 0 <= j < i :: bytes[j] == input[j]
        invariant forall j | i <= j < n :: bytes[j] == old(bytes[j])
      {
        bytes[i] := input[i];
      }
      assert bytes[..] == input[..k] + old(bytes[k..]);
      rest := input[k..];
    }
  }

  lemma {:induction false} PowBound(n: nat)
    requires n <= 7
    ensures Pow256(n) <= 0x8000_0000_0000_0000
    decreases 7 - n
  {
    if n == 7 {
      assert Pow256(7) == 0x100_0000_0000_0000;
    } else {
      PowBound(n + 1);
    }
  }

  /** Writing a value out and reading it into another of the same width
      gives the same bytes, and the same number when it fits a `long`. */
  method WriteThenRead(x: Uint8n, y: Uint8n, rest: seq<byte>) returns (left: seq<byte>)
    requires x.Valid() && y.Valid() && x.n == y.n && x.bytes != y.bytes
    modifies y.bytes
    ensures y.bytes[..] == x.bytes[..] && left == rest
  {
    var out := x.Write();
    left := y.Read(out + rest);
    assert (out + rest)[..x.n] == out && (out + rest)[x.n..] == rest;
    assert y.bytes[x.n..] == [];
  }

  /** `long(uint8n<n>(a))`: with at most 7 bytes, the number comes back
      modulo 256^n, so every `a` in [0, 256^n) comes back unchanged. */
  method LongRoundTrip(n: nat, a: Long) returns (r: Long)
    requires 1 <= n <= 7
    ensures r == a % Pow256(n)
    ensures 0 <= a < Pow256(n) ==> r == a
  {
    var x := new Uint8n(n, a);
    r := x.ToLong();
    FromToBytes(a, n);
    if 0 <= a < Pow256(n) {
      DivModUnique(a, Pow256(n), 0, a);
    }
  }

  /** `x = y` with the copy assignment as written: `x` keeps its value,
      so after the assignment the two still differ. */
  method AssignmentIgnored() returns (xs: seq<byte>, ys: seq<byte>)
    ensures xs == [1] && ys == [0]
  {
    var x := new Uint8n(1, 1);
    var y := new Uint8n(1, 0);
    assert ToBytes(1, 1) == [1] && ToBytes(0, 1) == [0];
    var _ := x.AssignFromAsWritten(y);
    xs, ys := x.bytes[..], y.bytes[..];
  }

  /** The copy assignment copying the bytes makes `x` equal to `y`. */
  method AssignmentCopies() returns (xs: seq<byte>, ys: seq<byte>)
    ensures xs == ys == [0]
  {
    var x := new Uint8n(1, 1);
    var y := new Uint8n(1, 0);
    assert ToBytes(0, 1) == [0];
    var _ := x.AssignFrom(y);
    xs, ys := x.bytes[..], y.bytes[..];
  }
}
